=== FILE: README.md ===
# Ngirit expense tracker — a Dafny model of its bookkeeping core

Ngirit is a personal expense tracker that went through three eras:
- a 2014 PHP page with a budget colour circle and a history of months;
- a Vue/Firestore app with a spending store;
- a Nuxt/Supabase app with a transaction store, server API handlers and migration scripts.

This project models the deterministic logic of all three eras as pure Dafny functions over immutable datatypes, and proves what each piece promises. The clock, database results, remote outcomes and parsed numbers are parameters.

What is covered, by era:
- **Nuxt era.**
  - Stores: the transaction store (`TransactionStore` for the getters and category summary, `TransactionActions` for the fetch, add, update and delete transitions and the realtime handler) and the auth store (`AuthStore`).
  - Composables: money arithmetic (`Financial`) and the realtime subscription registry (`Realtime`).
  - Server handlers: transactions (`TransactionsApi`), assets (`AssetsApi`) and families (`FamiliesApi`), with the shared auth checks (`Auth`) and error passing (`Http`).
  - Constants: SEO helpers (`Seo`) and category types (`Category`).
- **Firestore era.** The spending store's snapshot fold, create action, mutations and getters (`SpendingStore`).
- **PHP era.**
  - The budget classifier and views (`Budget`).
  - The front controller's sanitising and dispatch (`LegacyEntry`).
  - The client-side form checks (`EntryForm`).
- **Migration scripts.**
  - The MySQL dump parser (`MysqlDump`).
  - The duplicate finder (`FindDuplicates`).
  - The merge (`MergeExpenses`), over the shared record type (`ExpenseRecords`).
- **Formatting.** The thousands-grouping filters of every era (`DigitGrouping`), the Laravel-era filter mixin (`LaravelFilters`) and the month-name table (`Calendar`).

Shared helpers:
- `Wrappers`: `Option`, `Result`.
- `Strings`: decimal text, trimming, searching.
- `Seqs`: sums, filters and a stable sort by integer key.
- `Js`: JavaScript's `parseInt`, truthiness and `Number`.

Money in the Nuxt store is held in integer hundredths. `useFinancial`'s decimal.js values are exact rationals, rounded half away from zero to two decimals.

## Model

| member | source | states |
|---|---|---|
| Http.Rethrow | server/api/v1/assets/index.get.ts:118-125 | the catch-all keeps a thrown error's non-zero status and non-empty message, and falls back to 500 and the handler's own message otherwise |
| Http.RethrowKeepsHandlerErrors | server/api/v1/assets/index.post.ts:66-73 | an HTTP error a handler threw itself leaves the catch-all unchanged, and a second pass through the catch-all changes nothing |
| Auth.GetAuthenticatedUserId | server/utils/auth.ts:8-21 | the caller's id is the session user's non-empty `sub`; a missing user or `sub` is exactly the 401 case |
| Auth.CheckUserRole | server/utils/auth.ts:26-61 | checks run in order (session 401, missing row or lookup error 403, blocked 403, role not allowed 403); success happens exactly when all pass and returns the caller's id and role |
| Auth.CheckUserRoleMonotone | server/utils/auth.ts:53-60 | adding roles to the allowed list never turns an accepted caller into a refused one, and the result stays the same |
| AuthStore.HasRole | stores/auth-store.ts:69-77 | false without a role; with one, membership for a list of roles and equality for a single role |
| AuthStore.IsAdmin | stores/auth-store.ts:90 | holds exactly for super-admins and managers |
| AuthStore.IsSuperAdmin | stores/auth-store.ts:91 | holds exactly for super-admins, and every super-admin is an admin |
| AuthStore.CanAccess | stores/auth-store.ts:96-102 | a blocked user is refused whatever the role; otherwise the answer is `hasRole` |
| AuthStore.ResetState | stores/auth-store.ts:58-64 | every field is back at its initial value, and afterwards no role requirement is met |
| AuthStore.FetchUserRole | stores/auth-store.ts:23-53 | a no-op while loading or once fetched for a present user; a reset without a user; a success records role and block flag and marks the role fetched; a failure clears the role and records an error; every fetch that runs ends not loading |
| AuthStore.SignOut | stores/auth-store.ts:82-87 | the state is reset whether or not sign-out failed, and the failure is passed on |
| AuthStore.OnUserChange | stores/auth-store.ts:104-118 | a new non-empty user id clears the fetched flag and fetches; a missing or empty id resets; the same id changes nothing |
| AuthStore.FetchSettles | stores/auth-store.ts:25 | after one successful fetch, fetching again changes nothing whatever the server would answer; resetting twice is resetting once |
| AuthStore.FailedFetchDeniesAll | stores/auth-store.ts:46-49 | after a failed fetch no role requirement is met |
| AuthStore.StoreAgreesWithServer | stores/auth-store.ts:96-102 | after a fetch, `canAccess(roles)` holds exactly when the server's `checkUserRole` with the same roles admits the same user |
| Js.ParseIntReadsIntToString | server/api/v1/transactions/index.get.ts:24-25 | `parseInt` reads the decimal text of any integer back as that integer |
| Js.ParseIntIgnoresTail | server/api/v1/assets/index.get.ts:87 | a run of digits followed by text that does not continue the number reads as the run (`"20abc"` is 20) |
| Js.ParseIntSkipsSpace | server/api/v1/assets/index.get.ts:95 | leading white space never changes what `parseInt` reads |
| Js.ParseIntNeedsDigit | server/api/v1/assets/index.get.ts:99 | text without a single digit is NaN, so `parseInt(limit) \|\| 50` falls back |
| Js.Magnitude | server/api/v1/assets/index.get.ts:87 | outside the `0x` form, the magnitude is NaN exactly when the text is empty or does not start with a digit |
| TransactionsApi.FamilyIds | server/api/v1/transactions/index.get.ts:43-45 | a family is listed exactly when the caller has a membership row in it; a caller without memberships gets none |
| TransactionsApi.MembersOf | server/api/v1/transactions/index.get.ts:48-50 | a user is listed exactly when the user has a membership row in one of the given families |
| TransactionsApi.FamilyScope | server/api/v1/transactions/index.get.ts:43-53 | the family scope holds each user who shares a family with the caller, exactly once; the caller is in it exactly when the caller has a membership |
| TransactionsApi.Scope | server/api/v1/transactions/index.get.ts:30-56 | the caller alone, unless the family is asked for and the membership fetch returned a non-empty list; a failed fetch falls back to the caller alone |
| TransactionsApi.Pagination | server/api/v1/transactions/index.get.ts:24-25 | a range applies exactly when `limit` is present and parses to neither NaN nor 0; an absent offset starts at 0; the range ends `limit - 1` rows after the offset and is NaN when the offset is |
| TransactionsApi.PaginationOfDecimals | server/api/v1/transactions/index.get.ts:74-76 | for decimal `limit >= 1` and `offset` the range covers exactly `limit` rows starting at `offset` |
| TransactionsApi.PlanListing | server/api/v1/transactions/index.get.ts:58-76 | the query selects the scope's users; a date filter applies exactly when both `start` and `end` are present; the range is the pagination's |
| TransactionsApi.ListCount | server/api/v1/transactions/index.get.ts:91 | a non-zero count wins, then the number of rows, then 0 |
| TransactionsApi.ListTransactions | server/api/v1/transactions/index.get.ts:7-93 | no session gives 401; a failed query gives 500 "Failed to fetch transactions"; success returns the plan's rows and their count |
| TransactionsApi.CheckTx | server/api/v1/transactions/index.post.ts:35-56 | an element passes exactly when it has a non-empty string description, a positive number amount and a non-empty string type; a bad description is reported first |
| TransactionsApi.FirstError | server/api/v1/transactions/index.post.ts:35-56 | no error exactly when every element passes; otherwise the error is the first failing element's, with every earlier element passing |
| TransactionsApi.ToTxRow | server/api/v1/transactions/index.post.ts:59-65 | the row has the trimmed description, the positive amount, the type, the category only when it is non-empty, and the caller as creator |
| TransactionsApi.InsertRows | server/api/v1/transactions/index.post.ts:59-65 | one row per element, in order |
| TransactionsApi.CreateTransactions | server/api/v1/transactions/index.post.ts:13-86 | rows are sent exactly when the session is valid, the body is an object, its array is non-empty and every element passes; an absent or `null` body makes `body.transactions` throw outside any `try`, which the framework answers with 500; a missing or empty array is 400; the first failing element's error is returned; an insert error gives 500; success returns the inserted rows and their number |
| TransactionsApi.BlankDescriptionStoredEmpty | server/api/v1/transactions/index.post.ts:36-60 | a description made only of white space passes the check and is stored as the empty string |
| TransactionsApi.ImportDescription | server/api/v1/transactions/import.post.ts:62 | the description is never empty: the label itself (untrimmed) when its trimmed form is non-empty, and `-` for an absent, empty or blank label |
| TransactionsApi.TimeValue | server/api/v1/transactions/import.post.ts:57-58 | seconds times 1000, truncated toward zero to whole milliseconds, always within the ±8.64e15 ms that a `Date` can hold |
| TransactionsApi.WholeSecondsExact | server/api/v1/transactions/import.post.ts:58 | a whole number of seconds converts to exactly that many thousand milliseconds |
| TransactionsApi.ToImportRow | server/api/v1/transactions/import.post.ts:61-69 | a kept spending becomes an uncategorised `expense` row with its label-or-`-` description, its amount, the caller as creator and both timestamps converted |
| TransactionsApi.ImportRows | server/api/v1/transactions/import.post.ts:44-70 | the loop throws "Invalid time value" exactly when some kept spending has a missing or out-of-range timestamp; otherwise rows plus skipped items make up the input, every row is an uncategorised expense of the caller with a positive amount, and row k carries the k-th kept spending's label-or-`-` description, its value as amount and its converted timestamps |
| TransactionsApi.Batches | server/api/v1/transactions/import.post.ts:77-78 | the batches concatenate back to the rows, in order |
| TransactionsApi.BatchesShape | server/api/v1/transactions/import.post.ts:73-78 | one batch per started hundred rows, each non-empty and at most 100 rows long |
| TransactionsApi.TallyBounds | server/api/v1/transactions/import.post.ts:83-96 | the inserted count never exceeds the rows sent, equals them when no batch fails, and is 0 when every batch fails |
| TransactionsApi.InsertBatches | server/api/v1/transactions/import.post.ts:72-97 | the loop sends exactly the batches of the rows, and inserted plus failed rows equal the rows |
| TransactionsApi.ImportCheck | server/api/v1/transactions/import.post.ts:22-41 | the role check's error comes first, then 400 for a missing or empty array, then 413 above 10000 items; the import proceeds exactly when all pass, with exactly 10000 allowed |
| TransactionsApi.Import | server/api/v1/transactions/import.post.ts:19-115 | a refused request sends nothing and keeps its error; a kept spending with a missing or out-of-range timestamp sends nothing and gives 500 "Invalid time value"; otherwise the summary reports success, total is the input length, skipped the invalid amounts, and inserted + failed + skipped == total |
| AssetsApi.MissingParamIsNaN | server/api/v1/assets/index.get.ts:99 | `parseInt` of an absent limit (`"undefined"`) is NaN, so the offset branch falls back to 50 rows |
| AssetsApi.InFilter | server/api/v1/assets/index.get.ts:24-45 | a list filter applies exactly when the parameter is truthy; it holds exactly the single value or the array's items |
| AssetsApi.InFilterIdempotent | server/api/v1/assets/index.get.ts:25 | wrapping a value that is already a list changes nothing |
| AssetsApi.FlagFilter | server/api/v1/assets/index.get.ts:34-40 | a flag filter applies whenever the parameter is present, even when empty, and is true exactly for the text "true" |
| AssetsApi.TextFilter | server/api/v1/assets/index.get.ts:72-78 | a maturity bound applies exactly when it is truthy, with the value as given |
| AssetsApi.ReplaceAll | server/api/v1/assets/index.get.ts:50-52 | text without the character is unchanged, and when the replacement does not contain the character, none is left |
| AssetsApi.EscapeLikeIsPerChar | server/api/v1/assets/index.get.ts:49-52 | the three global replacements, backslash first, act like one pass that puts a backslash before each of `\`, `%` and `_` |
| AssetsApi.EscapeEachIsLiteral | server/api/v1/assets/index.get.ts:48-52 | the escaped name reads as a LIKE pattern of literal characters only, one per character of the name |
| AssetsApi.InstitutionPatternIsSubstringSearch | server/api/v1/assets/index.get.ts:47-54 | the `ilike` pattern is any run, the name's characters as literals, any run: no character of the name acts as a wildcard |
| AssetsApi.InstitutionPatternInjective | server/api/v1/assets/index.get.ts:53 | different names give different patterns |
| AssetsApi.InstitutionFilter | server/api/v1/assets/index.get.ts:47-54 | a non-empty name gives its escaped substring pattern; a repeated parameter throws a `TypeError`, which becomes a 500 |
| AssetsApi.BalanceBound | server/api/v1/assets/index.get.ts:56-70 | a truthy bound that is NaN or negative is refused with its 400; an applied bound is the parsed, non-negative number |
| AssetsApi.LimitOf | server/api/v1/assets/index.get.ts:86-92 | a truthy limit passes exactly when it parses to a number from 1 to 100, otherwise "Invalid limit (1-100)" |
| AssetsApi.RangeOf | server/api/v1/assets/index.get.ts:94-101 | a truthy offset passes exactly when it parses to a number of at least 0; the range starts there and covers the parsed limit, or 50 rows when the limit is not truthy |
| AssetsApi.PageSizeBounded | server/api/v1/assets/index.get.ts:86-101 | once the limit check has passed, a page holds between 1 and 100 rows: the validated limit, or 50 without one |
| AssetsApi.LimitAcceptsOneToHundred | server/api/v1/assets/index.get.ts:88 | decimal limits are accepted exactly from 1 to 100 |
| AssetsApi.OffsetWithoutLimit | server/api/v1/assets/index.get.ts:99-100 | a decimal offset without a limit pages 50 rows from the offset |
| AssetsApi.Ordering | server/api/v1/assets/index.get.ts:81-83 | the order column defaults to `created_at`, and the order is ascending exactly for "asc" |
| AssetsApi.PlanAssets | server/api/v1/assets/index.get.ts:13-101 | checks run in the handler's order (institution, balance_min, balance_max, limit, offset), each failing check giving its own error; the plan exists exactly when all pass, selects the caller's own assets and carries the list and flag filters, the escaped institution pattern, the balance and maturity bounds, the ordering, the limit and the range those checks compute |
| AssetsApi.ListAssets | server/api/v1/assets/index.get.ts:7-126 | no session gives 401; with a valid plan the handler fails exactly when the query fails (500 "Failed to fetch assets"); every error has status 400, 401 or 500 and a message; success returns `data \|\| []` and its length |
| AssetsApi.InitialBalance | server/api/v1/assets/index.post.ts:44 | a missing or zero initial balance falls back to the current balance |
| AssetsApi.AssetRowOf | server/api/v1/assets/index.post.ts:41-45 | the row keeps the body's fields, uses the initial-balance fallback and names the caller as creator |
| AssetsApi.CreateAsset | server/api/v1/assets/index.post.ts:8-74 | checks run in order (401; an absent or `null` body, whose `body.name` throws inside the `try`, 500 "Internal server error"; missing fields 400; unknown currency 400; insert failure 500); creation succeeds exactly when all pass, with the caller as creator |
| AssetsApi.CreatedByIgnored | server/api/v1/assets/index.post.ts:42-43 | a `created_by` in the body never changes the outcome: assets are always created for the caller |
| FamiliesApi.ValidateName | server/api/v1/families/index.post.ts:19-31 | a name passes exactly when its trimmed form is 1 to 100 characters long, and the trimmed form is stored; "too long" is reported exactly when the trimmed name exceeds 100 characters |
| FamiliesApi.StoredNameRevalidates | server/api/v1/families/index.post.ts:26-38 | a stored name has no white space at either end, is 1 to 100 characters long, and passes the check again unchanged |
| FamiliesApi.DescriptionOf | server/api/v1/families/index.post.ts:39 | a description is stored exactly when its trimmed form is non-empty, and it is stored trimmed |
| FamiliesApi.FindUser | server/api/v1/families/index.post.ts:97 | no user data exactly when no row has the member's id; otherwise the first row with that id |
| FamiliesApi.WithUserData | server/api/v1/families/index.post.ts:95-98 | one view per member, in order, each with the first matching user row; a failed user lookup leaves every member without user data |
| FamiliesApi.CreateFamily | server/api/v1/families/index.post.ts:11-114 | 401 comes first; an absent or `null` body makes `body.name` throw before the `try`, which the framework answers with 500; then the name errors; a valid request fails exactly when the insert, the re-read or the member query fails, and always with 500 "Internal server error"; success stores the trimmed name and description for the caller |
| FamiliesApi.CreateFamilyErrors | server/api/v1/families/index.post.ts:107-113 | the only errors a client sees are 401, the uncaught 500 of a body that is not an object, the two name errors and the generic 500 |
| FamiliesApi.MembersOfFamily | server/api/v1/families/index.get.ts:79-80 | a family's members are exactly the fetched members with its id |
| FamiliesApi.ToView | server/api/v1/families/index.get.ts:77-85 | a family keeps its row and gets its own members only; a failed member query leaves it with none |
| FamiliesApi.FamilyViews | server/api/v1/families/index.get.ts:77-85 | one view per family, in the fetched order |
| FamiliesApi.ListFamilies | server/api/v1/families/index.get.ts:10-99 | no membership gives an empty list with count 0; otherwise the listing succeeds exactly when the families are fetched; every family comes back in order and the count is their number; the only errors are 401 and the generic 500 |
| FamiliesApi.GroupsPartitionMembers | server/api/v1/families/index.get.ts:77-85 | with distinct family ids, every fetched member of a listed family falls into exactly one group |
| FamiliesApi.ListingPartitionsMembers | server/api/v1/families/index.get.ts:77-91 | across the returned families the member lists add up to exactly the fetched members of those families |
| MysqlDump.RunLength | scripts/mysql.ts:34 | the run the regex `.` can cover stops exactly at the first line terminator |
| MysqlDump.MatchInsert | scripts/mysql.ts:34-35 | a captured value list is non-empty and on one line; a line in which the insert prefix never occurs has no match |
| MysqlDump.InsertLineCaptures | scripts/mysql.ts:34-37 | an insert line with a one-line value list and its closing `;` captures exactly that value list |
| MysqlDump.FindFrom | scripts/mysql.ts:40 | the position found is the first occurrence of the separator at or after the start, or the end of the text |
| MysqlDump.Split | scripts/mysql.ts:40 | `split('),(')` gives at least one piece, the pieces joined with the separator give back the text, and no piece contains the separator |
| MysqlDump.SplitJoin | scripts/mysql.ts:40 | splitting the join of pieces gives back the pieces when the separator's first character occurs in none of them but the last, and not at all in the last |
| MysqlDump.Clean | scripts/mysql.ts:44 | a group without a leading `(` or a trailing `)` is left unchanged |
| MysqlDump.CleanFramed | scripts/mysql.ts:44 | the brackets the value list puts before the first and after the last group are exactly what cleaning removes |
| MysqlDump.MatchGroup | scripts/mysql.ts:47 | the row pattern accepts a group only when it is the text of valid fields: digit runs for the numbers, non-empty quote-free texts for the date and label |
| MysqlDump.MatchGroupOfShape | scripts/mysql.ts:47 | every valid row's text reads back as exactly its own fields |
| MysqlDump.ParseGroup | scripts/mysql.ts:42-56 | a group yields a record exactly when its cleaned text matches the row pattern |
| MysqlDump.Somes | scripts/mysql.ts:49-56 | the present values in order: as many as the inputs when all are present, fewer when one is absent |
| MysqlDump.ParseGroupsCounts | scripts/mysql.ts:42-57 | when every group matches, each record is its own group's, in order; a group that does not match is dropped silently, so fewer records come out |
| MysqlDump.ParseInsertStatement | scripts/mysql.ts:30-60 | a line without the insert pattern gives no records; otherwise at most one record per group |
| MysqlDump.OtherLinesYieldNothing | scripts/mysql.ts:35 | a line that does not contain the table's insert prefix yields nothing |
| MysqlDump.ValueListSplits | scripts/mysql.ts:34-40 | on an insert line of dumpable rows, the pattern captures the whole value list and the split finds exactly the group boundaries |
| MysqlDump.InsertLineRoundTrip | scripts/mysql.ts:30-60 | parsing the insert line the dump holds for rows without brackets or line breaks gives back exactly those rows, in order |
| MysqlDump.ToExpense | scripts/mysql.ts:75-81 | the id is `mysql_` followed by the table id; the label and value are the row's; both timestamps are the converted date |
| MysqlDump.TransformToExpenseFormat | scripts/mysql.ts:74-82 | one record per row, in order |
| MysqlDump.TransformKeepsIds | scripts/mysql.ts:76 | two records have equal ids exactly when their table ids are equal, so the primary key stays a key |
| FindDuplicates.NormalLabelIdempotent | scripts/find-duplicates.ts:23 | normalising a label twice gives the same as once, so the key ignores case and surrounding white space and nothing more |
| FindDuplicates.KeyPartsDetermined | scripts/find-duplicates.ts:24 | a key `date_label_value` whose date and value hold no `_` determines all three parts, whatever `_` the label holds |
| FindDuplicates.DedupeKeyIff | scripts/find-duplicates.ts:21-25 | two records share a key exactly when they fall on the same day, their labels agree up to case and surrounding white space, and their values are equal |
| FindDuplicates.GetSource | scripts/find-duplicates.ts:30-32 | a record is reported as MySQL exactly when its id starts with `mysql_` |
| FindDuplicates.TransformedRecordsAreMySql | scripts/find-duplicates.ts:31 | every record the MySQL transform produces is reported as coming from MySQL |
| FindDuplicates.PlainIdsAreFirestore | scripts/find-duplicates.ts:31 | an id without `_`, as Firestore generates them, is reported as Firestore |
| FindDuplicates.KeyIndex | scripts/find-duplicates.ts:59 | `has(key)` finds the entry with that key, or reports none when no entry has it |
| FindDuplicates.AddTo | scripts/find-duplicates.ts:58-62 | one push appends the record to its key's entry, creating the entry at the end when the key is new; keys stay distinct |
| FindDuplicates.AddStep | scripts/find-duplicates.ts:57-63 | each push keeps the map faithful to the records pushed so far: distinct keys, each entry holding exactly its key's records in order, none empty, every record covered |
| FindDuplicates.GroupBy | scripts/find-duplicates.ts:55-63 | after all pushes the keys are distinct, each entry holds exactly the records with its key in their original order, no entry is empty and every record has an entry |
| FindDuplicates.GroupSizesSum | scripts/find-duplicates.ts:55-63 | the entries hold every record exactly once: their sizes add up to the number of records |
| FindDuplicates.KeysInFirstAppearanceOrder | scripts/find-duplicates.ts:66 | the map yields its keys in the order in which they first appear among the records |
| FindDuplicates.FindDuplicates | scripts/find-duplicates.ts:52-91 | every reported group has more than one record, and the group total is the number of groups |
| FindDuplicates.FindDuplicatesCounts | scripts/find-duplicates.ts:66-91 | the reported groups are exactly the entries with two or more records; "will be removed" is the number of records less the number of distinct keys; duplicate records less removals equal the number of groups |
| FindDuplicates.SameGroupIffSameKey | scripts/find-duplicates.ts:57-63 | two records land in the same group exactly when they share a key |
| MergeExpenses.MinCreated | scripts/merge.ts:49 | the earliest timestamp is at most every record's and is some record's |
| MergeExpenses.MaxCreated | scripts/merge.ts:50 | the latest timestamp is at least every record's and is some record's |
| MergeExpenses.DateRange | scripts/merge.ts:48-50 | a range exists exactly when there is a record (with none, `Math.min()` gives an invalid date) |
| MergeExpenses.Merge | scripts/merge.ts:37-50 | the merged list is as long as both exports together |
| MergeExpenses.MergeKeepsEveryRecord | scripts/merge.ts:37-44 | no record is dropped or added: the saved list is a rearrangement of both exports |
| MergeExpenses.MergeIsOldestFirst | scripts/merge.ts:44 | the saved list is ordered oldest first |
| MergeExpenses.MergeKeepsTies | scripts/merge.ts:44 | the sort is stable: records with the same timestamp keep their order, Firestore ones before MySQL ones |
| MergeExpenses.MergeTotal | scripts/merge.ts:47 | the printed total is the sum of both exports' values |
| MergeExpenses.MergeRangeIsEnds | scripts/merge.ts:48-50 | the printed range runs from the first to the last record of the saved list |
| Category.AllCategoryTypes | utils/constants/category.ts:53-55 | the listed types are `income` then `expense`, in declaration order |
| Category.ValidTypesAreIncomeAndExpense | utils/constants/category.ts:32-34 | the guard accepts exactly `income` and `expense` |
| Category.DisplayName | utils/constants/category.ts:39-48 | the two known types are capitalised, and any other value is returned unchanged |
| Category.ListedTypesAreValidAndDistinct | utils/constants/category.ts:9-12 | every listed type passes the guard, and the two have different display names |
| Category.DisplayNameOnValid | utils/constants/category.ts:39-48 | on valid types the display name is one-to-one and never the raw value |
| Seo.SiteUrl | utils/constants/seo.ts:9 | the site URL is the environment's host when it is set and non-empty, otherwise `https://ngirit.app` |
| Seo.PageTitle | utils/constants/seo.ts:95-98 | an absent or empty title gives the default title; otherwise the title followed by ` \| Ngirit`, whose length and prefix give the title back |
| Seo.PageTitleInjective | utils/constants/seo.ts:97 | different page titles give different document titles |
| Seo.DropTrailingSlash | utils/constants/seo.ts:104 | exactly one trailing slash is removed, and text without one is unchanged |
| Seo.RootedPath | utils/constants/seo.ts:105 | the path keeps its leading `/`, or gets one; it always starts with `/` and ends with the given path |
| Seo.CanonicalUrl | utils/constants/seo.ts:103-107 | the URL is exactly the base without its trailing slash followed by the path rooted at `/`: it starts with that base, then a `/`, and ends with the given path |
| Seo.CanonicalUrlNormalises | utils/constants/seo.ts:103-107 | the URL does not depend on whether the path has its leading slash or the site URL one trailing slash |
| Seo.CanonicalUrlInjective | utils/constants/seo.ts:103-107 | for one site, different rooted paths give different URLs |
| Seo.OpenGraphTags | utils/constants/seo.ts:112-130 | title and description pass through; the type defaults to `website`, the image to the site logo and the URL to the site; site name and locale are fixed |
| Seo.TwitterCardTags | utils/constants/seo.ts:135-151 | the card defaults to the large-image summary and the image to the site logo; the handle is both site and creator |
| Seo.ExplicitTagsWin | utils/constants/seo.ts:124-125 | an explicit non-empty image or URL always wins over the defaults |
| Seo.ItemsFrom | utils/constants/seo.ts:196-201 | one item per crumb, in order, each numbered by its position after the offset |
| Seo.Breadcrumb | utils/constants/seo.ts:192-203 | one list item per crumb |
| Seo.BreadcrumbNumbering | utils/constants/seo.ts:198 | positions run 1, 2, …, n without gaps, and the crumbs read back in order |
| Seo.BreadcrumbAppend | utils/constants/seo.ts:196-201 | a longer trail extends a shorter one's list, numbering the extra crumbs on from where the first part stops |
| Financial.RoundHalfUp | composables/useFinancial.ts:31-36 | `ROUND_HALF_UP` to an integer: the result is within half a unit of the value, and ties go away from zero |
| Financial.RoundUnique | composables/useFinancial.ts:33 | the rounding rule has exactly one solution, so any result meeting it is the rounding |
| Financial.RoundScale | composables/useFinancial.ts:48 | rounding depends only on the value, not on how the fraction is written |
| Financial.ToCentsRespectsValue | composables/useFinancial.ts:48 | equal values round to the same number of hundredths |
| Financial.ToCentsOfCents | composables/useFinancial.ts:48 | a value that already has at most two decimals is unchanged by rounding |
| Financial.Add | composables/useFinancial.ts:43-49 | `add` is the exact sum rounded once to two decimals, and 0 for no amounts |
| Financial.AddOfCentsIsExact | composables/useFinancial.ts:43-49 | adding amounts that already have two decimals loses or invents no cent |
| Financial.AddExample | composables/useFinancial.ts:15 | the documented `add(100.10, 200.20)` is exactly 300.30 |
| Financial.AddCents | composables/useFinancial.ts:43-49 | `add(a, b)` of two-decimal amounts is their exact sum |
| Financial.SumCents | composables/useFinancial.ts:89-91 | `sum` of two-decimal amounts is their exact sum |
| Financial.Subtract | composables/useFinancial.ts:57-59 | the result is the exact difference rounded to two decimals |
| Financial.Multiply | composables/useFinancial.ts:67-69 | the result is the exact product rounded to two decimals |
| Financial.Divide | composables/useFinancial.ts:77-82 | division fails exactly for a zero divisor, and otherwise gives the exact quotient rounded to two decimals |
| Financial.Average | composables/useFinancial.ts:98-101 | 0 for no amounts; otherwise the rounded sum divided by the count, rounded again |
| Financial.AverageRoundsSumFirst | composables/useFinancial.ts:100 | because the sum is rounded first, `average([0.005, 0])` is 0.01 although the exact mean 0.0025 rounds to 0.00 |
| Financial.Percentage | composables/useFinancial.ts:109-112 | 0 for a zero total; the quotient is rounded to two decimals before it is scaled, so the percentage is always a whole number |
| Financial.Compare | composables/useFinancial.ts:178-180 | -1, 0 or 1 exactly as the first value is below, equal to or above the second |
| Financial.CompareAntisymmetric | composables/useFinancial.ts:178-180 | swapping the operands negates the comparison |
| Financial.SignTrichotomy | composables/useFinancial.ts:187-207 | exactly one of zero, positive and negative holds, and positive and negative agree with comparing against 0 |
| Financial.Abs | composables/useFinancial.ts:214-216 | the absolute value rounded to two decimals, never negative |
| Financial.AbsOfNegation | composables/useFinancial.ts:214-216 | a value and its negation have the same absolute value |
| Financial.Round | composables/useFinancial.ts:224-226 | the value rounded half-up to the given number of places |
| Financial.RoundIdempotent | composables/useFinancial.ts:224-226 | rounding twice to the same number of places equals rounding once, and the default of two places agrees with the hundredths of the other operations |
| Financial.CleanAmountIsClean | composables/useFinancial.ts:146-149 | the cleaned text is no longer than the input and holds no `R`, `p`, white space or comma |
| Financial.CleanDropsCurrency | composables/useFinancial.ts:147 | a leading "Rp " is ignored |
| Financial.CleanDropsPoint | composables/useFinancial.ts:148 | every point is treated as a thousands separator and vanishes |
| Financial.ParseAmountThousands | composables/useFinancial.ts:143-156 | "Rp 1.500,50" parses to 1500.50 |
| Financial.ParseAmountPointIsThousands | composables/useFinancial.ts:148 | "1.5" parses to fifteen, not one and a half |
| Financial.ParseAmountCommaDecimal | composables/useFinancial.ts:143-156 | digits, a decimal comma and digits parse to their value rounded to two decimals |
| Financial.ValidAmountIsNonNegative | composables/useFinancial.ts:163-170 | infinities, NaN and input the constructor rejects are never valid; a finite value is valid exactly when it is not negative |
| TransactionStore.MonthKeyShape | stores/transaction-store.ts:37-42 | a month key is the year, a dash and the month as two digits that read back as the month |
| TransactionStore.MonthKeyInjective | stores/transaction-store.ts:47-52 | different months of non-negative years have different keys, so comparing keys compares months |
| TransactionStore.MonthKeyIsValid | stores/transaction-store.ts:47-52 | no month key is empty or equal to the `NaN-NaN` key of an invalid date |
| TransactionStore.IsTodayIffSameDate | stores/transaction-store.ts:57-65 | a timestamp counts as today exactly when its local date is today's date |
| TransactionStore.MonthlyTotal | stores/transaction-store.ts:99-104 | the monthly total is the sum of the amounts of the expense records, with no rounding drift |
| TransactionStore.MonthlyCount | stores/transaction-store.ts:109-111 | the monthly count is the number of expense records |
| TransactionStore.TodayTotal | stores/transaction-store.ts:81-86 | today's total is the sum of the amounts of today's expense records |
| TransactionStore.TodayCount | stores/transaction-store.ts:91-94 | today's count is the number of today's expense records |
| TransactionStore.TodayFilters | stores/transaction-store.ts:74-94 | filtering today's records and then expenses gives the sum and count of the records that are both |
| TransactionStore.IncomeIsIgnored | stores/transaction-store.ts:81-111 | an income record changes neither the month's nor today's total or count |
| TransactionStore.GettersIgnoreDeletedAt | stores/transaction-store.ts:74-111 | the getters never look at `deleted_at`: a soft-deleted record still counts |
| TransactionStore.Label | stores/transaction-store.ts:132 | the label is never empty: the category name when it is present and non-empty, else "Tak Terkategori" |
| TransactionStore.FindGroup | stores/transaction-store.ts:134 | the group found has the label, and no earlier group has it |
| TransactionStore.GroupAllDescribes | stores/transaction-store.ts:131-145 | after the loop each label has exactly one group, holding the number and summed amounts of its records and the category of its first record; labels without records have no group |
| TransactionStore.GroupAllAddsUp | stores/transaction-store.ts:131-145 | every expense record is counted in exactly one group: counts add up to the records and totals to their amounts |
| TransactionStore.GroupAllFirstSeenOrder | stores/transaction-store.ts:122-149 | the groups come in the order in which their labels first occur among the expense records |
| TransactionStore.Percent | stores/transaction-store.ts:153 | 0 for a total that is not positive; otherwise the share times 100, rounded to the nearest integer with halves up |
| TransactionStore.MathRoundsUnique | stores/transaction-store.ts:153 | `Math.round` has exactly one answer |
| TransactionStore.PercentBounds | stores/transaction-store.ts:153 | a share of a positive total lies between 0 and 100 percent, and the whole is 100 |
| TransactionStore.Summaries | stores/transaction-store.ts:149-156 | one row per group, in map order |
| TransactionStore.SummaryDescending | stores/transaction-store.ts:159 | the rows come largest total first |
| TransactionStore.SummaryAddsUp | stores/transaction-store.ts:116-160 | the row counts add up to the monthly count and the row totals to the monthly total |
| TransactionStore.SummaryRowsDescribeLabels | stores/transaction-store.ts:131-156 | each row holds its label's record count (at least one), the sum of their amounts, its share of the monthly total, and the icon and colour of the label's first record's category |
| TransactionStore.SummaryCoversLabels | stores/transaction-store.ts:131-159 | every label carried by an expense record has a row |
| TransactionStore.SummaryDistinctLabels | stores/transaction-store.ts:122-159 | no label has two rows |
| TransactionStore.SummaryTiesKeepMapOrder | stores/transaction-store.ts:159 | rows with equal totals keep map order, since the sort is stable |
| TransactionStore.MapRowsFirstSeenOrder | stores/transaction-store.ts:149 | before sorting, the rows come in the order in which their labels first occur |
| Seqs.FindIndex | stores/transaction-store.ts:307 | `findIndex`: the position found satisfies the test and no earlier element does; not found is the list's length (the store's -1 test becomes "equals the length") |
| TransactionActions.ReplaceFirstChangesOne | stores/transaction-store.ts:307-310 | the first record with the id now holds the new row and every other record is kept in place; a missing id changes nothing |
| TransactionActions.RemoveAllFacts | stores/transaction-store.ts:351 | no record with the id remains, every other record stays, and removing twice equals removing once |
| TransactionActions.FetchOutcome | stores/transaction-store.ts:169-209 | after a fetch the month is the clock's and loading is over; the fetch succeeds exactly when the year is non-negative and the query succeeds, and then the list is the reply; on failure the list is kept and the error set |
| TransactionActions.ToInsertRows | stores/transaction-store.ts:229-235 | one insert row per input, in order |
| TransactionActions.AddTransactionOutcome | stores/transaction-store.ts:215-271 | without a user nothing is sent and the call fails; rows carry the user and the inputs, an empty category sent as null; on failure the list is kept and the error set; on success the list is exactly the inserted records of the clock's month, in reply order, followed by the old list |
| TransactionActions.UpdateDeleteErrors | stores/transaction-store.ts:277-357 | a failed update or delete keeps the list and records the error; a successful one leaves an earlier error in place; after a delete no record has the id |
| TransactionActions.RealtimeEventScope | stores/transaction-store.ts:363-389 | events of another month, or without a date, change nothing, and no event changes anything but the list |
| TransactionActions.RealtimeEventKeepsMonth | stores/transaction-store.ts:363-389 | realtime events keep every listed record in the store's month |
| TransactionActions.EchoedInsertIsListedTwice | stores/transaction-store.ts:376-378 | the store's own insert followed by its realtime echo lists the same row twice |
| TransactionActions.ResetIgnoresEvents | stores/transaction-store.ts:456-462 | a reset store is empty, has no month and no error, has closed its channel, and ignores every realtime event |
| TransactionActions.SecondInitLeaksChannel | stores/transaction-store.ts:394-451 | initialising twice before `SUBSCRIBED` opens two channels, and cleanup closes only the second |
| TransactionActions.InitWhenSubscribedIsNoop | stores/transaction-store.ts:395 | once subscribed, initialising again opens nothing |
| SpendingStore.MutationsTouchOnlyTheirFields | store/spendings/mutations.js:5-21 | `reset` clears the form and both dialogs and ends processing but keeps the items; `setError` and `setIsProcessing` change only their own field; `pushToItems` appends one item and keeps the others in place |
| SpendingStore.HasIdIffPresent | store/spendings/actions.js:35-39 | an id counts as listed exactly when some item carries it |
| SpendingStore.ApplyChangeLists | store/spendings/actions.js:33-47 | after an `added` change its document's id is listed |
| SpendingStore.ApplyChangesExtends | store/spendings/actions.js:32-49 | the snapshot listener only appends: the earlier items stay, in place |
| SpendingStore.ApplyChangesLists | store/spendings/actions.js:32-49 | after the snapshot every added document's id is listed |
| SpendingStore.ApplyChangesNoop | store/spendings/actions.js:39 | changes whose documents are all listed already leave the items as they are |
| SpendingStore.ApplyChangesIdempotent | store/spendings/actions.js:32-49 | delivering the same snapshot twice gives the items of delivering it once |
| SpendingStore.ApplyChangesKeepsIdsDistinct | store/spendings/actions.js:35-47 | if no id was listed twice, none is afterwards |
| SpendingStore.OnlyAddedChangesMatter | store/spendings/actions.js:33 | `modified` and `removed` changes have no effect on the list |
| SpendingStore.PushedItemsComeFromDocs | store/spendings/actions.js:34-46 | every pushed item is an added document's id and data, copied unchanged |
| SpendingStore.CreateOutcome | store/spendings/actions.js:5-24 | the written document holds the form's label, the user and one timestamp for both stamps; success resets the form; failure ends processing, reports at `form` and keeps the form's input; the items are untouched |
| SpendingStore.TodaysItemsExact | store/spendings/getters.js:18-41 | today's items are undefined exactly for an empty list; otherwise they are the items of the day's window, each as often as listed, newest first |
| SpendingStore.TodaysItemsAreTheWindow | store/spendings/getters.js:34-37 | an item is listed for today exactly when its `created_at` lies between the start and the end of the day, both included |
| SpendingStore.TodaysSpendingsIsWindowSum | store/spendings/getters.js:42-50 | today's spending is undefined exactly for an empty list; otherwise it is the sum of the window's values, 0 when nothing falls today |
| SpendingStore.MonthSplitsAtToday | store/spendings/getters.js:9-50 | the month's spending is today's spending plus the spending outside today |
| SpendingStore.OnSnapshot | store/spendings/actions.js:30-50 | as written: the `setIsLoading` commit names no mutation, so the loading flag is left as it was; the earlier items stay in place and nothing but the items changes |
| SpendingStore.SnapshotsNeverEndLoading | store/spendings/actions.js:31 | `setIsLoading` is not among the store's mutations, so a store that starts loading is still loading after any number of snapshots, which change only its items |
| SpendingStore.CorrectedOnSnapshot | store/spendings/actions.js:30-50 | with the flag cleared as intended: loading is over after the snapshot, the items are those of the as-written listener, and nothing else changes |
| DigitGrouping.LookaheadIsWholeRun | mixins/filters/digitGrouping.js:5 | the lookahead `(?=(\d{3})+(?!\d))` succeeds exactly when the whole digit run ahead has a length that is a positive multiple of three |
| DigitGrouping.RefGroup | mixins/filters/digitGrouping.js:5 | reference grouping of a digit string: the last three digits form a group and the rest is grouped the same way, which adds one dot per full group beyond the first |
| DigitGrouping.GroupRemovesOnlyDots | mixins/filters/digitGrouping.js:5 | the filter only inserts `.`: deleting every `.` from input and output gives the same text |
| DigitGrouping.GroupRoundTrip | plugins/filters/digitGrouping.js:3 | deleting the separators from a grouped digit string gives back the digits |
| DigitGrouping.GroupUnchangedIff | mixins/filters/digitGrouping.js:5 | the filter leaves its input unchanged exactly when the input has no run of four or more digits |
| DigitGrouping.LongRunGrows | mixins/filters/digitGrouping.js:5 | a run of four or more digits always gets a separator |
| DigitGrouping.ShortDigitsUnchanged | mixins/filters/digitGrouping.js:5 | numbers below 1000 print unchanged |
| DigitGrouping.GroupDigits | mixins/filters/digitGrouping.js:5 | on digit strings the regex filter agrees with the reference grouping |
| DigitGrouping.GroupSplitsAtBoundary | mixins/filters/digitGrouping.js:5 | text split where no digit run continues across the split is grouped piece by piece |
| DigitGrouping.MixedRunsExample | mixins/filters/digitGrouping.js:5 | each digit run is grouped on its own: "1234.5678" becomes "1.234.5.678" |
| DigitGrouping.SignExample | mixins/filters/digitGrouping.js:5 | a minus sign is kept and the digits after it are grouped: "-1234" becomes "-1.234" |
| DigitGrouping.GroupAtEndOfDigits | resources/assets/js/mixins/filters.js:10 | on digit strings the end-anchored regex agrees with the unanchored filter |
| DigitGrouping.GroupAtEndTrailingRun | resources/assets/js/mixins/filters.js:10 | the end-anchored regex groups only the digit run that reaches the end of the text and copies everything before it |
| DigitGrouping.GroupAtEndShort | resources/assets/js/mixins/filters.js:10 | fewer than four characters are never changed |
| DigitGrouping.GroupAtEndExample | resources/assets/js/mixins/filters.js:10 | "1234.5" is unchanged, while "1234" becomes "1.234" |
| DigitGrouping.ThousandsDots | app.classes.php:69 | `number_format(n, 0, ',', '.')` starts with a minus sign exactly for negative numbers |
| DigitGrouping.ThousandsDotsAgrees | app.classes.php:217 | the PHP views and the Vue filter print an integer identically, and deleting the separators gives the number's plain decimal text |
| Calendar.MonthName | app.classes.php:15 | every month name has at least three letters |
| Calendar.ShortMonthName | app.classes.php:217 | the history label is the first three letters of the month's name |
| Calendar.MonthOfShortName | app.classes.php:217 | the month found carries the label; 0 when no month does |
| Calendar.ShortMonthNameRoundTrip | app.classes.php:15 | a three-letter label reads back as its month |
| Calendar.ShortMonthNamesDistinct | app.classes.php:15 | different months have different labels and different names |
| LaravelFilters.DateFormalReadsBack | resources/assets/js/mixins/filters.js:3-7 | `dateFormal` prints three words: the day, the name of the month (January is "Januari") and the year, and the day reads back as its value |
| LaravelFilters.DateFormalInjective | resources/assets/js/mixins/filters.js:3-7 | different dates print differently |
| LaravelFilters.GuardedGrouping | resources/assets/js/mixins/filters.js:8-12 | text shorter than four characters is returned unchanged |
| LaravelFilters.GuardedGroupingFacts | resources/assets/js/mixins/filters.js:8-12 | the length guard changes nothing; the Laravel-era filter groups only the trailing digit run, and on digit strings agrees with the Nuxt filter |
| LaravelFilters.FirstLetterOnly | resources/assets/js/mixins/filters.js:13-16 | undefined exactly for a missing or empty string; otherwise the first character of the string |
| LaravelFilters.HourOnly | resources/assets/js/mixins/filters.js:17-22 | five characters: hour and minute as two digits each, joined by `:`, that read back as the hour and the minute |
| Budget.Normalise | app.classes.php:51-59 | a NULL or zero total counts as 0; a NULL or zero bound falls back to 250000 (upper) or 210000 (lower), so no bound is ever 0 |
| Budget.NormaliseIdempotent | app.classes.php:53-59 | applying the defaults to values that already had them applied changes nothing |
| Budget.Classify | app.classes.php:61-67 | red exactly above the upper limit; yellow exactly from the lower limit up to the upper one; green exactly from 0 up to below both limits; otherwise, for a negative total, no branch sets a colour |
| Budget.ClassifyMonotone | app.classes.php:61-67 | with the lower limit at most the upper one, a non-negative total always gets a colour, and spending more never gives a calmer colour |
| Budget.DefaultBands | app.classes.php:58-67 | with the default limits a month is green below 210000, yellow from 210000 to 250000 and red above |
| Budget.IndexCircle | app.classes.php:35-78 | the circle's colour is the classification of the normalised total; its text is "Rp " and a number that reads back as the total once the dots are deleted |
| Budget.RowClassOf | app.classes.php:124-130 | a row is red exactly above 50000, yellow exactly above 25000 up to 50000, and plain otherwise |
| Budget.RowCells | app.classes.php:116-141 | one cell row per spending, in order, with the spending's highlight, event and amount |
| Budget.MonthlyDetail | app.classes.php:101-153 | the table has one row per spending, and the footer is the sum of the spendings |
| Budget.DayCellsShowChanges | app.classes.php:133-138 | a row shows its day exactly when the day differs from the previous row's; the first row shows any day but 0, since NULL equals 0 under PHP's loose comparison |
| Budget.DayCellsRoundTrip | app.classes.php:133 | blanking repeated days loses nothing: filling each blank from the cell above gives back every row's day |
| Budget.FooterCoversRedRows | app.classes.php:124-143 | when no spending is negative, the footer is at least 50001 for each red row |
| Budget.Countdown | app.classes.php:192 | the inner loop visits the months from the upper bound down to the lower one, one at a time |
| Budget.HistoryIsEveryMonth | app.classes.php:174-192 | the intended history lists every month from the current one back to August 2014, each once, newest first: entry k is k months before now |
| Budget.CurrentYearCountsDown | app.classes.php:174-192 | the intended history is the current year's months followed by every month of the past years back to August 2014 |
| Budget.PastYearsCountDown | app.classes.php:174-190 | from a past year down, the intended history counts down from its December to August 2014 |
| Budget.AsWrittenAgreesIn2014 | app.classes.php:181-190 | while the current year is 2014, the loop bounds as written list the intended months |
| Budget.HistoryAsWrittenLoses2014 | app.classes.php:181-190 | as written, once the year is past 2014 and the month is before August, nothing of 2014 is listed, although December 2014 belongs in the history |
| Budget.HistoryCells | app.classes.php:192-218 | one link per listed month, in order |
| Budget.HistoryCellTexts | app.classes.php:217 | each link shows its month's three-letter name and "Rp " with an amount that reads back as the month's total |
| Budget.CarriedColours | app.classes.php:209-215 | a link's colour is its month's own colour; when no branch colours the month, it is the colour of the link before it |
| Budget.NonNegativeMonthsShowOwnColour | app.classes.php:209-215 | a month with a non-negative total always shows its own colour; only a negative total can inherit one |
| Budget.HistoryAsWrittenByIndex | app.classes.php:181-190 | the loops as written: before 2014 nothing; in 2014 the intended months; after 2014 the months from now back to January 2015, one at a time, then 2014 from the current month's number down to August |
| Budget.HistoryView | app.classes.php:164-232 | the view as written has one link per month the loops list: after 2014 it counts down to January 2015 and then shows 2014 from the current month's number down to August; in 2014 it equals the intended view |
| Budget.AsWrittenSkipsStartYear | app.classes.php:181-190 | after 2014, with the current month before August, the view ends at January 2015 and has one link per month since December 2014 |
| Budget.HistoryViewMarch2016 | app.classes.php:181-190 | in March 2016 the view as written has 15 links ending at January 2015, where the intended view has 20 |
| Budget.CorrectedHistoryView | app.classes.php:164-232 | the intended view has one link per month of the intended history, link k being k months before the current month |
| LegacyEntry.SanitizeParam | index.php:7-11 | the parameter survives exactly when it is present and consists of ASCII letters only (so it is non-empty); otherwise it becomes the empty string |
| LegacyEntry.SanitizeParamIdempotent | index.php:7-11 | sanitising a sanitised parameter changes nothing |
| LegacyEntry.LeadingWhite | index.php:49 | counts the white space that `is_numeric` skips at the start, and stops at the first other character |
| LegacyEntry.PointNumberAccepted | index.php:49 | digits, a point and digits, with at least one digit on some side and an optional exponent, form a numeric string |
| LegacyEntry.IntegerNumberAccepted | index.php:49 | digits with an optional exponent form a numeric string |
| LegacyEntry.ExponentAccepted | index.php:49 | `e` followed by digits is an exponent part |
| LegacyEntry.SignedNumberAccepted | index.php:49 | leading white space and one optional sign in front of an unsigned number keep it numeric |
| LegacyEntry.DigitsAreNumeric | index.php:49 | a non-empty digit string is numeric |
| LegacyEntry.NumericChars | index.php:49-52 | an accepted spending holds at least one digit and nothing but white space, signs, digits, points and exponent letters |
| LegacyEntry.StripTags | app.classes.php:266 | tag removal never lengthens the text, and every `<` it leaves is followed by C white space (`strip_tags` copies such a `<` instead of opening a tag) |
| LegacyEntry.StripTagsFixed | app.classes.php:266 | text whose every `<` is followed by C white space passes through tag removal unchanged |
| LegacyEntry.StripTagsIdempotent | app.classes.php:266 | removing tags twice is removing them once |
| LegacyEntry.StripTagsPlain | app.classes.php:266 | text without `<` passes through tag removal unchanged |
| LegacyEntry.SanitizeEntry | app.classes.php:264-273 | every `<` left in a sanitised field is followed by C white space |
| LegacyEntry.SanitizeEntryPlain | app.classes.php:264-273 | a field with no `<` and no white space at either end arrives unchanged |
| LegacyEntry.SanitizeEntryFixed | app.classes.php:264-273 | a field whose every `<` is followed by C white space, with no white space at either end, arrives unchanged |
| LegacyEntry.LessThanIsNotNumeric | index.php:49 | no string holding a `<` is numeric |
| LegacyEntry.SpacedLessThanIsNotNumeric | index.php:44-52 | the spending "12< 3" survives sanitising whole and is refused as not a number |
| LegacyEntry.CheckEntry | index.php:44-59 | the entry is rejected as "not a number" exactly when the sanitised spending is not numeric, whatever the token; it is rejected as a bad token exactly when the spending is numeric and the sanitised token is not all letters and digits; otherwise the sanitised fields are processed |
| LegacyEntry.NumParamOf | index.php:32-35 | `y` and `m` are taken as given exactly when present and numeric; otherwise the current year or month is used |
| LegacyEntry.Dispatch | index.php:24-62 | the history page exactly for `p=monthlygeneral`; the detail page exactly for `p=monthlydetail` with `sp=index`, using the given or current year and month; "meong?" for `monthlydetail` with any other `sp`; entry processing exactly for another `p` with `sp=process` |
| LegacyEntry.DispatchIgnoresBadParams | index.php:7-11 | a `p` or `sp` that is not all letters routes the request as if it had been left out |
| EntryForm.Validate | assets/js/lapanbelas.js:4-14 | an unknown input type gets `undefined`; each known type gets its own pattern's verdict |
| EntryForm.SubmitSpending | assets/js/lapanbelas.js:15-40 | every failing field is marked `error` and every passing one cleared; the form is submitted exactly when all three fields pass |
| EntryForm.AllPass | assets/js/lapanbelas.js:27-37 | the count of passing fields reaches three exactly when the event, the spending and the token each pass |
| EntryForm.SubmittedEntryIsProcessed | index.php:44-59 | with the intended token rule, every entry the form submits passes the server's checks: the spending and the token arrive unchanged and the event arrives trimmed |
| EntryForm.AsWrittenTokenRuleAdmitsBraces | assets/js/lapanbelas.js:11 | as written, a token holding `{` or `}` passes the form; with a valid spending the entry is submitted and the server refuses it as a bad token |
| EntryForm.BraceTokenExample | assets/js/lapanbelas.js:11 | the token "{" passes the rule as written and fails the intended one |
| Realtime.ChannelId | composables/useRealtime.ts:87-89 | a channel id starts with the table name and a colon |
| Realtime.ChannelIdsDiffer | composables/useRealtime.ts:87-89 | subscriptions to the same table and filter at different times get different ids |
| Realtime.Subscribe | composables/useRealtime.ts:68-162 | on the server nothing is registered and the id is empty; on the client the id is the channel id and is registered afterwards; an id already registered changes nothing; a new id gets a channel with the table, event, filter and handlers asked for, and no status yet |
| Realtime.OnStatus | composables/useRealtime.ts:138-139 | the latest status reported for the channel is recorded and nothing else changes |
| Realtime.Remove | composables/useRealtime.ts:174 | removal keeps every id except the one removed |
| Realtime.RemoveKeepsDistinct | composables/useRealtime.ts:174 | removal keeps the ids distinct |
| Realtime.Unsubscribe | composables/useRealtime.ts:167-177 | afterwards the id has no channel; a known id loses its channel and its status, and an unknown id changes nothing |
| Realtime.UnsubscribeAll | composables/useRealtime.ts:182-191 | no channel remains; a status survives exactly when its id had no channel |
| Realtime.ActiveChannels | composables/useRealtime.ts:210-212 | every registered channel id is listed once, and nothing else |
| Realtime.TransitionsKeepValid | composables/useRealtime.ts:62-191 | every operation keeps the insertion order in step with the channel map, each id listed once |
| Realtime.StatusDecidesSubscribed | composables/useRealtime.ts:196-198 | once a status is reported for a channel, it counts as subscribed exactly when that status is `SUBSCRIBED`; no other channel's answer changes |
| Realtime.UnsubscribeIdempotent | composables/useRealtime.ts:167-177 | unsubscribing twice is unsubscribing once, and every other channel and status is kept |
| Realtime.SubscribeThenUnsubscribe | composables/useRealtime.ts:68-177 | subscribing and then unsubscribing the returned id gives back the channels and statuses from before |
| Realtime.DispatchPayload | composables/useRealtime.ts:127-133 | an `INSERT` reaches the insert handler exactly when one is supplied, and likewise `UPDATE` and `DELETE`; any other event reaches no handler |

## Left out

**Runtime and I/O**
- Database, Firestore and PDO queries, HTML building, file reads and writes, and the process exit code: each handler takes the query results as inputs and returns the response or the error it would raise.
- The realtime transport and interleavings of in-flight requests: only the state transitions are modelled, each applied atomically.
- Logging and console output: they have no effect on state.
- Http.Uncaught: an error that escapes a handler, such as the `TypeError` of reading a property of an absent body, is answered with status 500 by the framework; the model leaves that response's message text empty, because the framework chooses it.

**Clock, dates and locale**
- The clock, `new Date`, ISO timestamps and time zones: "now", today's date, the current month and the day window are parameters.
- `dtFormatHour`: it only forwards to date-fns (`format(fromUnixTime(ts), 'HH:mm')`), which reads the time in the local zone.
- `mysqlDateToUnix` (scripts/mysql.ts:65-69): it parses the MySQL text `YYYY-MM-DD hh:mm:ss` with `new Date`, which reads this non-ISO form in the local time zone (an engine-dependent parse), and floors the milliseconds to seconds; a date it cannot parse gives NaN. The conversion is a parameter `unix` of `MysqlDump.ToExpense`, so neither the time zone nor the NaN case is modelled.
- `toLocaleDateString` and `toLocaleString` in the scripts' printed statistics: they are locale-dependent output.

**Numbers**
- JavaScript floats, `parseFloat`, `Infinity` and `NaN`: a number parsed by `parseFloat` arrives already parsed, and the spending store's values are integers.
- decimal.js's 20-digit intermediate precision, and its exponent, hex and `Infinity` literals in `parseAmount`: values are exact rationals and the grammar is plain decimal.
- TransactionStore.Percent: the share is rounded exactly, with ties up, instead of through floating-point `Math.round(total / monthlyTotal * 100)`, which can differ by one on a tie that the float division misses.
- `formatCurrency`: it delegates to `Intl.NumberFormat`.
- TransactionsApi.TimeValue: `created_at * 1000` is multiplied exactly instead of in floating point, which can round a fractional second differently; the ISO text `toISOString` prints is represented by its millisecond value, and only numbers and absent fields are modelled, so a `null` timestamp (which JavaScript turns into 0, the epoch) or a numeric string is not.

**Strings and text processing**
- String lengths are counted in characters, not UTF-16 code units, and `toLowerCase` is ASCII-only (find-duplicates key).
- FindDuplicates.DedupeKeyIff: record values are integers in the model, so the float-to-text conversion of a fractional value inside the key is not covered.
- `order_by` and `direction` of the assets listing are read as plain strings, without Supabase's column validation.
- LegacyEntry.StripTags: `strip_tags` is simplified to "a `<` followed by C white space is copied; any other `<` removes text up to the next `>`". PHP's quote and comment states are not modelled, and neither is its count of nested `<` inside a tag.
- `get_magic_quotes_gpc`/`stripslashes` in `sanitizeEntry` (app.classes.php:267-269): the legacy pages are modelled as running on PHP 7.x, where `get_magic_quotes_gpc` exists and always returns false (as it does from PHP 5.4 on), so the branch never runs. Under PHP 8 the call is an undefined function and a fatal error. The PHP 7.x assumption also fixes `is_numeric` (`LegacyEntry.IsNumeric`): PHP 5 also accepted hexadecimal text, and PHP 8 also accepts trailing white space; neither is modelled.

**Pieces of the scripts and the PHP page not modelled**
- The `main` of `scripts/mysql.ts` beyond `parseInsertStatement` and `transformToExpenseFormat`, that is the line loop and the printed statistics: these are file I/O and logging.
- `processNewSpending` (app.classes.php:234-262), with its SHA-1 token, session and insert: hashing and sessions are foreign calls. Its caller's pre-checks are modelled in `LegacyEntry.CheckEntry`.
- `getFunnyLittleHead` and `getJS`: they emit fixed markup.

**Other**
- `Collection` in the spending store is the plain `dev-spendings`/`spendings` choice, with no contract of its own.
- The inner errors of the families handlers carry no messages in the model: their `catch` replaces each one with 500 "Internal server error".
- `getOrganizationSchema` and `getWebApplicationSchema` in `seo.ts`: they return constant objects.
- Firestore ids and timestamps in the migration scripts are taken as given strings and integers.

## Findings

| source | as written | input that shows it | evidently intended | confidence | as-written member | corrected member |
|---|---|---|---|---|---|---|
| app.classes.php:181-190 | the year 2014 lists months from the current month down to August, even when 2014 is a past year | current date March 2016: no month of 2014 is listed, and the history stops at January 2015 | a past 2014 lists December down to August, as the commented-out `($i == $endYear) ? $currMonth : 12` on line 179 shows | high (not executed) | Budget.HistoryViewMarch2016 | Budget.CorrectedHistoryView |
| assets/js/lapanbelas.js:11 | the token class `[a-zA-Z0-9{7}]` also admits `{` and `}` | token `{` with spending `100`: the form submits, and index.php:54-57 (`ctype_alnum`) rejects it | the token class `[a-zA-Z0-9]`, matching the server's check | medium (not executed) | EntryForm.AsWrittenTokenRuleAdmitsBraces | EntryForm.SubmittedEntryIsProcessed |
| store/spendings/actions.js:31 | the snapshot listener commits `setIsLoading`, which store/spendings/mutations.js:4-23 does not define, so Vuex ignores the commit (logging an unknown-mutation error in development) and the flag never changes | any snapshot delivered while the store is loading: the store stays loading | the first snapshot ends loading, which needs a `setIsLoading` mutation that sets the flag | medium (not executed) | SpendingStore.SnapshotsNeverEndLoading | SpendingStore.CorrectedOnSnapshot |

=== FILE: assets_api.dfy ===
/** The asset endpoints (`server/api/v1/assets/index.get.ts` and `index.post.ts`): the query
    filters of the listing with their validation, the escaping of the institution-name search,
    the pagination bounds, and the validated insert. Database results and the numbers
    `parseFloat` returns are inputs; both handlers pass every thrown error through the same
    catch-all (`Http.Rethrow` with "Internal server error"). */
module AssetsApi {
  import opened Wrappers
  import opened Strings
  import opened Js
  import opened Http
  import Auth

  /** A query-string parameter: absent, given once, or repeated (which `getQuery` returns as
      an array). */
  datatype Param = Missing | One(s: string) | Many(items: seq<string>)

  /** JavaScript truthiness of a parameter: an array is truthy even when it is empty. */
  predicate ParamTruthy(p: Param) { p.Many? || (p.One? && p.s != "") }

  /** `parseInt` of a parameter: NaN (`None`) for a missing one, and for an array the
      parse of `String(array)`, its items joined with commas. */
  function ParamInt(p: Param): Option<int> {
    match p
    case Missing => None
    case One(s) => ParseInt(s)
    case Many(xs) => ParseInt(Join(xs, ","))
  }

  /** The missing case agrees with `parseInt(String(undefined))`. */
  lemma MissingParamIsNaN()
    ensures ParseInt("undefined").None?
  {
    ParseIntNeedsDigit("undefined");
  }

  /** What a thrown `TypeError` looks like to the catch-all: neither status nor message. */
  const TypeError := Thrown(None, None)

  // ---------------------------------------------------------------------------------------
  // Filters
  // ---------------------------------------------------------------------------------------

  /** A list filter (`type`, `currency_id`, `risk_level`): applied only when the parameter is
      truthy, with a single value wrapped into a one-element list and an array used as is. */
  function InFilter(p: Param): (r: Option<seq<string>>)
    ensures r.None? <==> !ParamTruthy(p)
    ensures r.Some? ==> forall x :: x in r.value <==> (p.One? && x == p.s) || (p.Many? && x in p.items)
    ensures r.Some? && p.One? ==> |r.value| == 1
  {
    match p
    case Missing => None
    case One(s) => if s == "" then None else Some([s])
    case Many(xs) => Some(xs)
  }

  /** Feeding the normalised list back in as an array changes nothing. */
  lemma InFilterIdempotent(p: Param)
    requires ParamTruthy(p)
    ensures InFilter(Many(InFilter(p).value)) == InFilter(p)
  {
  }

  /** A flag filter (`is_liquid`, `is_active`): applied whenever the parameter is present, even
      when empty, and true only for the exact text "true" (an array is never `=== 'true'`). */
  function FlagFilter(p: Param): (r: Option<bool>)
    ensures r.None? <==> p.Missing?
    ensures r == Some(true) <==> p == One("true")
  {
    match p
    case Missing => None
    case One(s) => Some(s == "true")
    case Many(_) => Some(false)
  }

  /** A string filter (`maturity_date_from`, `maturity_date_to`): applied when truthy. */
  function TextFilter(v: Option<string>): (r: Option<string>)
    ensures r.Some? <==> Truthy(v)
    ensures r.Some? ==> r == v
  {
    if Truthy(v) then v else None
  }

  // ---------------------------------------------------------------------------------------
  // The institution-name search
  // ---------------------------------------------------------------------------------------

  /** `s.replace(/c/g, rep)`: every `c` replaced by `rep`, everything else kept in order. */
  function ReplaceAll(s: string, c: char, rep: string): (r: string)
    ensures (forall i :: 0 <= i < |s| ==> s[i] != c) ==> r == s
    ensures c !in rep ==> forall i :: 0 <= i < |r| ==> r[i] != c
  {
    if |s| == 0 then "" else (if s[0] == c then rep else [s[0]]) + ReplaceAll(s[1..], c, rep)
  }

  lemma {:induction false} ReplaceAllAppend(a: string, b: string, c: char, rep: string)
    ensures ReplaceAll(a + b, c, rep) == ReplaceAll(a, c, rep) + ReplaceAll(b, c, rep)
    decreases |a|
  {
    if |a| == 0 {
      assert a + b == b;
    } else {
      assert (a + b)[0] == a[0] && (a + b)[1..] == a[1..] + b;
      ReplaceAllAppend(a[1..], b, c, rep);
    }
  }

  /** The three replacements of the handler, in its order: backslash first, then `%`, then
      `_`. */
  function EscapeLike(s: string): string {
    ReplaceAll(ReplaceAll(ReplaceAll(s, '\\', "\\\\"), '%', "\\%"), '_', "\\_")
  }

  /** The characters LIKE treats specially under the default escape character. */
  predicate IsLikeSpecial(c: char) { c == '\\' || c == '%' || c == '_' }

  /** One character escaped on its own. */
  function EscapeChar(c: char): (r: string)
    ensures IsLikeSpecial(c) ==> r == ['\\', c]
    ensures !IsLikeSpecial(c) ==> r == [c]
  {
    if IsLikeSpecial(c) then ['\\', c] else [c]
  }

  /** Every character escaped on its own, left to right. */
  function EscapeEach(s: string): string {
    if |s| == 0 then "" else EscapeChar(s[0]) + EscapeEach(s[1..])
  }

  lemma EscapeLikeOfChar(c: char)
    ensures EscapeLike([c]) == EscapeChar(c)
  {
  }

  /** Because the backslash is replaced first, the three global replacements act like one
      left-to-right pass that prefixes each special character with a backslash: no backslash
      inserted by a later pass is doubled by an earlier one. */
  lemma {:induction false} EscapeLikeIsPerChar(s: string)
    ensures EscapeLike(s) == EscapeEach(s)
    decreases |s|
  {
    if |s| > 0 {
      var h, t := [s[0]], s[1..];
      assert s == h + t;
      var a := ReplaceAll(h, '\\', "\\\\");
      var b := ReplaceAll(t, '\\', "\\\\");
      ReplaceAllAppend(h, t, '\\', "\\\\");
      ReplaceAllAppend(a, b, '%', "\\%");
      ReplaceAllAppend(ReplaceAll(a, '%', "\\%"), ReplaceAll(b, '%', "\\%"), '_', "\\_");
      EscapeLikeOfChar(s[0]);
      EscapeLikeIsPerChar(t);
    }
  }

  /** A LIKE pattern read the way PostgreSQL reads it with the default escape character. */
  datatype LikeToken = Literal(c: char) | AnyRun | AnyChar

  /** The token a character outside an escape stands for. */
  function PlainToken(c: char): LikeToken {
    if c == '%' then AnyRun else if c == '_' then AnyChar else Literal(c)
  }

  /** `ts` in front of a reading, a rejected reading staying rejected. */
  function PrependAll(ts: seq<LikeToken>, o: Option<seq<LikeToken>>): Option<seq<LikeToken>> {
    match o
    case None => None
    case Some(us) => Some(ts + us)
  }

  /** The tokens of a pattern: `\` takes the next character literally, `%` matches any run
      and `_` any one character; a pattern ending in a lone backslash is rejected (`None`). */
  function LikeTokens(p: string): Option<seq<LikeToken>>
    decreases |p|
  {
    if |p| == 0 then Some([])
    else if p[0] == '\\' then
      if |p| == 1 then None else PrependAll([Literal(p[1])], LikeTokens(p[2..]))
    else PrependAll([PlainToken(p[0])], LikeTokens(p[1..]))
  }

  /** A run of literal tokens, one per character. */
  function Literals(s: string): (r: seq<LikeToken>)
    ensures |r| == |s|
    ensures forall i :: 0 <= i < |s| ==> r[i] == Literal(s[i])
  {
    if |s| == 0 then [] else [Literal(s[0])] + Literals(s[1..])
  }

  lemma PrependAllAssoc(ts: seq<LikeToken>, us: seq<LikeToken>, o: Option<seq<LikeToken>>)
    ensures PrependAll(ts, PrependAll(us, o)) == PrependAll(ts + us, o)
  {
    if o.Some? {
      assert ts + (us + o.value) == (ts + us) + o.value;
    }
  }

  /** A pattern that reads completely keeps its reading when more pattern follows. */
  lemma {:induction false} LikeTokensAppend(a: string, b: string)
    requires LikeTokens(a).Some?
    ensures LikeTokens(a + b) == PrependAll(LikeTokens(a).value, LikeTokens(b))
    decreases |a|
  {
    if |a| == 0 {
      assert a + b == b;
      if LikeTokens(b).Some? {
        assert [] + LikeTokens(b).value == LikeTokens(b).value;
      }
    } else if a[0] == '\\' {
      assert (a + b)[0] == '\\' && (a + b)[1] == a[1] && (a + b)[2..] == a[2..] + b;
      LikeTokensAppend(a[2..], b);
      PrependAllAssoc([Literal(a[1])], LikeTokens(a[2..]).value, LikeTokens(b));
    } else {
      assert (a + b)[0] == a[0] && (a + b)[1..] == a[1..] + b;
      LikeTokensAppend(a[1..], b);
      PrependAllAssoc([PlainToken(a[0])], LikeTokens(a[1..]).value, LikeTokens(b));
    }
  }

  /** A single character outside the escape reads as its own token. */
  lemma LikeTokensPlain(c: char)
    requires c != '\\'
    ensures LikeTokens([c]) == Some([PlainToken(c)])
  {
    var p := [c];
    assert p[1..] == "" && LikeTokens(p[1..]) == Some([]);
    assert [PlainToken(c)] + [] == [PlainToken(c)];
  }

  /** A backslash and the character after it read as that character, literally. */
  lemma LikeTokensEscaped(c: char)
    ensures LikeTokens(['\\', c]) == Some([Literal(c)])
  {
    var p := ['\\', c];
    assert p[2..] == "" && LikeTokens(p[2..]) == Some([]);
    assert [Literal(c)] + [] == [Literal(c)];
  }

  /** An escaped text reads as exactly its characters, each a literal. */
  lemma {:induction false} EscapeEachIsLiteral(s: string)
    ensures LikeTokens(EscapeEach(s)) == Some(Literals(s))
    decreases |s|
  {
    if |s| > 0 {
      EscapeEachIsLiteral(s[1..]);
      var e := EscapeChar(s[0]);
      assert LikeTokens(e) == Some([Literal(s[0])]) by {
        if IsLikeSpecial(s[0]) {
          LikeTokensEscaped(s[0]);
        } else {
          LikeTokensPlain(s[0]);
        }
      }
      LikeTokensAppend(e, EscapeEach(s[1..]));
      assert Literals(s) == [Literal(s[0])] + Literals(s[1..]);
    }
  }

  /** The `ilike` pattern for an institution name: the escaped name between two `%`. */
  function InstitutionPattern(name: string): string {
    "%" + EscapeLike(name) + "%"
  }

  /** The pattern is a substring search for the name as typed: any run, the name's characters
      as literals, any run. No character of the name acts as a wildcard, whatever it is. */
  lemma InstitutionPatternIsSubstringSearch(name: string)
    ensures LikeTokens(InstitutionPattern(name)) == Some([AnyRun] + Literals(name) + [AnyRun])
  {
    var e := EscapeLike(name);
    EscapeLikeIsPerChar(name);
    EscapeEachIsLiteral(name);
    LikeTokensPlain('%');
    LikeTokensAppend(e, "%");
    LikeTokensAppend("%", e + "%");
    PrependAllAssoc([AnyRun], Literals(name), Some([AnyRun]));
    assert InstitutionPattern(name) == "%" + (e + "%");
  }

  /** Different names give different patterns. */
  lemma InstitutionPatternInjective(a: string, b: string)
    requires InstitutionPattern(a) == InstitutionPattern(b)
    ensures a == b
  {
    InstitutionPatternIsSubstringSearch(a);
    InstitutionPatternIsSubstringSearch(b);
    var ta := [AnyRun] + Literals(a) + [AnyRun];
    var tb := [AnyRun] + Literals(b) + [AnyRun];
    assert |a| == |b|;
    forall i | 0 <= i < |a|
      ensures a[i] == b[i]
    {
      assert ta[i + 1] == Literal(a[i]) && tb[i + 1] == Literal(b[i]);
    }
  }

  /** The institution filter: applied when truthy; an array has no `replace`, so the handler
      throws a `TypeError`. */
  function InstitutionFilter(p: Param): (r: Result<Option<string>, Thrown>)
    ensures r.Err? <==> p.Many?
    ensures r.Err? ==> r.error == TypeError
    ensures r.Ok? ==> (r.value.Some? <==> p.One? && p.s != "")
    ensures r.Ok? && r.value.Some? ==> r.value.value == InstitutionPattern(p.s)
  {
    match p
    case Missing => Ok(None)
    case One(s) => if s == "" then Ok(None) else Ok(Some(InstitutionPattern(s)))
    case Many(_) => Err(TypeError)
  }

  // ---------------------------------------------------------------------------------------
  // Balance bounds and pagination
  // ---------------------------------------------------------------------------------------

  const BadBalanceMin := HttpError(400, "Invalid balance_min")
  const BadBalanceMax := HttpError(400, "Invalid balance_max")
  const BadLimit := HttpError(400, "Invalid limit (1-100)")
  const BadOffset := HttpError(400, "Invalid offset (must be >= 0)")

  /** The page size used for an offset without a usable limit. */
  const DefaultPageSize := 50

  /** A balance bound: applied when the parameter is truthy; `parsed` is what `parseFloat`
      returned for it (`None` for NaN), and NaN or a negative number is refused with `bad`. */
  function BalanceBound(p: Param, parsed: Option<real>, bad: HttpError): (r: Result<Option<real>, Thrown>)
    ensures !ParamTruthy(p) ==> r == Ok(None)
    ensures ParamTruthy(p) && (parsed.None? || parsed.value < 0.0) ==> r == Err(AsThrown(bad))
    ensures r.Ok? && r.value.Some? ==> r.value == parsed && r.value.value >= 0.0
  {
    if !ParamTruthy(p) then Ok(None)
    else if parsed.None? || parsed.value < 0.0 then Err(AsThrown(bad))
    else Ok(parsed)
  }

  /** The `limit` check: when the parameter is truthy, `parseInt` of it must give 1 to 100. */
  function LimitOf(p: Param): (r: Result<Option<int>, Thrown>)
    ensures !ParamTruthy(p) ==> r == Ok(None)
    ensures ParamTruthy(p) ==> (r.Ok? <==> ParamInt(p).Some? && 1 <= ParamInt(p).value <= 100)
    ensures r.Err? ==> r.error == AsThrown(BadLimit)
    ensures r.Ok? && r.value.Some? ==> r.value == ParamInt(p) && 1 <= r.value.value <= 100
  {
    if !ParamTruthy(p) then Ok(None)
    else
      var n := ParamInt(p);
      if n.None? || n.value < 1 || n.value > 100 then Err(AsThrown(BadLimit)) else Ok(n)
  }

  /** The `offset` check and the row range: when the offset is truthy, `parseInt` of it must
      be a number of at least 0, and the range covers the page size from there — the parsed
      limit when it is truthy, 50 otherwise. */
  function RangeOf(offset: Param, limit: Param): (r: Result<Option<(int, int)>, Thrown>)
    ensures !ParamTruthy(offset) ==> r == Ok(None)
    ensures ParamTruthy(offset) ==> (r.Ok? <==> ParamInt(offset).Some? && ParamInt(offset).value >= 0)
    ensures r.Err? ==> r.error == AsThrown(BadOffset)
    ensures r.Ok? && r.value.Some? ==>
      && r.value.value.0 == ParamInt(offset).value >= 0
      && r.value.value.1 - r.value.value.0 + 1 ==
         (if NumberTruthy(ParamInt(limit)) then ParamInt(limit).value else DefaultPageSize)
  {
    if !ParamTruthy(offset) then Ok(None)
    else
      var o := ParamInt(offset);
      if o.None? || o.value < 0 then Err(AsThrown(BadOffset))
      else
        var l := ParamInt(limit);
        var size := if NumberTruthy(l) then l.value else DefaultPageSize;
        Ok(Some((o.value, o.value + size - 1)))
  }

  /** Once the limit check has passed, a page is never empty and never longer than 100 rows:
      a range covers the validated limit, or 50 rows when no limit was given. */
  lemma PageSizeBounded(offset: Param, limit: Param)
    requires LimitOf(limit).Ok? && RangeOf(offset, limit).Ok? && RangeOf(offset, limit).value.Some?
    ensures var rg := RangeOf(offset, limit).value.value;
      && 1 <= rg.1 - rg.0 + 1 <= 100
      && (LimitOf(limit).value.Some? ==> rg.1 - rg.0 + 1 == LimitOf(limit).value.value)
      && (!ParamTruthy(limit) ==> rg.1 - rg.0 + 1 == DefaultPageSize)
  {
    if !ParamTruthy(limit) {
      ParseIntNeedsDigit("");
    }
  }

  lemma ParseNatText(o: nat)
    ensures ParamInt(One(NatToString(o))) == Some(o as int)
  {
    ParseIntReadsIntToString(o);
    assert IntToString(o) == NatToString(o);
  }

  lemma RangeOfParsed(t: string, o: nat)
    requires t != "" && ParseInt(t) == Some(o as int)
    ensures RangeOf(One(t), Missing) == Ok(Some((o, o + DefaultPageSize - 1)))
  {
  }

  /** Decimal limits are accepted exactly from 1 to 100. */
  lemma LimitAcceptsOneToHundred(n: int)
    ensures LimitOf(One(IntToString(n))).Ok? <==> 1 <= n <= 100
  {
    ParseIntReadsIntToString(n);
  }

  /** A decimal offset without a limit pages 50 rows from the offset. */
  lemma OffsetWithoutLimit(o: nat)
    ensures RangeOf(One(NatToString(o)), Missing) == Ok(Some((o, o + DefaultPageSize - 1)))
  {
    ParseNatText(o);
    RangeOfParsed(NatToString(o), o);
  }

  // ---------------------------------------------------------------------------------------
  // GET /api/v1/assets
  // ---------------------------------------------------------------------------------------

  /** The query parameters the listing reads. `order_by` and `order_direction` are read as
      single strings. */
  datatype AssetQuery = AssetQuery(
    assetType: Param, currencyId: Param, isLiquid: Param, isActive: Param, riskLevel: Param,
    institutionName: Param, balanceMin: Param, balanceMax: Param,
    maturityFrom: Option<string>, maturityTo: Option<string>,
    orderBy: Option<string>, orderDirection: Option<string>,
    limit: Param, offset: Param)

  /** The query the handler builds: always the caller's own live assets, then the optional
      filters, the ordering and the pagination. */
  datatype AssetPlan = AssetPlan(
    createdBy: string,
    types: Option<seq<string>>, currencies: Option<seq<string>>,
    isLiquid: Option<bool>, isActive: Option<bool>, riskLevels: Option<seq<string>>,
    institutionPattern: Option<string>,
    balanceMin: Option<real>, balanceMax: Option<real>,
    maturityFrom: Option<string>, maturityTo: Option<string>,
    orderBy: string, ascending: bool,
    limit: Option<int>, range: Option<(int, int)>)

  /** `order_by || 'created_at'`, ascending exactly for `order_direction` "asc" (the default
      direction is descending). */
  function Ordering(orderBy: Option<string>, direction: Option<string>): (r: (string, bool))
    ensures Truthy(orderBy) ==> r.0 == orderBy.value
    ensures !Truthy(orderBy) ==> r.0 == "created_at"
    ensures r.1 <==> direction == Some("asc")
  {
    (if Truthy(orderBy) then orderBy.value else "created_at", direction == Some("asc"))
  }

  /** The checks in the handler's order: the institution search (which throws for an array),
      the balance bounds, the limit, the offset. */
  function PlanAssets(userId: string, q: AssetQuery, parsedMin: Option<real>, parsedMax: Option<real>)
    : (r: Result<AssetPlan, Thrown>)
    ensures q.institutionName.Many? ==> r == Err(TypeError)
    ensures !q.institutionName.Many? && BalanceBound(q.balanceMin, parsedMin, BadBalanceMin).Err? ==>
      r == Err(AsThrown(BadBalanceMin))
    ensures r.Ok? <==>
      && InstitutionFilter(q.institutionName).Ok?
      && BalanceBound(q.balanceMin, parsedMin, BadBalanceMin).Ok?
      && BalanceBound(q.balanceMax, parsedMax, BadBalanceMax).Ok?
      && LimitOf(q.limit).Ok? && RangeOf(q.offset, q.limit).Ok?
    ensures r.Err? ==> r.error in {TypeError, AsThrown(BadBalanceMin), AsThrown(BadBalanceMax), AsThrown(BadLimit), AsThrown(BadOffset)}
    ensures r.Ok? ==> r.value.createdBy == userId
    ensures r.Ok? ==>
      && r.value.types == InFilter(q.assetType) && r.value.currencies == InFilter(q.currencyId)
      && r.value.riskLevels == InFilter(q.riskLevel)
      && r.value.isLiquid == FlagFilter(q.isLiquid) && r.value.isActive == FlagFilter(q.isActive)
      && r.value.range == RangeOf(q.offset, q.limit).value && r.value.limit == LimitOf(q.limit).value
    ensures r.Ok? ==>
      && r.value.institutionPattern == InstitutionFilter(q.institutionName).value
      && r.value.balanceMin == BalanceBound(q.balanceMin, parsedMin, BadBalanceMin).value
      && r.value.balanceMax == BalanceBound(q.balanceMax, parsedMax, BadBalanceMax).value
      && r.value.maturityFrom == TextFilter(q.maturityFrom) && r.value.maturityTo == TextFilter(q.maturityTo)
      && (r.value.orderBy, r.value.ascending) == Ordering(q.orderBy, q.orderDirection)
    ensures (InstitutionFilter(q.institutionName).Ok? && BalanceBound(q.balanceMin, parsedMin, BadBalanceMin).Ok?
             && BalanceBound(q.balanceMax, parsedMax, BadBalanceMax).Err?)
      ==> r == Err(AsThrown(BadBalanceMax))
    ensures (InstitutionFilter(q.institutionName).Ok? && BalanceBound(q.balanceMin, parsedMin, BadBalanceMin).Ok?
             && BalanceBound(q.balanceMax, parsedMax, BadBalanceMax).Ok? && LimitOf(q.limit).Err?)
      ==> r == Err(AsThrown(BadLimit))
    ensures (InstitutionFilter(q.institutionName).Ok? && BalanceBound(q.balanceMin, parsedMin, BadBalanceMin).Ok?
             && BalanceBound(q.balanceMax, parsedMax, BadBalanceMax).Ok? && LimitOf(q.limit).Ok?
             && RangeOf(q.offset, q.limit).Err?)
      ==> r == Err(AsThrown(BadOffset))
  {
    var pattern :- InstitutionFilter(q.institutionName);
    var low :- BalanceBound(q.balanceMin, parsedMin, BadBalanceMin);
    var high :- BalanceBound(q.balanceMax, parsedMax, BadBalanceMax);
    var (orderBy, ascending) := Ordering(q.orderBy, q.orderDirection);
    var limit :- LimitOf(q.limit);
    var range :- RangeOf(q.offset, q.limit);
    Ok(AssetPlan(userId, InFilter(q.assetType), InFilter(q.currencyId), FlagFilter(q.isLiquid),
                 FlagFilter(q.isActive), InFilter(q.riskLevel), pattern, low, high,
                 TextFilter(q.maturityFrom), TextFilter(q.maturityTo), orderBy, ascending, limit, range))
  }

  const FetchFailed := HttpError(500, "Failed to fetch assets")

  /** The whole GET handler: the session (inside the catch-all here), the plan, the database
      call (`result`, an error message on failure), and the response with `data || []` and its
      length as the count. Every error leaves through `Rethrow`. */
  function ListAssets<T>(user: Option<Auth.SessionUser>, q: AssetQuery, parsedMin: Option<real>, parsedMax: Option<real>,
                         result: Result<Option<seq<T>>, string>)
    : (r: Result<(AssetPlan, seq<T>, nat), HttpError>)
    ensures Auth.GetAuthenticatedUserId(user).Err? ==> r == Err(Auth.Unauthorized)
    ensures Auth.GetAuthenticatedUserId(user).Ok? && PlanAssets(user.value.sub.value, q, parsedMin, parsedMax).Ok? ==>
      (r.Err? <==> result.Err?) && (result.Err? ==> r == Err(FetchFailed))
    ensures r.Err? ==> r.error.status in {400, 401, 500} && r.error.message != ""
    ensures r.Ok? ==> Auth.GetAuthenticatedUserId(user).Ok? && PlanAssets(user.value.sub.value, q, parsedMin, parsedMax).Ok? && result.Ok?
    ensures r.Ok? ==> r.value.0 == PlanAssets(user.value.sub.value, q, parsedMin, parsedMax).value
    ensures r.Ok? ==> r.value.1 == result.value.GetOr([]) && r.value.2 == |r.value.1|
  {
    match ListAssetsBody(user, q, parsedMin, parsedMax, result)
    case Ok(v) => Ok(v)
    case Err(t) => Err(Rethrow(t, InternalError))
  }

  /** The body inside the `try`, whose errors are still raw thrown values. */
  function ListAssetsBody<T>(user: Option<Auth.SessionUser>, q: AssetQuery, parsedMin: Option<real>, parsedMax: Option<real>,
                             result: Result<Option<seq<T>>, string>)
    : (r: Result<(AssetPlan, seq<T>, nat), Thrown>)
    ensures Auth.GetAuthenticatedUserId(user).Err? ==> r == Err(AsThrown(Auth.Unauthorized))
  {
    match Auth.GetAuthenticatedUserId(user)
    case Err(e) => Err(AsThrown(e))
    case Ok(userId) =>
      var plan :- PlanAssets(userId, q, parsedMin, parsedMax);
      if result.Err? then Err(AsThrown(FetchFailed))
      else
        var data := result.value.GetOr([]);
        Ok((plan, data, |data|))
  }

  // ---------------------------------------------------------------------------------------
  // POST /api/v1/assets
  // ---------------------------------------------------------------------------------------

  /** The request body as far as the handler reads it; the remaining fields are spread into
      the row unchanged. */
  datatype AssetInput = AssetInput(
    name: Option<string>, assetType: Option<string>, currencyId: Option<string>,
    initialBalance: Option<real>, currentBalance: Option<real>, createdBy: Option<string>)

  /** The inserted row. */
  datatype AssetRow = AssetRow(
    name: string, assetType: string, currencyId: string,
    initialBalance: Option<real>, currentBalance: Option<real>, createdBy: string)

  const MissingFields := HttpError(400, "Missing required fields: name, type, currency_id")
  const BadCurrency := HttpError(400, "Invalid currency_id")
  const CreateFailed := HttpError(500, "Failed to create asset")

  /** `initial_balance || current_balance`: a missing or zero initial balance falls back to the
      current balance. */
  function InitialBalance(initial: Option<real>, current: Option<real>): (r: Option<real>)
    ensures initial.Some? && initial.value != 0.0 ==> r == initial
    ensures initial.None? || initial.value == 0.0 ==> r == current
  {
    if initial.Some? && initial.value != 0.0 then initial else current
  }

  /** The row built from a valid body: the body's fields, the caller as creator whatever the
      body says, and the initial balance fallback. */
  function AssetRowOf(body: AssetInput, userId: string): (row: AssetRow)
    requires Truthy(body.name) && Truthy(body.assetType) && Truthy(body.currencyId)
    ensures row.createdBy == userId
    ensures row.name == body.name.value && row.assetType == body.assetType.value && row.currencyId == body.currencyId.value
    ensures row.currentBalance == body.currentBalance
    ensures row.initialBalance == InitialBalance(body.initialBalance, body.currentBalance)
  {
    AssetRow(body.name.value, body.assetType.value, body.currencyId.value,
             InitialBalance(body.initialBalance, body.currentBalance), body.currentBalance, userId)
  }

  /** The body inside the `try`: the session, the required fields, the currency lookup
      (`currencyFound` false for a lookup error or no row) and the insert. */
  function CreateAssetBody<R>(user: Option<Auth.SessionUser>, read: ReadBody<AssetInput>, currencyFound: bool,
                              inserted: Result<R, string>)
    : (r: Result<(AssetRow, R), Thrown>)
    ensures Auth.GetAuthenticatedUserId(user).Err? ==> r == Err(AsThrown(Auth.Unauthorized))
    ensures Auth.GetAuthenticatedUserId(user).Ok? && read.NullBody? ==> r == Err(TypeError)
  {
    match Auth.GetAuthenticatedUserId(user)
    case Err(e) => Err(AsThrown(e))
    case Ok(userId) =>
      if read.NullBody? then Err(TypeError)
      else
      var body := read.fields;
      if !Truthy(body.name) || !Truthy(body.assetType) || !Truthy(body.currencyId) then Err(AsThrown(MissingFields))
      else if !currencyFound then Err(AsThrown(BadCurrency))
      else if inserted.Err? then Err(AsThrown(CreateFailed))
      else Ok((AssetRowOf(body, userId), inserted.value))
  }

  /** The whole POST handler: 401 without a session, 500 "Internal server error" for a body
      that is not an object, 400 for a missing field, 400 for an unknown currency, 500 when
      the insert fails, otherwise the row stored for the caller. */
  function CreateAsset<R>(user: Option<Auth.SessionUser>, read: ReadBody<AssetInput>, currencyFound: bool,
                          inserted: Result<R, string>)
    : (r: Result<(AssetRow, R), HttpError>)
    ensures Auth.GetAuthenticatedUserId(user).Err? ==> r == Err(Auth.Unauthorized)
    ensures Auth.GetAuthenticatedUserId(user).Ok? && read.NullBody? ==> r == Err(HttpError(500, InternalError))
    ensures Auth.GetAuthenticatedUserId(user).Ok? && read.JsonBody? ==>
      var body := read.fields;
      && (!Truthy(body.name) || !Truthy(body.assetType) || !Truthy(body.currencyId) ==> r == Err(MissingFields))
      && (Truthy(body.name) && Truthy(body.assetType) && Truthy(body.currencyId) && !currencyFound ==> r == Err(BadCurrency))
    ensures r.Ok? <==>
      && Auth.GetAuthenticatedUserId(user).Ok? && read.JsonBody?
      && var body := read.fields;
      && Truthy(body.name) && Truthy(body.assetType) && Truthy(body.currencyId)
      && currencyFound && inserted.Ok?
    ensures r.Ok? ==>
      && read.JsonBody?
      && r.value.0.createdBy == user.value.sub.value
      && r.value.0.initialBalance == InitialBalance(read.fields.initialBalance, read.fields.currentBalance)
      && r.value.1 == inserted.value
  {
    match CreateAssetBody(user, read, currencyFound, inserted)
    case Ok(v) => Ok(v)
    case Err(t) => Err(Rethrow(t, InternalError))
  }

  /** A body cannot create an asset on someone else's behalf: whatever `created_by` it
      carries, the outcome is the same as without one. */
  lemma CreatedByIgnored<R>(user: Option<Auth.SessionUser>, body: AssetInput, other: Option<string>, currencyFound: bool,
                            inserted: Result<R, string>)
    ensures CreateAsset(user, JsonBody(body.(createdBy := other)), currencyFound, inserted)
         == CreateAsset(user, JsonBody(body.(createdBy := None)), currencyFound, inserted)
  {
  }
}

=== FILE: auth.dfy ===
/** The server's authentication helpers (`server/utils/auth.ts`): reading the caller's id from
    the session, and the role check with its fixed decision order. The session user and the
    `user_roles` row are inputs. */
module Auth {
  import opened Wrappers
  import opened Strings
  import opened Http

  /** The session user as far as the helpers read it: its optional `sub`. */
  datatype SessionUser = SessionUser(sub: Option<string>)

  /** The `user_roles` row selected for the caller. */
  datatype RoleRow = RoleRow(role: string, isBlocked: bool)

  const Unauthorized := HttpError(401, "Unauthorized - No user session")
  const NoRole := HttpError(403, "Forbidden - No role found")
  const Blocked := HttpError(403, "Forbidden - Account blocked")

  /** The refusal for a role outside `allowed`, naming the allowed roles. */
  function RoleRefused(allowed: seq<string>): HttpError {
    HttpError(403, "Forbidden - Requires one of: " + Join(allowed, ", "))
  }

  /** `getAuthenticatedUserId`: the session user's non-empty `sub`, or 401. */
  function GetAuthenticatedUserId(user: Option<SessionUser>): (r: Result<string, HttpError>)
    ensures r.Ok? <==> user.Some? && user.value.sub.Some? && user.value.sub.value != ""
    ensures r.Ok? ==> r.value == user.value.sub.value && r.value != ""
    ensures r.Err? ==> r.error == Unauthorized
  {
    if user.None? || user.value.sub.None? || user.value.sub.value == "" then Err(Unauthorized)
    else Ok(user.value.sub.value)
  }

  /** `checkUserRole`: the session first (401), then the role lookup, where an error and a
      missing row are alike (`None`, 403), then the block flag, then the allowed roles. A
      blocked account is refused even when its role is allowed; success returns the caller's
      id and role unchanged, and happens exactly when every check passes. */
  function CheckUserRole(user: Option<SessionUser>, row: Option<RoleRow>, allowed: seq<string>)
    : (r: Result<(string, string), HttpError>)
    ensures GetAuthenticatedUserId(user).Err? ==> r == Err(Unauthorized)
    ensures GetAuthenticatedUserId(user).Ok? && row.None? ==> r == Err(NoRole)
    ensures GetAuthenticatedUserId(user).Ok? && row.Some? && row.value.isBlocked ==> r == Err(Blocked)
    ensures r.Ok? <==>
      GetAuthenticatedUserId(user).Ok? && row.Some? && !row.value.isBlocked && row.value.role in allowed
    ensures r.Ok? ==> r.value == (user.value.sub.value, row.value.role)
    ensures r.Err? ==> r.error.status in {401, 403}
  {
    var userId :- GetAuthenticatedUserId(user);
    if row.None? then Err(NoRole)
    else if row.value.isBlocked then Err(Blocked)
    else if row.value.role !in allowed then Err(RoleRefused(allowed))
    else Ok((userId, row.value.role))
  }

  /** Widening the allowed roles never turns a success into a refusal. */
  lemma CheckUserRoleMonotone(user: Option<SessionUser>, row: Option<RoleRow>, allowed: seq<string>, more: seq<string>)
    requires forall x :: x in allowed ==> x in more
    requires CheckUserRole(user, row, allowed).Ok?
    ensures CheckUserRole(user, row, more) == CheckUserRole(user, row, allowed)
  {
  }
}

=== FILE: auth_store.dfy ===
/** The client's role store (`stores/auth-store.ts`): the fetched role and block flag, the role
    predicates the pages use, and the fetch, reset and user-change transitions. The result of
    the role request is an input; the in-flight period of the request is the state with
    `isLoading` set. */
module AuthStore {
  import opened Wrappers
  import opened Js
  import Auth

  /** `UserRole` (`'superadmin' | 'manager' | 'user'`). */
  datatype Role = Superadmin | Manager | User {
    function Name(): string {
      match this
      case Superadmin => "superadmin"
      case Manager => "manager"
      case User => "user"
    }
  }

  /** The store's refs. */
  datatype AuthState = AuthState(
    userRole: Option<Role>,
    isBlocked: bool,
    isLoading: bool,
    error: Option<string>,
    isFetched: bool)

  /** The argument of `hasRole`/`canAccess`: a single role or an array of roles. */
  datatype Required = One(role: Role) | AnyOf(roles: seq<Role>)

  /** The result of the `POST /api/v1/user/me` request: the caller's role row, or a thrown
      value (`Some` message when it is an `Error`). */
  datatype Fetch = Fetched(role: Role, blocked: bool) | FetchFailed(thrown: Option<string>)

  /** `hasRole`: false without a role; membership for an array, equality for a single role. */
  function HasRole(st: AuthState, req: Required): (r: bool)
    ensures st.userRole.None? ==> !r
    ensures r <==> st.userRole.Some? && (if req.One? then req.role == st.userRole.value else st.userRole.value in req.roles)
  {
    match st.userRole
    case None => false
    case Some(role) =>
      match req
      case AnyOf(roles) => role in roles
      case One(x) => role == x
  }

  /** `isAdmin`: `hasRole([SUPERADMIN, MANAGER])`. */
  function IsAdmin(st: AuthState): (r: bool)
    ensures r <==> st.userRole == Some(Superadmin) || st.userRole == Some(Manager)
  {
    HasRole(st, AnyOf([Superadmin, Manager]))
  }

  /** `isSuperAdmin`: `hasRole(SUPERADMIN)`; every super-admin is an admin. */
  function IsSuperAdmin(st: AuthState): (r: bool)
    ensures r <==> st.userRole == Some(Superadmin)
    ensures r ==> IsAdmin(st)
  {
    HasRole(st, One(Superadmin))
  }

  /** `canAccess`: a blocked user is refused whatever the role; otherwise `hasRole`. */
  function CanAccess(st: AuthState, req: Required): (r: bool)
    ensures st.isBlocked ==> !r
    ensures !st.isBlocked ==> r == HasRole(st, req)
  {
    !st.isBlocked && HasRole(st, req)
  }

  const Initial := AuthState(None, false, false, None, false)

  /** `resetState`: no role, not blocked, not loading, not fetched, no error; afterwards no
      role requirement is met. */
  function ResetState(st: AuthState): (r: AuthState)
    ensures r.userRole.None? && !r.isBlocked && !r.isLoading && !r.isFetched && r.error.None?
    ensures forall req :: !CanAccess(r, req)
  {
    Initial
  }

  /** `fetchUserRole` with `hasUser` for `user.value` being set. It does nothing while a fetch
      is in flight or once the present user's role is fetched; without a user it resets. A
      success records role and block flag and marks the role fetched; a failure clears the
      role and records the error. Every fetch that runs ends with `isLoading` false. The second
      component is the returned role row, `null` being `None`. */
  function FetchUserRole(st: AuthState, hasUser: bool, outcome: Fetch): (r: (AuthState, Option<(Role, bool)>))
    ensures st.isLoading || (hasUser && st.isFetched) ==> r == (st, None)
    ensures !st.isLoading && !hasUser ==> r == (ResetState(st), None)
    ensures !r.0.isLoading || r.0 == st
    ensures r.1.Some? <==> !st.isLoading && hasUser && !st.isFetched && outcome.Fetched?
    ensures r.1.Some? ==>
      && r.1.value == (outcome.role, outcome.blocked)
      && r.0 == AuthState(Some(outcome.role), outcome.blocked, false, None, true)
    ensures !st.isLoading && hasUser && !st.isFetched && outcome.FetchFailed? ==>
      && r.0.userRole.None? && r.0.error.Some?
      && r.0.isBlocked == st.isBlocked && r.0.isFetched == st.isFetched
  {
    if st.isLoading || (hasUser && st.isFetched) then (st, None)
    else if !hasUser then (ResetState(st), None)
    else
      match outcome
      case Fetched(role, blocked) =>
        (AuthState(Some(role), blocked, false, None, true), Some((role, blocked)))
      case FetchFailed(thrown) =>
        var message := if thrown.Some? then thrown.value else "Failed to fetch user role";
        (st.(userRole := None, isLoading := false, error := Some(message)), None)
  }

  /** `signOut`: the state is reset whether or not the client's sign-out failed, and the
      failure, if any, is rethrown. */
  function SignOut(st: AuthState, logoutError: Option<string>): (r: (AuthState, Option<string>))
    ensures r.0 == ResetState(st) && r.1 == logoutError
  {
    (ResetState(st), logoutError)
  }

  /** The client-side watcher on `user.value?.sub`: a new truthy id clears `isFetched` and
      fetches; a missing or empty id resets; the same id changes nothing. */
  function OnUserChange(st: AuthState, oldId: Option<string>, newId: Option<string>, outcome: Fetch): (r: AuthState)
    ensures !Truthy(newId) ==> r == ResetState(st)
    ensures Truthy(newId) && newId == oldId ==> r == st
    ensures Truthy(newId) && newId != oldId && st.isLoading ==> r == st.(isFetched := false)
    ensures Truthy(newId) && newId != oldId && !st.isLoading ==>
      !r.isLoading && (r.isFetched <==> outcome.Fetched?) && (outcome.Fetched? ==> r.userRole == Some(outcome.role))
  {
    if Truthy(newId) && newId != oldId then FetchUserRole(st.(isFetched := false), true, outcome).0
    else if !Truthy(newId) then ResetState(st)
    else st
  }

  /** Once the present user's role is fetched, fetching again is a no-op whatever the request
      would return, and so is a second reset. */
  lemma FetchSettles(st: AuthState, first: Fetch, second: Fetch)
    requires !st.isLoading && !st.isFetched && first.Fetched?
    ensures var s1 := FetchUserRole(st, true, first).0;
      FetchUserRole(s1, true, second) == (s1, None)
    ensures ResetState(ResetState(st)) == ResetState(st)
  {
  }

  /** A failed fetch fails closed: no role requirement is met afterwards. */
  lemma FailedFetchDeniesAll(st: AuthState, thrown: Option<string>, req: Required)
    requires !st.isLoading && !st.isFetched
    ensures !CanAccess(FetchUserRole(st, true, FetchFailed(thrown)).0, req)
  {
  }

  /** The role names, in order. */
  function Names(roles: seq<Role>): (r: seq<string>)
    ensures |r| == |roles|
    ensures forall i :: 0 <= i < |roles| ==> r[i] == roles[i].Name()
  {
    if |roles| == 0 then [] else [roles[0].Name()] + Names(roles[1..])
  }

  lemma NameInjective(a: Role, b: Role)
    ensures a.Name() == b.Name() <==> a == b
  {
  }

  lemma NamesMembership(role: Role, roles: seq<Role>)
    ensures role.Name() in Names(roles) <==> role in roles
  {
    var ns := Names(roles);
    if role.Name() in ns {
      var i :| 0 <= i < |ns| && ns[i] == role.Name();
      NameInjective(role, roles[i]);
    }
    if role in roles {
      var i :| 0 <= i < |roles| && roles[i] == role;
      assert ns[i] == role.Name();
    }
  }

  /** The store and the server agree: after the role row is fetched for a signed-in user,
      `canAccess(roles)` holds exactly when the server's `checkUserRole` with the same roles
      admits that user. */
  lemma StoreAgreesWithServer(st: AuthState, sub: string, role: Role, blocked: bool, allowed: seq<Role>)
    requires !st.isLoading && !st.isFetched && sub != ""
    ensures var s1 := FetchUserRole(st, true, Fetched(role, blocked)).0;
      CanAccess(s1, AnyOf(allowed)) <==>
      Auth.CheckUserRole(Some(Auth.SessionUser(Some(sub))), Some(Auth.RoleRow(role.Name(), blocked)), Names(allowed)).Ok?
  {
    NamesMembership(role, allowed);
  }
}

=== FILE: budget.dfy ===
/** The legacy PHP budget views (`NgiritPol` in app.classes.php): the monthly total's
    three-way colour against the spending limits, the detail table's row highlight, day cells
    and footer, and the history view's year/month ranges. Database rows and the clock are
    parameters. */
module Budget {
  import opened Wrappers
  import opened Strings
  import opened Seqs
  import opened DigitGrouping
  import opened Calendar

  const DefaultUpper: int := 250000
  const DefaultLower: int := 210000

  /** One row of the monthly sum query: `sum(spending)`, and the `upper`/`lower` of the joined
      limit; SQL NULL is `None`. */
  datatype MonthSum = MonthSum(total: Option<int>, upper: Option<int>, lower: Option<int>)

  /** The values the classifier compares, after PHP's `empty()` defaults. */
  datatype Limits = Limits(total: int, upper: int, lower: int)

  /** PHP's `empty()` on a numeric column: NULL and 0 are empty. */
  predicate IsEmpty(v: Option<int>) { v.None? || v.value == 0 }

  function OrDefault(v: Option<int>, d: int): int {
    if IsEmpty(v) then d else v.value
  }

  /** An empty total becomes 0; an empty bound becomes the default. A bound is never left at
      0, so applying the defaults again changes nothing. */
  function Normalise(row: MonthSum): (r: Limits)
    ensures r.upper != 0 && r.lower != 0
    ensures IsEmpty(row.total) ==> r.total == 0
    ensures !IsEmpty(row.total) ==> r.total == row.total.value
    ensures IsEmpty(row.upper) <==> r.upper == DefaultUpper && (row.upper.None? || row.upper.value != DefaultUpper)
    ensures IsEmpty(row.lower) <==> r.lower == DefaultLower && (row.lower.None? || row.lower.value != DefaultLower)
  {
    Limits(OrDefault(row.total, 0), OrDefault(row.upper, DefaultUpper), OrDefault(row.lower, DefaultLower))
  }

  /** Defaults are applied once: feeding normalised values back in gives them unchanged. */
  lemma NormaliseIdempotent(row: MonthSum)
    ensures var r := Normalise(row);
      Normalise(MonthSum(Some(r.total), Some(r.upper), Some(r.lower))) == r
  {
  }

  /** `Unset` is a total no branch colours: the variable keeps whatever it held. */
  datatype Colour = Red | Yellow | Green | Unset

  /** The if/else-if chain of `getIndexBody` and `getMonthlyGeneral`. */
  function Classify(total: int, upper: int, lower: int): (c: Colour)
    ensures c == Red <==> total > upper
    ensures c == Yellow <==> lower <= total <= upper
    ensures c == Green <==> 0 <= total < lower && total <= upper
    ensures c == Unset <==> total < 0 && total < lower && total <= upper
  {
    if total > upper then Red
    else if total <= upper && total >= lower then Yellow
    else if total >= 0 && total < lower then Green
    else Unset
  }

  function Rank(c: Colour): int {
    match c
    case Unset => -1
    case Green => 0
    case Yellow => 1
    case Red => 2
  }

  /** With ordered bounds, spending more never moves a month to a calmer colour, and every
      non-negative total gets a colour. */
  lemma ClassifyMonotone(t1: int, t2: int, upper: int, lower: int)
    requires 0 <= t1 <= t2 && lower <= upper
    ensures Classify(t1, upper, lower) != Unset
    ensures Rank(Classify(t1, upper, lower)) <= Rank(Classify(t2, upper, lower))
  {
  }

  /** With the default limits a month is green below 210000, yellow from 210000 up to and
      including 250000, and red above. */
  lemma DefaultBands(total: int)
    requires total >= 0
    ensures var c := Classify(total, DefaultUpper, DefaultLower);
      && (total < 210000 ==> c == Green)
      && (210000 <= total <= 250000 ==> c == Yellow)
      && (total > 250000 ==> c == Red)
  {
  }

  /** The circle of the index page: its colour class and `'Rp ' . number_format(total)`.
      The amount reads back as the total once the separators are removed. */
  function IndexCircle(row: MonthSum): (r: (Colour, string))
    ensures var l := Normalise(row);
      && r.0 == Classify(l.total, l.upper, l.lower)
      && StartsWith(r.1, "Rp ")
      && Without(r.1[3..], '.') == IntToString(l.total)
  {
    var l := Normalise(row);
    var text := "Rp " + ThousandsDots(l.total);
    ThousandsDotsAgrees(l.total);
    assert text[3..] == ThousandsDots(l.total);
    (Classify(l.total, l.upper, l.lower), text)
  }

  // ---------------------------------------------------------------------------------------
  // Monthly detail table

  /** One spending of the month, in `dt` order. */
  datatype DetailRow = DetailRow(day: int, event: string, spending: int)

  datatype RowClass = BgRed | BgYellow | Plain

  /** Row highlight: red above 50000, yellow above 25000 up to 50000. */
  function RowClassOf(spending: int): (c: RowClass)
    ensures c == BgRed <==> spending > 50000
    ensures c == BgYellow <==> 25000 < spending <= 50000
    ensures c == Plain <==> spending <= 25000
  {
    if spending > 50000 then BgRed
    else if spending > 25000 && spending <= 50000 then BgYellow
    else Plain
  }

  /** `$md != $d` with `$md` NULL before the first row: PHP compares NULL loosely, and
      NULL equals 0. */
  predicate DayChanged(prev: Option<int>, day: int) {
    match prev
    case None => day != 0
    case Some(p) => p != day
  }

  datatype Cell = Cell(rowClass: RowClass, day: Option<int>, event: string, spending: int)

  function RowCells(rows: seq<DetailRow>, prev: Option<int>): (r: seq<Cell>)
    ensures |r| == |rows|
    ensures forall i :: 0 <= i < |rows| ==>
      && r[i].rowClass == RowClassOf(rows[i].spending)
      && r[i].event == rows[i].event && r[i].spending == rows[i].spending
    decreases |rows|
  {
    if |rows| == 0 then []
    else
      var row := rows[0];
      var shown := if DayChanged(prev, row.day) then Some(row.day) else None;
      [Cell(RowClassOf(row.spending), shown, row.event, row.spending)] + RowCells(rows[1..], Some(row.day))
  }

  datatype DetailView = DetailView(cells: seq<Cell>, total: int)

  function Spending(r: DetailRow): int { r.spending }

  /** `getMonthlyDetail`: one cell row per spending, the day shown only where it changes,
      and the footer sum. */
  function MonthlyDetail(rows: seq<DetailRow>): (v: DetailView)
    ensures |v.cells| == |rows|
    ensures v.total == SumBy(rows, Spending)
  {
    DetailView(RowCells(rows, None), SumBy(rows, Spending))
  }

  /** A row shows its day exactly when it differs from the previous row's day (the first
      row shows any real day of the month). */
  lemma {:induction false} DayCellsShowChanges(rows: seq<DetailRow>)
    ensures var cells := MonthlyDetail(rows).cells;
      forall i :: 0 <= i < |rows| ==>
        cells[i].day == (if DayChanged(if i == 0 then None else Some(rows[i - 1].day), rows[i].day)
                         then Some(rows[i].day) else None)
  {
    DayCellsFrom(rows, None);
  }

  lemma {:induction false} DayCellsFrom(rows: seq<DetailRow>, prev: Option<int>)
    ensures var cells := RowCells(rows, prev);
      forall i :: 0 <= i < |rows| ==>
        cells[i].day == (if DayChanged(if i == 0 then prev else Some(rows[i - 1].day), rows[i].day)
                         then Some(rows[i].day) else None)
    decreases |rows|
  {
    if |rows| > 0 {
      DayCellsFrom(rows[1..], Some(rows[0].day));
    }
  }

  /** Reading the day column downwards, carrying the last shown day into blank cells. */
  function FillDown(cells: seq<Cell>, last: int): (r: seq<int>)
    ensures |r| == |cells|
    decreases |cells|
  {
    if |cells| == 0 then []
    else
      var d := cells[0].day.GetOr(last);
      [d] + FillDown(cells[1..], d)
  }

  predicate RealDays(rows: seq<DetailRow>) {
    forall i :: 0 <= i < |rows| ==> 1 <= rows[i].day <= 31
  }

  function Days(rows: seq<DetailRow>): (r: seq<int>)
    ensures |r| == |rows| && forall i :: 0 <= i < |rows| ==> r[i] == rows[i].day
  {
    if |rows| == 0 then [] else [rows[0].day] + Days(rows[1..])
  }

  /** No information is lost by blanking repeated days: filling the blanks from above gives
      back every row's day. */
  lemma DayCellsRoundTrip(rows: seq<DetailRow>)
    requires RealDays(rows)
    ensures FillDown(MonthlyDetail(rows).cells, 0) == Days(rows)
  {
    FillDownFrom(rows, None, 0);
  }

  lemma {:induction false} FillDownFrom(rows: seq<DetailRow>, prev: Option<int>, last: int)
    requires RealDays(rows)
    requires prev == None || prev == Some(last)
    ensures FillDown(RowCells(rows, prev), last) == Days(rows)
    decreases |rows|
  {
    if |rows| > 0 {
      var d := rows[0].day;
      assert RealDays(rows[1..]);
      FillDownFrom(rows[1..], Some(d), d);
      var cells := RowCells(rows, prev);
      assert cells[0].day.GetOr(last) == d;
      assert cells[1..] == RowCells(rows[1..], Some(d));
    }
  }

  function IsRedRow(r: DetailRow): bool { r.spending > 50000 }

  /** With no refunds in the month, each red row contributes more than 50000 to the footer. */
  lemma {:induction false} FooterCoversRedRows(rows: seq<DetailRow>)
    requires forall i :: 0 <= i < |rows| ==> rows[i].spending >= 0
    ensures MonthlyDetail(rows).total >= 50001 * CountBy(rows, IsRedRow)
    decreases |rows|
  {
    if |rows| > 0 {
      FooterCoversRedRows(rows[1..]);
    }
  }

  // ---------------------------------------------------------------------------------------
  // History view

  const StartYear: int := 2014
  const StartMonth: int := 8

  datatype YearMonth = YearMonth(year: int, month: int)

  /** Months since year 0, so consecutive calendar months differ by one. */
  function MonthIndex(ym: YearMonth): int { ym.year * 12 + ym.month - 1 }

  /** `for($j = $hi; $j >= $lo; $j--)`. */
  function Countdown(hi: int, lo: int): (r: seq<int>)
    ensures |r| == if hi < lo then 0 else hi - lo + 1
    ensures forall k :: 0 <= k < |r| ==> r[k] == hi - k
    decreases hi - lo + 1
  {
    if hi < lo then [] else [hi] + Countdown(hi - 1, lo)
  }

  /** Which month bounds the years loop uses: the ones written in the source, or the
      intended ones. */
  datatype Bounds = AsWritten | Intended

  /** The months listed for `year`, newest first. As written: the current year (unless it is
      2014) from the current month down to January, 2014 from the current month down to
      August, other years December to January. As intended, 2014 starts from December unless
      it is the current year. */
  function MonthsShown(bounds: Bounds, year: int, endYear: int, currMonth: int): seq<int> {
    match bounds
    case AsWritten =>
      if year == endYear && year != StartYear then Countdown(currMonth, 1)
      else if year == StartYear then Countdown(currMonth, StartMonth)
      else Countdown(12, 1)
    case Intended =>
      var top := if year == endYear then currMonth else 12;
      Countdown(top, if year == StartYear then StartMonth else 1)
  }

  function Tag(year: int, months: seq<int>): (r: seq<YearMonth>)
    ensures |r| == |months| && forall k :: 0 <= k < |r| ==> r[k] == YearMonth(year, months[k])
  {
    seq(|months|, k requires 0 <= k < |months| => YearMonth(year, months[k]))
  }

  /** The years loop `for($i = $endYear; $i >= 2014; $i--)` from year `year` down, each
      year's months in turn. */
  function HistoryFrom(bounds: Bounds, year: int, endYear: int, currMonth: int): seq<YearMonth>
    decreases year - StartYear + 1
  {
    if year < StartYear then []
    else Tag(year, MonthsShown(bounds, year, endYear, currMonth)) + HistoryFrom(bounds, year - 1, endYear, currMonth)
  }

  function HistoryAsWritten(endYear: int, currMonth: int): seq<YearMonth> {
    HistoryFrom(AsWritten, endYear, endYear, currMonth)
  }

  function History(endYear: int, currMonth: int): seq<YearMonth> {
    HistoryFrom(Intended, endYear, endYear, currMonth)
  }

  /** `h` lists valid months counting down one at a time from month index `top`. */
  ghost predicate CountsDownFrom(h: seq<YearMonth>, top: int) {
    forall k :: 0 <= k < |h| ==> 1 <= h[k].month <= 12 && MonthIndex(h[k]) == top - k
  }

  lemma CountsDownAppend(a: seq<YearMonth>, b: seq<YearMonth>, top: int)
    requires CountsDownFrom(a, top) && CountsDownFrom(b, top - |a|)
    ensures CountsDownFrom(a + b, top)
  {
    forall k | 0 <= k < |a + b|
      ensures 1 <= (a + b)[k].month <= 12 && MonthIndex((a + b)[k]) == top - k
    {
      if k >= |a| {
        assert (a + b)[k] == b[k - |a|];
      }
    }
  }

  lemma CountdownOfYear(year: int, hi: int, lo: int)
    requires 1 <= lo && hi <= 12
    ensures CountsDownFrom(Tag(year, Countdown(hi, lo)), MonthIndex(YearMonth(year, hi)))
  {
  }

  /** The years before the current one, from `year` down, list every month from December of
      `year` back to August 2014. */
  lemma {:induction false} PastYearsCountDown(year: int, endYear: int, currMonth: int)
    requires StartYear - 1 <= year < endYear
    ensures var h := HistoryFrom(Intended, year, endYear, currMonth);
      && CountsDownFrom(h, MonthIndex(YearMonth(year, 12)))
      && |h| == if year < StartYear then 0 else MonthIndex(YearMonth(year, 12)) - MonthIndex(YearMonth(StartYear, StartMonth)) + 1
    decreases year - StartYear + 1
  {
    if year >= StartYear {
      PastYearsCountDown(year - 1, endYear, currMonth);
      var lo := if year == StartYear then StartMonth else 1;
      var ms := MonthsShown(Intended, year, endYear, currMonth);
      assert ms == Countdown(12, lo);
      CountdownOfYear(year, 12, lo);
      CountsDownAppend(Tag(year, ms), HistoryFrom(Intended, year - 1, endYear, currMonth), MonthIndex(YearMonth(year, 12)));
    }
  }

  /** The history view lists every month from the current one back to August 2014, each
      exactly once, newest first: entry `k` is `k` months before now. */
  lemma HistoryIsEveryMonth(endYear: int, currMonth: int)
    requires 1 <= currMonth <= 12
    ensures var h := History(endYear, currMonth);
      var span := MonthIndex(YearMonth(endYear, currMonth)) - MonthIndex(YearMonth(StartYear, StartMonth)) + 1;
      && CountsDownFrom(h, MonthIndex(YearMonth(endYear, currMonth)))
      && |h| == if span < 0 then 0 else span
  {
    if endYear >= StartYear {
      CurrentYearCountsDown(endYear, currMonth);
    }
  }

  /** The current year's block followed by the past years. */
  lemma CurrentYearCountsDown(endYear: int, currMonth: int)
    requires endYear >= StartYear && 1 <= currMonth <= 12
    ensures var h := History(endYear, currMonth);
      && CountsDownFrom(h, MonthIndex(YearMonth(endYear, currMonth)))
      && |h| == |MonthsShown(Intended, endYear, endYear, currMonth)|
              + (if endYear == StartYear then 0 else MonthIndex(YearMonth(endYear - 1, 12)) - MonthIndex(YearMonth(StartYear, StartMonth)) + 1)
  {
    var lo := if endYear == StartYear then StartMonth else 1;
    var ms := MonthsShown(Intended, endYear, endYear, currMonth);
    var past := HistoryFrom(Intended, endYear - 1, endYear, currMonth);
    assert ms == Countdown(currMonth, lo);
    assert History(endYear, currMonth) == Tag(endYear, ms) + past;
    PastYearsCountDown(endYear - 1, endYear, currMonth);
    CountdownOfYear(endYear, currMonth, lo);
    assert |Tag(endYear, ms)| == |ms|;
    CountsDownAppend(Tag(endYear, ms), past, MonthIndex(YearMonth(endYear, currMonth)));
  }

  /** In 2014 itself, the year the view was written, the bounds as written list the intended
      months. */
  lemma AsWrittenAgreesIn2014(currMonth: int)
    ensures HistoryAsWritten(StartYear, currMonth) == History(StartYear, currMonth)
  {
    assert MonthsShown(AsWritten, StartYear, StartYear, currMonth) == MonthsShown(Intended, StartYear, StartYear, currMonth);
  }

  /** As written, once the current year is past 2014, the 2014 block runs from the current
      month down to August: before August nothing of 2014 is listed, so August to December
      2014 disappear from the history (in March 2016 the list ends at January 2015). */
  lemma HistoryAsWrittenLoses2014(endYear: int, currMonth: int)
    requires endYear > StartYear && 1 <= currMonth < StartMonth
    ensures forall ym :: ym in HistoryAsWritten(endYear, currMonth) ==> ym.year > StartYear
    ensures YearMonth(StartYear, 12) in History(endYear, currMonth)
    ensures YearMonth(StartYear, 12) !in HistoryAsWritten(endYear, currMonth)
  {
    HistoryAsWrittenByIndex(endYear, currMonth);
    var w := HistoryAsWritten(endYear, currMonth);
    var top := MonthIndex(YearMonth(endYear, currMonth));
    var span := top - MonthIndex(YearMonth(StartYear, 12));
    assert |Countdown(currMonth, StartMonth)| == 0;
    forall ym | ym in w
      ensures ym.year > StartYear
    {
      var j :| 0 <= j < |w| && w[j] == ym;
      assert MonthIndex(ym) == top - j && 1 <= ym.month <= 12;
    }
    HistoryIsEveryMonth(endYear, currMonth);
    var h := History(endYear, currMonth);
    var k := MonthIndex(YearMonth(endYear, currMonth)) - MonthIndex(YearMonth(StartYear, 12));
    assert MonthIndex(h[k]) == MonthIndex(YearMonth(StartYear, 12));
    assert h[k] == YearMonth(StartYear, 12);
  }

  /** One link of the history view: the three-letter month, the colour class and the amount. */
  datatype HistoryCell = HistoryCell(at: YearMonth, shortName: string, colour: Colour, text: string)

  predicate ValidMonths(months: seq<YearMonth>) {
    forall k :: 0 <= k < |months| ==> 1 <= months[k].month <= 12
  }

  function Lookup(query: YearMonth -> MonthSum, ym: YearMonth): Limits {
    Normalise(query(ym))
  }

  /** The colour a branch gives month `ym`, or `Unset`. */
  function OwnColour(query: YearMonth -> MonthSum, ym: YearMonth): Colour {
    var l := Lookup(query, ym);
    Classify(l.total, l.upper, l.lower)
  }

  /** The colour left in `$tdColour` after a month whose own colour is `own`. */
  function Carry(own: Colour, prev: Colour): Colour {
    if own == Unset then prev else own
  }

  /** The inner loop's cells. `$tdColour` is never reset, so a month whose total no branch
      colours shows the colour `carried` from the month before it. */
  function HistoryCells(months: seq<YearMonth>, query: YearMonth -> MonthSum, carried: Colour): (r: seq<HistoryCell>)
    requires ValidMonths(months)
    ensures |r| == |months|
    ensures forall k :: 0 <= k < |r| ==> r[k].at == months[k]
    decreases |months|
  {
    if |months| == 0 then []
    else
      var ym := months[0];
      var shown := Carry(OwnColour(query, ym), carried);
      var cell := HistoryCell(ym, ShortMonthName(ym.month), shown, "Rp " + ThousandsDots(Lookup(query, ym).total));
      assert ValidMonths(months[1..]);
      [cell] + HistoryCells(months[1..], query, shown)
  }

  /** Cell `k` shows the three-letter name of `months[k]` and an amount that reads back as
      the month's total. */
  ghost predicate TextsReadBack(r: seq<HistoryCell>, months: seq<YearMonth>, query: YearMonth -> MonthSum)
    requires ValidMonths(months) && |r| == |months|
  {
    forall k :: 0 <= k < |r| ==>
      && r[k].shortName == ShortMonthName(months[k].month)
      && StartsWith(r[k].text, "Rp ")
      && Without(r[k].text[3..], '.') == IntToString(Lookup(query, months[k]).total)
  }

  /** Each cell shows the three-letter month name and an amount that reads back as the
      month's total. */
  lemma {:induction false} HistoryCellTexts(months: seq<YearMonth>, query: YearMonth -> MonthSum, carried: Colour)
    requires ValidMonths(months)
    ensures TextsReadBack(HistoryCells(months, query, carried), months, query)
    decreases |months|
  {
    if |months| > 0 {
      var r := HistoryCells(months, query, carried);
      var shown := Carry(OwnColour(query, months[0]), carried);
      var total := Lookup(query, months[0]).total;
      assert ValidMonths(months[1..]);
      HistoryCellTexts(months[1..], query, shown);
      ThousandsDotsAgrees(total);
      assert r[0].text[3..] == ThousandsDots(total);
      var r' := HistoryCells(months[1..], query, shown);
      assert forall k :: 0 < k < |r| ==> r[k] == r'[k - 1] && months[k] == months[1..][k - 1];
    }
  }

  /** Cell `k`'s colour is the month's own colour, or, when no branch colours the month,
      the colour of the cell before it (`carried` for the first). */
  ghost predicate ColoursCarry(r: seq<HistoryCell>, months: seq<YearMonth>, query: YearMonth -> MonthSum, carried: Colour)
    requires |r| == |months|
  {
    forall k :: 0 <= k < |r| ==>
      r[k].colour == Carry(OwnColour(query, months[k]), if k == 0 then carried else r[k - 1].colour)
  }

  lemma {:induction false} CarriedColours(months: seq<YearMonth>, query: YearMonth -> MonthSum, carried: Colour)
    requires ValidMonths(months)
    ensures ColoursCarry(HistoryCells(months, query, carried), months, query, carried)
    decreases |months|
  {
    if |months| > 0 {
      var shown := Carry(OwnColour(query, months[0]), carried);
      assert ValidMonths(months[1..]);
      CarriedColours(months[1..], query, shown);
      var r := HistoryCells(months, query, carried);
      var r' := HistoryCells(months[1..], query, shown);
      forall k | 0 < k < |r|
        ensures r[k].colour == Carry(OwnColour(query, months[k]), r[k - 1].colour)
      {
        assert r[k] == r'[k - 1] && months[k] == months[1..][k - 1];
        if k == 1 {
          assert r[0].colour == shown;
        } else {
          assert r[k - 1] == r'[k - 2];
        }
      }
    }
  }

  /** A month with a non-negative total always shows its own colour; only a negative total
      can inherit one. */
  lemma NonNegativeMonthsShowOwnColour(months: seq<YearMonth>, query: YearMonth -> MonthSum, carried: Colour, k: int)
    requires ValidMonths(months) && 0 <= k < |months|
    requires Lookup(query, months[k]).total >= 0
    ensures HistoryCells(months, query, carried)[k].colour == OwnColour(query, months[k]) != Unset
  {
    CarriedColours(months, query, carried);
    var r := HistoryCells(months, query, carried);
    var l := Lookup(query, months[k]);
    assert OwnColour(query, months[k]) == Classify(l.total, l.upper, l.lower) != Unset;
    assert r[k].colour == Carry(OwnColour(query, months[k]), if k == 0 then carried else r[k - 1].colour);
  }

  /** `getMonthlyGeneral` with the intended bounds: the cells for every month back to August
      2014, starting with no colour. */
  function CorrectedHistoryView(endYear: int, currMonth: int, query: YearMonth -> MonthSum): (r: seq<HistoryCell>)
    requires 1 <= currMonth <= 12
    ensures |r| == |History(endYear, currMonth)|
    ensures forall k :: 0 <= k < |r| ==>
      MonthIndex(r[k].at) == MonthIndex(YearMonth(endYear, currMonth)) - k
  {
    HistoryIsEveryMonth(endYear, currMonth);
    HistoryCells(History(endYear, currMonth), query, Unset)
  }

  /** `h` counts down one month at a time from month index `top` for its first `span`
      entries, and then lists 2014 from month `currMonth` down to August. */
  ghost predicate AsWrittenLayout(h: seq<YearMonth>, top: int, span: int, currMonth: int) {
    && 0 <= span <= |h|
    && |h| == span + |Countdown(currMonth, StartMonth)|
    && (forall k :: 0 <= k < span ==> 1 <= h[k].month <= 12 && MonthIndex(h[k]) == top - k)
    && (forall k :: span <= k < |h| ==> h[k] == YearMonth(StartYear, currMonth - (k - span)))
  }

  /** A block counting down from `top` in front of a list in that layout, whose count goes on
      where the block stops, keeps the layout. */
  lemma PrependBlock(t: seq<YearMonth>, rest: seq<YearMonth>, span: int, top: int, currMonth: int)
    requires CountsDownFrom(t, top) && AsWrittenLayout(rest, top - |t|, span, currMonth)
    ensures AsWrittenLayout(t + rest, top, |t| + span, currMonth)
  {
    var h := t + rest;
    forall k | 0 <= k < |t| + span
      ensures 1 <= h[k].month <= 12 && MonthIndex(h[k]) == top - k
    {
      if k >= |t| {
        assert h[k] == rest[k - |t|];
      }
    }
    forall k | |t| + span <= k < |h|
      ensures h[k] == YearMonth(StartYear, currMonth - (k - (|t| + span)))
    {
      assert h[k] == rest[k - |t|];
    }
  }

  /** As written, the years from `year` down, when `year` is before the current one: every
      month from December of `year` back to January 2015, then 2014 from the current month's
      number down to August. */
  lemma {:induction false} AsWrittenPastYears(year: int, endYear: int, currMonth: int)
    requires StartYear <= year < endYear
    ensures AsWrittenLayout(HistoryFrom(AsWritten, year, endYear, currMonth), MonthIndex(YearMonth(year, 12)),
                            MonthIndex(YearMonth(year, 12)) - MonthIndex(YearMonth(StartYear, 12)), currMonth)
    decreases year - StartYear
  {
    var h := HistoryFrom(AsWritten, year, endYear, currMonth);
    var rest := HistoryFrom(AsWritten, year - 1, endYear, currMonth);
    var ms := MonthsShown(AsWritten, year, endYear, currMonth);
    assert h == Tag(year, ms) + rest;
    if year == StartYear {
      assert rest == [];
      assert ms == Countdown(currMonth, StartMonth);
      assert h == Tag(year, ms);
    } else {
      AsWrittenPastYears(year - 1, endYear, currMonth);
      assert ms == Countdown(12, 1);
      CountdownOfYear(year, 12, 1);
      PrependBlock(Tag(year, ms), rest, MonthIndex(YearMonth(year - 1, 12)) - MonthIndex(YearMonth(StartYear, 12)),
                   MonthIndex(YearMonth(year, 12)), currMonth);
    }
  }

  /** As written, after 2014: the months count down from the current one to January 2015,
      and then 2014 runs from the current month's number down to August. */
  lemma {:induction false} HistoryAsWrittenShape(endYear: int, currMonth: int)
    requires endYear > StartYear && 1 <= currMonth <= 12
    ensures AsWrittenLayout(HistoryAsWritten(endYear, currMonth), MonthIndex(YearMonth(endYear, currMonth)),
                            MonthIndex(YearMonth(endYear, currMonth)) - MonthIndex(YearMonth(StartYear, 12)), currMonth)
  {
    var ms := MonthsShown(AsWritten, endYear, endYear, currMonth);
    var rest := HistoryFrom(AsWritten, endYear - 1, endYear, currMonth);
    assert ms == Countdown(currMonth, 1);
    assert HistoryAsWritten(endYear, currMonth) == Tag(endYear, ms) + rest;
    AsWrittenPastYears(endYear - 1, endYear, currMonth);
    CountdownOfYear(endYear, currMonth, 1);
    PrependBlock(Tag(endYear, ms), rest, MonthIndex(YearMonth(endYear - 1, 12)) - MonthIndex(YearMonth(StartYear, 12)),
                 MonthIndex(YearMonth(endYear, currMonth)), currMonth);
  }

  /** The months the loops list as written, by index: none before 2014, the intended ones in
      2014, and after 2014 a countdown to January 2015 followed by 2014 from the current
      month's number down to August. */
  lemma {:induction false} HistoryAsWrittenByIndex(endYear: int, currMonth: int)
    requires 1 <= currMonth <= 12
    ensures var h := HistoryAsWritten(endYear, currMonth);
      && ValidMonths(h)
      && (endYear < StartYear ==> h == [])
      && (endYear == StartYear ==> h == History(endYear, currMonth))
      && (endYear > StartYear ==>
           var span := MonthIndex(YearMonth(endYear, currMonth)) - MonthIndex(YearMonth(StartYear, 12));
           && |h| == span + |Countdown(currMonth, StartMonth)|
           && (forall k :: 0 <= k < span ==> MonthIndex(h[k]) == MonthIndex(YearMonth(endYear, currMonth)) - k)
           && (forall k :: span <= k < |h| ==> h[k] == YearMonth(StartYear, currMonth - (k - span))))
  {
    var h := HistoryAsWritten(endYear, currMonth);
    if endYear > StartYear {
      HistoryAsWrittenShape(endYear, currMonth);
    } else if endYear == StartYear {
      AsWrittenAgreesIn2014(currMonth);
      HistoryIsEveryMonth(endYear, currMonth);
    }
  }

  /** `getMonthlyGeneral` as written: the cells for every month the loops list, starting with
      no colour. In 2014 it is the intended view; after 2014 it counts down from the current
      month to January 2015 and then shows 2014 only from the current month's number down to
      August (nothing of 2014 before August). */
  function HistoryView(endYear: int, currMonth: int, query: YearMonth -> MonthSum): (r: seq<HistoryCell>)
    requires 1 <= currMonth <= 12
    ensures |r| == |HistoryFrom(AsWritten, endYear, endYear, currMonth)|
    ensures forall k :: 0 <= k < |r| ==> 1 <= r[k].at.month <= 12
    ensures endYear < StartYear ==> r == []
    ensures endYear == StartYear ==> r == CorrectedHistoryView(endYear, currMonth, query)
    ensures endYear > StartYear ==>
      var span := MonthIndex(YearMonth(endYear, currMonth)) - MonthIndex(YearMonth(StartYear, 12));
      && |r| == span + |Countdown(currMonth, StartMonth)|
      && (forall k :: 0 <= k < span ==> MonthIndex(r[k].at) == MonthIndex(YearMonth(endYear, currMonth)) - k)
      && (forall k :: span <= k < |r| ==> r[k].at == YearMonth(StartYear, currMonth - (k - span)))
  {
    HistoryAsWrittenByIndex(endYear, currMonth);
    HistoryCells(HistoryAsWritten(endYear, currMonth), query, Unset)
  }

  /** In March 2016 the view as written shows 15 links, March 2016 back to January 2015,
      where the intended view shows 20, back to August 2014. */
  lemma HistoryViewMarch2016(endYear: int, currMonth: int, query: YearMonth -> MonthSum)
    requires endYear == 2016 && currMonth == 3
    ensures |HistoryView(endYear, currMonth, query)| == 15
    ensures HistoryView(endYear, currMonth, query)[14].at == YearMonth(2015, 1)
    ensures |CorrectedHistoryView(endYear, currMonth, query)| == 20
  {
    AsWrittenMarch2016(endYear, currMonth, query);
    HistoryIsEveryMonth(endYear, currMonth);
  }

  /** As written, when the current month comes before August the loop over 2014 shows no
      month at all, so the history after 2014 stops at January 2015. */
  lemma AsWrittenSkipsStartYear(endYear: int, currMonth: int, query: YearMonth -> MonthSum)
    requires endYear > StartYear && 1 <= currMonth < StartMonth
    ensures var r := HistoryView(endYear, currMonth, query);
      && |r| == MonthIndex(YearMonth(endYear, currMonth)) - MonthIndex(YearMonth(StartYear, 12))
      && r[|r| - 1].at == YearMonth(StartYear + 1, 1)
  {
    var r := HistoryView(endYear, currMonth, query);
    var span := MonthIndex(YearMonth(endYear, currMonth)) - MonthIndex(YearMonth(StartYear, 12));
    assert |Countdown(currMonth, StartMonth)| == 0;
    assert |r| == span;
    assert MonthIndex(r[span - 1].at) == MonthIndex(YearMonth(StartYear + 1, 1));
  }

  lemma AsWrittenMarch2016(endYear: int, currMonth: int, query: YearMonth -> MonthSum)
    requires endYear == 2016 && currMonth == 3
    ensures var r := HistoryView(endYear, currMonth, query);
      |r| == 15 && r[14].at == YearMonth(2015, 1)
  {
    AsWrittenSkipsStartYear(endYear, currMonth, query);
  }
}

=== FILE: calendar.dfy ===
/** The Indonesian month-name table shared by the PHP views (`$this->monthNames`) and the
    Laravel-era `dateFormal` filter. */
module Calendar {
  import opened Strings

  /** Month names indexed by month number; index 0 is an unused placeholder. */
  const MonthNames: seq<string> := ["", "Januari", "Februari", "Maret", "April", "Mei", "Juni",
    "Juli", "Agustus", "September", "Oktober", "November", "Desember"]

  predicate IsLetters(s: string) { forall i :: 0 <= i < |s| ==> IsAsciiLetter(s[i]) }

  /** The name of month `m` (1 = January). The placeholder is never returned. */
  function MonthName(m: int): (r: string)
    requires 1 <= m <= 12
    ensures |r| >= 3 && IsLetters(r)
  {
    MonthNames[m]
  }

  /** The three-letter label of the history view (`substr($name, 0, 3)`). */
  function ShortMonthName(m: int): (r: string)
    requires 1 <= m <= 12
    ensures |r| == 3 && r == MonthName(m)[..3]
  {
    MonthName(m)[..3]
  }

  /** The month whose three-letter label is `s`, searching from month `m`; 0 when none. */
  function MonthOfShortName(s: string, m: int := 1): (r: int)
    requires 1 <= m <= 13
    ensures r == 0 || (m <= r <= 12 && ShortMonthName(r) == s)
    decreases 13 - m
  {
    if m == 13 then 0
    else if ShortMonthName(m) == s then m
    else MonthOfShortName(s, m + 1)
  }

  /** Reading a three-letter label back gives its month. */
  lemma ShortMonthNameRoundTrip(m: int)
    requires 1 <= m <= 12
    ensures MonthOfShortName(ShortMonthName(m)) == m
  {
    var s := ShortMonthName(m);
    var k := 1;
    while k < m
      invariant 1 <= k <= m
      invariant MonthOfShortName(s, k) == MonthOfShortName(s)
    {
      assert ShortMonthName(k) != s by {
        ShortLabelsDiffer(k, m);
      }
      k := k + 1;
    }
  }

  /** Consecutive-by-position labels differ in a way the solver can see letter by letter. */
  lemma ShortLabelsDiffer(k: int, m: int)
    requires 1 <= k < m <= 12
    ensures ShortMonthName(k) != ShortMonthName(m)
  {
    var a, b := ShortMonthName(k), ShortMonthName(m);
    assert a[0] != b[0] || a[1] != b[1] || a[2] != b[2];
  }

  /** The three-letter labels tell the months apart, and so do the full names. */
  lemma ShortMonthNamesDistinct(i: int, j: int)
    requires 1 <= i <= 12 && 1 <= j <= 12 && i != j
    ensures ShortMonthName(i) != ShortMonthName(j)
    ensures MonthName(i) != MonthName(j)
  {
    ShortMonthNameRoundTrip(i);
    ShortMonthNameRoundTrip(j);
  }
}

=== FILE: category.dfy ===
/** The category types (`utils/constants/category.ts`): the two values of the database enum
    `category_type`, the guard that recognises them and their display names. */
module Category {

  const Income := "income"
  const Expense := "expense"

  /** `getAllCategoryTypes`: the values of `CATEGORY_TYPE`, in declaration order. */
  function AllCategoryTypes(): (ts: seq<string>)
    ensures |ts| == 2 && ts[0] == Income && ts[1] == Expense
  {
    [Income, Expense]
  }

  /** `isValidCategoryType`: `Object.values(CATEGORY_TYPE).includes(type)`. */
  predicate IsValidCategoryType(t: string) {
    t in AllCategoryTypes()
  }

  /** The guard accepts exactly the two enum values. */
  lemma ValidTypesAreIncomeAndExpense(t: string)
    ensures IsValidCategoryType(t) <==> t == "income" || t == "expense"
  {
  }

  /** `getCategoryTypeDisplayName`: capitalised for the two known types, anything else is
      returned as it came. */
  function DisplayName(t: string): (d: string)
    ensures t == Income ==> d == "Income"
    ensures t == Expense ==> d == "Expense"
    ensures !IsValidCategoryType(t) ==> d == t
  {
    if t == Income then "Income" else if t == Expense then "Expense" else t
  }

  /** Every listed type passes the guard and the listed types tell apart by display name. */
  lemma ListedTypesAreValidAndDistinct()
    ensures forall t :: t in AllCategoryTypes() ==> IsValidCategoryType(t)
    ensures DisplayName(AllCategoryTypes()[0]) != DisplayName(AllCategoryTypes()[1])
  {
  }

  /** On valid types the display name is one-to-one and never the raw value. */
  lemma DisplayNameOnValid(a: string, b: string)
    requires IsValidCategoryType(a) && IsValidCategoryType(b)
    ensures DisplayName(a) == DisplayName(b) <==> a == b
    ensures DisplayName(a) != a
  {
  }
}

=== FILE: digit_grouping.dfy ===
/** Thousands grouping with `.` as the separator: the Vue `digitGrouping` filter
    (`str.replace(/(\d)(?=(\d{3})+(?!\d))/g, '$1.')`), its end-anchored variant
    (`/(\d)(?=(\d{3})+$)/g`), and PHP's `number_format(n, 0, ',', '.')` on integers. */
module DigitGrouping {
  import opened Strings

  /** The lookahead `(\d{3})+(?!\d)` succeeds after taking `k` triples from `rest`. */
  predicate RunOfTriples(rest: string, k: nat) {
    1 <= k && 3 * k <= |rest| && AllDigits(rest[..3 * k])
    && (3 * k == |rest| || !IsDigit(rest[3 * k]))
  }

  /** The lookahead `(?=(\d{3})+(?!\d))` succeeds at the start of `rest`. */
  ghost predicate LookaheadMatches(rest: string) {
    exists k: nat :: RunOfTriples(rest, k)
  }

  /** The regex matches a digit at the head of `s`, so a `.` is inserted after it: the
      digit run that follows is a non-empty multiple of three long. */
  predicate DotAfter(s: string)
    requires |s| > 0
  {
    IsDigit(s[0]) && var d := LeadingDigits(s[1..]); d > 0 && d % 3 == 0
  }

  /** The lookahead holds exactly when the whole digit run ahead has a length that is a
      positive multiple of three; this is the test `DotAfter` makes. */
  lemma LookaheadIsWholeRun(rest: string)
    ensures LookaheadMatches(rest) <==> LeadingDigits(rest) > 0 && LeadingDigits(rest) % 3 == 0
  {
    var n := LeadingDigits(rest);
    if LookaheadMatches(rest) {
      var k: nat :| RunOfTriples(rest, k);
      LeadingDigitsAtLeast(rest, 3 * k);
      LeadingDigitsAtMost(rest, 3 * k);
    }
    if n > 0 && n % 3 == 0 {
      var k: nat := n / 3;
      assert AllDigits(rest[..3 * k]);
      assert RunOfTriples(rest, k);
    }
  }

  /** A run of `m` digits at the start makes the leading run at least `m` long. */
  lemma {:induction false} LeadingDigitsAtLeast(u: string, m: nat)
    requires m <= |u| && AllDigits(u[..m])
    ensures LeadingDigits(u) >= m
    decreases m
  {
    if m > 0 {
      assert u[..m][0] == u[0];
      assert u[1..][..m - 1] == u[1..m];
      LeadingDigitsAtLeast(u[1..], m - 1);
    }
  }

  /** A non-digit (or the end) at position `m` stops the leading run there. */
  lemma {:induction false} LeadingDigitsAtMost(u: string, m: nat)
    requires m <= |u| && (m == |u| || !IsDigit(u[m]))
    ensures LeadingDigits(u) <= m
    decreases m
  {
    if m > 0 && IsDigit(u[0]) {
      assert m == |u| || u[1..][m - 1] == u[m];
      LeadingDigitsAtMost(u[1..], m - 1);
    }
  }

  /** The mixin/plugin filter: every digit that the regex matches is followed by `.`. */
  function Group(s: string): (r: string)
    ensures |r| >= |s|
    ensures |s| > 0 ==> |r| > 0 && r[0] == s[0]
    decreases |s|
  {
    if |s| == 0 then "" else [s[0]] + (if DotAfter(s) then "." else "") + Group(s[1..])
  }

  /** Reference grouping of a digit string: the last three digits form a group, and the rest
      is grouped the same way, so the first group has one to three digits. */
  function RefGroup(t: string): (r: string)
    requires AllDigits(t)
    ensures |t| > 0 ==> |r| == |t| + (|t| + 2) / 3 - 1
    ensures |t| <= 3 ==> r == t
    ensures |t| > 0 ==> r[0] == t[0]
    decreases |t|
  {
    if |t| <= 3 then t
    else
      assert AllDigits(t[..|t| - 3]);
      RefGroup(t[..|t| - 3]) + "." + t[|t| - 3..]
  }

  /** The grouping only ever inserts `.`: deleting every `.` from input and output gives the
      same text. */
  lemma {:induction false} GroupRemovesOnlyDots(s: string)
    ensures Without(Group(s), '.') == Without(s, '.')
    decreases |s|
  {
    if |s| > 0 {
      var h := [s[0]] + (if DotAfter(s) then "." else "");
      var g := Group(s[1..]);
      assert Group(s) == h + g;
      GroupRemovesOnlyDots(s[1..]);
      WithoutAppend(h, g, '.');
      assert Without(h, '.') == Without([s[0]], '.') by {
        WithoutAppend([s[0]], if DotAfter(s) then "." else "", '.');
      }
      assert Without(s, '.') == Without([s[0]], '.') + Without(s[1..], '.') by {
        WithoutAppend([s[0]], s[1..], '.');
        assert [s[0]] + s[1..] == s;
      }
    }
  }

  /** On a digit string, deleting the separators gives back the input. */
  lemma GroupRoundTrip(t: string)
    requires AllDigits(t)
    ensures Without(Group(t), '.') == t
  {
    GroupRemovesOnlyDots(t);
    WithoutAbsent(t, '.');
  }

  lemma {:induction false} LeadingDigitsSuffix(u: string, k: nat)
    requires k <= LeadingDigits(u)
    ensures LeadingDigits(u[k..]) == LeadingDigits(u) - k
    decreases k
  {
    if k > 0 {
      assert u[1..][k - 1..] == u[k..];
      LeadingDigitsSuffix(u[1..], k - 1);
    }
  }

  lemma {:induction false} LeadingDigitsAppend(x: string, y: string)
    requires |y| == 0 || !IsDigit(y[0]) || LeadingDigits(x) < |x|
    ensures LeadingDigits(x + y) == LeadingDigits(x)
    decreases |x|
  {
    if |x| == 0 {
      assert x + y == y;
    } else {
      assert (x + y)[0] == x[0] && (x + y)[1..] == x[1..] + y;
      if IsDigit(x[0]) {
        LeadingDigitsAppend(x[1..], y);
      }
    }
  }

  lemma LeadingDigitsOfDigits(t: string)
    requires AllDigits(t)
    ensures LeadingDigits(t) == |t|
  {
    assert t[..|t|] == t;
    LeadingDigitsAtLeast(t, |t|);
  }

  /** Where no run of four or more digits starts, nothing is inserted. */
  lemma {:induction false} NoLongRunNoDots(s: string)
    requires forall i :: 0 <= i < |s| ==> LeadingDigits(s[i..]) < 4
    ensures Group(s) == s
    decreases |s|
  {
    if |s| > 0 {
      assert s[0..] == s;
      assert !DotAfter(s);
      forall i | 0 <= i < |s[1..]|
        ensures LeadingDigits(s[1..][i..]) < 4
      {
        assert s[1..][i..] == s[i + 1..];
      }
      NoLongRunNoDots(s[1..]);
    }
  }

  /** A dot inserted anywhere makes the output longer than the input. */
  lemma {:induction false} GroupGrowsAtDot(s: string, j: nat)
    requires j < |s| && DotAfter(s[j..])
    ensures |Group(s)| > |s|
    decreases j
  {
    if j > 0 {
      assert s[1..][j - 1..] == s[j..];
      GroupGrowsAtDot(s[1..], j - 1);
    } else {
      assert s[0..] == s;
    }
  }

  /** The filter changes its input exactly when the input holds a run of at least four
      digits; in particular a digit string of length at most three comes back unchanged. */
  lemma GroupUnchangedIff(s: string)
    ensures Group(s) == s <==> forall i :: 0 <= i < |s| ==> LeadingDigits(s[i..]) < 4
  {
    if forall i :: 0 <= i < |s| ==> LeadingDigits(s[i..]) < 4 {
      NoLongRunNoDots(s);
    } else {
      var i :| 0 <= i < |s| && LeadingDigits(s[i..]) >= 4;
      LongRunGrows(s, i);
    }
  }

  /** The last four digits of a run of four or more get a dot after their first digit. */
  lemma LongRunGrows(s: string, i: nat)
    requires i < |s| && LeadingDigits(s[i..]) >= 4
    ensures |Group(s)| > |s|
  {
    var r := s[i..];
    var l := LeadingDigits(r);
    var j := i + l - 4;
    var t := s[j..];
    assert r[l - 4..] == t;
    LeadingDigitsSuffix(r, l - 4);
    LeadingDigitsSuffix(t, 1);
    assert IsDigit(t[0]);
    assert DotAfter(t);
    GroupGrowsAtDot(s, j);
  }

  lemma ShortDigitsUnchanged(t: string)
    requires AllDigits(t) && |t| <= 3
    ensures Group(t) == t
  {
    forall i | 0 <= i < |t|
      ensures LeadingDigits(t[i..]) < 4
    {
    }
    NoLongRunNoDots(t);
  }

  /** On a digit string of length above three, the last three digits become their own group. */
  lemma {:induction false} GroupSplitsLastTriple(t: string)
    requires AllDigits(t) && |t| > 3
    ensures Group(t) == Group(t[..|t| - 3]) + "." + t[|t| - 3..]
    decreases |t|
  {
    if |t| == 4 {
      GroupFourDigits(t);
      GroupSingle(t[0]);
      assert t[..1] == [t[0]];
    } else {
      GroupSplitsLastTriple(t[1..]);
      DotAfterDropsLastTriple(t);
      LastTripleStep(t);
    }
  }

  /** The step of `GroupSplitsLastTriple`: the first character and its dot are the same
      whether or not the last three characters are present. */
  lemma LastTripleStep(t: string)
    requires |t| > 4 && DotAfter(t[..|t| - 3]) == DotAfter(t)
    requires Group(t[1..]) == Group(t[1..][..|t| - 4]) + "." + t[1..][|t| - 4..]
    ensures Group(t) == Group(t[..|t| - 3]) + "." + t[|t| - 3..]
  {
    var n := |t|;
    var w := t[..n - 3];
    var mid := t[1..n - 3];
    var last := t[n - 3..];
    var h := [t[0]] + (if DotAfter(t) then "." else "");
    assert t[1..][..n - 4] == mid && t[1..][n - 4..] == last;
    assert w[0] == t[0] && w[1..] == mid;
    assert Group(w) == h + Group(mid);
    assert Group(t) == h + (Group(mid) + "." + last);
    Reassociate(h, Group(mid), ".", last);
  }

  lemma Reassociate(a: string, b: string, c: string, d: string)
    ensures a + (b + c + d) == a + b + c + d
  {
  }

  /** In a digit string the dot after the first digit depends only on the length. */
  lemma DotAfterOfDigits(t: string)
    requires AllDigits(t) && |t| > 0
    ensures DotAfter(t) <==> |t| > 1 && (|t| - 1) % 3 == 0
  {
    LeadingDigitsOfDigits(t[1..]);
  }

  lemma DotAfterDropsLastTriple(t: string)
    requires AllDigits(t) && |t| > 4
    ensures DotAfter(t[..|t| - 3]) == DotAfter(t)
  {
    DotAfterOfDigits(t);
    assert AllDigits(t[..|t| - 3]);
    DotAfterOfDigits(t[..|t| - 3]);
    ModThreeShift(|t| - 4);
  }

  lemma ModThreeShift(k: int)
    ensures (k + 3) % 3 == k % 3
  {
  }

  lemma GroupSingle(c: char)
    ensures Group([c]) == [c]
  {
    assert [c][1..] == "";
  }

  lemma GroupFourDigits(t: string)
    requires AllDigits(t) && |t| == 4
    ensures Group(t) == [t[0]] + "." + t[1..]
  {
    DotAfterOfDigits(t);
    ShortDigitsUnchanged(t[1..]);
  }

  /** On digit strings the regex filter agrees with the reference grouping: a first group of
      one to three digits followed by groups of exactly three, and the output is
      `ceil(n / 3) - 1` characters longer than an `n`-digit input. */
  lemma {:induction false} GroupDigits(t: string)
    requires AllDigits(t)
    ensures Group(t) == RefGroup(t)
    decreases |t|
  {
    if |t| <= 3 {
      ShortDigitsUnchanged(t);
    } else {
      GroupSplitsLastTriple(t);
      assert AllDigits(t[..|t| - 3]);
      GroupDigits(t[..|t| - 3]);
    }
  }

  /** `a` and `b` meet where no digit run continues across the join. */
  predicate Boundary(a: string, b: string) {
    |a| == 0 || |b| == 0 || !IsDigit(a[|a| - 1]) || !IsDigit(b[0])
  }

  /** Digit runs are grouped independently: text split where a run cannot continue is
      grouped piece by piece. */
  lemma {:induction false} GroupSplitsAtBoundary(a: string, b: string)
    requires Boundary(a, b)
    ensures Group(a + b) == Group(a) + Group(b)
    decreases |a|
  {
    if |a| == 0 {
      assert a + b == b;
    } else {
      var x := a[1..];
      assert (a + b)[0] == a[0] && (a + b)[1..] == x + b;
      DotAfterAcrossBoundary(a, b);
      GroupSplitsAtBoundary(x, b);
    }
  }

  /** The dot after the head of `a` does not look past a boundary. */
  lemma DotAfterAcrossBoundary(a: string, b: string)
    requires |a| > 0 && Boundary(a, b)
    ensures DotAfter(a + b) == DotAfter(a)
  {
    var x := a[1..];
    assert (a + b)[0] == a[0] && (a + b)[1..] == x + b;
    if |x| > 0 {
      assert x[|x| - 1] == a[|a| - 1];
      if !IsDigit(a[|a| - 1]) {
        LeadingDigitsAtMost(x, |x| - 1);
      }
      LeadingDigitsAppend(x, b);
    }
  }

  /** Each digit run is grouped on its own: `"1234.5678"` becomes `"1.234.5.678"`. */
  lemma MixedRunsExample(a: string, b: string)
    requires a == "1234" && b == "5678"
    ensures Group(a + "." + b) == "1.234.5.678"
  {
    var left := a + ".";
    assert Group(left) == "1.234." by {
      GroupSplitsAtBoundary(a, ".");
      GroupFourDigits(a);
      GroupSingle('.');
    }
    assert Group(b) == "5.678" by {
      GroupFourDigits(b);
    }
    GroupSplitsAtBoundary(left, b);
  }

  /** A sign is copied and the digits after it are grouped: `"-1234"` becomes `"-1.234"`. */
  lemma SignExample(a: string)
    requires a == "1234"
    ensures Group("-" + a) == "-1.234"
  {
    GroupSplitsAtBoundary("-", a);
    GroupFourDigits(a);
    GroupSingle('-');
  }

  /** The end-anchored regex matches a digit at the head of `s` when everything after it is
      digits and a non-empty multiple of three long. */
  predicate DotBeforeEnd(s: string)
    requires |s| > 0
  {
    IsDigit(s[0]) && |s| > 1 && (|s| - 1) % 3 == 0 && AllDigits(s[1..])
  }

  /** `str.replace(/(\d)(?=(\d{3})+$)/g, '$1.')`. */
  function GroupAtEnd(s: string): (r: string)
    ensures |r| >= |s|
    decreases |s|
  {
    if |s| == 0 then "" else [s[0]] + (if DotBeforeEnd(s) then "." else "") + GroupAtEnd(s[1..])
  }

  /** On digit strings the end-anchored filter agrees with the unanchored one. */
  lemma {:induction false} GroupAtEndOfDigits(t: string)
    requires AllDigits(t)
    ensures GroupAtEnd(t) == Group(t)
    decreases |t|
  {
    if |t| > 0 {
      LeadingDigitsOfDigits(t[1..]);
      assert DotBeforeEnd(t) == DotAfter(t);
      GroupAtEndOfDigits(t[1..]);
    }
  }

  /** The end-anchored filter groups only the digit run that reaches the end of the text;
      everything before it is copied unchanged. */
  lemma {:induction false} GroupAtEndTrailingRun(p: string, t: string)
    requires AllDigits(t)
    requires |p| == 0 || !IsDigit(p[|p| - 1])
    ensures GroupAtEnd(p + t) == p + Group(t)
    decreases |p|
  {
    if |p| == 0 {
      assert p + t == t;
      GroupAtEndOfDigits(t);
    } else {
      assert (p + t)[0] == p[0] && (p + t)[1..] == p[1..] + t;
      if |p| > 1 {
        assert (p[1..] + t)[|p| - 2] == p[|p| - 1];
      }
      assert !DotBeforeEnd(p + t);
      GroupAtEndTrailingRun(p[1..], t);
    }
  }

  /** Fewer than four characters leave no room for a digit and a triple after it. */
  lemma {:induction false} GroupAtEndShort(s: string)
    requires |s| < 4
    ensures GroupAtEnd(s) == s
    decreases |s|
  {
    if |s| > 0 {
      GroupAtEndShort(s[1..]);
    }
  }

  /** Only the run reaching the end is grouped: `"1234.5"` is unchanged and `"1234"`
      becomes `"1.234"`. */
  lemma GroupAtEndExample(p: string, t: string)
    requires p == "1234" && t == "5"
    ensures GroupAtEnd(p + "." + t) == p + "." + t
    ensures GroupAtEnd(p) == "1.234"
  {
    GroupAtEndTrailingRun(p + ".", t);
    GroupSingle('5');
    GroupAtEndOfDigits(p);
    GroupFourDigits(p);
  }

  /** PHP's `number_format(n, 0, ',', '.')` for an integer: sign, then the digits of `|n|`
      grouped by three from the right. */
  function ThousandsDots(n: int): (r: string)
    ensures |r| > 0 && (n < 0 <==> r[0] == '-')
  {
    var digits := NatToString(if n < 0 then -n else n);
    (if n < 0 then "-" else "") + RefGroup(digits)
  }

  /** The PHP views and the Vue filter print an integer identically, and deleting the
      separators gives back the plain decimal text of the number. */
  lemma ThousandsDotsAgrees(n: int)
    ensures ThousandsDots(n) == Group(IntToString(n))
    ensures Without(ThousandsDots(n), '.') == IntToString(n)
  {
    var digits := NatToString(if n < 0 then -n else n);
    GroupDigits(digits);
    GroupRoundTrip(digits);
    if n < 0 {
      GroupSplitsAtBoundary("-", digits);
      assert Group("-") == "-";
      WithoutAppend("-", Group(digits), '.');
    }
  }
}

=== FILE: entry_form.dfy ===
/** The 2014 entry form's client-side checks (`assets/js/lapanbelas.js`): the per-field
    `validate` and the all-valid submit gate, related to the server's pre-checks. */
module EntryForm {
  import opened Wrappers
  import opened Strings
  import opened LegacyEntry

  /** The `inputType` passed to `validate`; `Unknown` stands for any other string. */
  datatype FieldKind = Event | Spending | Token | Unknown

  /** Which character class the token check uses: the one in the source, which lists `{`,
      `7` and `}` inside the class, or the intended letters and digits. */
  datatype TokenRule = AsWrittenClass | LettersAndDigits

  /** `[a-zA-Z '-.]`: a letter, a space, or a character from `'` to `.`, that is one of
      `' ( ) * + , - .`. */
  predicate IsEventChar(c: char) {
    IsAsciiLetter(c) || c == ' ' || '\'' <= c <= '.'
  }

  predicate IsTokenChar(rule: TokenRule, c: char) {
    match rule
    case AsWrittenClass => IsAsciiAlnum(c) || c == '{' || c == '}'
    case LettersAndDigits => IsAsciiAlnum(c)
  }

  /** `/^[a-zA-Z '-.]+$/`. */
  predicate ValidEvent(s: string) {
    |s| > 0 && forall i :: 0 <= i < |s| ==> IsEventChar(s[i])
  }

  /** `/^\d+$/`. */
  predicate ValidSpending(s: string) {
    |s| > 0 && AllDigits(s)
  }

  /** `/^[a-zA-Z0-9{7}]+$/` as written, or `/^[a-zA-Z0-9]+$/` as intended. */
  predicate ValidToken(rule: TokenRule, s: string) {
    |s| > 0 && forall i :: 0 <= i < |s| ==> IsTokenChar(rule, s[i])
  }

  /** `validate`: the verdict of the field's pattern, or `undefined` (`None`) for an unknown
      input type. */
  function Validate(rule: TokenRule, kind: FieldKind, s: string): (r: Option<bool>)
    ensures r.None? <==> kind == Unknown
    ensures kind == Event ==> r == Some(ValidEvent(s))
    ensures kind == Spending ==> r == Some(ValidSpending(s))
    ensures kind == Token ==> r == Some(ValidToken(rule, s))
  {
    match kind
    case Event => Some(ValidEvent(s))
    case Spending => Some(ValidSpending(s))
    case Token => Some(ValidToken(rule, s))
    case Unknown => None
  }

  /** The fields `submitSpending` checks, in order. */
  const Fields: seq<FieldKind> := [Event, Spending, Token]

  /** A field passes when `validate` returns a truthy value; `undefined` does not. */
  predicate Passes(rule: TokenRule, kind: FieldKind, s: string) {
    Validate(rule, kind, s) == Some(true)
  }

  /** How many of the first `n` fields pass. */
  function PassCount(rule: TokenRule, values: seq<string>, n: nat): nat
    requires n <= |Fields| && |values| == |Fields|
  {
    if n == 0 then 0
    else PassCount(rule, values, n - 1) + (if Passes(rule, Fields[n - 1], values[n - 1]) then 1 else 0)
  }

  /** `submitSpending`: marks every failing field `error` and every passing one with the
      empty class, and submits the form exactly when all three pass. */
  method SubmitSpending(rule: TokenRule, values: seq<string>) returns (classes: seq<string>, submit: bool)
    requires |values| == |Fields|
    ensures |classes| == |Fields|
    ensures forall i :: 0 <= i < |Fields| ==>
      classes[i] == if Passes(rule, Fields[i], values[i]) then "" else "error"
    ensures submit <==> ValidEvent(values[0]) && ValidSpending(values[1]) && ValidToken(rule, values[2])
  {
    classes := [];
    var count := 0;
    var i := 0;
    while i < |Fields|
      invariant 0 <= i <= |Fields| && |classes| == i
      invariant forall j :: 0 <= j < i ==>
        classes[j] == if Passes(rule, Fields[j], values[j]) then "" else "error"
      invariant count == PassCount(rule, values, i)
    {
      var val := Validate(rule, Fields[i], values[i]);
      if val != Some(true) {
        classes := classes + ["error"];
      } else {
        classes := classes + [""];
        count := count + 1;
      }
      i := i + 1;
    }
    AllPass(rule, values);
    submit := count == 3;
  }

  /** All three fields pass exactly when the count reaches three. */
  lemma AllPass(rule: TokenRule, values: seq<string>)
    requires |values| == |Fields|
    ensures PassCount(rule, values, 3) == 3 <==>
      ValidEvent(values[0]) && ValidSpending(values[1]) && ValidToken(rule, values[2])
  {
    assert Fields[0] == Event && Fields[1] == Spending && Fields[2] == Token;
    assert PassCount(rule, values, 1) <= 1;
    assert PassCount(rule, values, 2) <= 2;
  }

  /** Trimming keeps a contiguous part of the text. */
  lemma TrimKeepsChars(s: string, isSpace: char -> bool)
    ensures forall i :: 0 <= i < |Trim(s, isSpace)| ==> Trim(s, isSpace)[i] in s
  {
    var a := TrimStart(s, isSpace);
    var t := TrimEnd(a, isSpace);
    forall i | 0 <= i < |t|
      ensures t[i] in s
    {
      assert t[i] == a[i] == s[|s| - |a| + i];
    }
  }

  /** A spending the form accepts reaches the server unchanged and is numeric. */
  lemma SpendingSanitizesToItself(spending: string)
    requires ValidSpending(spending)
    ensures SanitizeEntry(Some(spending)) == spending && IsNumeric(spending)
  {
    assert !IsPhpSpace(spending[0]) && !IsPhpSpace(spending[|spending| - 1]);
    SanitizeEntryPlain(spending);
    DigitsAreNumeric(spending);
  }

  /** A token the form accepts, under either rule, reaches the server unchanged. */
  lemma TokenSanitizesToItself(rule: TokenRule, token: string)
    requires ValidToken(rule, token)
    ensures SanitizeEntry(Some(token)) == token
  {
    assert IsTokenChar(rule, token[0]) && IsTokenChar(rule, token[|token| - 1]);
    SanitizeEntryPlain(token);
  }

  /** An event the form accepts reaches the server with only its surrounding white space
      removed: it holds no `<`, so no tag is stripped. */
  lemma EventSanitizesToTrim(event: string)
    requires ValidEvent(event)
    ensures SanitizeEntry(Some(event)) == Trim(event, IsPhpSpace)
  {
    assert forall i :: 0 <= i < |event| ==> event[i] != '<' by {
      forall i | 0 <= i < |event|
        ensures event[i] != '<'
      {
        assert IsEventChar(event[i]);
      }
    }
    TrimHasNoLessThan(event);
    StripTagsPlain(Trim(event, IsPhpSpace));
  }

  /** Trimming text without `<` leaves none. */
  lemma TrimHasNoLessThan(s: string)
    requires forall i :: 0 <= i < |s| ==> s[i] != '<'
    ensures forall i :: 0 <= i < |Trim(s, IsPhpSpace)| ==> Trim(s, IsPhpSpace)[i] != '<'
  {
    TrimKeepsChars(s, IsPhpSpace);
  }


  /** With the intended token rule, every entry the form submits passes the server's checks:
      the spending and the token arrive unchanged and the event arrives trimmed. */
  lemma SubmittedEntryIsProcessed(event: string, spending: string, token: string)
    requires ValidEvent(event) && ValidSpending(spending) && ValidToken(LettersAndDigits, token)
    ensures CheckEntry(Some(event), Some(spending), Some(token)) ==
      Processed(Trim(event, IsPhpSpace), spending, token)
  {
    SpendingSanitizesToItself(spending);
    TokenSanitizesToItself(LettersAndDigits, token);
    EventSanitizesToTrim(event);
    assert CtypeAlnum(token);
  }

  /** As written, the token class also admits `{` and `}`: a token holding a brace passes the
      form, so with a valid spending the entry is submitted, and the server then refuses it as
      a bad token. */
  lemma AsWrittenTokenRuleAdmitsBraces(event: string, spending: string, token: string)
    requires ValidSpending(spending) && ValidToken(AsWrittenClass, token)
    requires '{' in token || '}' in token
    ensures !ValidToken(LettersAndDigits, token)
    ensures CheckEntry(Some(event), Some(spending), Some(token)) == BadToken
  {
    SpendingSanitizesToItself(spending);
    TokenSanitizesToItself(AsWrittenClass, token);
    BraceIsNotAlnum(token);
  }

  /** A brace anywhere in a token fails both the intended class and `ctype_alnum`. */
  lemma BraceIsNotAlnum(token: string)
    requires '{' in token || '}' in token
    ensures !ValidToken(LettersAndDigits, token) && !CtypeAlnum(token)
  {
    var j :| 0 <= j < |token| && (token[j] == '{' || token[j] == '}');
    assert !IsTokenChar(LettersAndDigits, token[j]) && !IsAsciiAlnum(token[j]);
  }

  /** A brace-only token is such an input: the form accepts `{` as written and not as
      intended. */
  lemma BraceTokenExample(token: string)
    requires token == "{"
    ensures ValidToken(AsWrittenClass, token) && !ValidToken(LettersAndDigits, token)
  {
    assert token[0] == '{';
  }
}

=== FILE: expense_record.dfy ===
/** The unified expense record the migration scripts read and write (`ExpenseRecord` in
    `scripts/mysql.ts`, `scripts/find-duplicates.ts` and `scripts/merge.ts`). Timestamps are
    Unix seconds; amounts are whole rupiah. */
module ExpenseRecords {

  datatype ExpenseRecord = ExpenseRecord(id: string, createdAt: int, labelText: string, value: int, updatedAt: int)

  /** The sort key of `merge.ts`. */
  function CreatedAt(r: ExpenseRecord): int { r.createdAt }

  /** The summed amount. */
  function Value(r: ExpenseRecord): int { r.value }
}

=== FILE: families_api.dfy ===
/** The family endpoints (`server/api/v1/families/index.post.ts` and `index.get.ts`): the name
    and description rules of a new family, the join of members with their user data, and the
    listing that groups the fetched members under their families. Database results are
    inputs. Both handlers authenticate and (for creation) validate before their `try`; inside
    it every failure, including their own HTTP errors, is replaced by 500 "Internal server
    error". */
module FamiliesApi {
  import opened Wrappers
  import opened Strings
  import opened Js
  import opened Http
  import opened Seqs
  import Auth

  /** The request body of a new family. */
  datatype FamilyInput = FamilyInput(name: Option<string>, description: Option<string>)

  /** The row inserted into `families`. */
  datatype NewFamily = NewFamily(name: string, description: Option<string>, createdBy: string)

  /** A row of `families`, a row of `family_members`, and the user fields joined to a member. */
  datatype Family = Family(id: string, name: string, description: Option<string>, createdBy: string)
  datatype Member = Member(id: string, familyId: string, userId: string, role: string)
  datatype UserData = UserData(userId: string, email: string, fullName: Option<string>, role: string)

  /** A member with its user data (`null` when none was found), and a family with its
      members. */
  datatype MemberView = MemberView(member: Member, userData: Option<UserData>)
  datatype FamilyView = FamilyView(family: Family, members: seq<MemberView>)

  const NameRequired := HttpError(400, "Family name is required")
  const NameTooLong := HttpError(400, "Family name must be 100 characters or less")
  const Internal := HttpError(500, InternalError)

  /** The longest family name, counted after trimming. */
  const MaxNameLength := 100

  // ---------------------------------------------------------------------------------------
  // Creating a family
  // ---------------------------------------------------------------------------------------

  /** The name check: a missing name or one that is blank after trimming is required; a
      trimmed name longer than 100 characters is too long; the stored name is the trimmed
      one. */
  function ValidateName(name: Option<string>): (r: Result<string, HttpError>)
    ensures r.Ok? <==> name.Some? && 0 < |Trim(name.value, IsJsSpace)| <= MaxNameLength
    ensures r.Ok? ==> r.value == Trim(name.value, IsJsSpace)
    ensures r == Err(NameTooLong) <==> name.Some? && |Trim(name.value, IsJsSpace)| > MaxNameLength
    ensures r.Err? ==> r.error == NameRequired || r.error == NameTooLong
  {
    if !Truthy(name) || |Trim(name.value, IsJsSpace)| == 0 then Err(NameRequired)
    else if |Trim(name.value, IsJsSpace)| > MaxNameLength then Err(NameTooLong)
    else Ok(Trim(name.value, IsJsSpace))
  }

  /** A stored name passes the check again unchanged: it has no white space at either end and
      is 1 to 100 characters long. */
  lemma StoredNameRevalidates(name: Option<string>)
    requires ValidateName(name).Ok?
    ensures var stored := ValidateName(name).value;
      && 0 < |stored| <= MaxNameLength
      && !IsJsSpace(stored[0]) && !IsJsSpace(stored[|stored| - 1])
      && ValidateName(Some(stored)) == Ok(stored)
  {
    TrimIsCore(name.value, IsJsSpace);
    TrimIdempotent(name.value, IsJsSpace);
  }

  /** `description?.trim() || null`: the trimmed description, or none when it is missing or
      blank. */
  function DescriptionOf(d: Option<string>): (r: Option<string>)
    ensures r.Some? <==> d.Some? && Trim(d.value, IsJsSpace) != ""
    ensures r.Some? ==> r.value == Trim(d.value, IsJsSpace)
  {
    if d.Some? && Trim(d.value, IsJsSpace) != "" then Some(Trim(d.value, IsJsSpace)) else None
  }

  /** `usersData?.find(u => u.user_id === id) || null`: the first user row with that id. */
  function FindUser(users: seq<UserData>, userId: string): (r: Option<UserData>)
    ensures r.None? <==> forall i :: 0 <= i < |users| ==> users[i].userId != userId
    ensures r.Some? ==> (exists i :: 0 <= i < |users| && users[i] == r.value && users[i].userId == userId &&
                                    (forall j :: 0 <= j < i ==> users[j].userId != userId))
  {
    if |users| == 0 then None
    else if users[0].userId == userId then Some(users[0])
    else
      var r := FindUser(users[1..], userId);
      assert forall i :: 1 <= i < |users| ==> users[i] == users[1..][i - 1];
      r
  }

  /** Each member with its user data, in the members' order; a failed user lookup (`None`)
      leaves every member without user data. */
  function WithUserData(ms: seq<Member>, users: Option<seq<UserData>>): (r: seq<MemberView>)
    ensures |r| == |ms|
    ensures forall i :: 0 <= i < |ms| ==> r[i].member == ms[i]
    ensures forall i :: 0 <= i < |ms| ==> r[i].userData == FindUser(users.GetOr([]), ms[i].userId)
    ensures users.None? ==> forall i :: 0 <= i < |ms| ==> r[i].userData.None?
  {
    if |ms| == 0 then []
    else [MemberView(ms[0], FindUser(users.GetOr([]), ms[0].userId))] + WithUserData(ms[1..], users)
  }

  /** The handler's `POST` body after validation: the family insert (`createdId`, `None` on an
      error or no row), the re-read of the family (`fetched`), the member query (`members`,
      `Err` on an error) and the user lookup (`users`, `None` on an error). */
  function CreateFamily(user: Option<Auth.SessionUser>, read: ReadBody<FamilyInput>, createdId: Option<string>,
                        fetched: Option<Family>, members: Result<Option<seq<Member>>, string>,
                        users: Option<seq<UserData>>)
    : (r: Result<(NewFamily, FamilyView), HttpError>)
    ensures Auth.GetAuthenticatedUserId(user).Err? ==> r == Err(Auth.Unauthorized)
    ensures Auth.GetAuthenticatedUserId(user).Ok? && read.NullBody? ==> r == Err(Uncaught)
    ensures Auth.GetAuthenticatedUserId(user).Ok? && read.JsonBody? && ValidateName(read.fields.name).Err? ==>
      r == Err(ValidateName(read.fields.name).error)
    ensures Auth.GetAuthenticatedUserId(user).Ok? && read.JsonBody? && ValidateName(read.fields.name).Ok? ==>
      (r.Err? <==> createdId.None? || fetched.None? || members.Err?) && (r.Err? ==> r.error == Internal)
    ensures r.Ok? ==>
      && read.JsonBody?
      && r.value.0 == NewFamily(ValidateName(read.fields.name).value, DescriptionOf(read.fields.description), user.value.sub.value)
      && r.value.1.family == fetched.value
      && |r.value.1.members| == |members.value.GetOr([])|
  {
    var userId :- Auth.GetAuthenticatedUserId(user);
    if read.NullBody? then Err(Uncaught)
    else
    var body := read.fields;
    var name :- ValidateName(body.name);
    var row := NewFamily(name, DescriptionOf(body.description), userId);
    if createdId.None? || fetched.None? || members.Err? then Err(Internal)
    else Ok((row, FamilyView(fetched.value, WithUserData(members.value.GetOr([]), users))))
  }

  /** Only four errors reach a client of the creation endpoint besides the missing session:
      the uncaught one for a body that is not an object, the two name errors and the generic
      one. */
  lemma CreateFamilyErrors(user: Option<Auth.SessionUser>, body: ReadBody<FamilyInput>, createdId: Option<string>,
                           fetched: Option<Family>, members: Result<Option<seq<Member>>, string>,
                           users: Option<seq<UserData>>)
    ensures var r := CreateFamily(user, body, createdId, fetched, members, users);
      r.Err? ==> r.error in {Auth.Unauthorized, Uncaught, NameRequired, NameTooLong, Internal}
  {
  }

  // ---------------------------------------------------------------------------------------
  // Listing families
  // ---------------------------------------------------------------------------------------

  /** The fetched members of one family, in fetched order. */
  function MembersOfFamily(ms: seq<Member>, familyId: string): (r: seq<Member>)
    ensures forall m :: m in r <==> m in ms && m.familyId == familyId
    ensures |r| <= |ms|
  {
    if |ms| == 0 then []
    else (if ms[0].familyId == familyId then [ms[0]] else []) + MembersOfFamily(ms[1..], familyId)
  }

  /** A family with its members and their user data; without the member list (`None`, a
      failed query) the family has no members. */
  function ToView(f: Family, allMembers: Option<seq<Member>>, users: Option<seq<UserData>>): (v: FamilyView)
    ensures v.family == f
    ensures allMembers.None? ==> v.members == []
    ensures allMembers.Some? ==> |v.members| == |MembersOfFamily(allMembers.value, f.id)|
    ensures forall k :: 0 <= k < |v.members| ==> v.members[k].member.familyId == f.id
  {
    match allMembers
    case None => FamilyView(f, [])
    case Some(ms) =>
      var own := MembersOfFamily(ms, f.id);
      var views := WithUserData(own, users);
      assert forall k :: 0 <= k < |views| ==> views[k].member in own;
      FamilyView(f, views)
  }

  /** The families in the order the database returned them, each with its members. */
  function FamilyViews(families: seq<Family>, allMembers: Option<seq<Member>>, users: Option<seq<UserData>>)
    : (r: seq<FamilyView>)
    ensures |r| == |families|
    ensures forall i :: 0 <= i < |families| ==> r[i] == ToView(families[i], allMembers, users)
  {
    if |families| == 0 then []
    else [ToView(families[0], allMembers, users)] + FamilyViews(families[1..], allMembers, users)
  }

  /** The `GET` handler: the caller's memberships (`Err` on an error, `None` for `null`), then
      the families of those memberships, the members of those families (`None` on an error)
      and the user rows. No membership gives an empty list; otherwise every family comes back
      in the fetched order, and the count is the number of families. */
  function ListFamilies(user: Option<Auth.SessionUser>, memberships: Result<Option<seq<string>>, string>,
                        families: Result<Option<seq<Family>>, string>, allMembers: Option<seq<Member>>,
                        users: Option<seq<UserData>>)
    : (r: Result<(seq<FamilyView>, nat), HttpError>)
    ensures Auth.GetAuthenticatedUserId(user).Err? ==> r == Err(Auth.Unauthorized)
    ensures r.Err? ==> r.error == Auth.Unauthorized || r.error == Internal
    ensures Auth.GetAuthenticatedUserId(user).Ok? && memberships.Ok? && memberships.value.GetOr([]) == [] ==> r == Ok(([], 0))
    ensures Auth.GetAuthenticatedUserId(user).Ok? && memberships.Ok? && memberships.value.GetOr([]) != [] ==>
      (r.Ok? <==> families.Ok? && families.value.Some?)
    ensures r.Ok? ==> r.value.1 == |r.value.0|
    ensures r.Ok? && r.value.0 != [] ==> families.Ok? && families.value.Some?
    ensures r.Ok? && r.value.0 != [] ==>
      && |r.value.0| == |families.value.value|
      && forall i :: 0 <= i < |r.value.0| ==> r.value.0[i] == ToView(families.value.value[i], allMembers, users)
  {
    var _ :- Auth.GetAuthenticatedUserId(user);
    if memberships.Err? then Err(Internal)
    else if memberships.value.GetOr([]) == [] then Ok(([], 0))
    else if families.Err? || families.value.None? then Err(Internal)
    else
      var views := FamilyViews(families.value.value, allMembers, users);
      Ok((views, |views|))
  }

  // ---------------------------------------------------------------------------------------
  // The grouping is a partition
  // ---------------------------------------------------------------------------------------

  function Ids(families: seq<Family>): (r: seq<string>)
    ensures |r| == |families|
    ensures forall i :: 0 <= i < |families| ==> r[i] == families[i].id
  {
    if |families| == 0 then [] else [families[0].id] + Ids(families[1..])
  }

  /** The fetched members that belong to one of the listed families, in fetched order. */
  function Covered(ms: seq<Member>, families: seq<Family>): seq<Member> {
    if |ms| == 0 then []
    else (if ms[0].familyId in Ids(families) then [ms[0]] else []) + Covered(ms[1..], families)
  }

  /** Number of listed families with the given id. */
  function Hits(familyId: string, families: seq<Family>): nat {
    if |families| == 0 then 0 else (if families[0].id == familyId then 1 else 0) + Hits(familyId, families[1..])
  }

  /** Members shown across all families. */
  function TotalMembers(views: seq<FamilyView>): nat {
    if |views| == 0 then 0 else |views[0].members| + TotalMembers(views[1..])
  }

  /** Sizes of the per-family groups, summed. */
  function GroupSizes(ms: seq<Member>, families: seq<Family>): nat {
    if |families| == 0 then 0 else |MembersOfFamily(ms, families[0].id)| + GroupSizes(ms, families[1..])
  }

  lemma {:induction false} HitsOfDistinct(familyId: string, families: seq<Family>)
    requires Distinct(Ids(families))
    ensures Hits(familyId, families) == if familyId in Ids(families) then 1 else 0
    decreases |families|
  {
    if |families| > 0 {
      var ids := Ids(families);
      assert Ids(families[1..]) == ids[1..];
      assert Distinct(ids[1..]);
      HitsOfDistinct(familyId, families[1..]);
      if families[0].id == familyId {
        assert familyId !in ids[1..] by {
          forall j | 0 <= j < |ids[1..]|
            ensures ids[1..][j] != familyId
          {
            assert ids[0] != ids[j + 1];
          }
        }
      }
      assert familyId in ids <==> familyId == ids[0] || familyId in ids[1..] by {
        assert ids == [ids[0]] + ids[1..];
      }
    }
  }

  lemma {:induction false} GroupSizesOfNone(families: seq<Family>)
    ensures GroupSizes([], families) == 0
    decreases |families|
  {
    if |families| > 0 {
      GroupSizesOfNone(families[1..]);
    }
  }

  lemma {:induction false} GroupSizesCons(m: Member, rest: seq<Member>, families: seq<Family>)
    ensures GroupSizes([m] + rest, families) == Hits(m.familyId, families) + GroupSizes(rest, families)
    decreases |families|
  {
    if |families| > 0 {
      var ms := [m] + rest;
      assert ms[0] == m && ms[1..] == rest;
      GroupSizesCons(m, rest, families[1..]);
    }
  }

  /** With distinct family ids, every fetched member of a listed family is counted in exactly
      one group, so the groups together are as large as the covered members. */
  lemma {:induction false} GroupsPartitionMembers(ms: seq<Member>, families: seq<Family>)
    requires Distinct(Ids(families))
    ensures GroupSizes(ms, families) == |Covered(ms, families)|
    decreases |ms|
  {
    if |ms| == 0 {
      GroupSizesOfNone(families);
    } else {
      assert ms == [ms[0]] + ms[1..];
      GroupSizesCons(ms[0], ms[1..], families);
      HitsOfDistinct(ms[0].familyId, families);
      GroupsPartitionMembers(ms[1..], families);
    }
  }

  lemma {:induction false} TotalIsGroupSizes(families: seq<Family>, ms: seq<Member>, users: Option<seq<UserData>>)
    ensures TotalMembers(FamilyViews(families, Some(ms), users)) == GroupSizes(ms, families)
    decreases |families|
  {
    if |families| > 0 {
      var vs := FamilyViews(families, Some(ms), users);
      assert vs[1..] == FamilyViews(families[1..], Some(ms), users);
      TotalIsGroupSizes(families[1..], ms, users);
    }
  }

  /** The listing shows every fetched member of a listed family exactly once in total: the
      member counts of the returned families add up to the number of such members. */
  lemma ListingPartitionsMembers(user: Option<Auth.SessionUser>, memberships: Result<Option<seq<string>>, string>,
                                 fs: seq<Family>, ms: seq<Member>, users: Option<seq<UserData>>)
    requires Distinct(Ids(fs))
    requires ListFamilies(user, memberships, Ok(Some(fs)), Some(ms), users).Ok?
    requires ListFamilies(user, memberships, Ok(Some(fs)), Some(ms), users).value.0 != []
    ensures TotalMembers(ListFamilies(user, memberships, Ok(Some(fs)), Some(ms), users).value.0) == |Covered(ms, fs)|
  {
    TotalIsGroupSizes(fs, ms, users);
    GroupsPartitionMembers(ms, fs);
  }
}

=== FILE: financial.dfy ===
/** Rat money arithmetic of composables/useFinancial.ts: decimal.js values are exact
    rationals here, and every money-bearing result is rounded to two decimals with
    ROUND_HALF_UP (ties away from zero) and returned as an integer number of hundredths. */
module Financial {
  import opened Wrappers
  import opened Strings

  type Pos = n: int | n > 0 witness 1

  /** An exact rational `num / den`. */
  datatype Rat = Rat(num: int, den: Pos)

  function Int(n: int): Rat { Rat(n, 1) }

  /** A two-decimal amount given in hundredths, as a value. */
  function FromCents(c: int): Rat { Rat(c, 100) }

  function Plus(a: Rat, b: Rat): Rat { Rat(a.num * b.den + b.num * a.den, a.den * b.den) }

  function Neg(a: Rat): Rat { Rat(-a.num, a.den) }

  function Minus(a: Rat, b: Rat): Rat { Plus(a, Neg(b)) }

  function Times(a: Rat, b: Rat): Rat { Rat(a.num * b.num, a.den * b.den) }

  predicate IsZeroValue(a: Rat) { a.num == 0 }

  function Quot(a: Rat, b: Rat): Rat
    requires !IsZeroValue(b)
  {
    if b.num > 0 then Rat(a.num * b.den, b.num * a.den) else Rat(-a.num * b.den, -b.num * a.den)
  }

  /** Equality of values (representations need not be reduced). */
  predicate Same(a: Rat, b: Rat) { a.num * b.den == b.num * a.den }

  predicate Less(a: Rat, b: Rat) { a.num * b.den < b.num * a.den }

  /** `r` is `n / d` rounded to an integer, ties away from zero. */
  predicate RoundsHalfUp(n: int, d: int, r: int)
    requires d > 0
  {
    && (n >= 0 ==> d * (2 * r - 1) <= 2 * n < d * (2 * r + 1))
    && (n < 0 ==> d * (2 * r - 1) < 2 * n <= d * (2 * r + 1))
  }

  /** decimal.js `ROUND_HALF_UP` to an integer. */
  function RoundHalfUp(n: int, d: int): (r: int)
    requires d > 0
    ensures RoundsHalfUp(n, d, r)
  {
    if n >= 0 then (2 * n + d) / (2 * d) else -((-2 * n + d) / (2 * d))
  }

  /** The rounding specification has exactly one solution. */
  lemma RoundUnique(n: int, d: int, c: int)
    requires d > 0 && RoundsHalfUp(n, d, c)
    ensures c == RoundHalfUp(n, d)
  {
  }

  /** Rounding depends on the value `n / d`, not on its representation. */
  lemma RoundScale(n: int, d: int, m: int)
    requires d > 0 && m > 0
    ensures RoundHalfUp(n * m, d * m) == RoundHalfUp(n, d)
  {
    var r := RoundHalfUp(n, d);
    assert (d * m) * (2 * r - 1) == (d * (2 * r - 1)) * m;
    assert (d * m) * (2 * r + 1) == (d * (2 * r + 1)) * m;
    assert 2 * (n * m) == (2 * n) * m;
    if n >= 0 {
      assert (d * (2 * r - 1)) * m <= (2 * n) * m;
      assert (2 * n) * m < (d * (2 * r + 1)) * m;
    } else {
      assert (d * (2 * r - 1)) * m < (2 * n) * m;
      assert (2 * n) * m <= (d * (2 * r + 1)) * m;
    }
    RoundUnique(n * m, d * m, r);
  }

  /** An integer rounds to itself. */
  lemma RoundOfInteger(k: int, d: int)
    requires d > 0
    ensures RoundHalfUp(k * d, d) == k
  {
    assert d * (2 * k - 1) == 2 * (k * d) - d;
    assert d * (2 * k + 1) == 2 * (k * d) + d;
    RoundUnique(k * d, d, k);
  }

  /** `x` rounded to two decimals, in hundredths (`toDecimalPlaces(2)`). */
  function ToCents(x: Rat): int {
    RoundHalfUp(x.num * 100, x.den)
  }

  /** `c` hundredths is `x` rounded to two decimals, ties away from zero. */
  predicate RoundsToCents(x: Rat, c: int) {
    RoundsHalfUp(x.num * 100, x.den, c)
  }

  /** Equal values round alike. */
  lemma ToCentsRespectsValue(a: Rat, b: Rat)
    requires Same(a, b)
    ensures ToCents(a) == ToCents(b)
  {
    RoundScale(a.num * 100, a.den, b.den);
    RoundScale(b.num * 100, b.den, a.den);
    assert a.num * 100 * b.den == b.num * 100 * a.den;
    assert a.den * b.den == b.den * a.den;
  }

  /** A value that already has at most two decimals is unchanged by rounding. */
  lemma ToCentsOfCents(c: int)
    ensures ToCents(FromCents(c)) == c
  {
    RoundOfInteger(c, 100);
  }

  /** Rat sum of the inputs, before any rounding. */
  function ExactSum(xs: seq<Rat>): Rat {
    if |xs| == 0 then Int(0) else Plus(xs[0], ExactSum(xs[1..]))
  }

  /** `add(...amounts)`: the exact sum rounded once to two decimals. */
  function Add(amounts: seq<Rat>): (r: int)
    ensures RoundsToCents(ExactSum(amounts), r)
    ensures |amounts| == 0 ==> r == 0
  {
    ToCents(ExactSum(amounts))
  }

  /** `sum(amounts)` is `add(...amounts)`. */
  function Sum(amounts: seq<Rat>): int {
    Add(amounts)
  }

  function SumInts(cs: seq<int>): int {
    if |cs| == 0 then 0 else cs[0] + SumInts(cs[1..])
  }

  function CentsValues(cs: seq<int>): seq<Rat> {
    seq(|cs|, i requires 0 <= i < |cs| => FromCents(cs[i]))
  }

  lemma {:induction false} ExactSumOfCents(cs: seq<int>)
    ensures Same(ExactSum(CentsValues(cs)), FromCents(SumInts(cs)))
    decreases |cs|
  {
    if |cs| > 0 {
      ExactSumOfCents(cs[1..]);
      assert CentsValues(cs)[1..] == CentsValues(cs[1..]);
      var t := ExactSum(CentsValues(cs[1..]));
      assert t.num * 100 == SumInts(cs[1..]) * t.den;
      var p := Plus(FromCents(cs[0]), t);
      assert p.num == cs[0] * t.den + t.num * 100;
      assert p.den == 100 * t.den;
      assert p.num * 100 == (cs[0] + SumInts(cs[1..])) * p.den by {
        assert p.num * 100 == cs[0] * t.den * 100 + t.num * 100 * 100;
        assert t.num * 100 * 100 == SumInts(cs[1..]) * t.den * 100;
      }
    }
  }

  /** Adding amounts that already have two decimals is exact: no cent is lost or invented
      (this is what keeps the store's totals free of drift). */
  lemma AddOfCentsIsExact(cs: seq<int>)
    ensures Add(CentsValues(cs)) == SumInts(cs)
  {
    ExactSumOfCents(cs);
    ToCentsRespectsValue(ExactSum(CentsValues(cs)), FromCents(SumInts(cs)));
    ToCentsOfCents(SumInts(cs));
  }

  /** The documented example: `add(100.10, 200.20)` is exactly 300.30. */
  lemma AddExample()
    ensures Add([FromCents(10010), FromCents(20020)]) == 30030
  {
    AddOfCentsIsExact([10010, 20020]);
    assert CentsValues([10010, 20020]) == [FromCents(10010), FromCents(20020)];
  }

  /** `add(a, b)` on two amounts that already have two decimals is their exact sum. */
  function AddCents(a: int, b: int): (r: int)
    ensures r == a + b
  {
    var cs := [a, b];
    assert CentsValues(cs) == [FromCents(a), FromCents(b)] by {
      assert CentsValues(cs)[0] == FromCents(cs[0]);
      assert CentsValues(cs)[1] == FromCents(cs[1]);
    }
    AddOfCentsIsExact(cs);
    assert SumInts([a, b]) == a + b by {
      assert [b][1..] == [];
      assert SumInts([b]) == b;
      assert [a, b][1..] == [b];
    }
    Add([FromCents(a), FromCents(b)])
  }

  /** `sum(amounts)` on amounts that already have two decimals is their exact sum. */
  function SumCents(cs: seq<int>): (r: int)
    ensures r == SumInts(cs)
  {
    AddOfCentsIsExact(cs);
    Sum(CentsValues(cs))
  }

  /** `subtract(a, b)`. */
  function Subtract(a: Rat, b: Rat): (r: int)
    ensures RoundsToCents(Minus(a, b), r)
  {
    ToCents(Minus(a, b))
  }

  /** `multiply(a, b)`. */
  function Multiply(a: Rat, b: Rat): (r: int)
    ensures RoundsToCents(Times(a, b), r)
  {
    ToCents(Times(a, b))
  }

  datatype FinancialError = DivisionByZero

  /** `divide(a, b)`: fails on a zero divisor, otherwise the rounded quotient. */
  function Divide(a: Rat, b: Rat): (r: Result<int, FinancialError>)
    ensures r.Err? <==> IsZeroValue(b)
    ensures r.Ok? ==> RoundsToCents(Quot(a, b), r.value)
  {
    if IsZeroValue(b) then Err(DivisionByZero) else Ok(ToCents(Quot(a, b)))
  }

  /** `average(amounts)`: 0 for no amounts, otherwise the ROUNDED sum divided by the count. */
  function Average(amounts: seq<Rat>): (r: int)
    ensures |amounts| == 0 ==> r == 0
    ensures |amounts| > 0 ==> RoundsToCents(Rat(Sum(amounts), 100 * |amounts|), r)
  {
    if |amounts| == 0 then 0
    else
      var q := Divide(FromCents(Sum(amounts)), Int(|amounts|));
      ToCentsRespectsValue(Quot(FromCents(Sum(amounts)), Int(|amounts|)), Rat(Sum(amounts), 100 * |amounts|));
      q.value
  }

  /** The sum is rounded before dividing, so `average([0.005, 0])` is 0.01 although the exact
      mean 0.0025 would round to 0.00. */
  lemma AverageRoundsSumFirst(a: Rat, z: Rat)
    requires a == Rat(5, 1000) && z == Int(0)
    ensures Average([a, z]) == 1
    ensures ToCents(Rat(25, 10000)) == 0
  {
    SumExample(a, z);
    AverageOfSum([a, z], 1);
    RoundExample(2500, 10000, 0);
  }

  lemma SumExample(a: Rat, z: Rat)
    requires a == Rat(5, 1000) && z == Int(0)
    ensures Sum([a, z]) == 1
  {
    var e := ExactSum([a, z]);
    assert e == Rat(5, 1000) by {
      ExactSumPair(a, z);
      assert Plus(z, Int(0)) == Rat(0, 1);
      assert Plus(a, Rat(0, 1)) == Rat(5, 1000);
    }
    assert e.num * 100 == 500 && e.den == 1000;
    assert RoundsHalfUp(500, 1000, 1);
    RoundExample(500, 1000, 1);
    assert ToCents(e) == 1;
    assert Sum([a, z]) == Add([a, z]) == ToCents(e);
  }

  lemma AverageOfSum(xs: seq<Rat>, s: int)
    requires |xs| == 2 && Sum(xs) == s && s == 1
    ensures Average(xs) == 1
  {
    assert Quot(FromCents(s), Int(2)) == Rat(1, 200);
    RoundExample(100, 200, 1);
  }

  /** Helper: a rounding checked against its specification. */
  lemma RoundExample(n: int, d: int, r: int)
    requires d > 0 && RoundsHalfUp(n, d, r)
    ensures RoundHalfUp(n, d) == r
  {
    RoundUnique(n, d, r);
  }

  lemma ExactSumSingle(b: Rat)
    ensures ExactSum([b]) == Plus(b, Int(0))
  {
    assert [b][1..] == [];
  }

  lemma ExactSumPair(a: Rat, b: Rat)
    ensures ExactSum([a, b]) == Plus(a, Plus(b, Int(0)))
  {
    assert [a, b][1..] == [b];
    ExactSumSingle(b);
  }

  /** `percentage(value, total)`: 0 for a zero total, otherwise `multiply(divide(value, total), 100)`;
      the quotient is rounded to two decimals first, so the result is always a whole number. */
  function Percentage(value: Rat, total: Rat): (r: int)
    ensures IsZeroValue(total) ==> r == 0
    ensures r % 100 == 0
    ensures !IsZeroValue(total) ==> RoundsToCents(Quot(value, total), r / 100)
  {
    if IsZeroValue(total) then 0
    else
      var q := Divide(value, total).value;
      var p := Multiply(FromCents(q), Int(100));
      assert Times(FromCents(q), Int(100)) == Rat(q * 100, 100);
      RoundOfInteger(q * 100, 100);
      assert p == q * 100;
      p
  }

  /** `compare(a, b)`: -1, 0 or 1 as `a` is below, equal to or above `b`. */
  function Compare(a: Rat, b: Rat): (r: int)
    ensures r == -1 <==> Less(a, b)
    ensures r == 0 <==> Same(a, b)
    ensures r == 1 <==> Less(b, a)
  {
    var d := a.num * b.den - b.num * a.den;
    if d < 0 then -1 else if d == 0 then 0 else 1
  }

  /** Comparison is antisymmetric. */
  lemma CompareAntisymmetric(a: Rat, b: Rat)
    ensures Compare(a, b) == -Compare(b, a)
  {
  }

  predicate IsZero(a: Rat) { a.num == 0 }

  predicate IsPositive(a: Rat) { a.num > 0 }

  predicate IsNegative(a: Rat) { a.num < 0 }

  /** Exactly one of the sign predicates holds, and they agree with `compare` against 0. */
  lemma SignTrichotomy(a: Rat)
    ensures (IsZero(a) && !IsPositive(a) && !IsNegative(a))
         || (!IsZero(a) && IsPositive(a) && !IsNegative(a))
         || (!IsZero(a) && !IsPositive(a) && IsNegative(a))
    ensures IsPositive(a) <==> Compare(a, Int(0)) == 1
    ensures IsNegative(a) <==> Compare(a, Int(0)) == -1
  {
  }

  /** `abs(value)` rounded to two decimals. */
  function Abs(a: Rat): (r: int)
    ensures r >= 0
    ensures RoundsToCents(if a.num < 0 then Neg(a) else a, r)
  {
    ToCents(if a.num < 0 then Neg(a) else a)
  }

  /** A value and its negation have the same absolute value. */
  lemma AbsOfNegation(a: Rat)
    ensures Abs(a) == Abs(Neg(a))
  {
  }

  function Pow10(k: nat): (p: nat)
    ensures p >= 1
  {
    if k == 0 then 1 else 10 * Pow10(k - 1)
  }

  /** `round(value, decimals)`: the value rounded to `decimals` places, as an exact value with
      denominator `10^decimals`; `round(value)` uses 2 places. */
  function Round(a: Rat, decimals: nat := 2): (r: Rat)
    ensures r.den == Pow10(decimals)
    ensures RoundsHalfUp(a.num * Pow10(decimals), a.den, r.num)
  {
    Rat(RoundHalfUp(a.num * Pow10(decimals), a.den), Pow10(decimals))
  }

  /** Rounding twice to the same number of places is rounding once, and the default of two
      places agrees with the hundredths used everywhere else. */
  lemma RoundIdempotent(a: Rat, decimals: nat)
    ensures Round(Round(a, decimals), decimals) == Round(a, decimals)
    ensures Round(a) == FromCents(ToCents(a))
  {
    var r := Round(a, decimals);
    RoundOfInteger(r.num, Pow10(decimals));
    assert r.num * Pow10(decimals) == r.num * r.den;
    assert Pow10(2) == 100;
  }

  /** A decimal.js operand as the constructor sees it. */
  datatype Num = Finite(x: Rat) | Infinite(negative: bool) | NaN | Unparseable

  /** `isValidAmount(value)`: a finite value that is not negative; an input the constructor
      rejects is not valid. */
  predicate IsValidAmount(v: Num) {
    v.Finite? && v.x.num >= 0
  }

  /** Infinities, `NaN` and rejected input are never valid; a finite value is valid exactly
      when it compares at or above zero, that is, when it is not negative. */
  lemma ValidAmountIsNonNegative(v: Num)
    ensures IsValidAmount(v) <==> v.Finite? && Compare(v.x, Int(0)) >= 0
    ensures v.Finite? ==> (IsValidAmount(v) <==> !IsNegative(v.x))
  {
  }

  /** Characters `parseAmount` deletes before parsing: `R`, `p` in either case and white space. */
  predicate IsStripped(c: char) {
    c == 'R' || c == 'r' || c == 'P' || c == 'p' || IsJsSpace(c)
  }

  /** The cleaning of `parseAmount`: delete `[Rp\s]` (case-insensitive) and every `.`,
      then turn every `,` into `.`. */
  function CleanAmount(s: string): string {
    if |s| == 0 then ""
    else if IsStripped(s[0]) || s[0] == '.' then CleanAmount(s[1..])
    else [if s[0] == ',' then '.' else s[0]] + CleanAmount(s[1..])
  }

  /** The cleaned text is no longer than the input and holds no stripped character and no
      comma. */
  lemma {:induction false} CleanAmountIsClean(s: string)
    ensures |CleanAmount(s)| <= |s|
    ensures forall i :: 0 <= i < |CleanAmount(s)| ==> !IsStripped(CleanAmount(s)[i]) && CleanAmount(s)[i] != ','
    decreases |s|
  {
    if |s| > 0 {
      CleanAmountIsClean(s[1..]);
    }
  }

  /** An unsigned plain decimal literal `digits[.digits]` or `.digits` (decimal.js `isDecimal`
      without exponent). */
  function ParseUnsigned(s: string): Option<Rat> {
    var k := IndexOf(s, '.');
    if k == |s| then
      if |s| > 0 && AllDigits(s) then Some(Int(DigitsValue(s))) else None
    else
      var ip := s[..k];
      var fp := s[k + 1..];
      if AllDigits(ip) && AllDigits(fp) && (|ip| > 0 || |fp| > 0) then
        assert AllDigits(ip + fp);
        Some(Rat(DigitsValue(ip + fp), Pow10(|fp|)))
      else None
  }

  /** `new Decimal(text)` for plain decimal literals with one optional sign. */
  function ParseDecimal(s: string): Option<Rat> {
    if |s| > 0 && s[0] == '-' then
      match ParseUnsigned(s[1..])
      case Some(x) => Some(Neg(x))
      case None => None
    else if |s| > 0 && s[0] == '+' then ParseUnsigned(s[1..])
    else ParseUnsigned(s)
  }

  /** `parseAmount(text)` in hundredths: 0 when the cleaned text is not a number. */
  function ParseAmount(s: string): int {
    match ParseDecimal(CleanAmount(s))
    case Some(x) => ToCents(x)
    case None => 0
  }

  /** A leading currency symbol "Rp " is ignored. */
  lemma CleanDropsCurrency(x: string)
    ensures CleanAmount("Rp " + x) == CleanAmount(x)
  {
    var p := "Rp ";
    CleanAppend(p, x);
    assert p[1..][1..][1..] == "";
  }

  /** A point is a thousands separator: it vanishes. */
  lemma CleanDropsPoint(a: string, b: string)
    ensures CleanAmount(a + "." + b) == CleanAmount(a) + CleanAmount(b)
  {
    assert CleanAmount("." + b) == CleanAmount(b) by {
      assert ("." + b)[1..] == b;
    }
    assert a + "." + b == a + ("." + b);
    CleanAppend(a, "." + b);
  }

  /** The forgiving parse: `.` is a thousands separator and `,` the decimal mark, so
      "Rp 1.500,50" is 1500.50. */
  lemma ParseAmountThousands(s: string)
    requires s == "Rp 1.500,50"
    ensures ParseAmount(s) == 150050
  {
    var ip, fp := "1500", "50";
    CleanThousandsExample(s, ip, fp);
    CleanAmountPreserved(s, ip + "," + fp);
    ParseAmountCommaDecimal(ip, fp);
    DigitsExample(ip + fp);
    assert Pow10(|fp|) == 100;
    RoundOfInteger(150050, 100);
  }

  lemma CleanThousandsExample(s: string, ip: string, fp: string)
    requires s == "Rp 1.500,50" && ip == "1500" && fp == "50"
    ensures CleanAmount(s) == CleanAmount(ip + "," + fp)
    ensures AllDigits(ip) && AllDigits(fp)
  {
    var one, rest := "1", "500,50";
    var x := one + "." + rest;
    assert s == "Rp " + x;
    assert CleanAmount(s) == CleanAmount(x) by { CleanDropsCurrency(x); }
    assert CleanAmount(x) == CleanAmount(one) + CleanAmount(rest) by { CleanDropsPoint(one, rest); }
    assert CleanAmount(one) + CleanAmount(rest) == CleanAmount(one + rest) by { CleanAppend(one, rest); }
    assert one + rest == ip + "," + fp;
  }

  lemma DigitsExample(d: string)
    requires d == "150050"
    ensures AllDigits(d) && DigitsValue(d) == 150050
  {
    assert d == "1" + ['5'] + ['0'] + ['0'] + ['5'] + ['0'];
    assert DigitsValue("1") == 1;
    DigitsValueSnoc("1", '5');
    DigitsValueSnoc("1" + ['5'], '0');
    DigitsValueSnoc("1" + ['5'] + ['0'], '0');
    DigitsValueSnoc("1" + ['5'] + ['0'] + ['0'], '5');
    DigitsValueSnoc("1" + ['5'] + ['0'] + ['0'] + ['5'], '0');
  }

  /** A lone point is a thousands separator too, so "1.5" is fifteen, not one and a half. */
  lemma ParseAmountPointIsThousands(t: string)
    requires t == "1.5"
    ensures ParseAmount(t) == 1500
  {
    var d := "15";
    assert CleanAmount(t) == d by {
      assert t == "1" + "." + "5";
      CleanDropsPoint("1", "5");
      CleanDigits("1");
      CleanDigits("5");
    }
    assert ParseDecimal(d) == Some(Int(15)) by {
      assert AllDigits(d);
      assert DigitsValue(d) == 15;
      IndexOfAllDigits(d);
    }
    RoundOfInteger(1500, 1);
  }

  /** For an integer part `ip` and a fraction part `fp` written with a decimal comma, the
      result is their value rounded to two decimals. */
  lemma ParseAmountCommaDecimal(ip: string, fp: string)
    requires |ip| > 0 && AllDigits(ip) && AllDigits(fp)
    ensures AllDigits(ip + fp)
    ensures ParseAmount(ip + "," + fp) == ToCents(Rat(DigitsValue(ip + fp), Pow10(|fp|)))
  {
    CleanCommaDecimal(ip, fp);
    ParsePointDecimal(ip, fp);
  }

  /** The cleaning turns a decimal comma between digit runs into a point. */
  lemma CleanCommaDecimal(ip: string, fp: string)
    requires AllDigits(ip) && AllDigits(fp)
    ensures CleanAmount(ip + "," + fp) == ip + "." + fp
  {
    assert CleanAmount("," + fp) == "." + fp by {
      CleanAppend(",", fp);
      assert CleanAmount(",") == ".";
      CleanDigits(fp);
    }
    assert CleanAmount(ip + ("," + fp)) == ip + ("." + fp) by {
      CleanAppend(ip, "," + fp);
      CleanDigits(ip);
    }
    assert ip + "," + fp == ip + ("," + fp);
    assert ip + "." + fp == ip + ("." + fp);
  }

  /** A literal `digits.digits` parses to its exact value. */
  lemma ParsePointDecimal(ip: string, fp: string)
    requires |ip| > 0 && AllDigits(ip) && AllDigits(fp)
    ensures AllDigits(ip + fp)
    ensures ParseDecimal(ip + "." + fp) == Some(Rat(DigitsValue(ip + fp), Pow10(|fp|)))
  {
    AllDigitsAppend(ip, fp);
    var c := ip + "." + fp;
    assert ParseDecimal(c) == ParseUnsigned(c) by {
      assert c[0] == ip[0];
      assert IsDigit(ip[0]);
    }
    assert IndexOf(c, '.') == |ip| by {
      assert c == ip + ("." + fp);
      IndexOfDigitsPrefix(ip, "." + fp);
    }
    assert c[..|ip|] == ip;
    assert c[|ip| + 1..] == fp;
  }

  lemma {:induction false} CleanDigits(s: string)
    requires AllDigits(s)
    ensures CleanAmount(s) == s
    decreases |s|
  {
    if |s| > 0 {
      CleanDigits(s[1..]);
    }
  }

  lemma {:induction false} CleanAppend(a: string, b: string)
    ensures CleanAmount(a + b) == CleanAmount(a) + CleanAmount(b)
    decreases |a|
  {
    if |a| > 0 {
      assert (a + b)[1..] == a[1..] + b;
      CleanAppend(a[1..], b);
    } else {
      assert a + b == b;
    }
  }

  lemma {:induction false} IndexOfDigitsPrefix(a: string, b: string)
    requires AllDigits(a) && |b| > 0 && b[0] == '.'
    ensures IndexOf(a + b, '.') == |a|
    decreases |a|
  {
    if |a| > 0 {
      assert (a + b)[1..] == a[1..] + b;
      IndexOfDigitsPrefix(a[1..], b);
    } else {
      assert a + b == b;
    }
  }

  lemma {:induction false} IndexOfAllDigits(s: string)
    requires AllDigits(s)
    ensures IndexOf(s, '.') == |s|
    decreases |s|
  {
    if |s| > 0 {
      IndexOfAllDigits(s[1..]);
    }
  }

  /** Helper: two strings with the same cleaning parse alike. */
  lemma CleanAmountPreserved(s: string, t: string)
    requires CleanAmount(s) == CleanAmount(t)
    ensures ParseAmount(s) == ParseAmount(t)
  {
  }
}

=== FILE: find_duplicates.dfy ===
/** The duplicate finder run over the two migrated exports (`scripts/find-duplicates.ts`):
    records are grouped by a key made of their day, their normalised label and their value,
    in a map that keeps keys in first-appearance order; the groups of more than one record
    are the duplicates. Turning a timestamp into its `YYYY-MM-DD` day is a parameter. */
module FindDuplicates {
  import opened Wrappers
  import opened Strings
  import opened Seqs
  import opened ExpenseRecords
  import opened MysqlDump

  // ---------------------------------------------------------------------------------------
  // The deduplication key
  // ---------------------------------------------------------------------------------------

  /** `label.toLowerCase().trim()`. */
  function NormalLabel(l: string): string {
    Trim(ToLower(l), IsJsSpace)
  }

  /** `${date}_${label}_${value}`, where `day` is the date part of the ISO timestamp. */
  function DedupeKey(r: ExpenseRecord, day: int -> string): string {
    day(r.createdAt) + "_" + NormalLabel(r.labelText) + "_" + IntToString(r.value)
  }

  /** The key function the finder groups by. */
  function KeyOf(day: int -> string): ExpenseRecord -> string {
    r => DedupeKey(r, day)
  }

  predicate NoUnderscore(s: string) { forall i :: 0 <= i < |s| ==> s[i] != '_' }

  lemma IntToStringNoUnderscore(v: int)
    ensures NoUnderscore(IntToString(v))
  {
    var s := IntToString(v);
    if v < 0 {
      assert forall i :: 1 <= i < |s| ==> s[i] == NatToString(-v)[i - 1];
    }
  }

  predicate NoUpper(s: string) { forall i :: 0 <= i < |s| ==> !('A' <= s[i] <= 'Z') }

  /** Lower-casing text that has no upper-case letter changes nothing. */
  lemma ToLowerOfLower(s: string)
    requires NoUpper(s)
    ensures ToLower(s) == s
  {
  }

  /** Trimming keeps a middle part, so it adds no upper-case letter. */
  lemma TrimKeepsNoUpper(s: string)
    requires NoUpper(s)
    ensures NoUpper(Trim(s, IsJsSpace))
  {
    var a := TrimStart(s, IsJsSpace);
    assert NoUpper(a);
  }

  /** Normalising a normalised label changes nothing. */
  lemma NormalLabelIdempotent(l: string)
    ensures NormalLabel(NormalLabel(l)) == NormalLabel(l)
  {
    var lower := ToLower(l);
    assert NoUpper(lower);
    TrimKeepsNoUpper(lower);
    ToLowerOfLower(Trim(lower, IsJsSpace));
    TrimIdempotent(lower, IsJsSpace);
  }

  /** A key `d_l_v` whose day and value hold no `_` determines its three parts, whatever
      `_` the label holds: the day ends at the first `_`, the value starts after the last. */
  lemma KeyPartsDetermined(d1: string, l1: string, v1: string, d2: string, l2: string, v2: string)
    requires NoUnderscore(d1) && NoUnderscore(d2) && NoUnderscore(v1) && NoUnderscore(v2)
    requires d1 + "_" + l1 + "_" + v1 == d2 + "_" + l2 + "_" + v2
    ensures d1 == d2 && l1 == l2 && v1 == v2
  {
    assert d1 + "_" + l1 + "_" + v1 == d1 + ['_'] + (l1 + ['_'] + v1);
    assert d2 + "_" + l2 + "_" + v2 == d2 + ['_'] + (l2 + ['_'] + v2);
    SplitAtFirst(d1, l1 + ['_'] + v1, d2, l2 + ['_'] + v2, '_');
    SplitAtLast(l1, v1, l2, v2, '_');
  }

  /** Two records share a key exactly when they fall on the same day, their labels agree up
      to case and surrounding white space, and their values are equal. */
  lemma DedupeKeyIff(a: ExpenseRecord, b: ExpenseRecord, day: int -> string)
    requires NoUnderscore(day(a.createdAt)) && NoUnderscore(day(b.createdAt))
    ensures DedupeKey(a, day) == DedupeKey(b, day) <==>
      day(a.createdAt) == day(b.createdAt) && NormalLabel(a.labelText) == NormalLabel(b.labelText)
      && a.value == b.value
  {
    if DedupeKey(a, day) == DedupeKey(b, day) {
      IntToStringNoUnderscore(a.value);
      IntToStringNoUnderscore(b.value);
      KeyPartsDetermined(day(a.createdAt), NormalLabel(a.labelText), IntToString(a.value),
                         day(b.createdAt), NormalLabel(b.labelText), IntToString(b.value));
      IntToStringInjective(a.value, b.value);
    }
  }

  // ---------------------------------------------------------------------------------------
  // Where a record came from
  // ---------------------------------------------------------------------------------------

  datatype Source = MySql | Firestore

  /** `getSource`: the MySQL transform prefixes its ids with `mysql_`. */
  function GetSource(id: string): (s: Source)
    ensures s == MySql <==> |id| >= 6 && id[..6] == "mysql_"
  {
    if StartsWith(id, "mysql_") then MySql else Firestore
  }

  /** Every record the MySQL transform produces is reported as coming from MySQL. */
  lemma TransformedRecordsAreMySql(rows: seq<MySqlSpending>, unix: string -> int)
    ensures forall e :: e in TransformToExpenseFormat(rows, unix) ==> GetSource(e.id) == MySql
  {
    forall e | e in TransformToExpenseFormat(rows, unix)
      ensures GetSource(e.id) == MySql
    {
      assert e.id[..6] == "mysql_";
    }
  }

  /** Firestore's generated document ids hold no `_`, so they are reported as Firestore. */
  lemma PlainIdsAreFirestore(id: string)
    requires NoUnderscore(id)
    ensures GetSource(id) == Firestore
  {
    if |id| >= 6 {
      assert id[5] != '_';
      assert id[..6][5] == id[5];
    }
  }

  // ---------------------------------------------------------------------------------------
  // Grouping in a map that remembers insertion order
  // ---------------------------------------------------------------------------------------

  /** One map entry: a key and the records pushed under it. */
  datatype Group<T> = Group(key: string, records: seq<T>)

  /** The elements of `xs` whose key is `k`, in order. */
  function Select<T>(xs: seq<T>, key: T -> string, k: string): seq<T>
    decreases |xs|
  {
    if |xs| == 0 then []
    else Select(xs[..|xs| - 1], key, k) + (if key(xs[|xs| - 1]) == k then [xs[|xs| - 1]] else [])
  }

  lemma {:induction false} SelectNone<T>(xs: seq<T>, key: T -> string, k: string)
    requires forall j :: 0 <= j < |xs| ==> key(xs[j]) != k
    ensures Select(xs, key, k) == []
    decreases |xs|
  {
    if |xs| > 0 {
      SelectNone(xs[..|xs| - 1], key, k);
    }
  }

  /** `dedupeMap.has(k)`: the position of the entry for `k`, or the number of entries. */
  function KeyIndex<T>(gs: seq<Group<T>>, k: string): (i: nat)
    ensures i <= |gs|
    ensures i < |gs| ==> gs[i].key == k
    ensures forall j :: 0 <= j < i ==> gs[j].key != k
  {
    if |gs| == 0 then 0
    else if gs[0].key == k then 0
    else 1 + KeyIndex(gs[1..], k)
  }

  predicate KeysDistinct<T>(gs: seq<Group<T>>) {
    forall i, j :: 0 <= i < j < |gs| ==> gs[i].key != gs[j].key
  }

  /** One step of the `forEach`: create the entry for `k` at the end if it is missing, then
      push `x` onto it. */
  function AddTo<T>(gs: seq<Group<T>>, k: string, x: T): (r: seq<Group<T>>)
    requires KeysDistinct(gs)
    ensures KeysDistinct(r)
    ensures KeyIndex(gs, k) < |gs| ==> |r| == |gs|
    ensures KeyIndex(gs, k) == |gs| ==> |r| == |gs| + 1 && r[|gs|] == Group(k, [x])
    ensures forall i :: 0 <= i < |gs| ==> r[i].key == gs[i].key
    ensures forall i :: 0 <= i < |gs| ==>
      r[i].records == gs[i].records + (if gs[i].key == k then [x] else [])
  {
    var i := KeyIndex(gs, k);
    if i < |gs| then gs[i := Group(k, gs[i].records + [x])] else gs + [Group(k, [x])]
  }

  /** What the map holds after the elements `xs` have been pushed: no key twice, each entry
      holds exactly the elements with its key in their original order, and every element's
      key has an entry. */
  predicate Grouped<T(==)>(xs: seq<T>, key: T -> string, gs: seq<Group<T>>) {
    && KeysDistinct(gs)
    && (forall i :: 0 <= i < |gs| ==> gs[i].records == Select(xs, key, gs[i].key))
    && (forall i :: 0 <= i < |gs| ==> |gs[i].records| > 0)
    && (forall j :: 0 <= j < |xs| ==> KeyIndex(gs, key(xs[j])) < |gs|)
  }

  /** Pushing one more element keeps the map faithful to the elements pushed so far. */
  lemma AddStep<T>(xs: seq<T>, key: T -> string, g: seq<Group<T>>)
    requires |xs| > 0 && Grouped(xs[..|xs| - 1], key, g)
    ensures Grouped(xs, key, AddTo(g, key(xs[|xs| - 1]), xs[|xs| - 1]))
  {
    var p := xs[..|xs| - 1];
    var x := xs[|xs| - 1];
    assert xs == p + [x];
    AddStepSelects(xs, key, g);
    AddStepCovers(p, x, key, g);
  }

  /** After the push every entry still holds exactly the elements with its key. */
  lemma AddStepSelects<T>(xs: seq<T>, key: T -> string, g: seq<Group<T>>)
    requires |xs| > 0 && Grouped(xs[..|xs| - 1], key, g)
    ensures var r := AddTo(g, key(xs[|xs| - 1]), xs[|xs| - 1]);
      forall i :: 0 <= i < |r| ==> r[i].records == Select(xs, key, r[i].key) && |r[i].records| > 0
  {
    var p := xs[..|xs| - 1];
    var x := xs[|xs| - 1];
    assert forall k :: Select(xs, key, k) == Select(p, key, k) + (if key(x) == k then [x] else []);
    NewKeyUnseen(p, key, g, key(x));
  }

  /** After the push every element pushed so far, the new one included, has an entry. */
  lemma AddStepCovers<T>(p: seq<T>, x: T, key: T -> string, g: seq<Group<T>>)
    requires KeysDistinct(g)
    requires forall j :: 0 <= j < |p| ==> KeyIndex(g, key(p[j])) < |g|
    ensures var r := AddTo(g, key(x), x);
      forall j :: 0 <= j < |p + [x]| ==> KeyIndex(r, key((p + [x])[j])) < |r|
  {
    var xs := p + [x];
    var r := AddTo(g, key(x), x);
    forall j | 0 <= j < |xs|
      ensures KeyIndex(r, key(xs[j])) < |r|
    {
      var i := if j < |p| then KeyIndex(g, key(p[j])) else KeyIndex(g, key(x));
      var i' := if i < |g| then i else |g|;
      assert r[i'].key == key(xs[j]);
      assert KeyIndex(r, key(xs[j])) <= i';
    }
  }

  /** The map after every element has been pushed. */
  function GroupBy<T(==)>(xs: seq<T>, key: T -> string): (gs: seq<Group<T>>)
    ensures Grouped(xs, key, gs)
    decreases |xs|
  {
    if |xs| == 0 then []
    else
      var g := GroupBy(xs[..|xs| - 1], key);
      AddStep(xs, key, g);
      AddTo(g, key(xs[|xs| - 1]), xs[|xs| - 1])
  }

  /** A key without an entry selects nothing from the elements pushed so far. */
  lemma NewKeyUnseen<T>(p: seq<T>, key: T -> string, g: seq<Group<T>>, k: string)
    requires forall j :: 0 <= j < |p| ==> KeyIndex(g, key(p[j])) < |g|
    ensures KeyIndex(g, k) == |g| ==> Select(p, key, k) == []
  {
    if KeyIndex(g, k) == |g| {
      forall j | 0 <= j < |p|
        ensures key(p[j]) != k
      {
        var i := KeyIndex(g, key(p[j]));
        assert g[i].key == key(p[j]);
      }
      SelectNone(p, key, k);
    }
  }

  function Size<T>(g: Group<T>): int { |g.records| }

  function Keys<T>(gs: seq<Group<T>>): (ks: seq<string>)
    ensures |ks| == |gs| && forall i :: 0 <= i < |gs| ==> ks[i] == gs[i].key
  {
    seq(|gs|, i requires 0 <= i < |gs| => gs[i].key)
  }

  function KeysOf<T>(xs: seq<T>, key: T -> string): (ks: seq<string>)
    ensures |ks| == |xs| && forall j :: 0 <= j < |xs| ==> ks[j] == key(xs[j])
  {
    seq(|xs|, j requires 0 <= j < |xs| => key(xs[j]))
  }

  /** The entries hold every element once: their sizes add up to the number of elements. */
  lemma {:induction false} GroupSizesSum<T>(xs: seq<T>, key: T -> string)
    ensures SumBy(GroupBy(xs, key), Size) == |xs|
    decreases |xs|
  {
    if |xs| > 0 {
      var p := xs[..|xs| - 1];
      var x := xs[|xs| - 1];
      var g := GroupBy(p, key);
      GroupSizesSum(p, key);
      var i := KeyIndex(g, key(x));
      if i < |g| {
        SumByUpdate(g, i, Group(key(x), g[i].records + [x]), Size);
        assert AddTo(g, key(x), x) == g[i := Group(key(x), g[i].records + [x])];
      } else {
        SumBySnoc(g, Group(key(x), [x]), Size);
        assert AddTo(g, key(x), x) == g + [Group(key(x), [x])];
      }
    }
  }

  /** An entry exists for `k` exactly when `k` is among the keys. */
  lemma KeyIndexIsMembership<T>(gs: seq<Group<T>>, k: string)
    ensures k in Keys(gs) <==> KeyIndex(gs, k) < |gs|
  {
    if k in Keys(gs) {
      var i :| 0 <= i < |gs| && Keys(gs)[i] == k;
      assert KeyIndex(gs, k) <= i;
    }
  }

  /** Pushing an element adds its key at the end of the keys when it is new. */
  lemma KeysOfAddTo<T>(g: seq<Group<T>>, k: string, x: T)
    requires KeysDistinct(g)
    ensures Keys(AddTo(g, k, x)) == if k in Keys(g) then Keys(g) else Keys(g) + [k]
  {
    KeyIndexIsMembership(g, k);
  }

  /** A `Map` iterates in insertion order: the keys come out in the order of their first
      appearance among the elements. */
  lemma {:induction false} KeysInFirstAppearanceOrder<T>(xs: seq<T>, key: T -> string)
    ensures Keys(GroupBy(xs, key)) == Dedup(KeysOf(xs, key))
    decreases |xs|
  {
    if |xs| > 0 {
      var p := xs[..|xs| - 1];
      var x := xs[|xs| - 1];
      var g := GroupBy(p, key);
      KeysInFirstAppearanceOrder(p, key);
      var ks := KeysOf(xs, key);
      var d := Dedup(KeysOf(p, key));
      assert ks[..|ks| - 1] == KeysOf(p, key);
      assert ks[|ks| - 1] == key(x);
      assert Dedup(ks) == if key(x) in d then d else d + [key(x)];
      KeysOfAddTo(g, key(x), x);
      assert GroupBy(xs, key) == AddTo(g, key(x), x);
    }
  }

  // ---------------------------------------------------------------------------------------
  // The report
  // ---------------------------------------------------------------------------------------

  predicate IsDuplicate<T>(g: Group<T>) { |g.records| > 1 }

  predicate IsSingle<T>(g: Group<T>) { |g.records| <= 1 }

  function Extra<T>(g: Group<T>): int { |g.records| - 1 }

  /** The three totals the summary prints. */
  datatype Summary = Summary(groups: nat, records: int, removed: int)

  /** `main` after both exports are loaded: the Firestore records first, then the MySQL
      ones, grouped by key; the duplicate groups in map order and the summary totals. */
  function FindDuplicates(firestore: seq<ExpenseRecord>, mysql: seq<ExpenseRecord>, day: int -> string)
    : (r: (seq<Group<ExpenseRecord>>, Summary))
    ensures forall i :: 0 <= i < |r.0| ==> |r.0[i].records| > 1
    ensures r.1.groups == |r.0|
  {
    var dups := Filter(GroupBy(firestore + mysql, KeyOf(day)), IsDuplicate);
    (dups, Summary(|dups|, SumBy(dups, Size), SumBy(dups, Extra)))
  }

  lemma {:induction false} SumOfSinglesExtra<T>(gs: seq<Group<T>>)
    requires forall i :: 0 <= i < |gs| ==> |gs[i].records| == 1
    ensures SumBy(gs, Extra) == 0
    decreases |gs|
  {
    if |gs| > 0 {
      SumOfSinglesExtra(gs[1..]);
    }
  }

  lemma {:induction false} SumExtraIsSizeMinusCount<T>(gs: seq<Group<T>>)
    ensures SumBy(gs, Extra) == SumBy(gs, Size) - |gs|
    decreases |gs|
  {
    if |gs| > 0 {
      SumExtraIsSizeMinusCount(gs[1..]);
    }
  }

  /** The duplicate groups are exactly the keys shared by two or more records, and the
      removal count is what keeping one record per key removes: the number of records less
      the number of distinct keys. Each duplicate group contributes one kept record, so the
      duplicate records exceed the removals by the number of groups. */
  lemma FindDuplicatesCounts(firestore: seq<ExpenseRecord>, mysql: seq<ExpenseRecord>, day: int -> string)
    ensures var xs := firestore + mysql;
      var gs := GroupBy(xs, KeyOf(day));
      var (dups, s) := FindDuplicates(firestore, mysql, day);
      && dups == Filter(gs, IsDuplicate)
      && s.removed == |xs| - |gs|
      && s.records - s.removed == s.groups
  {
    var xs := firestore + mysql;
    var gs := GroupBy(xs, KeyOf(day));
    var dups := Filter(gs, IsDuplicate);
    var singles := Filter(gs, IsSingle);
    SumByFilterSplit(gs, IsDuplicate, IsSingle, Extra);
    SumOfSinglesExtra(singles);
    SumExtraIsSizeMinusCount(gs);
    GroupSizesSum(xs, KeyOf(day));
    SumExtraIsSizeMinusCount(dups);
  }

  /** Two records land in the same group exactly when they share a key. */
  lemma SameGroupIffSameKey(xs: seq<ExpenseRecord>, day: int -> string, a: nat, b: nat)
    requires a < |xs| && b < |xs|
    ensures var gs := GroupBy(xs, KeyOf(day));
      KeyIndex(gs, DedupeKey(xs[a], day)) == KeyIndex(gs, DedupeKey(xs[b], day))
      <==> DedupeKey(xs[a], day) == DedupeKey(xs[b], day)
  {
    var gs := GroupBy(xs, KeyOf(day));
    assert KeyOf(day)(xs[a]) == DedupeKey(xs[a], day);
    assert KeyOf(day)(xs[b]) == DedupeKey(xs[b], day);
  }
}

=== FILE: http.dfy ===
/** The HTTP error a Nuxt server handler throws (`createError`), and the catch-all that the
    asset handlers wrap around their bodies. */
module Http {
  import opened Wrappers

  /** `createError({ statusCode, statusMessage })`. */
  datatype HttpError = HttpError(status: nat, message: string)

  /** Whatever a handler body throws, seen through `{ statusCode?, statusMessage? }`: an
      error that is not an HTTP error carries neither field. */
  datatype Thrown = Thrown(statusCode: Option<nat>, statusMessage: Option<string>)

  function AsThrown(e: HttpError): Thrown {
    Thrown(Some(e.status), Some(e.message))
  }

  /** What `readBody` hands a handler: no object at all (an empty body or JSON `null`, on
      which reading any property throws a `TypeError`), or an object's fields. A JSON value
      that is not an object reads as an object without the fields. */
  datatype ReadBody<T> = NullBody | JsonBody(fields: T)

  /** An error that escapes a handler uncaught, such as that `TypeError`: the framework
      answers 500; its message is the framework's own and is left empty here. */
  const Uncaught := HttpError(500, "")

  /** The message the asset handlers fall back to. */
  const InternalError := "Internal server error"

  /** `statusCode: err.statusCode || 500, statusMessage: err.statusMessage || fallback`: a
      missing or falsy (0, empty) field falls back to the default. */
  function Rethrow(t: Thrown, fallback: string): (e: HttpError)
    ensures e.status != 0
    ensures fallback != "" ==> e.message != ""
    ensures t.statusCode.Some? && t.statusCode.value != 0 ==> e.status == t.statusCode.value
    ensures t.statusCode.None? || t.statusCode.value == 0 ==> e.status == 500
    ensures t.statusMessage.Some? && t.statusMessage.value != "" ==> e.message == t.statusMessage.value
    ensures t.statusMessage.None? || t.statusMessage.value == "" ==> e.message == fallback
  {
    var status := if t.statusCode.Some? && t.statusCode.value != 0 then t.statusCode.value else 500;
    var message := if t.statusMessage.Some? && t.statusMessage.value != "" then t.statusMessage.value else fallback;
    HttpError(status, message)
  }

  /** An error the handler threw itself passes through the catch-all unchanged, and wrapping
      twice is wrapping once. */
  lemma RethrowKeepsHandlerErrors(e: HttpError, t: Thrown, fallback: string)
    requires e.status != 0 && e.message != ""
    ensures Rethrow(AsThrown(e), fallback) == e
    ensures fallback != "" ==> Rethrow(AsThrown(Rethrow(t, fallback)), fallback) == Rethrow(t, fallback)
  {
  }
}

=== FILE: js.dfy ===
/** JavaScript value semantics the handlers and composables rely on: the truthiness of an
    optional string and `parseInt` with its default radix. `None` stands for `undefined`
    among strings and for NaN among numbers. */
module Js {
  import opened Wrappers
  import opened Strings

  /** A string value is truthy when it is present and non-empty. */
  predicate Truthy(v: Option<string>) { v.Some? && |v.value| > 0 }

  /** A number from `parseInt` is truthy when it is neither NaN nor zero. */
  predicate NumberTruthy(n: Option<int>) { n.Some? && n.value != 0 }

  /** Number of JavaScript white-space characters at the start of `s`. */
  function LeadingSpace(s: string): (n: nat)
    ensures n <= |s|
    ensures forall i :: 0 <= i < n ==> IsJsSpace(s[i])
    ensures n < |s| ==> !IsJsSpace(s[n])
  {
    if |s| > 0 && IsJsSpace(s[0]) then 1 + LeadingSpace(s[1..]) else 0
  }

  predicate IsHexDigit(c: char) { IsDigit(c) || 'a' <= c <= 'f' || 'A' <= c <= 'F' }

  function HexDigitValue(c: char): (v: nat)
    requires IsHexDigit(c)
    ensures v < 16
    ensures IsDigit(c) ==> v == DigitValue(c)
  {
    if IsDigit(c) then DigitValue(c)
    else if 'a' <= c <= 'f' then c as int - 'a' as int + 10
    else c as int - 'A' as int + 10
  }

  function LeadingHex(s: string): (n: nat)
    ensures n <= |s|
    ensures forall i :: 0 <= i < n ==> IsHexDigit(s[i])
  {
    if |s| > 0 && IsHexDigit(s[0]) then 1 + LeadingHex(s[1..]) else 0
  }

  /** Base-16 value of a string of hexadecimal digits. */
  function HexValue(s: string): nat
    requires forall i :: 0 <= i < |s| ==> IsHexDigit(s[i])
    decreases |s|
  {
    if |s| == 0 then 0 else HexValue(s[..|s| - 1]) * 16 + HexDigitValue(s[|s| - 1])
  }

  /** `0x` or `0X` at the start, which switches `parseInt` to base 16. */
  predicate HasHexPrefix(v: string) {
    |v| >= 2 && v[0] == '0' && (v[1] == 'x' || v[1] == 'X')
  }

  /** The magnitude `parseInt` reads once white space and sign are gone: the longest run of
      digits in the base the prefix selects, or NaN when that run is empty. */
  function Magnitude(v: string): (r: Option<nat>)
    ensures !HasHexPrefix(v) ==> (r.None? <==> |v| == 0 || !IsDigit(v[0]))
  {
    if HasHexPrefix(v) then
      var h := LeadingHex(v[2..]);
      if h == 0 then None else Some(HexValue(v[2..][..h]))
    else
      var n := LeadingDigits(v);
      if n == 0 then None else Some(DigitsValue(v[..n]))
  }

  /** One optional `+` or `-`, then the magnitude. */
  function ParseSigned(u: string): (r: Option<int>)
  {
    var signed := |u| > 0 && (u[0] == '-' || u[0] == '+');
    var m := Magnitude(if signed then u[1..] else u);
    if m.None? then None
    else if signed && u[0] == '-' then Some(0 - m.value)
    else Some(m.value as int)
  }

  /** `parseInt(s)` without a radix: leading white space is skipped, one `+` or `-` is read,
      and the longest digit run that follows gives the value; trailing text is ignored. */
  function ParseInt(s: string): (r: Option<int>)
  {
    ParseSigned(s[LeadingSpace(s)..])
  }

  /** `parseInt` reads back the decimal text of every integer. */
  lemma ParseIntReadsIntToString(i: int)
    ensures ParseInt(IntToString(i)) == Some(i)
  {
    var s := IntToString(i);
    var d := NatToString(if i < 0 then -i else i);
    LeadingDigitsIs(d, |d|);
    assert d[..|d|] == d;
    if i < 0 {
      assert s == "-" + d && s[1..] == d;
    }
  }

  /** A digit run followed by text that does not continue it reads as the run. */
  lemma MagnitudeOfDigits(d: string, t: string)
    requires |d| > 0 && AllDigits(d)
    requires |t| == 0 || (!IsDigit(t[0]) && t[0] != 'x' && t[0] != 'X')
    ensures Magnitude(d + t) == Some(DigitsValue(d))
  {
    var v := d + t;
    assert |v| >= 2 ==> v[1] == if |d| >= 2 then d[1] else t[0];
    assert !HasHexPrefix(v);
    assert forall i :: 0 <= i < |d| ==> v[i] == d[i];
    LeadingDigitsIs(v, |d|);
    assert v[..|d|] == d;
  }

  /** Text after the digits is ignored, provided it does not continue the number. */
  lemma ParseIntIgnoresTail(d: string, t: string)
    requires |d| > 0 && AllDigits(d)
    requires |t| == 0 || (!IsDigit(t[0]) && t[0] != 'x' && t[0] != 'X')
    ensures ParseInt(d + t) == Some(DigitsValue(d))
  {
    NoLeadingSpace(d + t);
    Unsigned(d + t);
    MagnitudeOfDigits(d, t);
  }

  /** Text starting with a digit is read from its first character. */
  lemma NoLeadingSpace(v: string)
    requires |v| > 0 && IsDigit(v[0])
    ensures ParseInt(v) == ParseSigned(v)
  {
    assert LeadingSpace(v) == 0 && v[0..] == v;
  }

  /** Text starting with a digit carries no sign. */
  lemma Unsigned(v: string)
    requires |v| > 0 && IsDigit(v[0])
    ensures Magnitude(v).Some? ==> ParseSigned(v) == Some(Magnitude(v).value as int)
  {
  }

  lemma {:induction false} LeadingSpaceAppend(w: string, s: string)
    requires forall i :: 0 <= i < |w| ==> IsJsSpace(w[i])
    ensures LeadingSpace(w + s) == |w| + LeadingSpace(s)
    decreases |w|
  {
    if |w| > 0 {
      assert (w + s)[0] == w[0];
      assert (w + s)[1..] == w[1..] + s;
      LeadingSpaceAppend(w[1..], s);
    } else {
      assert w + s == s;
    }
  }

  /** Leading white space does not change the result. */
  lemma ParseIntSkipsSpace(w: string, s: string)
    requires forall i :: 0 <= i < |w| ==> IsJsSpace(w[i])
    ensures ParseInt(w + s) == ParseInt(s)
  {
    LeadingSpaceAppend(w, s);
    DropPrefix(w, s, LeadingSpace(s));
  }

  lemma DropPrefix(w: string, s: string, k: nat)
    requires k <= |s|
    ensures (w + s)[|w| + k..] == s[k..]
  {
  }

  /** Without a single digit the result is NaN. */
  lemma ParseIntNeedsDigit(s: string)
    requires forall i :: 0 <= i < |s| ==> !IsDigit(s[i])
    ensures ParseInt(s).None?
  {
    var u := s[LeadingSpace(s)..];
    var signed := |u| > 0 && (u[0] == '-' || u[0] == '+');
    var v := if signed then u[1..] else u;
    assert forall i :: 0 <= i < |v| ==> v[i] in s;
    if |v| > 0 {
      assert !IsDigit(v[0]);
    }
  }
}

=== FILE: laravel_filters.dfy ===
/** The Laravel-era Vue filter mixin: `dateFormal`, the length-guarded end-anchored
    `digitGrouping`, `firstLetterOnly` and `hourOnly`. Calendar fields that the source
    reads from a `Date` are parameters. */
module LaravelFilters {
  import opened Wrappers
  import opened Strings
  import opened DigitGrouping
  import opened Calendar

  /** `d.getDate() + ' ' + months[d.getMonth() + 1] + ' ' + d.getFullYear()`, where
      `month0` is the zero-based `getMonth()`. */
  function DateFormal(day: nat, month0: nat, year: int): (r: string)
    requires month0 < 12
  {
    NatToString(day) + " " + MonthNames[month0 + 1] + " " + IntToString(year)
  }

  predicate SpaceFree(s: string) { forall i :: 0 <= i < |s| ==> s[i] != ' ' }

  /** `r` consists of the words `w1`, `w2` and `w3`, separated by single spaces, where the
      first two contain no space. */
  predicate ReadsAsWords(r: string, w1: string, w2: string, w3: string) {
    var k := IndexOf(r, ' ');
    && k < |r| && r[..k] == w1
    && var rest := r[k + 1..];
    var k2 := IndexOf(rest, ' ');
    k2 < |rest| && rest[..k2] == w2 && rest[k2 + 1..] == w3
  }

  lemma WordsReadBack(a: string, b: string, c: string)
    requires SpaceFree(a) && SpaceFree(b)
    ensures ReadsAsWords(a + " " + b + " " + c, a, b, c)
  {
    var r := a + " " + b + " " + c;
    assert r == a + [' '] + (b + " " + c);
    IndexOfAfterFree(a, b + " " + c, ' ');
    assert r[..|a|] == a;
    var rest := r[|a| + 1..];
    assert rest == b + [' '] + c;
    IndexOfAfterFree(b, c, ' ');
    assert rest[..|b|] == b && rest[|b| + 1..] == c;
  }

  /** The text reads back: the first word is the day, the second the name of month
      `month0 + 1` (so January, `getMonth() == 0`, shows "Januari"), the rest the year. */
  lemma DateFormalReadsBack(day: nat, month0: nat, year: int)
    requires month0 < 12
    ensures ReadsAsWords(DateFormal(day, month0, year), NatToString(day), MonthName(month0 + 1), IntToString(year))
    ensures DigitsValue(NatToString(day)) == day
  {
    var d, name := NatToString(day), MonthName(month0 + 1);
    assert SpaceFree(d);
    assert SpaceFree(name);
    WordsReadBack(d, name, IntToString(year));
  }

  /** Different dates print differently. */
  lemma DateFormalInjective(d1: nat, m1: nat, y1: int, d2: nat, m2: nat, y2: int)
    requires m1 < 12 && m2 < 12
    requires DateFormal(d1, m1, y1) == DateFormal(d2, m2, y2)
    ensures d1 == d2 && m1 == m2 && y1 == y2
  {
    DateFormalReadsBack(d1, m1, y1);
    DateFormalReadsBack(d2, m2, y2);
    NatToStringInjective(d1, d2);
    IntToStringInjective(y1, y2);
    if m1 != m2 {
      ShortMonthNamesDistinct(m1 + 1, m2 + 1);
    }
  }

  /** `if (str.length >= 4) str = str.replace(/(\d)(?=(\d{3})+$)/g, '$1.')`. */
  function GuardedGrouping(s: string): (r: string)
    ensures |s| < 4 ==> r == s
  {
    if |s| >= 4 then GroupAtEnd(s) else s
  }

  /** The length guard changes nothing: the end-anchored regex cannot match in fewer than
      four characters. On digit strings the result is the mixin filter's, and in general only
      the digit run reaching the end is grouped. */
  lemma GuardedGroupingFacts(p: string, t: string)
    requires AllDigits(t)
    requires |p| == 0 || !IsDigit(p[|p| - 1])
    ensures GuardedGrouping(p + t) == GroupAtEnd(p + t) == p + Group(t)
    ensures GuardedGrouping(t) == Group(t)
  {
    if |p + t| < 4 {
      GroupAtEndShort(p + t);
    }
    if |t| < 4 {
      GroupAtEndShort(t);
    }
    GroupAtEndTrailingRun(p, t);
    GroupAtEndOfDigits(t);
  }

  /** `firstLetterOnly`: `undefined` for a missing or empty string, otherwise `charAt(0)`. */
  function FirstLetterOnly(s: Option<string>): (r: Option<string>)
    ensures r.Some? <==> s.Some? && |s.value| > 0
    ensures r.Some? ==> |r.value| == 1 && StartsWith(s.value, r.value)
  {
    if s.None? || |s.value| == 0 then None else Some(s.value[..1])
  }

  /** `hourOnly`: hours and minutes, each zero-padded below 10, joined by `:`. The result is
      five characters and reads back as the same hour and minute. */
  function HourOnly(hours: nat, minutes: nat): (r: string)
    requires hours < 24 && minutes < 60
    ensures |r| == 5 && r[2] == ':'
    ensures AllDigits(r[..2]) && DigitsValue(r[..2]) == hours
    ensures AllDigits(r[3..]) && DigitsValue(r[3..]) == minutes
  {
    var h, m := Pad2(hours), Pad2(minutes);
    assert (h + ":" + m)[..2] == h && (h + ":" + m)[3..] == m;
    h + ":" + m
  }
}

=== FILE: legacy_entry.dfy ===
/** The 2014 PHP front controller (`index.php`): request-parameter sanitising, page
    dispatch and the pre-checks on a submitted spending. The current date is a parameter;
    page rendering and the database write are represented by the page chosen. */
module LegacyEntry {
  import opened Wrappers
  import opened Strings
  import opened DigitGrouping

  // ---------------------------------------------------------------------------------------
  // Parameters `p` and `sp`

  /** PHP's `ctype_alpha`: non-empty and ASCII letters only. */
  predicate CtypeAlpha(s: string) {
    |s| > 0 && forall i :: 0 <= i < |s| ==> IsAsciiLetter(s[i])
  }

  /** PHP's `ctype_alnum`: non-empty and ASCII letters or digits only. */
  predicate CtypeAlnum(s: string) {
    |s| > 0 && forall i :: 0 <= i < |s| ==> IsAsciiAlnum(s[i])
  }

  /** `if(empty($p) || !ctype_alpha($p)) $p = ''`: a missing parameter, or one that is not
      all letters, becomes the empty string; otherwise it is kept as given. */
  function SanitizeParam(v: Option<string>): (r: string)
    ensures r == "" || CtypeAlpha(r)
    ensures r != "" <==> v.Some? && CtypeAlpha(v.value)
    ensures r != "" ==> r == v.value
  {
    if v.None? || |v.value| == 0 || !CtypeAlpha(v.value) then "" else v.value
  }

  /** Sanitising an already sanitised parameter changes nothing. */
  lemma SanitizeParamIdempotent(v: Option<string>)
    ensures SanitizeParam(Some(SanitizeParam(v))) == SanitizeParam(v)
  {
  }

  // ---------------------------------------------------------------------------------------
  // PHP 7 `is_numeric`

  /** White space PHP skips before a numeric string. */
  predicate IsNumericWhite(c: char) {
    c == ' ' || c == '\t' || c == '\n' || c == '\r' || c == '\U{000B}' || c == '\U{000C}'
  }

  function LeadingWhite(s: string): (n: nat)
    ensures n <= |s|
    ensures forall i :: 0 <= i < n ==> IsNumericWhite(s[i])
    ensures n < |s| ==> !IsNumericWhite(s[n])
  {
    if |s| > 0 && IsNumericWhite(s[0]) then 1 + LeadingWhite(s[1..]) else 0
  }

  predicate IsSign(c: char) { c == '+' || c == '-' }

  /** Nothing, or `e`/`E`, an optional sign and at least one digit. */
  predicate IsExponentOrEmpty(e: string) {
    |e| == 0 ||
    (|e| >= 2 && (e[0] == 'e' || e[0] == 'E') &&
     var k := if IsSign(e[1]) then 2 else 1;
     k < |e| && forall i :: k <= i < |e| ==> IsDigit(e[i]))
  }

  /** Digits with an optional decimal point (at least one digit on some side of it),
      followed by an optional exponent. */
  predicate IsUnsignedNumber(u: string) {
    var a := LeadingDigits(u);
    if a < |u| && u[a] == '.' then
      var b := LeadingDigits(u[a + 1..]);
      a + b > 0 && IsExponentOrEmpty(u[a + 1 + b..])
    else
      a > 0 && IsExponentOrEmpty(u[a..])
  }

  /** PHP 7's `is_numeric` on a string: leading white space, an optional sign and a decimal
      number; no trailing white space and no hexadecimal. */
  predicate IsNumeric(s: string) {
    var n := LeadingWhite(s);
    IsUnsignedNumber(s[n + SignLen(s, n)..])
  }

  /** The length of the optional sign at position `n`. */
  function SignLen(s: string, n: nat): (k: nat)
    requires n <= |s|
    ensures k <= 1 && n + k <= |s|
    ensures k == 1 <==> n < |s| && IsSign(s[n])
  {
    if n < |s| && IsSign(s[n]) then 1 else 0
  }

  /** Characters a numeric string may contain. */
  predicate IsNumericChar(c: char) {
    IsNumericWhite(c) || IsSign(c) || IsDigit(c) || c == '.' || c == 'e' || c == 'E'
  }

  lemma {:induction false} LeadingWhiteIs(s: string, n: nat)
    requires n <= |s| && forall i :: 0 <= i < n ==> IsNumericWhite(s[i])
    requires n == |s| || !IsNumericWhite(s[n])
    ensures LeadingWhite(s) == n
    decreases n
  {
    if n > 0 {
      assert forall i :: 0 <= i < n - 1 ==> s[1..][i] == s[i + 1];
      LeadingWhiteIs(s[1..], n - 1);
    }
  }

  lemma ExponentAccepted(x: string)
    requires AllDigits(x) && |x| > 0
    ensures IsExponentOrEmpty("e" + x)
  {
    assert forall i :: 1 <= i < |x| + 1 ==> ("e" + x)[i] == x[i - 1];
  }

  /** Integer digits `a`, a point and fraction digits `b`, then an exponent part `e`. */
  lemma PointNumberAccepted(a: string, b: string, e: string)
    requires AllDigits(a) && AllDigits(b) && |a| + |b| > 0
    requires IsExponentOrEmpty(e)
    ensures IsUnsignedNumber(a + "." + b + e)
  {
    var u := a + "." + b + e;
    assert forall i :: 0 <= i < |a| ==> u[i] == a[i];
    assert u[|a|] == '.';
    LeadingDigitsIs(u, |a|);
    var v := u[|a| + 1..];
    assert v == b + e;
    assert forall i :: 0 <= i < |b| ==> v[i] == b[i];
    assert |e| == 0 || v[|b|] == e[0];
    LeadingDigitsIs(v, |b|);
    assert u[|a| + 1 + |b|..] == e;
  }

  /** Integer digits `a`, then an exponent part `e`. */
  lemma IntegerNumberAccepted(a: string, e: string)
    requires AllDigits(a) && |a| > 0
    requires IsExponentOrEmpty(e)
    ensures IsUnsignedNumber(a + e)
  {
    var u := a + e;
    assert forall i :: 0 <= i < |a| ==> u[i] == a[i];
    assert |e| == 0 || u[|a|] == e[0];
    LeadingDigitsIs(u, |a|);
    assert u[|a|..] == e;
  }

  /** White space and a sign of at most one character in front of an unsigned number. */
  lemma SignedNumberAccepted(w: string, sign: string, u: string)
    requires forall i :: 0 <= i < |w| ==> IsNumericWhite(w[i])
    requires |sign| <= 1 && (|sign| == 1 ==> IsSign(sign[0]))
    requires IsUnsignedNumber(u) && |u| > 0 && (IsDigit(u[0]) || u[0] == '.')
    ensures IsNumeric(w + sign + u)
  {
    SignedLayout(w, sign, u);
  }

  /** Where the white space, the sign and the number sit in `w + sign + u`. */
  lemma SignedLayout(w: string, sign: string, u: string)
    requires forall i :: 0 <= i < |w| ==> IsNumericWhite(w[i])
    requires |sign| <= 1 && (|sign| == 1 ==> IsSign(sign[0]))
    requires |u| > 0 && (IsDigit(u[0]) || u[0] == '.')
    ensures var s := w + sign + u;
      && LeadingWhite(s) == |w|
      && SignLen(s, |w|) == |sign|
      && s[|w| + |sign|..] == u
  {
    var s := w + sign + u;
    assert forall i :: 0 <= i < |w| ==> s[i] == w[i];
    assert s[|w|] == if |sign| == 1 then sign[0] else u[0];
    LeadingWhiteIs(s, |w|);
    assert s[|w| + |sign|..] == u;
  }

  /** A non-empty digit string is numeric. */
  lemma DigitsAreNumeric(s: string)
    requires |s| > 0 && AllDigits(s)
    ensures IsNumeric(s)
  {
    IntegerNumberAccepted(s, "");
    assert s + "" == s;
    SignedNumberAccepted("", "", s);
    assert "" + "" + s == s;
  }

  predicate AllNumericChars(s: string) {
    forall i :: 0 <= i < |s| ==> IsNumericChar(s[i])
  }

  ghost predicate HasDigit(s: string) {
    exists i :: 0 <= i < |s| && IsDigit(s[i])
  }

  lemma ExponentChars(e: string)
    requires IsExponentOrEmpty(e)
    ensures AllNumericChars(e)
  {
  }

  /** The suffix from `k` on consists of numeric characters and so does everything before. */
  lemma NumericCharsSplit(s: string, k: nat)
    requires k <= |s|
    requires forall i :: 0 <= i < k ==> IsNumericChar(s[i])
    requires AllNumericChars(s[k..])
    ensures AllNumericChars(s)
  {
    assert forall i :: k <= i < |s| ==> s[i] == s[k..][i - k];
  }

  lemma UnsignedChars(u: string)
    requires IsUnsignedNumber(u)
    ensures AllNumericChars(u) && HasDigit(u)
  {
    var a := LeadingDigits(u);
    if a < |u| && u[a] == '.' {
      var v := u[a + 1..];
      var b := LeadingDigits(v);
      ExponentChars(v[b..]);
      NumericCharsSplit(v, b);
      NumericCharsSplit(u, a + 1);
      if a == 0 {
        assert u[1] == v[0];
      }
    } else {
      ExponentChars(u[a..]);
      NumericCharsSplit(u, a);
      assert IsDigit(u[0]);
    }
  }

  lemma WhiteAndSignChars(s: string, n: nat, k: nat)
    requires n + k <= |s| && k <= 1
    requires forall i :: 0 <= i < n ==> IsNumericWhite(s[i])
    requires k == 1 ==> IsSign(s[n])
    ensures forall i :: 0 <= i < n + k ==> IsNumericChar(s[i])
  {
  }

  lemma HasDigitSuffix(s: string, k: nat)
    requires k <= |s| && HasDigit(s[k..])
    ensures HasDigit(s)
  {
    var j :| 0 <= j < |s| - k && IsDigit(s[k..][j]);
    assert s[k + j] == s[k..][j];
  }

  /** An accepted string holds at least one digit and nothing but white space, signs, digits,
      points and exponent letters. */
  lemma NumericChars(s: string)
    requires IsNumeric(s)
    ensures HasDigit(s) && AllNumericChars(s)
  {
    var n := LeadingWhite(s);
    var k := SignLen(s, n);
    UnsignedSuffixChars(s, k, s[n + k..]);
  }

  /** The unsigned number after the white space and the sign carries the digit and the
      characters of the whole text. */
  lemma UnsignedSuffixChars(s: string, k: nat, u: string)
    requires LeadingWhite(s) + k <= |s| && k <= 1
    requires k == 1 ==> IsSign(s[LeadingWhite(s)])
    requires u == s[LeadingWhite(s) + k..] && IsUnsignedNumber(u)
    ensures HasDigit(s) && AllNumericChars(s)
  {
    UnsignedChars(u);
    PrefixAndSuffixChars(s, k);
  }

  /** White space and a sign before a numeric, digit-bearing suffix keep the whole text
      numeric and digit-bearing. */
  lemma PrefixAndSuffixChars(s: string, k: nat)
    requires LeadingWhite(s) + k <= |s| && k <= 1
    requires k == 1 ==> IsSign(s[LeadingWhite(s)])
    requires AllNumericChars(s[LeadingWhite(s) + k..]) && HasDigit(s[LeadingWhite(s) + k..])
    ensures HasDigit(s) && AllNumericChars(s)
  {
    WhiteAndSignChars(s, LeadingWhite(s), k);
    NumericCharsSplit(s, LeadingWhite(s) + k);
    HasDigitSuffix(s, LeadingWhite(s) + k);
  }

  // ---------------------------------------------------------------------------------------
  // `sanitizeEntry`

  /** C's `isspace` in the C locale: space, tab, line feed, vertical tab, form feed and
      carriage return. */
  predicate IsCSpace(c: char) {
    c == ' ' || '\t' <= c <= '\r'
  }

  /** `<` followed by C white space, which `strip_tags` copies instead of opening a tag. */
  predicate KeptLessThan(s: string, i: int)
    requires 0 <= i < |s|
  {
    i + 1 < |s| && IsCSpace(s[i + 1])
  }

  /** A simplified `strip_tags`: a `<` followed by C white space is copied; any other `<`
      removes everything up to and including the next `>`, or the rest of the text when no
      `>` follows. */
  function StripTags(s: string): (r: string)
    ensures |r| <= |s|
    ensures forall i :: 0 <= i < |r| && r[i] == '<' ==> KeptLessThan(r, i)
    decreases |s|
  {
    if |s| == 0 then ""
    else if s[0] == '<' && !KeptLessThan(s, 0) then
      var k := IndexOf(s, '>');
      if k == |s| then "" else StripTags(s[k + 1..])
    else
      var r := [s[0]] + StripTags(s[1..]);
      assert forall i :: 1 <= i < |r| ==> r[i] == StripTags(s[1..])[i - 1];
      r
  }

  /** Text in which every `<` is followed by C white space, so no tag opens, passes through
      unchanged; in particular the result of `StripTags` does, so stripping twice is
      stripping once. */
  lemma {:induction false} StripTagsFixed(s: string)
    requires forall i :: 0 <= i < |s| && s[i] == '<' ==> KeptLessThan(s, i)
    ensures StripTags(s) == s
    decreases |s|
  {
    if |s| > 0 {
      var t := s[1..];
      forall i | 0 <= i < |t| && t[i] == '<'
        ensures KeptLessThan(t, i)
      {
        assert s[i + 1] == '<';
      }
      StripTagsFixed(t);
      assert s == [s[0]] + t;
    }
  }

  lemma StripTagsIdempotent(s: string)
    ensures StripTags(StripTags(s)) == StripTags(s)
  {
    StripTagsFixed(StripTags(s));
  }

  /** Text without `<` passes through unchanged. */
  lemma {:induction false} StripTagsPlain(s: string)
    requires forall i :: 0 <= i < |s| ==> s[i] != '<'
    ensures StripTags(s) == s
    decreases |s|
  {
    if |s| > 0 {
      StripTagsPlain(s[1..]);
      assert s == [s[0]] + s[1..];
    }
  }

  /** `sanitizeEntry`: `trim` then `strip_tags`; a missing field is the empty string. */
  function SanitizeEntry(v: Option<string>): (r: string)
    ensures forall i :: 0 <= i < |r| && r[i] == '<' ==> KeptLessThan(r, i)
  {
    StripTags(Trim(v.GetOr(""), IsPhpSpace))
  }

  lemma {:induction false} TrimStartNoSpace(s: string, isSpace: char -> bool)
    requires |s| == 0 || !isSpace(s[0])
    ensures TrimStart(s, isSpace) == s
  {
  }

  lemma {:induction false} TrimEndNoSpace(s: string, isSpace: char -> bool)
    requires |s| == 0 || !isSpace(s[|s| - 1])
    ensures TrimEnd(s, isSpace) == s
  {
  }

  /** A field with no tag and no space at either end arrives unchanged. */
  lemma SanitizeEntryPlain(s: string)
    requires forall i :: 0 <= i < |s| ==> s[i] != '<'
    requires |s| == 0 || (!IsPhpSpace(s[0]) && !IsPhpSpace(s[|s| - 1]))
    ensures SanitizeEntry(Some(s)) == s
  {
    TrimStartNoSpace(s, IsPhpSpace);
    TrimEndNoSpace(s, IsPhpSpace);
    StripTagsPlain(s);
  }
  /** A field whose every `<` is followed by C white space, with no white space at either
      end, arrives unchanged. */
  lemma SanitizeEntryFixed(s: string)
    requires forall i :: 0 <= i < |s| && s[i] == '<' ==> KeptLessThan(s, i)
    requires |s| == 0 || (!IsPhpSpace(s[0]) && !IsPhpSpace(s[|s| - 1]))
    ensures SanitizeEntry(Some(s)) == s
  {
    TrimStartNoSpace(s, IsPhpSpace);
    TrimEndNoSpace(s, IsPhpSpace);
    StripTagsFixed(s);
  }

  /** No numeric string holds a `<`. */
  lemma LessThanIsNotNumeric(s: string, k: nat)
    requires k < |s| && s[k] == '<'
    ensures !IsNumeric(s)
  {
    assert !IsNumericChar(s[k]);
    if IsNumeric(s) {
      NumericChars(s);
    }
  }

  /** A `<` followed by a space survives sanitising, so the spending "12< 3" reaches the
      numeric check whole and is refused as not a number. */
  lemma SpacedLessThanIsNotNumeric(event: Option<string>, spending: string, token: Option<string>)
    requires spending == "12< 3"
    ensures SanitizeEntry(Some(spending)) == spending
    ensures CheckEntry(event, Some(spending), token) == NotNumeric
  {
    assert spending[0] == '1' && spending[1] == '2' && spending[2] == '<' && spending[3] == ' ' && spending[4] == '3';
    forall i | 0 <= i < |spending| && spending[i] == '<'
      ensures KeptLessThan(spending, i)
    {
      assert i == 2;
    }
    SanitizeEntryFixed(spending);
    LessThanIsNotNumeric(spending, 2);
  }



  // ---------------------------------------------------------------------------------------
  // Entry processing and dispatch

  /** The outcome of `sp=process`: one of the two error messages, or the sanitised fields
      handed to `processNewSpending`. */
  datatype EntryOutcome =
    | NotNumeric
    | BadToken
    | Processed(event: string, spending: string, token: string)

  /** The spending check comes first, so a bad spending is reported whatever the token; the
      entry is processed exactly when both checks pass. */
  function CheckEntry(event: Option<string>, spending: Option<string>, token: Option<string>): (r: EntryOutcome)
    ensures r == NotNumeric <==> !IsNumeric(SanitizeEntry(spending))
    ensures r == BadToken <==> IsNumeric(SanitizeEntry(spending)) && !CtypeAlnum(SanitizeEntry(token))
    ensures r.Processed? ==>
      && r == Processed(SanitizeEntry(event), SanitizeEntry(spending), SanitizeEntry(token))
      && IsNumeric(r.spending) && CtypeAlnum(r.token)
  {
    var s := SanitizeEntry(spending);
    var t := SanitizeEntry(token);
    if !IsNumeric(s) then NotNumeric
    else if !CtypeAlnum(t) then BadToken
    else Processed(SanitizeEntry(event), s, t)
  }

  /** The request fields `index.php` reads. */
  datatype Request = Request(
    p: Option<string>, sp: Option<string>, y: Option<string>, m: Option<string>,
    event: Option<string>, spending: Option<string>, token: Option<string>)

  /** `y`/`m`: the given text when it is numeric, otherwise the current value. */
  datatype NumParam = Given(text: string) | Current(value: int)

  function NumParamOf(v: Option<string>, current: int): (r: NumParam)
    ensures r.Given? <==> v.Some? && IsNumeric(v.value)
    ensures r.Given? ==> r.text == v.value
    ensures r.Current? ==> r.value == current
  {
    if v.Some? && IsNumeric(v.value) then Given(v.value) else Current(current)
  }

  /** The page `index.php` renders. */
  datatype Page =
    | MonthlyGeneral
    | MonthlyDetail(year: NumParam, month: NumParam)
    | Meong
    | Entry(outcome: EntryOutcome)
    | IndexBody

  /** The dispatch on the sanitised `p` and `sp`, with `currYear`/`currMonth` from
      `getdate()`. */
  function Dispatch(req: Request, currYear: int, currMonth: int): (r: Page)
    ensures r == MonthlyGeneral <==> SanitizeParam(req.p) == "monthlygeneral"
    ensures r.MonthlyDetail? <==> SanitizeParam(req.p) == "monthlydetail" && SanitizeParam(req.sp) == "index"
    ensures r == Meong <==> SanitizeParam(req.p) == "monthlydetail" && SanitizeParam(req.sp) != "index"
    ensures r.Entry? <==>
      SanitizeParam(req.p) !in {"monthlygeneral", "monthlydetail"} && SanitizeParam(req.sp) == "process"
    ensures r.MonthlyDetail? ==>
      r.year == NumParamOf(req.y, currYear) && r.month == NumParamOf(req.m, currMonth)
    ensures r.Entry? ==> r.outcome == CheckEntry(req.event, req.spending, req.token)
  {
    var p := SanitizeParam(req.p);
    var sp := SanitizeParam(req.sp);
    if p == "monthlygeneral" then MonthlyGeneral
    else if p == "monthlydetail" then
      var year := NumParamOf(req.y, currYear);
      var month := NumParamOf(req.m, currMonth);
      if sp == "index" then MonthlyDetail(year, month) else Meong
    else if sp == "process" then Entry(CheckEntry(req.event, req.spending, req.token))
    else IndexBody
  }

  /** A `p` or `sp` that is not all letters is the same as leaving it out. */
  lemma DispatchIgnoresBadParams(req: Request, currYear: int, currMonth: int)
    ensures req.p.Some? && !CtypeAlpha(req.p.value) ==>
      Dispatch(req, currYear, currMonth) == Dispatch(req.(p := None), currYear, currMonth)
    ensures req.sp.Some? && !CtypeAlpha(req.sp.value) ==>
      Dispatch(req, currYear, currMonth) == Dispatch(req.(sp := None), currYear, currMonth)
  {
  }
}

=== FILE: merge_expenses.dfy ===
/** The merge of the two migrated exports into one import file (`scripts/merge.ts`): every
    record is kept, the list is sorted oldest first, and the statistics it prints are the
    total value and the earliest and latest timestamps. */
module MergeExpenses {
  import opened Wrappers
  import opened Seqs
  import opened ExpenseRecords

  /** The earliest creation time among `xs`. */
  function MinCreated(xs: seq<ExpenseRecord>): (m: int)
    requires |xs| > 0
    ensures forall i :: 0 <= i < |xs| ==> m <= xs[i].createdAt
    ensures exists i :: 0 <= i < |xs| && m == xs[i].createdAt
  {
    if |xs| == 1 then xs[0].createdAt
    else
      var m := MinCreated(xs[1..]);
      assert forall i :: 1 <= i < |xs| ==> xs[i] == xs[1..][i - 1];
      if xs[0].createdAt <= m then xs[0].createdAt else m
  }

  /** The latest creation time among `xs`. */
  function MaxCreated(xs: seq<ExpenseRecord>): (m: int)
    requires |xs| > 0
    ensures forall i :: 0 <= i < |xs| ==> xs[i].createdAt <= m
    ensures exists i :: 0 <= i < |xs| && m == xs[i].createdAt
  {
    if |xs| == 1 then xs[0].createdAt
    else
      var m := MaxCreated(xs[1..]);
      assert forall i :: 1 <= i < |xs| ==> xs[i] == xs[1..][i - 1];
      if xs[0].createdAt >= m then xs[0].createdAt else m
  }

  /** `Math.min(...)` and `Math.max(...)` over the timestamps; with no records they are the
      infinities, which print as an invalid date. */
  function DateRange(xs: seq<ExpenseRecord>): (r: Option<(int, int)>)
    ensures r.None? <==> |xs| == 0
  {
    if |xs| == 0 then None else Some((MinCreated(xs), MaxCreated(xs)))
  }

  /** What `main` computes from the two loaded exports: the list it saves and the
      statistics it prints. */
  datatype Merged = Merged(combined: seq<ExpenseRecord>, totalValue: int, range: Option<(int, int)>)

  function Merge(firestore: seq<ExpenseRecord>, mysql: seq<ExpenseRecord>): (r: Merged)
    ensures |r.combined| == |firestore| + |mysql|
  {
    var combined := Sort(firestore + mysql, CreatedAt);
    Merged(combined, SumBy(combined, Value), DateRange(combined))
  }

  /** No record is dropped or added: the saved list is a rearrangement of both exports. */
  lemma MergeKeepsEveryRecord(firestore: seq<ExpenseRecord>, mysql: seq<ExpenseRecord>)
    ensures multiset(Merge(firestore, mysql).combined) == multiset(firestore) + multiset(mysql)
  {
    SortPermutes(firestore + mysql, CreatedAt);
  }

  /** The saved list is oldest first. */
  lemma MergeIsOldestFirst(firestore: seq<ExpenseRecord>, mysql: seq<ExpenseRecord>)
    ensures var c := Merge(firestore, mysql).combined;
      forall i, j :: 0 <= i < j < |c| ==> c[i].createdAt <= c[j].createdAt
  {
    SortSorted(firestore + mysql, CreatedAt);
  }

  lemma {:induction false} WithKeyAppend<T>(a: seq<T>, b: seq<T>, key: T -> int, k: int)
    ensures WithKey(a + b, key, k) == WithKey(a, key, k) + WithKey(b, key, k)
    decreases |a|
  {
    if |a| > 0 {
      assert (a + b)[1..] == a[1..] + b;
      WithKeyAppend(a[1..], b, key, k);
    } else {
      assert a + b == b;
    }
  }

  /** The sort is stable: records created in the same second keep their order, the
      Firestore ones before the MySQL ones. */
  lemma MergeKeepsTies(firestore: seq<ExpenseRecord>, mysql: seq<ExpenseRecord>, t: int)
    ensures WithKey(Merge(firestore, mysql).combined, CreatedAt, t)
      == WithKey(firestore, CreatedAt, t) + WithKey(mysql, CreatedAt, t)
  {
    SortStable(firestore + mysql, CreatedAt, t);
    WithKeyAppend(firestore, mysql, CreatedAt, t);
  }

  /** The printed total is the sum over both exports. */
  lemma MergeTotal(firestore: seq<ExpenseRecord>, mysql: seq<ExpenseRecord>)
    ensures Merge(firestore, mysql).totalValue == SumBy(firestore, Value) + SumBy(mysql, Value)
  {
    var s := firestore + mysql;
    SortPermutes(s, CreatedAt);
    SumByPermutation(Sort(s, CreatedAt), s, Value);
    SumByAppend(firestore, mysql, Value);
  }

  /** The printed range runs from the first to the last record of the saved list. */
  lemma MergeRangeIsEnds(firestore: seq<ExpenseRecord>, mysql: seq<ExpenseRecord>)
    requires |firestore| + |mysql| > 0
    ensures var r := Merge(firestore, mysql);
      r.range == Some((r.combined[0].createdAt, r.combined[|r.combined| - 1].createdAt))
  {
    var c := Sort(firestore + mysql, CreatedAt);
    SortSorted(firestore + mysql, CreatedAt);
    SortedEnds(c);
  }

  /** In a list sorted oldest first the extremes sit at the two ends. */
  lemma SortedEnds(c: seq<ExpenseRecord>)
    requires |c| > 0 && SortedBy(c, CreatedAt)
    ensures DateRange(c) == Some((c[0].createdAt, c[|c| - 1].createdAt))
  {
    var lo := MinCreated(c);
    var hi := MaxCreated(c);
    var i :| 0 <= i < |c| && lo == c[i].createdAt;
    var j :| 0 <= j < |c| && hi == c[j].createdAt;
    assert CreatedAt(c[0]) <= CreatedAt(c[i]) && CreatedAt(c[j]) <= CreatedAt(c[|c| - 1]);
  }
}

=== FILE: mysql_dump.dfy ===
/** The MySQL dump parser (`scripts/mysql.ts`): the `INSERT` line pattern, the split of its
    value list into row groups, the per-row pattern, and the transform into expense records.
    Converting the row's datetime text to a Unix timestamp is a parameter. */
module MysqlDump {
  import opened Wrappers
  import opened Strings
  import opened ExpenseRecords

  /** A row of the legacy `tblspending` table: id, datetime text, description, amount; the
      second column (`id_limit`) is read past and dropped. */
  datatype MySqlSpending = MySqlSpending(id: nat, dt: string, event: string, spending: nat)

  /** What precedes the value list on an insert line. */
  const InsertPrefix := "INSERT INTO `tblspending` VALUES "

  /** What separates two row groups in the value list. */
  const GroupSeparator := "),("

  // ---------------------------------------------------------------------------------------
  // The line pattern /INSERT INTO `tblspending` VALUES (.+);/
  // ---------------------------------------------------------------------------------------

  /** The characters the regex `.` does not match. */
  predicate IsLineTerminator(c: char) { c == '\n' || c == '\r' || c == '\U{2028}' || c == '\U{2029}' }

  predicate NoTerminator(s: string) { forall i :: 0 <= i < |s| ==> !IsLineTerminator(s[i]) }

  /** Length of the longest prefix of `s` that `.` can cover. */
  function RunLength(s: string): (n: nat)
    ensures n <= |s|
    ensures forall i :: 0 <= i < n ==> !IsLineTerminator(s[i])
    ensures n < |s| ==> IsLineTerminator(s[n])
  {
    if |s| > 0 && !IsLineTerminator(s[0]) then 1 + RunLength(s[1..]) else 0
  }

  lemma {:induction false} RunLengthOfPlain(s: string)
    requires NoTerminator(s)
    ensures RunLength(s) == |s|
    decreases |s|
  {
    if |s| > 0 {
      RunLengthOfPlain(s[1..]);
    }
  }

  /** `(.+);` from position `j`, greedy: within the run of characters `.` covers, the text
      before the last `;`, provided it is not empty. */
  function CaptureAt(line: string, j: nat): (r: Option<string>)
    requires j <= |line|
    ensures r.Some? ==> |r.value| > 0 && NoTerminator(r.value)
  {
    var run := line[j..][..RunLength(line[j..])];
    var e := LastIndexOf(run, ';');
    if e.Some? && e.value >= 1 then Some(run[..e.value]) else None
  }

  predicate PrefixAt(line: string, k: nat) {
    k + |InsertPrefix| <= |line| && line[k..k + |InsertPrefix|] == InsertPrefix
  }

  /** The leftmost match at or after position `k`. */
  function MatchFrom(line: string, k: nat): (r: Option<string>)
    ensures r.Some? ==> |r.value| > 0 && NoTerminator(r.value)
    ensures (forall i :: k <= i ==> !PrefixAt(line, i)) ==> r.None?
    decreases |line| - k
  {
    if k + |InsertPrefix| > |line| then None
    else if PrefixAt(line, k) && CaptureAt(line, k + |InsertPrefix|).Some? then CaptureAt(line, k + |InsertPrefix|)
    else MatchFrom(line, k + 1)
  }

  /** `line.match(...)`, with the captured value list. */
  function MatchInsert(line: string): (r: Option<string>)
    ensures r.Some? ==> |r.value| > 0 && NoTerminator(r.value)
    ensures (forall i :: !PrefixAt(line, i)) ==> r.None?
  {
    MatchFrom(line, 0)
  }

  /** An insert line with a value list on one line and the closing `;` reads back as that
      value list, whatever `;` the list itself contains. */
  lemma InsertLineCaptures(v: string)
    requires |v| > 0 && NoTerminator(v)
    ensures MatchInsert(InsertPrefix + v + ";") == Some(v)
  {
    var line := InsertPrefix + v + ";";
    var p := |InsertPrefix|;
    assert line[0..p] == InsertPrefix;
    var rest := v + ";";
    assert line[p..] == rest;
    RunLengthOfPlain(rest);
    assert rest[..|rest|] == rest;
    assert rest[|v|] == ';';
    assert rest[..|v|] == v;
  }

  // ---------------------------------------------------------------------------------------
  // Splitting the value list
  // ---------------------------------------------------------------------------------------

  predicate OccursAt(s: string, sep: string, i: nat) {
    i + |sep| <= |s| && s[i..i + |sep|] == sep
  }

  /** `sep` does not occur in `s`. */
  predicate Free(s: string, sep: string) { forall i: nat :: i < |s| ==> !OccursAt(s, sep, i) }

  /** First position at or after `i` where `sep` occurs, or `|s|`. */
  function FindFrom(s: string, sep: string, i: nat): (k: nat)
    requires i <= |s|
    ensures i <= k <= |s|
    ensures k < |s| ==> OccursAt(s, sep, k)
    ensures forall j: nat :: i <= j < k ==> !OccursAt(s, sep, j)
    decreases |s| - i
  {
    if i == |s| then |s| else if OccursAt(s, sep, i) then i else FindFrom(s, sep, i + 1)
  }

  /** `s.split(sep)` for a non-empty separator: the pieces between the occurrences found left
      to right. Joining the pieces with `sep` gives `s` back, and no piece contains `sep`. */
  function Split(s: string, sep: string): (parts: seq<string>)
    requires |sep| > 0
    ensures |parts| >= 1
    ensures Join(parts, sep) == s
    ensures forall i :: 0 <= i < |parts| ==> Free(parts[i], sep)
    decreases |s|
  {
    var k := FindFrom(s, sep, 0);
    if k == |s| then
      [s]
    else
      assert OccursAt(s, sep, k);
      var rest := Split(s[k + |sep|..], sep);
      assert s == s[..k] + s[k..k + |sep|] + s[k + |sep|..];
      assert Free(s[..k], sep) by {
        forall j: nat | j < k
          ensures !OccursAt(s[..k], sep, j)
        {
          assert !OccursAt(s, sep, j);
          if j + |sep| <= k {
            assert s[..k][j..j + |sep|] == s[j..j + |sep|];
          }
        }
      }
      [s[..k]] + rest
  }

  lemma FreeOfFirstChar(s: string, sep: string)
    requires |sep| > 0 && forall i :: 0 <= i < |s| ==> s[i] != sep[0]
    ensures Free(s, sep)
  {
    forall j: nat | j < |s|
      ensures !OccursAt(s, sep, j)
    {
      if j + |sep| <= |s| {
        assert s[j..j + |sep|][0] == s[j];
      }
    }
  }

  lemma FindFromIs(a: string, sep: string, b: string)
    requires |sep| > 0 && forall i :: 0 <= i < |a| ==> a[i] != sep[0]
    ensures FindFrom(a + sep + b, sep, 0) == |a|
  {
    var s := a + sep + b;
    assert s[|a|..|a| + |sep|] == sep;
    assert OccursAt(s, sep, |a|);
    forall j: nat | j < |a|
      ensures !OccursAt(s, sep, j)
    {
      assert s[j..j + |sep|][0] == s[j] == a[j];
    }
  }

  /** Splitting inverts joining when the separator's first character does not occur in any
      piece but the last, and the separator does not occur in the last. */
  lemma {:induction false} SplitJoin(parts: seq<string>, sep: string)
    requires |sep| > 0 && |parts| >= 1
    requires forall i, j :: 0 <= i < |parts| - 1 && 0 <= j < |parts[i]| ==> parts[i][j] != sep[0]
    requires Free(parts[|parts| - 1], sep)
    ensures Split(Join(parts, sep), sep) == parts
    decreases |parts|
  {
    var s := Join(parts, sep);
    if |parts| > 1 {
      var rest := parts[1..];
      assert s == parts[0] + sep + Join(rest, sep);
      FindFromIs(parts[0], sep, Join(rest, sep));
      assert s[|parts[0]| + |sep|..] == Join(rest, sep);
      assert s[..|parts[0]|] == parts[0];
      assert rest[|rest| - 1] == parts[|parts| - 1];
      SplitJoin(rest, sep);
    }
  }

  // ---------------------------------------------------------------------------------------
  // One row group
  // ---------------------------------------------------------------------------------------

  /** `group.replace(/^\(|\)$/g, '')`: one `(` at the start and one `)` at the end removed. */
  function Clean(g: string): (r: string)
    ensures |g| > 0 && g[0] != '(' && g[|g| - 1] != ')' ==> r == g
  {
    var a := if |g| > 0 && g[0] == '(' then g[1..] else g;
    if |a| > 0 && a[|a| - 1] == ')' then a[..|a| - 1] else a
  }

  /** The brackets the value list puts around the first and after the last group are what
      the cleaning removes. */
  lemma CleanFramed(s: string, open: bool, close: bool)
    requires |s| > 0 && s[0] != '(' && s[|s| - 1] != ')'
    ensures Clean((if open then "(" else "") + s + (if close then ")" else "")) == s
  {
    var g := (if open then "(" else "") + s + (if close then ")" else "");
    var a := if open then g[1..] else g;
    assert a == s + (if close then ")" else "");
    if close {
      assert a[..|a| - 1] == s;
    }
  }

  /** The five fields of a row group as text: `ID,id_limit,'dt','event',spending`. */
  datatype GroupParts = GroupParts(id: string, idLimit: string, dt: string, event: string, spending: string)

  predicate NoQuote(s: string) { forall i :: 0 <= i < |s| ==> s[i] != '\'' }

  /** What `^(\d+),\d+,'([^']+)','([^']+)',(\d+)$` accepts: digit runs and quote-free texts,
      none of them empty. */
  predicate ValidParts(p: GroupParts) {
    && |p.id| > 0 && AllDigits(p.id) && |p.idLimit| > 0 && AllDigits(p.idLimit)
    && |p.dt| > 0 && NoQuote(p.dt) && |p.event| > 0 && NoQuote(p.event)
    && |p.spending| > 0 && AllDigits(p.spending)
  }

  /** The group text the fields make. */
  function Shape(p: GroupParts): string {
    p.id + ("," + (p.idLimit + (",'" + (p.dt + ("','" + (p.event + ("'," + p.spending)))))))
  }

  /** A digit run ending at `stop`. */
  function DigitsThen(s: string, stop: string): (r: Option<(string, string)>)
    ensures r.Some? ==> |r.value.0| > 0 && AllDigits(r.value.0) && s == r.value.0 + (stop + r.value.1)
  {
    var n := LeadingDigits(s);
    if n > 0 && StartsWith(s[n..], stop) then
      assert s == s[..n] + (s[n..][..|stop|] + s[n + |stop|..]);
      Some((s[..n], s[n + |stop|..]))
    else None
  }

  lemma DigitsThenOf(d: string, stop: string, rest: string)
    requires |d| > 0 && AllDigits(d) && |stop| > 0 && !IsDigit(stop[0])
    ensures DigitsThen(d + (stop + rest), stop) == Some((d, rest))
  {
    var s := d + (stop + rest);
    LeadingDigitsIs(s, |d|);
    assert s[..|d|] == d && s[|d|..] == stop + rest;
    assert s[|d|..][..|stop|] == stop;
    assert s[|d| + |stop|..] == rest;
  }

  /** A non-empty quote-free text ending at `stop`, which starts with a quote. */
  function QuotedThen(s: string, stop: string): (r: Option<(string, string)>)
    ensures r.Some? ==> |r.value.0| > 0 && NoQuote(r.value.0) && s == r.value.0 + (stop + r.value.1)
  {
    var t := IndexOf(s, '\'');
    if t > 0 && t < |s| && StartsWith(s[t..], stop) then
      assert s == s[..t] + (s[t..][..|stop|] + s[t + |stop|..]);
      Some((s[..t], s[t + |stop|..]))
    else None
  }

  lemma QuotedThenOf(t: string, stop: string, rest: string)
    requires |t| > 0 && NoQuote(t) && |stop| > 0 && stop[0] == '\''
    ensures QuotedThen(t + (stop + rest), stop) == Some((t, rest))
  {
    var s := t + (stop + rest);
    assert s == t + ['\''] + (stop[1..] + rest);
    IndexOfAfterFree(t, stop[1..] + rest, '\'');
    assert s[..|t|] == t && s[|t|..] == stop + rest;
    assert s[|t|..][..|stop|] == stop;
    assert s[|t| + |stop|..] == rest;
  }

  /** The row pattern, read left to right: it accepts a group exactly when the group is the
      shape of valid fields, and then returns those fields. */
  function MatchGroup(c: string): (r: Option<GroupParts>)
    ensures r.Some? ==> ValidParts(r.value) && Shape(r.value) == c
  {
    match DigitsThen(c, ",")
    case None => None
    case Some((id, r1)) =>
      match DigitsThen(r1, ",'")
      case None => None
      case Some((limit, r2)) =>
        match QuotedThen(r2, "','")
        case None => None
        case Some((dt, r3)) =>
          match QuotedThen(r3, "',")
          case None => None
          case Some((event, r4)) =>
            if |r4| > 0 && AllDigits(r4) then Some(GroupParts(id, limit, dt, event, r4)) else None
  }

  /** Every valid row reads back as its own fields. */
  lemma MatchGroupOfShape(p: GroupParts)
    requires ValidParts(p)
    ensures MatchGroup(Shape(p)) == Some(p)
  {
    var r4 := p.spending;
    var r3 := p.event + ("'," + r4);
    var r2 := p.dt + ("','" + r3);
    var r1 := p.idLimit + (",'" + r2);
    DigitsThenOf(p.id, ",", r1);
    DigitsThenOf(p.idLimit, ",'", r2);
    QuotedThenOf(p.dt, "','", r3);
    QuotedThenOf(p.event, "',", r4);
  }

  /** The record a matched group gives: `parseInt(…, 10)` of the two numbers, the texts as
      they are. */
  function ToSpending(p: GroupParts): MySqlSpending
    requires ValidParts(p)
  {
    MySqlSpending(DigitsValue(p.id), p.dt, p.event, DigitsValue(p.spending))
  }

  function ParseGroup(g: string): (r: Option<MySqlSpending>)
    ensures r.Some? <==> MatchGroup(Clean(g)).Some?
  {
    match MatchGroup(Clean(g))
    case None => None
    case Some(p) => Some(ToSpending(p))
  }

  /** The present values, in order: one fewer for every absent one. */
  function Somes<T>(os: seq<Option<T>>): (r: seq<T>)
    ensures |r| <= |os|
    ensures (forall i :: 0 <= i < |os| ==> os[i].Some?) ==>
      |r| == |os| && forall i :: 0 <= i < |os| ==> Some(r[i]) == os[i]
    ensures (exists i :: 0 <= i < |os| && os[i].None?) ==> |r| < |os|
  {
    if |os| == 0 then []
    else
      var rest := Somes(os[1..]);
      assert forall i :: 1 <= i < |os| ==> os[1..][i - 1] == os[i];
      match os[0]
      case None => rest
      case Some(x) => [x] + rest
  }

  /** The groups that match, parsed, in order; the others are dropped without notice. */
  function ParseGroups(gs: seq<string>): (r: seq<MySqlSpending>)
    ensures |r| <= |gs|
  {
    Somes(seq(|gs|, i requires 0 <= i < |gs| => ParseGroup(gs[i])))
  }

  /** When every group matches, each parsed record is its group's; a group that does not
      match costs one record. */
  lemma ParseGroupsCounts(gs: seq<string>)
    ensures (forall i :: 0 <= i < |gs| ==> ParseGroup(gs[i]).Some?) ==>
      |ParseGroups(gs)| == |gs| && forall i :: 0 <= i < |gs| ==> Some(ParseGroups(gs)[i]) == ParseGroup(gs[i])
    ensures (exists i :: 0 <= i < |gs| && ParseGroup(gs[i]).None?) ==> |ParseGroups(gs)| < |gs|
  {
    var os := seq(|gs|, i requires 0 <= i < |gs| => ParseGroup(gs[i]));
    assert forall i :: 0 <= i < |gs| ==> os[i] == ParseGroup(gs[i]);
  }

  /** `parseInsertStatement`: no records for a line without the pattern; otherwise the parsed
      groups of its value list. */
  function ParseInsertStatement(line: string): (r: seq<MySqlSpending>)
    ensures MatchInsert(line).None? ==> r == []
    ensures MatchInsert(line).Some? ==> |r| <= |Split(MatchInsert(line).value, GroupSeparator)|
  {
    match MatchInsert(line)
    case None => []
    case Some(v) => ParseGroups(Split(v, GroupSeparator))
  }

  /** A line in which the table's insert prefix never occurs yields no records. */
  lemma OtherLinesYieldNothing(line: string)
    requires forall i :: !PrefixAt(line, i)
    ensures ParseInsertStatement(line) == []
  {
  }

  // ---------------------------------------------------------------------------------------
  // The dump round trip
  // ---------------------------------------------------------------------------------------

  /** A group's text as the dump writes it: `(` before the first and `)` after the last. */
  function Framed(shapes: seq<string>): (r: seq<string>)
    ensures |r| == |shapes|
    ensures forall i :: 0 <= i < |shapes| ==>
      r[i] == (if i == 0 then "(" else "") + shapes[i] + (if i == |shapes| - 1 then ")" else "")
  {
    seq(|shapes|, i requires 0 <= i < |shapes| =>
      (if i == 0 then "(" else "") + shapes[i] + (if i == |shapes| - 1 then ")" else ""))
  }

  function Shapes(ps: seq<GroupParts>): (r: seq<string>)
    ensures |r| == |ps|
    ensures forall i :: 0 <= i < |ps| ==> r[i] == Shape(ps[i])
  {
    seq(|ps|, i requires 0 <= i < |ps| => Shape(ps[i]))
  }

  /** The insert line a dump holds for the rows `ps`. */
  function InsertLine(ps: seq<GroupParts>): string {
    InsertPrefix + Join(Framed(Shapes(ps)), GroupSeparator) + ";"
  }

  /** Rows whose texts hold no bracket and no line break, as the legacy data does. */
  predicate Dumpable(p: GroupParts) {
    ValidParts(p) && Plain(Shape(p))
  }

  /** No bracket and no line break. */
  predicate Plain(s: string) {
    forall i :: 0 <= i < |s| ==> s[i] != '(' && s[i] != ')' && !IsLineTerminator(s[i])
  }

  lemma {:induction false} JoinNoTerminator(parts: seq<string>, sep: string)
    requires NoTerminator(sep) && forall i :: 0 <= i < |parts| ==> NoTerminator(parts[i])
    ensures NoTerminator(Join(parts, sep))
    decreases |parts|
  {
    if |parts| > 1 {
      JoinNoTerminator(parts[1..], sep);
      var j := Join(parts[1..], sep);
      var s := parts[0] + sep + j;
      forall i | 0 <= i < |s|
        ensures !IsLineTerminator(s[i])
      {
        if i >= |parts[0] + sep| {
          assert s[i] == j[i - |parts[0] + sep|];
        } else if i >= |parts[0]| {
          assert s[i] == sep[i - |parts[0]|];
        }
      }
    }
  }

  lemma FramedPiece(s: string, open: bool, close: bool)
    requires |s| > 0 && Plain(s)
    ensures var g := (if open then "(" else "") + s + (if close then ")" else "");
      && NoTerminator(g)
      && (!close ==> forall i :: 0 <= i < |g| ==> g[i] != ')')
      && Free(g, GroupSeparator)
  {
    var g := (if open then "(" else "") + s + (if close then ")" else "");
    var o := if open then 1 else 0;
    assert forall i :: o <= i < o + |s| ==> g[i] == s[i - o];
    assert forall i :: 0 <= i < |g| - 1 ==> g[i] != ')';
    forall i: nat | i < |g|
      ensures !OccursAt(g, GroupSeparator, i)
    {
      if i + 3 <= |g| {
        assert g[i..i + 3][0] == g[i];
      }
    }
  }

  /** One framed group of dumpable rows: on one line, no `)` unless it is the last, no
      separator inside, and it parses as its row. */
  lemma FramedGroup(ps: seq<GroupParts>, i: nat)
    requires i < |ps| && Dumpable(ps[i])
    ensures var g := Framed(Shapes(ps))[i];
      && NoTerminator(g) && Free(g, GroupSeparator)
      && (i < |ps| - 1 ==> forall j :: 0 <= j < |g| ==> g[j] != ')')
      && ParseGroup(g) == Some(ToSpending(ps[i]))
  {
    var s := Shape(ps[i]);
    FramedPiece(s, i == 0, i == |ps| - 1);
    MatchGroupOfShape(ps[i]);
    assert s[0] == ps[i].id[0];
    assert s[|s| - 1] == ps[i].spending[|ps[i].spending| - 1];
    CleanFramed(s, i == 0, i == |ps| - 1);
  }

  /** The value list of the line splits back into the framed groups. */
  lemma ValueListSplits(ps: seq<GroupParts>)
    requires |ps| > 0 && forall i :: 0 <= i < |ps| ==> Dumpable(ps[i])
    ensures MatchInsert(InsertLine(ps)) == Some(Join(Framed(Shapes(ps)), GroupSeparator))
    ensures Split(Join(Framed(Shapes(ps)), GroupSeparator), GroupSeparator) == Framed(Shapes(ps))
    ensures ParseInsertStatement(InsertLine(ps)) == ParseGroups(Framed(Shapes(ps)))
  {
    var framed := Framed(Shapes(ps));
    forall i | 0 <= i < |ps|
      ensures NoTerminator(framed[i]) && Free(framed[i], GroupSeparator)
      ensures i < |ps| - 1 ==> forall j :: 0 <= j < |framed[i]| ==> framed[i][j] != ')'
    {
      FramedGroup(ps, i);
    }
    var v := Join(framed, GroupSeparator);
    JoinNoTerminator(framed, GroupSeparator);
    assert |v| > 0 by {
      assert |framed[0]| > 0;
      if |ps| > 1 {
        assert v == framed[0] + GroupSeparator + Join(framed[1..], GroupSeparator);
      }
    }
    InsertLineCaptures(v);
    SplitJoin(framed, GroupSeparator);
  }

  /** The records the rows `ps` stand for. */
  function Rows(ps: seq<GroupParts>): (r: seq<MySqlSpending>)
    requires forall i :: 0 <= i < |ps| ==> Dumpable(ps[i])
    ensures |r| == |ps|
  {
    seq(|ps|, i requires 0 <= i < |ps| && Dumpable(ps[i]) => ToSpending(ps[i]))
  }

  /** Parsing the insert line of dumpable rows gives back exactly those rows, in order: the
      line pattern captures the whole value list, the split finds the group boundaries, the
      cleaning strips the outer brackets, and every group matches the row pattern. */
  lemma InsertLineRoundTrip(ps: seq<GroupParts>)
    requires |ps| > 0 && forall i :: 0 <= i < |ps| ==> Dumpable(ps[i])
    ensures ParseInsertStatement(InsertLine(ps)) == Rows(ps)
  {
    var framed := Framed(Shapes(ps));
    ValueListSplits(ps);
    forall i | 0 <= i < |ps|
      ensures ParseGroup(framed[i]) == Some(ToSpending(ps[i]))
    {
      FramedGroup(ps, i);
    }
    ParseGroupsCounts(framed);
    var r := ParseGroups(framed);
    forall i | 0 <= i < |ps|
      ensures r[i] == Rows(ps)[i]
    {
      assert Some(r[i]) == ParseGroup(framed[i]);
    }
  }

  // ---------------------------------------------------------------------------------------
  // Transform
  // ---------------------------------------------------------------------------------------

  /** The expense record of one row; `unix` is `mysqlDateToUnix`. */
  function ToExpense(r: MySqlSpending, unix: string -> int): (e: ExpenseRecord)
    ensures e.id == "mysql_" + NatToString(r.id)
    ensures e.labelText == r.event && e.value == r.spending
    ensures e.createdAt == e.updatedAt == unix(r.dt)
  {
    ExpenseRecord("mysql_" + NatToString(r.id), unix(r.dt), r.event, r.spending, unix(r.dt))
  }

  /** `transformToExpenseFormat`: one record per row, in order. */
  function TransformToExpenseFormat(rows: seq<MySqlSpending>, unix: string -> int): (es: seq<ExpenseRecord>)
    ensures |es| == |rows|
    ensures forall i :: 0 <= i < |rows| ==> es[i] == ToExpense(rows[i], unix)
  {
    seq(|rows|, i requires 0 <= i < |rows| => ToExpense(rows[i], unix))
  }

  /** Distinct table ids give distinct record ids and equal ones equal ids, so the transform
      keeps the table's primary key a key. */
  lemma TransformKeepsIds(rows: seq<MySqlSpending>, unix: string -> int, i: nat, j: nat)
    requires i < |rows| && j < |rows|
    ensures var es := TransformToExpenseFormat(rows, unix);
      es[i].id == es[j].id <==> rows[i].id == rows[j].id
  {
    var es := TransformToExpenseFormat(rows, unix);
    if es[i].id == es[j].id {
      assert es[i].id[6..] == NatToString(rows[i].id);
      assert es[j].id[6..] == NatToString(rows[j].id);
      NatToStringInjective(rows[i].id, rows[j].id);
    }
  }
}

=== FILE: realtime.dfy ===
/** The realtime subscription registry (`composables/useRealtime.ts`): two maps, channel id
    to channel and channel id to the latest status, with the transitions the composable
    performs on them. The transport is left out: a channel records what it was asked to
    listen to, and the status callback is a transition of its own. */
module Realtime {
  import opened Wrappers
  import opened Strings
  import opened Js
  import opened Seqs

  /** Which change kinds a subscription listens to (`event`, default `'*'`). */
  datatype EventFilter = InsertOnly | UpdateOnly | DeleteOnly | AllEvents

  /** The handlers a subscription supplies; `true` when the option is given. */
  datatype Handlers = Handlers(onInsert: bool, onUpdate: bool, onDelete: bool)

  datatype Options = Options(table: string, event: EventFilter, filter: Option<string>, handlers: Handlers)

  datatype Channel = Channel(table: string, event: EventFilter, filter: Option<string>, handlers: Handlers)

  /** `channels` and `subscriptionStatus`; `order` is the insertion order of `channels`'
      keys, which `Map.prototype.keys` follows. */
  datatype Registry = Registry(channels: map<string, Channel>, order: seq<string>, status: map<string, string>)

  const Empty: Registry := Registry(map[], [], map[])

  /** `order` lists every channel id exactly once. */
  ghost predicate Valid(reg: Registry) {
    && Distinct(reg.order)
    && (forall id :: id in reg.order <==> id in reg.channels)
  }

  /** `${table}:${filter}:${Date.now()}`, or `${table}:${Date.now()}` without a filter. */
  function ChannelId(table: string, filter: Option<string>, now: nat): (id: string)
    ensures StartsWith(id, table + ":")
  {
    var prefix := if Truthy(filter) then table + ":" + filter.value + ":" else table + ":";
    assert (prefix + NatToString(now))[..|table + ":"|] == table + ":";
    prefix + NatToString(now)
  }

  /** Two subscriptions to the same table and filter at different times get different ids. */
  lemma ChannelIdsDiffer(table: string, filter: Option<string>, t1: nat, t2: nat)
    requires t1 != t2
    ensures ChannelId(table, filter, t1) != ChannelId(table, filter, t2)
  {
    var prefix := if Truthy(filter) then table + ":" + filter.value + ":" else table + ":";
    var a, b := prefix + NatToString(t1), prefix + NatToString(t2);
    NatToStringInjective(t1, t2);
    assert a[|prefix|..] == NatToString(t1) && b[|prefix|..] == NatToString(t2);
  }

  /** `subscribe`: on the server nothing is registered and the id is empty; an id already
      present is returned as it is; otherwise a channel is registered under the new id. */
  function Subscribe(reg: Registry, isClient: bool, opts: Options, now: nat): (out: (Registry, string))
    ensures !isClient ==> out == (reg, "")
    ensures isClient ==> out.1 == ChannelId(opts.table, opts.filter, now) && out.1 in out.0.channels
    ensures isClient && out.1 in reg.channels ==> out.0 == reg
    ensures isClient && out.1 !in reg.channels ==>
      && out.0.channels == reg.channels[out.1 := Channel(opts.table, opts.event, opts.filter, opts.handlers)]
      && out.0.status == reg.status
  {
    if !isClient then (reg, "")
    else
      var id := ChannelId(opts.table, opts.filter, now);
      if id in reg.channels then (reg, id)
      else
        var ch := Channel(opts.table, opts.event, opts.filter, opts.handlers);
        (Registry(reg.channels[id := ch], reg.order + [id], reg.status), id)
  }

  /** The status callback: the latest status reported for `id` is recorded. */
  function OnStatus(reg: Registry, id: string, status: string): (r: Registry)
    ensures r.status == reg.status[id := status]
    ensures r.channels == reg.channels && r.order == reg.order
  {
    reg.(status := reg.status[id := status])
  }

  /** `order` without `id`. */
  function Remove(s: seq<string>, id: string): (r: seq<string>)
    ensures forall x :: x in r <==> x in s && x != id
  {
    if |s| == 0 then []
    else
      var rest := Remove(s[1..], id);
      if s[0] == id then rest else [s[0]] + rest
  }

  lemma {:induction false} RemoveKeepsDistinct(s: seq<string>, id: string)
    requires Distinct(s)
    ensures Distinct(Remove(s, id))
    decreases |s|
  {
    if |s| > 0 {
      RemoveKeepsDistinct(s[1..], id);
      var rest := Remove(s[1..], id);
      if s[0] != id {
        assert s[0] !in s[1..];
        var r := [s[0]] + rest;
        forall i, j | 0 <= i < j < |r|
          ensures r[i] != r[j]
        {
          if i == 0 {
            assert r[j] == rest[j - 1];
          } else {
            assert r[i] == rest[i - 1] && r[j] == rest[j - 1];
          }
        }
      }
    }
  }

  /** `unsubscribe`: a known id leaves both maps; an unknown id changes nothing. */
  function Unsubscribe(reg: Registry, id: string): (r: Registry)
    ensures id !in r.channels
    ensures id !in reg.channels ==> r == reg
    ensures id in reg.channels ==>
      r.channels == reg.channels - {id} && r.status == reg.status - {id}
  {
    if id in reg.channels then Registry(reg.channels - {id}, Remove(reg.order, id), reg.status - {id})
    else reg
  }

  /** `unsubscribeAll`: every channel goes, and so does the status of each of them; statuses
      recorded for ids without a channel stay. */
  function UnsubscribeAll(reg: Registry): (r: Registry)
    ensures r.channels == map[] && r.order == []
    ensures forall id :: id in r.status <==> id in reg.status && id !in reg.channels
  {
    Registry(map[], [], reg.status - reg.channels.Keys)
  }

  /** `isSubscribed`: the recorded status is `'SUBSCRIBED'`. */
  predicate IsSubscribed(reg: Registry, id: string) {
    id in reg.status && reg.status[id] == "SUBSCRIBED"
  }

  /** `getActiveChannels`: the channel ids, each once, in insertion order. */
  function ActiveChannels(reg: Registry): (ids: seq<string>)
    requires Valid(reg)
    ensures forall id :: id in ids <==> id in reg.channels
    ensures Distinct(ids)
    ensures |ids| == |reg.channels|
  {
    DistinctCardinality(reg.order, reg.channels.Keys);
    reg.order
  }

  lemma {:induction false} DistinctCardinality(s: seq<string>, keys: set<string>)
    requires Distinct(s)
    requires forall x :: x in s <==> x in keys
    ensures |s| == |keys|
    decreases |s|
  {
    if |s| > 0 {
      var rest := s[1..];
      assert forall x :: x in rest <==> x in keys - {s[0]} by {
        forall x
          ensures x in rest <==> x in keys - {s[0]}
        {
          if x in rest {
            var k :| 0 <= k < |rest| && rest[k] == x;
            assert s[k + 1] == x;
          }
          if x in s && x != s[0] {
            var k :| 0 <= k < |s| && s[k] == x;
            assert rest[k - 1] == x;
          }
        }
      }
      DistinctCardinality(rest, keys - {s[0]});
    } else {
      assert forall x :: x !in keys;
      assert keys == {};
    }
  }

  /** Every transition keeps `order` in step with `channels`. */
  lemma TransitionsKeepValid(reg: Registry, isClient: bool, opts: Options, now: nat, id: string, status: string)
    requires Valid(reg)
    ensures Valid(Subscribe(reg, isClient, opts, now).0)
    ensures Valid(OnStatus(reg, id, status))
    ensures Valid(Unsubscribe(reg, id))
    ensures Valid(UnsubscribeAll(reg))
  {
    if id in reg.channels {
      RemoveKeepsDistinct(reg.order, id);
    }
    var out := Subscribe(reg, isClient, opts, now);
    if isClient && out.1 !in reg.channels {
      var o := reg.order + [out.1];
      forall i, j | 0 <= i < j < |o|
        ensures o[i] != o[j]
      {
        if j == |o| - 1 {
          assert o[i] == reg.order[i];
        }
      }
    }
  }

  /** After the callback reports `status` for `id`, `isSubscribed(id)` holds exactly when the
      status is `'SUBSCRIBED'`, and no other id's answer changes. */
  lemma StatusDecidesSubscribed(reg: Registry, id: string, status: string, other: string)
    requires other != id
    ensures IsSubscribed(OnStatus(reg, id, status), id) <==> status == "SUBSCRIBED"
    ensures IsSubscribed(OnStatus(reg, id, status), other) == IsSubscribed(reg, other)
  {
  }

  /** `unsubscribe` twice is `unsubscribe` once, and it leaves every other id as it was. */
  lemma UnsubscribeIdempotent(reg: Registry, id: string, other: string)
    requires other != id
    ensures Unsubscribe(Unsubscribe(reg, id), id) == Unsubscribe(reg, id)
    ensures var r := Unsubscribe(reg, id);
      && (other in r.channels <==> other in reg.channels)
      && (other in r.channels ==> r.channels[other] == reg.channels[other])
      && (other in r.status <==> other in reg.status)
      && (other in r.status ==> r.status[other] == reg.status[other])
  {
  }

  /** After `subscribe` then `unsubscribe` of the returned id the id is gone again. */
  lemma SubscribeThenUnsubscribe(reg: Registry, opts: Options, now: nat)
    requires ChannelId(opts.table, opts.filter, now) !in reg.channels
    requires ChannelId(opts.table, opts.filter, now) !in reg.status
    ensures var out := Subscribe(reg, true, opts, now);
      Unsubscribe(out.0, out.1).channels == reg.channels && Unsubscribe(out.0, out.1).status == reg.status
  {
    var out := Subscribe(reg, true, opts, now);
    assert out.0.channels - {out.1} == reg.channels;
    assert out.0.status - {out.1} == reg.status;
  }

  /** The handler a payload reaches. */
  datatype HandlerKind = InsertHandler | UpdateHandler | DeleteHandler

  /** The payload callback: INSERT goes to `onInsert`, UPDATE to `onUpdate`, DELETE to
      `onDelete`, each only when supplied; anything else reaches no handler. */
  function DispatchPayload(eventType: string, h: Handlers): (r: Option<HandlerKind>)
    ensures r == Some(InsertHandler) <==> eventType == "INSERT" && h.onInsert
    ensures r == Some(UpdateHandler) <==> eventType == "UPDATE" && h.onUpdate
    ensures r == Some(DeleteHandler) <==> eventType == "DELETE" && h.onDelete
  {
    if eventType == "INSERT" && h.onInsert then Some(InsertHandler)
    else if eventType == "UPDATE" && h.onUpdate then Some(UpdateHandler)
    else if eventType == "DELETE" && h.onDelete then Some(DeleteHandler)
    else None
  }
}

=== FILE: seo.dfy ===
/** The SEO helpers (`utils/constants/seo.ts`): page titles, canonical URLs, the Open Graph
    and Twitter card tags and the breadcrumb list. The site URL comes from the environment
    (`NUXT_PUBLIC_HOST`) and is a parameter. */
module Seo {
  import opened Wrappers
  import opened Strings

  const SiteName := "Ngirit"
  const DefaultSiteUrl := "https://ngirit.app"
  const DefaultTitle := "Ngirit - Aplikasi Pencatat Keuangan Pribadi"
  const DefaultLocale := "id_ID"
  const OgImagePath := "/images/logo.webp"
  const TwitterImagePath := "/images/logo.webp"
  const TwitterHandle := "@tuan_yudha"
  const TitleSeparator := " | "

  /** `process.env.NUXT_PUBLIC_HOST || 'https://ngirit.app'`: unset or empty falls back. */
  function SiteUrl(env: Option<string>): (u: string)
    ensures env.Some? && env.value != "" ==> u == env.value
    ensures env.None? || env.value == "" ==> u == DefaultSiteUrl
  {
    if env.Some? && env.value != "" then env.value else DefaultSiteUrl
  }

  /** `a || b` on optional strings: an absent or empty `a` gives `b`. */
  function OrElse(a: Option<string>, b: string): (r: string)
    ensures a.Some? && a.value != "" ==> r == a.value
    ensures a.None? || a.value == "" ==> r == b
  {
    if a.Some? && a.value != "" then a.value else b
  }

  // ---------------------------------------------------------------------------------------
  // Titles
  // ---------------------------------------------------------------------------------------

  /** `getPageTitle`: the default for an absent or empty title, otherwise the title followed
      by ` | Ngirit`. */
  function PageTitle(pageTitle: Option<string>): (t: string)
    ensures pageTitle.None? || pageTitle.value == "" ==> t == DefaultTitle
    ensures pageTitle.Some? && pageTitle.value != "" ==>
      |t| == |pageTitle.value| + |TitleSeparator + SiteName| && t[..|pageTitle.value|] == pageTitle.value
    ensures pageTitle.Some? && pageTitle.value != "" ==> t == pageTitle.value + " | Ngirit"
  {
    if pageTitle.None? || pageTitle.value == "" then DefaultTitle
    else pageTitle.value + TitleSeparator + SiteName
  }

  /** Distinct page titles give distinct document titles, and the page title can be read
      back by dropping the site suffix. */
  lemma PageTitleInjective(a: string, b: string)
    requires a != "" && b != ""
    ensures PageTitle(Some(a)) == PageTitle(Some(b)) <==> a == b
  {
    var ta := PageTitle(Some(a));
    var tb := PageTitle(Some(b));
    if ta == tb {
      assert |a| == |b|;
      assert a == ta[..|a|] == tb[..|b|] == b;
    }
  }

  // ---------------------------------------------------------------------------------------
  // Canonical URLs
  // ---------------------------------------------------------------------------------------

  /** `replace(/\/$/, '')`: one trailing slash removed. */
  function DropTrailingSlash(s: string): (r: string)
    ensures |s| > 0 && s[|s| - 1] == '/' ==> r == s[..|s| - 1]
    ensures |s| == 0 || s[|s| - 1] != '/' ==> r == s
  {
    if |s| > 0 && s[|s| - 1] == '/' then s[..|s| - 1] else s
  }

  predicate Rooted(path: string) { |path| > 0 && path[0] == '/' }

  /** `path.startsWith('/') ? path : `/${path}``: a path with its leading `/`, added when
      missing. */
  function RootedPath(path: string): (p: string)
    ensures Rooted(path) ==> p == path
    ensures !Rooted(path) ==> p == "/" + path
    ensures |p| > 0 && p[0] == '/' && |path| <= |p| && p[|p| - |path|..] == path
  {
    if Rooted(path) then path else "/" + path
  }

  /** `getCanonicalUrl`. */
  function CanonicalUrl(siteUrl: string, path: string): (u: string)
    ensures StartsWith(u, DropTrailingSlash(siteUrl)) && |DropTrailingSlash(siteUrl)| < |u|
    ensures u[|DropTrailingSlash(siteUrl)|] == '/'
    ensures |path| <= |u| && u[|u| - |path|..] == path
    ensures u == DropTrailingSlash(siteUrl) + RootedPath(path)
  {
    var b := DropTrailingSlash(siteUrl);
    var p := RootedPath(path);
    assert (b + p)[..|b|] == b && (b + p)[|b|] == p[0];
    assert (b + p)[|b + p| - |path|..] == p[|p| - |path|..];
    b + p
  }

  /** The URL does not depend on whether the path was written with its leading slash, nor
      on whether the site URL carries one trailing slash. */
  lemma CanonicalUrlNormalises(site: string, path: string)
    requires |site| == 0 || site[|site| - 1] != '/'
    requires !Rooted(path)
    ensures CanonicalUrl(site, path) == CanonicalUrl(site, "/" + path)
    ensures CanonicalUrl(site + "/", path) == CanonicalUrl(site, path)
  {
    assert Rooted("/" + path);
    assert (site + "/")[..|site|] == site;
  }

  /** For one site, distinct rooted paths give distinct URLs: the path is what follows the
      base. */
  lemma CanonicalUrlInjective(site: string, p: string, q: string)
    requires Rooted(p) && Rooted(q)
    ensures CanonicalUrl(site, p) == CanonicalUrl(site, q) <==> p == q
  {
    var b := DropTrailingSlash(site);
    if CanonicalUrl(site, p) == CanonicalUrl(site, q) {
      assert p == CanonicalUrl(site, p)[|b|..];
      assert q == CanonicalUrl(site, q)[|b|..];
    }
  }

  // ---------------------------------------------------------------------------------------
  // Social tags
  // ---------------------------------------------------------------------------------------

  datatype OgType = Website | Article

  datatype OgOptions = OgOptions(title: string, description: string, image: Option<string>,
                                 url: Option<string>, ogType: Option<OgType>)

  datatype OgTags = OgTags(title: string, description: string, image: string, url: string,
                           ogType: OgType, siteName: string, locale: string)

  /** `getOpenGraphTags`: title and description pass through; the type defaults to
      `website`, the image to the site logo and the URL to the site. */
  function OpenGraphTags(siteUrl: string, o: OgOptions): (t: OgTags)
    ensures t.title == o.title && t.description == o.description
    ensures t.ogType == (if o.ogType.Some? then o.ogType.value else Website)
    ensures t.image == OrElse(o.image, siteUrl + OgImagePath)
    ensures t.url == OrElse(o.url, siteUrl)
    ensures t.siteName == SiteName && t.locale == DefaultLocale
  {
    OgTags(o.title, o.description, OrElse(o.image, siteUrl + OgImagePath), OrElse(o.url, siteUrl),
           if o.ogType.Some? then o.ogType.value else Website, SiteName, DefaultLocale)
  }

  datatype CardType = Summary | SummaryLargeImage

  datatype CardOptions = CardOptions(title: string, description: string, image: Option<string>,
                                     card: Option<CardType>)

  datatype CardTags = CardTags(card: CardType, site: string, creator: string, title: string,
                               description: string, image: string)

  /** `getTwitterCardTags`: the card defaults to the large-image summary and the image to
      the site logo. */
  function TwitterCardTags(siteUrl: string, o: CardOptions): (t: CardTags)
    ensures t.card == (if o.card.Some? then o.card.value else SummaryLargeImage)
    ensures t.title == o.title && t.description == o.description
    ensures t.image == OrElse(o.image, siteUrl + TwitterImagePath)
    ensures t.site == TwitterHandle && t.creator == TwitterHandle
  {
    CardTags(if o.card.Some? then o.card.value else SummaryLargeImage, TwitterHandle, TwitterHandle,
             o.title, o.description, OrElse(o.image, siteUrl + TwitterImagePath))
  }

  /** An explicit non-empty image or URL always wins over the defaults. */
  lemma ExplicitTagsWin(siteUrl: string, o: OgOptions, c: CardOptions)
    requires o.image.Some? && o.image.value != "" && o.url.Some? && o.url.value != ""
    requires c.image.Some? && c.image.value != ""
    ensures OpenGraphTags(siteUrl, o).image == o.image.value
    ensures OpenGraphTags(siteUrl, o).url == o.url.value
    ensures TwitterCardTags(siteUrl, c).image == c.image.value
  {
  }

  // ---------------------------------------------------------------------------------------
  // Breadcrumbs
  // ---------------------------------------------------------------------------------------

  datatype Crumb = Crumb(name: string, url: string)

  datatype ListItem = ListItem(position: int, name: string, item: string)

  /** `itemListElement` from `offset` on: the crumb at index `i` gets position
      `offset + i + 1`. */
  function ItemsFrom(items: seq<Crumb>, offset: int): (r: seq<ListItem>)
    ensures |r| == |items|
    ensures forall i :: 0 <= i < |items| ==>
      r[i] == ListItem(offset + i + 1, items[i].name, items[i].url)
  {
    seq(|items|, i requires 0 <= i < |items| => ListItem(offset + i + 1, items[i].name, items[i].url))
  }

  /** `getBreadcrumbSchema`'s list: one item per crumb, in order, numbered from 1. */
  function Breadcrumb(items: seq<Crumb>): (r: seq<ListItem>)
    ensures |r| == |items|
  {
    ItemsFrom(items, 0)
  }

  /** Positions run 1, 2, …, n without gaps, and the crumbs can be read back in order. */
  lemma BreadcrumbNumbering(items: seq<Crumb>)
    ensures var r := Breadcrumb(items);
      && (|r| > 0 ==> r[0].position == 1 && r[|r| - 1].position == |r|)
      && (forall i :: 0 <= i < |r| - 1 ==> r[i + 1].position == r[i].position + 1)
      && (forall i :: 0 <= i < |r| ==> Crumb(r[i].name, r[i].item) == items[i])
  {
  }

  /** A longer trail extends the list of a shorter one: the items of the extra crumbs are
      numbered on from where the first part stops. */
  lemma BreadcrumbAppend(a: seq<Crumb>, b: seq<Crumb>)
    ensures Breadcrumb(a + b) == Breadcrumb(a) + ItemsFrom(b, |a|)
  {
    var l := Breadcrumb(a + b);
    var r := Breadcrumb(a) + ItemsFrom(b, |a|);
    assert forall i :: 0 <= i < |l| ==> l[i] == r[i];
  }
}

=== FILE: seqs.dfy ===
/** Sums, filters and stable sorting over sequences, used by every aggregation in the model. */
module Seqs {

  /** Sum of `f` over the elements of `s` (`reduce((sum, x) => sum + f(x), 0)`). */
  function SumBy<T>(s: seq<T>, f: T -> int): int {
    if |s| == 0 then 0 else f(s[0]) + SumBy(s[1..], f)
  }

  lemma {:induction false} SumByAppend<T>(a: seq<T>, b: seq<T>, f: T -> int)
    ensures SumBy(a + b, f) == SumBy(a, f) + SumBy(b, f)
    decreases |a|
  {
    if |a| > 0 {
      assert (a + b)[1..] == a[1..] + b;
      SumByAppend(a[1..], b, f);
    } else {
      assert a + b == b;
    }
  }

  lemma SumByCons<T>(x: T, v: seq<T>, f: T -> int)
    ensures SumBy([x] + v, f) == f(x) + SumBy(v, f)
  {
    assert ([x] + v)[1..] == v;
  }

  /** Taking one element out of a sum. */
  lemma {:induction false} SumByRemove<T>(b: seq<T>, i: int, f: T -> int)
    requires 0 <= i < |b|
    ensures SumBy(b, f) == f(b[i]) + SumBy(b[..i] + b[i + 1..], f)
    decreases i
  {
    if i == 0 {
      assert b[..0] + b[1..] == b[1..];
    } else {
      var t := b[1..];
      SumByRemove(t, i - 1, f);
      assert b[..i] + b[i + 1..] == [b[0]] + (t[..i - 1] + t[i..]);
      SumByCons(b[0], t[..i - 1] + t[i..], f);
    }
  }

  lemma SumBySnoc<T>(s: seq<T>, x: T, f: T -> int)
    ensures SumBy(s + [x], f) == SumBy(s, f) + f(x)
  {
    SumByAppend(s, [x], f);
    assert [x][1..] == [];
  }

  /** Replacing one element changes a sum by the difference of the two terms. */
  lemma SumByUpdate<T>(s: seq<T>, i: int, x: T, f: T -> int)
    requires 0 <= i < |s|
    ensures SumBy(s[i := x], f) == SumBy(s, f) - f(s[i]) + f(x)
  {
    var t := s[i := x];
    SumByRemove(s, i, f);
    SumByRemove(t, i, f);
    assert t[..i] + t[i + 1..] == s[..i] + s[i + 1..];
  }

  lemma MultisetRemove<T>(b: seq<T>, i: int)
    requires 0 <= i < |b|
    ensures multiset(b[..i] + b[i + 1..]) == multiset(b) - multiset{b[i]}
  {
    assert b == b[..i] + [b[i]] + b[i + 1..];
    assert multiset(b) == multiset(b[..i]) + multiset{b[i]} + multiset(b[i + 1..]);
  }

  /** Reordering does not change a sum. */
  lemma {:induction false} SumByPermutation<T>(a: seq<T>, b: seq<T>, f: T -> int)
    requires multiset(a) == multiset(b)
    ensures SumBy(a, f) == SumBy(b, f)
    decreases |a|
  {
    if |a| > 0 {
      var i := PositionOf(b, a[0]);
      var rest := b[..i] + b[i + 1..];
      calc {
        multiset(a[1..]);
        { MultisetRemove(a, 0); assert a[..0] + a[1..] == a[1..]; }
        multiset(a) - multiset{a[0]};
        multiset(b) - multiset{b[i]};
        { MultisetRemove(b, i); }
        multiset(rest);
      }
      SumByPermutation(a[1..], rest, f);
      SumByRemove(b, i, f);
    } else {
      assert |multiset(b)| == 0;
    }
  }

  lemma PositionOf<T>(b: seq<T>, x: T) returns (i: int)
    requires x in multiset(b)
    ensures 0 <= i < |b| && b[i] == x
  {
    assert x in b;
    i :| 0 <= i < |b| && b[i] == x;
  }

  /** The first position whose element satisfies `p` (`Array.prototype.findIndex`), with
      `|s|` for -1. */
  function FindIndex<T>(s: seq<T>, p: T -> bool): (i: nat)
    ensures i <= |s|
    ensures i < |s| ==> p(s[i])
    ensures forall j :: 0 <= j < i ==> !p(s[j])
  {
    if |s| == 0 then 0 else if p(s[0]) then 0 else 1 + FindIndex(s[1..], p)
  }

  /** The elements of `s` satisfying `p`, in order (`Array.prototype.filter`). */
  function Filter<T>(s: seq<T>, p: T -> bool): (r: seq<T>)
    ensures |r| <= |s|
    ensures forall i :: 0 <= i < |r| ==> r[i] in s && p(r[i])
    ensures forall i :: 0 <= i < |s| && p(s[i]) ==> s[i] in r
  {
    if |s| == 0 then []
    else if p(s[0]) then [s[0]] + Filter(s[1..], p)
    else Filter(s[1..], p)
  }

  lemma {:induction false} FilterAppend<T>(a: seq<T>, b: seq<T>, p: T -> bool)
    ensures Filter(a + b, p) == Filter(a, p) + Filter(b, p)
    decreases |a|
  {
    if |a| > 0 {
      assert (a + b)[1..] == a[1..] + b;
      FilterAppend(a[1..], b, p);
    } else {
      assert a + b == b;
    }
  }

  /** A sum splits into the part selected by `p` and the part selected by its negation `q`. */
  lemma {:induction false} SumByFilterSplit<T>(s: seq<T>, p: T -> bool, q: T -> bool, f: T -> int)
    requires forall x :: q(x) == !p(x)
    ensures SumBy(s, f) == SumBy(Filter(s, p), f) + SumBy(Filter(s, q), f)
    decreases |s|
  {
    if |s| > 0 {
      SumByFilterSplit(s[1..], p, q, f);
      if p(s[0]) {
        SumByCons(s[0], Filter(s[1..], p), f);
      } else {
        SumByCons(s[0], Filter(s[1..], q), f);
      }
    }
  }

  /** Number of elements of `s` satisfying `p`. */
  function CountBy<T>(s: seq<T>, p: T -> bool): nat {
    if |s| == 0 then 0 else (if p(s[0]) then 1 else 0) + CountBy(s[1..], p)
  }

  lemma {:induction false} CountIsFilterLength<T>(s: seq<T>, p: T -> bool)
    ensures CountBy(s, p) == |Filter(s, p)|
    decreases |s|
  {
    if |s| > 0 {
      CountIsFilterLength(s[1..], p);
    }
  }

  /** Elements of `s` whose key equals `k`, in order. */
  function WithKey<T>(s: seq<T>, key: T -> int, k: int): seq<T> {
    if |s| == 0 then []
    else (if key(s[0]) == k then [s[0]] else []) + WithKey(s[1..], key, k)
  }

  predicate SortedBy<T>(s: seq<T>, key: T -> int) {
    forall i, j :: 0 <= i < j < |s| ==> key(s[i]) <= key(s[j])
  }

  /** Inserts `x` in front of the first element whose key is not smaller, so that `x`
      precedes every element of `s` with the same key. */
  function Insert<T>(x: T, s: seq<T>, key: T -> int): (r: seq<T>)
    ensures |r| == |s| + 1
  {
    if |s| == 0 then [x]
    else if key(x) <= key(s[0]) then [x] + s
    else [s[0]] + Insert(x, s[1..], key)
  }

  /** Inserting into a sorted list keeps it sorted; every key of the result is at least the
      smaller of `key(x)` and the first key of `s`. */
  lemma {:induction false} InsertSorted<T>(x: T, s: seq<T>, key: T -> int)
    requires SortedBy(s, key)
    ensures SortedBy(Insert(x, s, key), key)
    ensures forall i :: 0 <= i < |s| + 1 ==>
      key(Insert(x, s, key)[i]) >= key(x) || key(Insert(x, s, key)[i]) >= key(s[0])
    decreases |s|
  {
    var r := Insert(x, s, key);
    if |s| > 0 && key(x) > key(s[0]) {
      var t := Insert(x, s[1..], key);
      InsertSorted(x, s[1..], key);
      assert r == [s[0]] + t;
      assert r[1..] == t;
      forall i | 1 <= i < |r|
        ensures key(s[0]) <= key(r[i])
      {
        assert r[i] == t[i - 1];
        if key(t[i - 1]) < key(x) {
          assert key(t[i - 1]) >= key(s[1]);
        }
      }
    }
  }

  /** Inserting adds exactly `x`. */
  lemma {:induction false} InsertPermutes<T>(x: T, s: seq<T>, key: T -> int)
    ensures multiset(Insert(x, s, key)) == multiset(s) + multiset{x}
    decreases |s|
  {
    if |s| > 0 && key(x) > key(s[0]) {
      InsertPermutes(x, s[1..], key);
      assert s == [s[0]] + s[1..];
      assert multiset(s) == multiset{s[0]} + multiset(s[1..]);
    }
  }

  lemma WithKeyCons<T>(y: T, u: seq<T>, key: T -> int, k: int)
    ensures WithKey([y] + u, key, k) == (if key(y) == k then [y] else []) + WithKey(u, key, k)
  {
    assert ([y] + u)[1..] == u;
  }

  /** `x` lands in front of the elements of `s` that share its key, and every other key's
      elements keep their order. */
  lemma {:induction false} InsertStable<T>(x: T, s: seq<T>, key: T -> int, k: int)
    ensures WithKey(Insert(x, s, key), key, k) == (if key(x) == k then [x] else []) + WithKey(s, key, k)
    decreases |s|
  {
    var r := Insert(x, s, key);
    var b := if key(x) == k then [x] else [];
    if |s| == 0 {
      assert r == [x] + [];
      WithKeyCons(x, [], key, k);
    } else if key(x) <= key(s[0]) {
      assert r == [x] + s;
      WithKeyCons(x, s, key, k);
    } else {
      var t := Insert(x, s[1..], key);
      var a := if key(s[0]) == k then [s[0]] else [];
      var w := WithKey(s[1..], key, k);
      assert WithKey(r, key, k) == a + WithKey(t, key, k) by {
        assert r == [s[0]] + t;
        WithKeyCons(s[0], t, key, k);
      }
      assert WithKey(t, key, k) == b + w by {
        InsertStable(x, s[1..], key, k);
      }
      assert WithKey(s, key, k) == a + w by {
        assert s == [s[0]] + s[1..];
        WithKeyCons(s[0], s[1..], key, k);
      }
      assert a == [] || b == [];
      assert a + (b + w) == b + (a + w);
    }
  }

  /** Stable ascending sort by `key` (insertion sort; the ECMAScript `Array.prototype.sort`
      is required to be stable, so any stable sort computes the same list). */
  function Sort<T>(s: seq<T>, key: T -> int): (r: seq<T>)
    ensures |r| == |s|
  {
    if |s| == 0 then [] else Insert(s[0], Sort(s[1..], key), key)
  }

  /** The sorted list is ascending by `key`. */
  lemma {:induction false} SortSorted<T>(s: seq<T>, key: T -> int)
    ensures SortedBy(Sort(s, key), key)
    decreases |s|
  {
    if |s| > 0 {
      SortSorted(s[1..], key);
      InsertSorted(s[0], Sort(s[1..], key), key);
    }
  }

  /** The sorted list is a permutation of the input. */
  lemma {:induction false} SortPermutes<T>(s: seq<T>, key: T -> int)
    ensures multiset(Sort(s, key)) == multiset(s)
    decreases |s|
  {
    if |s| > 0 {
      var t := Sort(s[1..], key);
      assert multiset(t) == multiset(s[1..]) by {
        SortPermutes(s[1..], key);
      }
      assert multiset(Sort(s, key)) == multiset(t) + multiset{s[0]} by {
        assert Sort(s, key) == Insert(s[0], t, key);
        InsertPermutes(s[0], t, key);
      }
      assert multiset(s) == multiset(s[1..]) + multiset{s[0]} by {
        assert s == [s[0]] + s[1..];
      }
    }
  }

  /** Stability: for every key, the elements carrying that key appear in the sorted list in
      their input order. */
  lemma {:induction false} SortStable<T>(s: seq<T>, key: T -> int, k: int)
    ensures WithKey(Sort(s, key), key, k) == WithKey(s, key, k)
    decreases |s|
  {
    if |s| > 0 {
      SortStable(s[1..], key, k);
      InsertStable(s[0], Sort(s[1..], key), key, k);
    }
  }

  /** No two elements of `s` share a key. */
  predicate DistinctKeys<T, K(==)>(s: seq<T>, key: T -> K) {
    forall i, j :: 0 <= i < j < |s| ==> key(s[i]) != key(s[j])
  }

  /** In a sequence without repeated elements every element occurs at most once. */
  lemma {:induction false} OccursAtMostOnce<T>(s: seq<T>, x: T)
    requires forall i, j :: 0 <= i < j < |s| ==> s[i] != s[j]
    ensures multiset(s)[x] <= 1
    decreases |s|
  {
    if |s| > 0 {
      assert s == [s[0]] + s[1..];
      OccursAtMostOnce(s[1..], x);
      if s[0] == x {
        assert x !in s[1..];
      }
    }
  }

  /** Two positions holding the same element make it occur twice. */
  lemma OccursTwice<T>(s: seq<T>, i: int, j: int)
    requires 0 <= i < j < |s| && s[i] == s[j]
    ensures multiset(s)[s[i]] >= 2
  {
    assert s == s[..j] + s[j..];
    assert s[i] in s[..j];
    assert s[j] in s[j..];
  }

  /** Reordering keeps keys distinct. */
  lemma PermutationKeepsDistinct<T, K>(a: seq<T>, b: seq<T>, key: T -> K)
    requires multiset(a) == multiset(b) && DistinctKeys(a, key)
    ensures DistinctKeys(b, key)
  {
    forall i, j | 0 <= i < j < |b|
      ensures key(b[i]) != key(b[j])
    {
      if key(b[i]) == key(b[j]) {
        assert b[i] in multiset(a) && b[j] in multiset(a);
        var k1 :| 0 <= k1 < |a| && a[k1] == b[i];
        var k2 :| 0 <= k2 < |a| && a[k2] == b[j];
        assert k1 == k2;
        OccursTwice(b, i, j);
        OccursAtMostOnce(a, b[i]);
        assert false;
      }
    }
  }

  /** No element occurs twice. */
  predicate Distinct<T(==)>(s: seq<T>) {
    forall i, j :: 0 <= i < j < |s| ==> s[i] != s[j]
  }

  /** The first occurrence of every element, in order (`Array.from(new Set(s))`). */
  function Dedup<T(==,!new)>(s: seq<T>): (r: seq<T>)
    ensures forall x :: x in r <==> x in s
    ensures Distinct(r)
    ensures |r| <= |s|
    decreases |s|
  {
    if |s| == 0 then []
    else
      var d := Dedup(s[..|s| - 1]);
      var x := s[|s| - 1];
      assert forall y :: y in s <==> y in s[..|s| - 1] || y == x by {
        assert s == s[..|s| - 1] + [x];
      }
      if x in d then d else d + [x]
  }

  /** A duplicate-free sequence is its own deduplication. */
  lemma {:induction false} DedupOfDistinct<T(!new)>(s: seq<T>)
    requires Distinct(s)
    ensures Dedup(s) == s
    decreases |s|
  {
    if |s| > 0 {
      var p := s[..|s| - 1];
      assert Distinct(p);
      DedupOfDistinct(p);
      assert s[|s| - 1] !in p;
      assert s == p + [s[|s| - 1]];
    }
  }
}

=== FILE: spending_store.dfy ===
/** The Firestore-era Vuex spending store (store/spendings/actions.js, getters.js,
    mutations.js): snapshot changes folded into the item list with a check on document ids,
    the create action's transitions, the mutations, and the totals over all items and over
    today's window. Firestore, the clock and float parsing are parameters. */
module SpendingStore {
  import opened Wrappers
  import opened Seqs

  /** A listed spending; `description` is the `label` field and `value` the amount as stored. */
  datatype Item = Item(id: string, createdAt: int, description: string, user: string, value: int)

  /** A document's id and data as a snapshot change carries them. */
  datatype Doc = Doc(id: string, createdAt: int, description: string, user: string, value: int)

  /** One of `snapshot.docChanges()`; `kind` is `added`, `modified` or `removed`. */
  datatype Change = Change(kind: string, doc: Doc)

  /** The store's `error`: the empty string, or the `{ location, message }` object. */
  datatype FormError = NoError | FormError(location: string, message: string)

  datatype State = State(
    items: seq<Item>,
    isLoading: bool,
    isProcessing: bool,
    error: FormError,
    formItem: string,
    formValue: string,
    dialogCreate: bool,
    dialogUpdate: bool)

  /** The collection the actions use. */
  function Collection(isDevelopment: bool): string {
    if isDevelopment then "dev-spendings" else "spendings"
  }

  // ---------------------------------------------------------------------------------------
  // Mutations
  // ---------------------------------------------------------------------------------------

  function ResetForm(s: State): State {
    s.(dialogCreate := false, dialogUpdate := false, error := NoError, formItem := "", formValue := "",
       isProcessing := false)
  }

  function SetError(s: State, e: FormError): State { s.(error := e) }

  function SetIsProcessing(s: State, b: bool): State { s.(isProcessing := b) }

  function PushToItems(s: State, item: Item): State { s.(items := s.items + [item]) }

  /** `reset` clears the form and both dialogs and ends processing, but keeps the items and
      the loading flag; `setError` and `setIsProcessing` change only their own field;
      `pushToItems` appends at the end and keeps every earlier item in place. */
  lemma MutationsTouchOnlyTheirFields(s: State, e: FormError, b: bool, item: Item)
    ensures var r := ResetForm(s);
      && !r.dialogCreate && !r.dialogUpdate && r.error == NoError && r.formItem == "" && r.formValue == ""
      && !r.isProcessing && r.items == s.items && r.isLoading == s.isLoading
    ensures SetError(s, e).error == e && SetError(s, e).(error := s.error) == s
    ensures SetIsProcessing(s, b).isProcessing == b && SetIsProcessing(s, b).(isProcessing := s.isProcessing) == s
    ensures var r := PushToItems(s, item);
      && |r.items| == |s.items| + 1 && r.items[..|s.items|] == s.items && r.items[|s.items|] == item
      && r.(items := s.items) == s
  {
    var r := PushToItems(s, item);
    assert r.items[..|s.items|] == s.items;
  }

  // ---------------------------------------------------------------------------------------
  // fetch: folding snapshot changes
  // ---------------------------------------------------------------------------------------

  /** `items.findIndex(ob => ob.id === id)`, with `|items|` for -1. */
  function IndexOfItem(items: seq<Item>, id: string): nat {
    FindIndex(items, (ob: Item) => ob.id == id)
  }

  predicate HasId(items: seq<Item>, id: string) {
    IndexOfItem(items, id) < |items|
  }

  /** The item pushed for a document: its id, and the data fields copied unchanged. */
  function ItemOf(d: Doc): Item {
    Item(d.id, d.createdAt, d.description, d.user, d.value)
  }

  /** One change: an `added` document whose id is not listed yet is pushed. */
  function ApplyChange(items: seq<Item>, c: Change): seq<Item> {
    if c.kind == "added" && !HasId(items, c.doc.id) then items + [ItemOf(c.doc)] else items
  }

  /** `docChanges().forEach(...)`: the changes in order, each seeing the pushes before it. */
  function ApplyChanges(items: seq<Item>, cs: seq<Change>): seq<Item>
    decreases |cs|
  {
    if |cs| == 0 then items else ApplyChanges(ApplyChange(items, cs[0]), cs[1..])
  }

  /** The names `commit` can reach: the mutations the store defines. */
  const Mutations: set<string> := {"reset", "setError", "setIsProcessing", "pushToItems", "updateField"}

  /** The snapshot listener as written. Its first step, `commit('setIsLoading', false)`,
      names a mutation the store does not define, which Vuex reports and otherwise ignores;
      so the loading flag is left as it was, the earlier items stay in place and nothing but
      the items changes. */
  function OnSnapshot(s: State, cs: seq<Change>): (r: State)
    ensures r.isLoading == s.isLoading
    ensures |s.items| <= |r.items| && r.items[..|s.items|] == s.items
    ensures r.(items := s.items) == s
  {
    ApplyChangesExtends(s.items, cs);
    s.(items := ApplyChanges(s.items, cs))
  }

  /** As written, a store that is loading stays loading whatever snapshots arrive. */
  lemma {:induction false} SnapshotsNeverEndLoading(s: State, snapshots: seq<seq<Change>>)
    requires s.isLoading
    ensures "setIsLoading" !in Mutations
    ensures OnSnapshots(s, snapshots).isLoading
    ensures OnSnapshots(s, snapshots).(items := s.items) == s
    decreases |snapshots|
  {
    if |snapshots| > 0 {
      SnapshotsNeverEndLoading(OnSnapshot(s, snapshots[0]), snapshots[1..]);
    }
  }

  /** The listener applied to each snapshot in turn. */
  function OnSnapshots(s: State, snapshots: seq<seq<Change>>): State
    decreases |snapshots|
  {
    if |snapshots| == 0 then s else OnSnapshots(OnSnapshot(s, snapshots[0]), snapshots[1..])
  }

  /** The listener as intended, with a `setIsLoading` mutation that sets the flag: every
      snapshot ends loading, and otherwise it does what the listener as written does. */
  function CorrectedOnSnapshot(s: State, cs: seq<Change>): (r: State)
    ensures !r.isLoading
    ensures |s.items| <= |r.items| && r.items[..|s.items|] == s.items
    ensures r.(isLoading := s.isLoading, items := s.items) == s
    ensures r.(isLoading := s.isLoading) == OnSnapshot(s, cs)
  {
    OnSnapshot(s, cs).(isLoading := false)
  }

  predicate IsAdded(c: Change) { c.kind == "added" }

  predicate DistinctIds(items: seq<Item>) {
    forall i, j :: 0 <= i < j < |items| ==> items[i].id != items[j].id
  }

  lemma {:induction false} HasIdAppend(items: seq<Item>, extra: seq<Item>, id: string)
    requires HasId(items, id)
    ensures HasId(items + extra, id)
    ensures IndexOfItem(items + extra, id) == IndexOfItem(items, id)
    decreases |items|
  {
    if items[0].id != id {
      assert (items + extra)[1..] == items[1..] + extra;
      HasIdAppend(items[1..], extra, id);
    }
  }

  lemma HasIdIffPresent(items: seq<Item>, id: string)
    ensures HasId(items, id) <==> exists j :: 0 <= j < |items| && items[j].id == id
  {
  }

  /** A listed id stays listed when items are appended. */
  lemma HasIdExtends(items: seq<Item>, longer: seq<Item>, id: string)
    requires |items| <= |longer| && longer[..|items|] == items && HasId(items, id)
    ensures HasId(longer, id)
  {
    HasIdAppend(items, longer[|items|..], id);
    assert items + longer[|items|..] == longer;
  }

  /** After an added change its document's id is listed. */
  lemma ApplyChangeLists(items: seq<Item>, c: Change)
    requires IsAdded(c)
    ensures HasId(ApplyChange(items, c), c.doc.id)
  {
    var next := ApplyChange(items, c);
    if !HasId(items, c.doc.id) {
      HasIdIffPresent(next, c.doc.id);
      assert next[|items|].id == c.doc.id;
    } else {
      HasIdExtends(items, next, c.doc.id);
    }
  }

  /** The list only grows, at its end. */
  lemma {:induction false} ApplyChangesExtends(items: seq<Item>, cs: seq<Change>)
    ensures var r := ApplyChanges(items, cs);
      |items| <= |r| && r[..|items|] == items
    decreases |cs|
  {
    if |cs| > 0 {
      var next := ApplyChange(items, cs[0]);
      ApplyChangesExtends(next, cs[1..]);
      var r := ApplyChanges(items, cs);
      assert next[..|items|] == items;
      assert r[..|items|] == r[..|next|][..|items|];
    }
  }

  /** Afterwards every added document's id is listed. */
  lemma {:induction false} ApplyChangesLists(items: seq<Item>, cs: seq<Change>)
    ensures var r := ApplyChanges(items, cs);
      forall k :: 0 <= k < |cs| && IsAdded(cs[k]) ==> HasId(r, cs[k].doc.id)
    decreases |cs|
  {
    if |cs| > 0 {
      var next := ApplyChange(items, cs[0]);
      var r := ApplyChanges(items, cs);
      ApplyChangesLists(next, cs[1..]);
      if IsAdded(cs[0]) {
        ApplyChangeLists(items, cs[0]);
        ApplyChangesExtends(next, cs[1..]);
        HasIdExtends(next, r, cs[0].doc.id);
      }
      forall k | 1 <= k < |cs| && IsAdded(cs[k])
        ensures HasId(r, cs[k].doc.id)
      {
        assert cs[1..][k - 1] == cs[k];
      }
    }
  }

  /** Changes whose documents are all listed already change nothing. */
  lemma {:induction false} ApplyChangesNoop(items: seq<Item>, cs: seq<Change>)
    requires forall k :: 0 <= k < |cs| && IsAdded(cs[k]) ==> HasId(items, cs[k].doc.id)
    ensures ApplyChanges(items, cs) == items
    decreases |cs|
  {
    if |cs| > 0 {
      assert ApplyChange(items, cs[0]) == items;
      forall k | 0 <= k < |cs[1..]| && IsAdded(cs[1..][k])
        ensures HasId(items, cs[1..][k].doc.id)
      {
        assert cs[1..][k] == cs[k + 1];
      }
      ApplyChangesNoop(items, cs[1..]);
    }
  }

  /** Replaying a snapshot's changes is harmless: applying them twice is applying them once. */
  lemma ApplyChangesIdempotent(items: seq<Item>, cs: seq<Change>)
    ensures ApplyChanges(ApplyChanges(items, cs), cs) == ApplyChanges(items, cs)
  {
    ApplyChangesLists(items, cs);
    ApplyChangesNoop(ApplyChanges(items, cs), cs);
  }

  /** The id check keeps ids unique. */
  lemma {:induction false} ApplyChangesKeepsIdsDistinct(items: seq<Item>, cs: seq<Change>)
    requires DistinctIds(items)
    ensures DistinctIds(ApplyChanges(items, cs))
    decreases |cs|
  {
    if |cs| > 0 {
      var next := ApplyChange(items, cs[0]);
      if next != items {
        forall i, j | 0 <= i < j < |next|
          ensures next[i].id != next[j].id
        {
          if j == |items| {
            HasIdIffPresent(items, cs[0].doc.id);
            assert next[i] == items[i];
          } else {
            assert next[i] == items[i] && next[j] == items[j];
          }
        }
      }
      ApplyChangesKeepsIdsDistinct(next, cs[1..]);
    }
  }

  /** Only `added` changes matter. */
  lemma {:induction false} OnlyAddedChangesMatter(items: seq<Item>, cs: seq<Change>)
    ensures ApplyChanges(items, cs) == ApplyChanges(items, Filter(cs, IsAdded))
    decreases |cs|
  {
    if |cs| > 0 {
      OnlyAddedChangesMatter(ApplyChange(items, cs[0]), cs[1..]);
      if IsAdded(cs[0]) {
        assert Filter(cs, IsAdded) == [cs[0]] + Filter(cs[1..], IsAdded);
        assert ([cs[0]] + Filter(cs[1..], IsAdded))[1..] == Filter(cs[1..], IsAdded);
      }
    }
  }

  /** `it` is the copy of one of the added documents of `cs`. */
  predicate CopiedFrom(it: Item, cs: seq<Change>) {
    exists k :: 0 <= k < |cs| && IsAdded(cs[k]) && it == ItemOf(cs[k].doc)
  }

  lemma CopiedFromLater(it: Item, cs: seq<Change>)
    requires |cs| > 0 && CopiedFrom(it, cs[1..])
    ensures CopiedFrom(it, cs)
  {
    var k :| 0 <= k < |cs[1..]| && IsAdded(cs[1..][k]) && it == ItemOf(cs[1..][k].doc);
    assert cs[k + 1] == cs[1..][k];
  }

  /** Every pushed item is the copy of an added document. */
  lemma {:induction false} PushedItemsComeFromDocs(items: seq<Item>, cs: seq<Change>)
    ensures var r := ApplyChanges(items, cs);
      forall i :: |items| <= i < |r| ==> CopiedFrom(r[i], cs)
    decreases |cs|
  {
    if |cs| > 0 {
      var next := ApplyChange(items, cs[0]);
      var r := ApplyChanges(items, cs);
      PushedItemsComeFromDocs(next, cs[1..]);
      ApplyChangesExtends(next, cs[1..]);
      forall i | |items| <= i < |r|
        ensures CopiedFrom(r[i], cs)
      {
        if i < |next| {
          assert r[i] == r[..|next|][i] == next[i];
          assert next == items + [ItemOf(cs[0].doc)];
          assert IsAdded(cs[0]) && r[i] == ItemOf(cs[0].doc);
        } else {
          CopiedFromLater(r[i], cs);
        }
      }
    }
  }

  // ---------------------------------------------------------------------------------------
  // create
  // ---------------------------------------------------------------------------------------

  /** The document `create` writes. */
  datatype NewDoc = NewDoc(description: string, value: int, user: string, createdAt: int, updatedAt: int)

  /** `create(user)`: `value` is `parseFloat(form_value)`, `ts` the clock in seconds and
      `failure` the write's error, if any. */
  function Create(s: State, uid: string, value: int, ts: int, failure: Option<string>): (State, NewDoc) {
    var doc := NewDoc(s.formItem, value, uid, ts, ts);
    var busy := SetIsProcessing(s, true);
    if failure.None? then (ResetForm(busy), doc)
    else (SetError(SetIsProcessing(busy, false), FormError("form", failure.value)), doc)
  }

  /** The written document carries the form's label, the user and one timestamp for both
      stamps; success resets the form, failure ends processing and reports at the form;
      the items are never touched. */
  lemma CreateOutcome(s: State, uid: string, value: int, ts: int, failure: Option<string>)
    ensures var (r, doc) := Create(s, uid, value, ts, failure);
      && doc.createdAt == doc.updatedAt == ts && doc.description == s.formItem && doc.user == uid
      && !r.isProcessing && r.items == s.items
      && (failure.None? ==> r == ResetForm(s))
      && (failure.Some? ==>
            r.error == FormError("form", failure.value) && r.formItem == s.formItem && r.formValue == s.formValue)
  {
  }

  // ---------------------------------------------------------------------------------------
  // Getters
  // ---------------------------------------------------------------------------------------

  function ItemValue(it: Item): int { it.value }

  function CreatedAt(it: Item): int { it.createdAt }

  function NewestFirst(it: Item): int { -it.createdAt }

  /** `thisMonthsSpendings`: undefined when `items` is not set, else the sum of all values. */
  function ThisMonthsSpendings(items: Option<seq<Item>>): Option<int> {
    if items.None? then None else Some(SumBy(items.value, ItemValue))
  }

  /** `todaysItems` for the day running from `start` to `end` (Unix seconds): undefined for an
      empty list, else the items of the day, newest first. */
  function TodaysItems(items: seq<Item>, start: int, end: int): Option<seq<Item>> {
    if |items| == 0 then None
    else Some(Sort(InWindow(items, start, end), NewestFirst))
  }

  /** `todaysSpendings`. */
  function TodaysSpendings(items: seq<Item>, start: int, end: int): Option<int> {
    var today := TodaysItems(items, start, end);
    if today.None? then None else Some(SumBy(today.value, ItemValue))
  }

  /** The items of the window from `start` to `end`, both bounds included. */
  function InWindow(items: seq<Item>, start: int, end: int): seq<Item> {
    Filter(items, (it: Item) => start <= it.createdAt <= end)
  }

  /** Today's items are defined exactly for a non-empty list; they are the window's items,
      each as often as listed, newest first. */
  lemma TodaysItemsExact(items: seq<Item>, start: int, end: int)
    ensures TodaysItems(items, start, end).Some? <==> |items| > 0
    ensures var r := TodaysItems(items, start, end);
      r.Some? ==>
        && multiset(r.value) == multiset(InWindow(items, start, end))
        && forall i, j :: 0 <= i < j < |r.value| ==> r.value[i].createdAt >= r.value[j].createdAt
  {
    if |items| > 0 {
      var w := InWindow(items, start, end);
      SortPermutes(w, NewestFirst);
      SortSorted(w, NewestFirst);
    }
  }

  /** Today's items are exactly the listed items whose `created_at` lies in the window. */
  lemma TodaysItemsAreTheWindow(items: seq<Item>, start: int, end: int)
    requires |items| > 0
    ensures var r := TodaysItems(items, start, end).value;
      && (forall i :: 0 <= i < |r| ==> r[i] in items && start <= r[i].createdAt <= end)
      && (forall it :: it in items && start <= it.createdAt <= end ==> it in r)
  {
    var w := InWindow(items, start, end);
    var r := TodaysItems(items, start, end).value;
    TodaysItemsExact(items, start, end);
    forall i | 0 <= i < |r|
      ensures r[i] in items && start <= r[i].createdAt <= end
    {
      assert r[i] in multiset(w);
    }
    forall it | it in items && start <= it.createdAt <= end
      ensures it in r
    {
      var k :| 0 <= k < |items| && items[k] == it;
      assert it in multiset(w);
    }
  }

  /** Today's spending is the sum of the values of the window's items: 0 when the list has
      items but none today. */
  lemma TodaysSpendingsIsWindowSum(items: seq<Item>, start: int, end: int)
    ensures TodaysSpendings(items, start, end).Some? <==> |items| > 0
    ensures |items| > 0 ==>
      TodaysSpendings(items, start, end).value == SumBy(InWindow(items, start, end), ItemValue)
  {
    if |items| > 0 {
      var w := InWindow(items, start, end);
      SortPermutes(w, NewestFirst);
      SumByPermutation(Sort(w, NewestFirst), w, ItemValue);
    }
  }

  /** The month's total is today's total plus the total of the items outside today. */
  lemma MonthSplitsAtToday(items: seq<Item>, start: int, end: int)
    requires |items| > 0
    ensures ThisMonthsSpendings(Some(items)).value
      == TodaysSpendings(items, start, end).value
       + SumBy(Filter(items, (it: Item) => !(start <= it.createdAt <= end)), ItemValue)
  {
    TodaysSpendingsIsWindowSum(items, start, end);
    SumByFilterSplit(items, (it: Item) => start <= it.createdAt <= end,
      (it: Item) => !(start <= it.createdAt <= end), ItemValue);
  }
}

=== FILE: strings.dfy ===
/** Character classes and text helpers shared by the parsers, validators and formatters. */
module Strings {
  import opened Wrappers

  predicate IsDigit(c: char) { '0' <= c <= '9' }

  predicate IsAsciiLetter(c: char) { 'a' <= c <= 'z' || 'A' <= c <= 'Z' }

  predicate IsAsciiAlnum(c: char) { IsAsciiLetter(c) || IsDigit(c) }

  predicate AllDigits(s: string) { forall i :: 0 <= i < |s| ==> IsDigit(s[i]) }

  function DigitValue(c: char): nat
    requires IsDigit(c)
  {
    c as int - '0' as int
  }

  function DigitChar(d: nat): (c: char)
    requires d < 10
    ensures IsDigit(c) && DigitValue(c) == d
  {
    ('0' as int + d) as char
  }

  /** Base-10 value of a digit string; the empty string is 0 and leading zeros are allowed
      (JavaScript's `parseInt(s, 10)` on a digit string). */
  function DigitsValue(s: string): nat
    requires AllDigits(s)
    decreases |s|
  {
    if |s| == 0 then 0 else DigitsValue(s[..|s| - 1]) * 10 + DigitValue(s[|s| - 1])
  }

  lemma AllDigitsAppend(a: string, b: string)
    requires AllDigits(a) && AllDigits(b)
    ensures AllDigits(a + b)
  {
    forall i | 0 <= i < |a + b|
      ensures IsDigit((a + b)[i])
    {
      if i < |a| {
        assert (a + b)[i] == a[i];
      } else {
        assert (a + b)[i] == b[i - |a|];
      }
    }
  }

  /** Appending a digit multiplies the value by ten and adds the digit. */
  lemma DigitsValueSnoc(s: string, c: char)
    requires AllDigits(s) && IsDigit(c)
    ensures AllDigits(s + [c])
    ensures DigitsValue(s + [c]) == DigitsValue(s) * 10 + DigitValue(c)
  {
    assert (s + [c])[..|s|] == s;
  }

  /** Decimal text of a natural number without leading zeros (`String(n)` in JavaScript). */
  function NatToString(n: nat): (s: string)
    ensures |s| > 0 && AllDigits(s)
    ensures |s| > 1 ==> s[0] != '0'
    ensures DigitsValue(s) == n
  {
    if n < 10 then [DigitChar(n)]
    else
      var s := NatToString(n / 10) + [DigitChar(n % 10)];
      assert s[..|s| - 1] == NatToString(n / 10);
      s
  }

  /** Decimal text of an integer with a leading `-` when negative. */
  function IntToString(i: int): (s: string)
    ensures |s| > 0
    ensures i >= 0 <==> s[0] != '-'
  {
    if i < 0 then "-" + NatToString(-i) else NatToString(i)
  }

  /** Digit strings without redundant leading zeros denote distinct numbers, so
      `NatToString` is the inverse of `DigitsValue` on them. */
  lemma {:induction false} CanonicalDigitsRoundTrip(s: string)
    requires |s| > 0 && AllDigits(s)
    requires |s| > 1 ==> s[0] != '0'
    ensures NatToString(DigitsValue(s)) == s
    decreases |s|
  {
    if |s| == 1 {
    } else {
      var p := s[..|s| - 1];
      assert p[0] == s[0];
      CanonicalDigitsRoundTrip(p);
      if |p| == 1 {
        assert DigitsValue(p) >= 1;
      } else {
        LeadingDigitLowerBound(p);
      }
      assert DigitsValue(s) / 10 == DigitsValue(p);
      assert s == p + [s[|s| - 1]];
    }
  }

  /** A canonical digit string of length >= 2 denotes a number >= 1. */
  lemma {:induction false} LeadingDigitLowerBound(s: string)
    requires |s| > 1 && AllDigits(s) && s[0] != '0'
    ensures DigitsValue(s) >= 1
    decreases |s|
  {
    var p := s[..|s| - 1];
    assert p[0] == s[0];
    if |p| > 1 {
      LeadingDigitLowerBound(p);
    } else {
      assert DigitsValue(p) == DigitValue(s[0]);
    }
  }

  /** Decimal text is injective: two numbers print alike only when they are equal. */
  lemma NatToStringInjective(a: nat, b: nat)
    ensures NatToString(a) == NatToString(b) <==> a == b
  {
  }

  /** Signed decimal text is injective as well. */
  lemma IntToStringInjective(a: int, b: int)
    requires IntToString(a) == IntToString(b)
    ensures a == b
  {
    if a < 0 {
      assert IntToString(a)[1..] == NatToString(-a);
      assert IntToString(b)[1..] == NatToString(-b);
      NatToStringInjective(-a, -b);
    } else {
      NatToStringInjective(a, b);
    }
  }

  /** Zero-pads a number to at least two digits (`String(n).padStart(2, '0')`). */
  function Pad2(n: nat): (s: string)
    ensures |s| >= 2 && AllDigits(s)
    ensures n < 100 ==> |s| == 2
    ensures DigitsValue(s) == n
  {
    if n < 10 then
      var s := "0" + NatToString(n);
      assert s[..|s| - 1] == "0";
      s
    else
      assert n < 100 ==> NatToString(n) == NatToString(n / 10) + [DigitChar(n % 10)];
      NatToString(n)
  }

  /** Number of consecutive ASCII digits at the start of `s`. */
  function LeadingDigits(s: string): (n: nat)
    ensures n <= |s|
    ensures forall i :: 0 <= i < n ==> IsDigit(s[i])
    ensures n < |s| ==> !IsDigit(s[n])
  {
    if |s| > 0 && IsDigit(s[0]) then 1 + LeadingDigits(s[1..]) else 0
  }

  /** Characterises `LeadingDigits` by the run it stops at. */
  lemma {:induction false} LeadingDigitsIs(s: string, n: nat)
    requires n <= |s| && forall i :: 0 <= i < n ==> IsDigit(s[i])
    requires n == |s| || !IsDigit(s[n])
    ensures LeadingDigits(s) == n
    decreases n
  {
    if n > 0 {
      assert forall i :: 0 <= i < n - 1 ==> s[1..][i] == s[i + 1];
      LeadingDigitsIs(s[1..], n - 1);
    }
  }

  /** `s` with every occurrence of `c` deleted. */
  function Without(s: string, c: char): (r: string)
    ensures |r| <= |s|
    ensures forall i :: 0 <= i < |r| ==> r[i] != c
  {
    if |s| == 0 then "" else (if s[0] == c then "" else [s[0]]) + Without(s[1..], c)
  }

  lemma {:induction false} WithoutAppend(a: string, b: string, c: char)
    ensures Without(a + b, c) == Without(a, c) + Without(b, c)
    decreases |a|
  {
    if |a| == 0 {
      assert a + b == b;
    } else {
      assert (a + b)[0] == a[0] && (a + b)[1..] == a[1..] + b;
      WithoutAppend(a[1..], b, c);
    }
  }

  /** Deleting a character that does not occur changes nothing. */
  lemma {:induction false} WithoutAbsent(s: string, c: char)
    requires forall i :: 0 <= i < |s| ==> s[i] != c
    ensures Without(s, c) == s
    decreases |s|
  {
    if |s| > 0 {
      WithoutAbsent(s[1..], c);
    }
  }

  /** Position of the first `c` in `s`, or `|s|` when there is none (`indexOf` with the
      miss mapped to the length). */
  function IndexOf(s: string, c: char): (k: nat)
    ensures k <= |s|
    ensures k < |s| ==> s[k] == c
    ensures forall i :: 0 <= i < k ==> s[i] != c
  {
    if |s| == 0 then 0 else if s[0] == c then 0 else 1 + IndexOf(s[1..], c)
  }

  /** A separator that does not occur in the first part splits a concatenation uniquely. */
  lemma SplitAtFirst(a: string, b: string, a2: string, b2: string, c: char)
    requires forall i :: 0 <= i < |a| ==> a[i] != c
    requires forall i :: 0 <= i < |a2| ==> a2[i] != c
    requires a + [c] + b == a2 + [c] + b2
    ensures a == a2 && b == b2
  {
    var x := a + [c] + b;
    IndexOfAfterFree(a, b, c);
    IndexOfAfterFree(a2, b2, c);
    assert a == x[..|a|] && b == x[|a| + 1..];
  }

  lemma IndexOfAfterFree(a: string, b: string, c: char)
    requires forall i :: 0 <= i < |a| ==> a[i] != c
    ensures IndexOf(a + [c] + b, c) == |a|
  {
    var x := a + [c] + b;
    var k := IndexOf(x, c);
    assert x[|a|] == c;
    assert forall i :: 0 <= i < |a| ==> x[i] == a[i];
  }

  /** Position of the last `c` in `s`. */
  function LastIndexOf(s: string, c: char): (r: Option<nat>)
    ensures r.Some? ==> r.value < |s| && s[r.value] == c && forall i :: r.value < i < |s| ==> s[i] != c
    ensures r.None? ==> forall i :: 0 <= i < |s| ==> s[i] != c
  {
    if |s| == 0 then None
    else if s[|s| - 1] == c then Some(|s| - 1)
    else
      var r := LastIndexOf(s[..|s| - 1], c);
      assert forall i :: 0 <= i < |s| - 1 ==> s[i] == s[..|s| - 1][i];
      r
  }

  /** A separator that does not occur in the second part splits a concatenation uniquely. */
  lemma SplitAtLast(a: string, b: string, a2: string, b2: string, c: char)
    requires forall i :: 0 <= i < |b| ==> b[i] != c
    requires forall i :: 0 <= i < |b2| ==> b2[i] != c
    requires a + [c] + b == a2 + [c] + b2
    ensures a == a2 && b == b2
  {
    LastIndexOfBeforeFree(a, b, c);
    LastIndexOfBeforeFree(a2, b2, c);
    var x := a + [c] + b;
    assert a == x[..|a|] && b == x[|a| + 1..];
  }

  lemma {:induction false} LastIndexOfBeforeFree(a: string, b: string, c: char)
    requires forall i :: 0 <= i < |b| ==> b[i] != c
    ensures LastIndexOf(a + [c] + b, c) == Some(|a|)
    decreases |b|
  {
    var x := a + [c] + b;
    if |b| > 0 {
      var b' := b[..|b| - 1];
      assert x[..|x| - 1] == a + [c] + b';
      assert x[|x| - 1] == b[|b| - 1];
      LastIndexOfBeforeFree(a, b', c);
    }
  }

  predicate StartsWith(s: string, prefix: string) {
    |prefix| <= |s| && s[..|prefix|] == prefix
  }

  /** JavaScript white space and line terminators: what `String.prototype.trim` removes,
      what `parseInt` skips and what the regex class `\s` matches. */
  predicate IsJsSpace(c: char) {
    c == ' ' || c == '\t' || c == '\n' || c == '\r' || c == '\U{000B}' || c == '\U{000C}'
    || c == '\U{00A0}' || c == '\U{FEFF}' || c == '\U{1680}' || '\U{2000}' <= c <= '\U{200A}'
    || c == '\U{2028}' || c == '\U{2029}' || c == '\U{202F}' || c == '\U{205F}' || c == '\U{3000}'
  }

  /** Characters removed by PHP's `trim` with its default character list. */
  predicate IsPhpSpace(c: char) {
    c == ' ' || c == '\t' || c == '\n' || c == '\r' || c == '\U{0000}' || c == '\U{000B}'
  }

  function TrimStart(s: string, isSpace: char -> bool): (r: string)
    ensures |r| <= |s| && r == s[|s| - |r|..]
    ensures |r| > 0 ==> !isSpace(r[0])
    ensures forall i :: 0 <= i < |s| - |r| ==> isSpace(s[i])
  {
    if |s| > 0 && isSpace(s[0]) then
      var r := TrimStart(s[1..], isSpace);
      assert forall i :: 1 <= i < |s| - |r| ==> s[i] == s[1..][i - 1];
      r
    else s
  }

  function TrimEnd(s: string, isSpace: char -> bool): (r: string)
    ensures |r| <= |s| && r == s[..|r|]
    ensures |r| > 0 ==> !isSpace(r[|r| - 1])
    ensures forall i :: |r| <= i < |s| ==> isSpace(s[i])
  {
    if |s| > 0 && isSpace(s[|s| - 1]) then
      var r := TrimEnd(s[..|s| - 1], isSpace);
      assert forall i :: |r| <= i < |s| - 1 ==> s[i] == s[..|s| - 1][i];
      r
    else s
  }

  /** Removes leading and trailing characters satisfying `isSpace`. */
  function Trim(s: string, isSpace: char -> bool): string {
    TrimEnd(TrimStart(s, isSpace), isSpace)
  }

  /** The trimmed text has no space at either end, and it is empty exactly when the
      input is all spaces. */
  lemma TrimIsCore(s: string, isSpace: char -> bool)
    ensures var t := Trim(s, isSpace);
      && (|t| > 0 ==> !isSpace(t[0]) && !isSpace(t[|t| - 1]))
      && (|t| == 0 <==> forall i :: 0 <= i < |s| ==> isSpace(s[i]))
  {
    var a := TrimStart(s, isSpace);
    var t := TrimEnd(a, isSpace);
    if |t| == 0 {
      assert |a| == 0;
    } else {
      assert t[0] == a[0];
    }
  }

  /** Trimming twice is trimming once. */
  lemma TrimIdempotent(s: string, isSpace: char -> bool)
    ensures Trim(Trim(s, isSpace), isSpace) == Trim(s, isSpace)
  {
    var t := Trim(s, isSpace);
    assert TrimStart(t, isSpace) == t;
  }

  /** ASCII lower-casing (`toLowerCase` restricted to ASCII letters). */
  function ToLower(s: string): (r: string)
    ensures |r| == |s|
    ensures forall i :: 0 <= i < |s| ==>
      r[i] == (if 'A' <= s[i] <= 'Z' then (s[i] as int + 32) as char else s[i])
  {
    if |s| == 0 then ""
    else [if 'A' <= s[0] <= 'Z' then (s[0] as int + 32) as char else s[0]] + ToLower(s[1..])
  }

  /** Concatenates `parts` with `sep` between consecutive parts (`Array.prototype.join`). */
  function Join(parts: seq<string>, sep: string): string {
    if |parts| == 0 then ""
    else if |parts| == 1 then parts[0]
    else parts[0] + sep + Join(parts[1..], sep)
  }
}

=== FILE: transaction_actions.dfy ===
/** The state and actions of the Pinia transaction store (stores/transaction-store.ts): fetching
    the current month, adding, updating and soft-deleting records, applying realtime events,
    and the realtime channel's lifecycle. Every remote reply and the clock are parameters. */
module TransactionActions {
  import opened Wrappers
  import opened Seqs
  import opened TransactionStore

  /** The store's state. Channels are numbered in creation order: `open` holds the channels
      not yet removed and `channel` the one held in the `realtimeChannel` variable. */
  datatype State = State(
    transactions: seq<Tx>,
    currentMonth: string,
    isLoading: bool,
    error: Option<string>,
    isSubscribed: bool,
    channel: Option<nat>,
    open: set<nat>,
    nextChannel: nat)

  const Initial := State([], "", false, None, false, None, {}, 0)

  /** Every record of the list lies in the store's month. */
  predicate InMonth(s: State) {
    AllInMonth(s.transactions, s.currentMonth)
  }

  predicate AllInMonth(txs: seq<Tx>, key: string) {
    forall i :: 0 <= i < |txs| ==> MonthOf(txs[i].createdAt) == key
  }

  // ---------------------------------------------------------------------------------------
  // Replacing and removing records by id
  // ---------------------------------------------------------------------------------------

  /** `findIndex(t => t.id === id)`, with `|txs|` for -1. */
  function IndexOfId(txs: seq<Tx>, id: string): nat {
    FindIndex(txs, (t: Tx) => t.id == id)
  }

  /** `if (index !== -1) transactions[index] = row`. */
  function ReplaceFirst(txs: seq<Tx>, id: string, row: Tx): seq<Tx> {
    var i := IndexOfId(txs, id);
    if i < |txs| then txs[i := row] else txs
  }

  /** Only the first record with the id is replaced, and it becomes `row`; a missing id
      changes nothing. */
  lemma ReplaceFirstChangesOne(txs: seq<Tx>, id: string, row: Tx)
    ensures var r := ReplaceFirst(txs, id, row);
      && |r| == |txs|
      && (IndexOfId(txs, id) < |txs| ==> r[IndexOfId(txs, id)] == row)
      && ((forall j :: 0 <= j < |txs| ==> txs[j].id != id) ==> r == txs)
      && (forall j :: 0 <= j < |txs| && r[j] != txs[j] ==>
            txs[j].id == id && r[j] == row && forall k :: 0 <= k < j ==> txs[k].id != id)
      && ((exists j :: 0 <= j < |txs| && txs[j].id == id) ==> row in r)
  {
    var i := IndexOfId(txs, id);
    if (exists j :: 0 <= j < |txs| && txs[j].id == id) {
      assert i < |txs|;
      assert ReplaceFirst(txs, id, row)[i] == row;
    }
  }

  /** `filter(t => t.id !== id)`. */
  function RemoveAll(txs: seq<Tx>, id: string): seq<Tx> {
    Filter(txs, (t: Tx) => t.id != id)
  }

  /** No record with the id remains, every other record stays, and removing twice is
      removing once. */
  lemma RemoveAllFacts(txs: seq<Tx>, id: string)
    ensures var r := RemoveAll(txs, id);
      && (forall i :: 0 <= i < |r| ==> r[i].id != id)
      && (forall t :: t in txs && t.id != id ==> t in r)
      && (forall t :: t in r ==> t in txs)
      && RemoveAll(r, id) == r
  {
    var r := RemoveAll(txs, id);
    forall t | t in txs && t.id != id
      ensures t in r
    {
      var i :| 0 <= i < |txs| && txs[i] == t;
    }
    FilterKeepsAll(r, (t: Tx) => t.id != id);
  }

  lemma {:induction false} FilterKeepsAll<T>(s: seq<T>, p: T -> bool)
    requires forall i :: 0 <= i < |s| ==> p(s[i])
    ensures Filter(s, p) == s
    decreases |s|
  {
    if |s| > 0 {
      FilterKeepsAll(s[1..], p);
      assert s == [s[0]] + s[1..];
    }
  }

  // ---------------------------------------------------------------------------------------
  // fetchCurrentMonth
  // ---------------------------------------------------------------------------------------

  /** `currentMonth.split('-')` yields an empty year part exactly for negative years. */
  function FetchCurrentMonth(s: State, now: LocalDate, reply: Result<Option<seq<Tx>>, string>): State {
    var key := MonthKey(now.year, now.month);
    var started := s.(isLoading := true, error := None, currentMonth := key);
    var done :=
      if now.year < 0 then started.(error := Some("Invalid month format"))
      else if reply.Err? then started.(error := Some(reply.error))
      else started.(transactions := reply.value.GetOr([]));
    done.(isLoading := false)
  }

  /** After a fetch the month is the clock's, loading is over, and either the list is the
      reply (and no error is set) or the list is kept and the error is set. */
  lemma FetchOutcome(s: State, now: LocalDate, reply: Result<Option<seq<Tx>>, string>)
    ensures var r := FetchCurrentMonth(s, now, reply);
      && r.currentMonth == MonthKey(now.year, now.month)
      && !r.isLoading
      && (r.error == None <==> now.year >= 0 && reply.Ok?)
      && (r.error == None ==> r.transactions == reply.value.GetOr([]))
      && (r.error != None ==> r.transactions == s.transactions)
      && r.isSubscribed == s.isSubscribed && r.channel == s.channel && r.open == s.open
  {
  }

  // ---------------------------------------------------------------------------------------
  // addTransaction
  // ---------------------------------------------------------------------------------------

  /** `TransactionInput`; `category` is the chosen category id, if any. */
  datatype TxInput = TxInput(description: string, amount: int, kind: Kind, category: Option<string>)

  /** `TransactionInsert`: the row sent to the database. */
  datatype InsertRow = InsertRow(
    description: string,
    amount: int,
    kind: Kind,
    category: Option<string>,
    createdBy: string)

  function ToInsertRow(input: TxInput, userId: string): InsertRow {
    InsertRow(input.description, input.amount, input.kind, OrNull(input.category), userId)
  }

  function ToInsertRows(inputs: seq<TxInput>, userId: string): (r: seq<InsertRow>)
    ensures |r| == |inputs|
    ensures forall i :: 0 <= i < |inputs| ==> r[i] == ToInsertRow(inputs[i], userId)
  {
    if |inputs| == 0 then [] else [ToInsertRow(inputs[0], userId)] + ToInsertRows(inputs[1..], userId)
  }

  /** The resolved value of `addTransaction`. */
  datatype AddResult = AddResult(success: bool, data: Option<seq<Tx>>, count: nat)

  /** One call of `addTransaction`: the state after it, the rows it sent (none without a
      user), and what it resolved with or rejected with. */
  datatype AddStep = AddStep(state: State, sent: Option<seq<InsertRow>>, outcome: Result<AddResult, string>)

  /** `user` is the authenticated user's id, `reply` the insert's reply and `now` the clock. */
  function AddTransaction(s: State, inputs: seq<TxInput>, user: Option<string>,
                          reply: Result<Option<seq<Tx>>, string>, now: LocalDate): AddStep
  {
    if user.None? then
      AddStep(s.(error := Some("User not authenticated")), None, Err("User not authenticated"))
    else
      var rows := ToInsertRows(inputs, user.value);
      if reply.Err? then
        AddStep(s.(error := Some(reply.error)), Some(rows), Err(reply.error))
      else
        var data := reply.value.GetOr([]);
        var key := MonthKey(now.year, now.month);
        var current := Filter(data, (t: Tx) => MonthOf(t.createdAt) == key);
        AddStep(s.(transactions := current + s.transactions), Some(rows), Ok(AddResult(true, reply.value, |data|)))
  }

  /** What `addTransaction` does: without a user nothing is sent and the call fails; every row
      sent carries the user and the inputs in order, with an empty category sent as null; on
      success the inserted records of the clock's month come first, in reply order, the old
      list follows, and `count` is the number of inserted records. */
  lemma AddTransactionOutcome(s: State, inputs: seq<TxInput>, user: Option<string>,
                              reply: Result<Option<seq<Tx>>, string>, now: LocalDate)
    ensures var step := AddTransaction(s, inputs, user, reply, now);
      user.None? ==> step.sent.None? && step.outcome.Err? && step.state.transactions == s.transactions
    ensures var step := AddTransaction(s, inputs, user, reply, now);
      user.Some? ==> step.sent.Some? && |step.sent.value| == |inputs|
    ensures var step := AddTransaction(s, inputs, user, reply, now);
      forall i :: user.Some? && 0 <= i < |inputs| ==>
        && step.sent.value[i].createdBy == user.value
        && step.sent.value[i].description == inputs[i].description
        && step.sent.value[i].amount == inputs[i].amount
        && step.sent.value[i].kind == inputs[i].kind
        && (step.sent.value[i].category.Some? <==> inputs[i].category.Some? && inputs[i].category.value != "")
    ensures var step := AddTransaction(s, inputs, user, reply, now);
      step.outcome.Err? ==> step.state.error == Some(step.outcome.error) && step.state.transactions == s.transactions
    ensures var step := AddTransaction(s, inputs, user, reply, now);
      step.outcome.Ok? ==> user.Some? && reply.Ok? && step.outcome.value.count == |reply.value.GetOr([])|
    ensures var step := AddTransaction(s, inputs, user, reply, now);
      var added := |step.state.transactions| - |s.transactions|;
      step.outcome.Ok? ==>
        && 0 <= added <= |reply.value.GetOr([])|
        && step.state.transactions[added..] == s.transactions
        && forall i :: 0 <= i < added ==>
             && step.state.transactions[i] in reply.value.GetOr([])
             && MonthOf(step.state.transactions[i].createdAt) == MonthKey(now.year, now.month)
    ensures var step := AddTransaction(s, inputs, user, reply, now);
      var data := if reply.Ok? then reply.value.GetOr([]) else [];
      var current := Filter(data, (t: Tx) => MonthOf(t.createdAt) == MonthKey(now.year, now.month));
      step.outcome.Ok? ==> step.state.transactions == current + s.transactions
    ensures var step := AddTransaction(s, inputs, user, reply, now);
      forall t :: step.outcome.Ok? && t in reply.value.GetOr([]) && MonthOf(t.createdAt) == MonthKey(now.year, now.month) ==>
        t in step.state.transactions
  {
    var step := AddTransaction(s, inputs, user, reply, now);
    if step.outcome.Ok? {
      var data := reply.value.GetOr([]);
      var current := Filter(data, (t: Tx) => MonthOf(t.createdAt) == MonthKey(now.year, now.month));
      assert step.state.transactions == current + s.transactions;
      assert (current + s.transactions)[|current|..] == s.transactions;
    }
  }

  // ---------------------------------------------------------------------------------------
  // updateTransaction and deleteTransaction
  // ---------------------------------------------------------------------------------------

  /** `updateTransaction(id, ...)` given the reply to the update (the updated row). */
  function UpdateTransaction(s: State, id: string, reply: Result<Tx, string>): (State, Result<Tx, string>) {
    if reply.Err? then (s.(error := Some(reply.error)), Err(reply.error))
    else (s.(transactions := ReplaceFirst(s.transactions, id, reply.value)), Ok(reply.value))
  }

  /** `deleteTransaction(id)` given the soft delete's error, if any. */
  function DeleteTransaction(s: State, id: string, failure: Option<string>): (State, Result<bool, string>) {
    if failure.Some? then (s.(error := Some(failure.value)), Err(failure.value))
    else (s.(transactions := RemoveAll(s.transactions, id)), Ok(true))
  }

  /** A failed update or delete keeps the list and records the error; a successful one leaves
      an earlier error in place. */
  lemma UpdateDeleteErrors(s: State, id: string, reply: Result<Tx, string>, failure: Option<string>)
    ensures var (u, ur) := UpdateTransaction(s, id, reply);
      && (reply.Err? <==> ur.Err?)
      && (ur.Err? ==> u.transactions == s.transactions && u.error == Some(reply.error))
      && (ur.Ok? ==> u.error == s.error && |u.transactions| == |s.transactions|)
    ensures var (d, dr) := DeleteTransaction(s, id, failure);
      && (failure.Some? <==> dr.Err?)
      && (dr.Err? ==> d.transactions == s.transactions && d.error == failure)
      && (dr.Ok? ==> d.error == s.error && forall i :: 0 <= i < |d.transactions| ==> d.transactions[i].id != id)
  {
    if reply.Ok? {
      ReplaceFirstChangesOne(s.transactions, id, reply.value);
    }
    RemoveAllFacts(s.transactions, id);
  }

  // ---------------------------------------------------------------------------------------
  // handleRealtimeEvent
  // ---------------------------------------------------------------------------------------

  /** A change notification: `eventType` and the new and old rows. */
  datatype Payload = Payload(eventType: string, newRow: Option<Tx>, oldRow: Option<Tx>)

  /** `payload.new?.created_at || payload.old?.created_at`. */
  function EventStamp(p: Payload): Stamp {
    if p.newRow.Some? && p.newRow.value.createdAt != NoStamp then p.newRow.value.createdAt
    else if p.oldRow.Some? then p.oldRow.value.createdAt
    else NoStamp
  }

  function HandleRealtimeEvent(s: State, p: Payload): State {
    var stamp := EventStamp(p);
    if stamp == NoStamp || MonthOf(stamp) != s.currentMonth then s
    else if p.eventType == "INSERT" && p.newRow.Some? then s.(transactions := [p.newRow.value] + s.transactions)
    else if p.eventType == "UPDATE" && p.newRow.Some? then
      s.(transactions := ReplaceFirst(s.transactions, p.newRow.value.id, p.newRow.value))
    else if p.eventType == "DELETE" && p.oldRow.Some? then s.(transactions := RemoveAll(s.transactions, p.oldRow.value.id))
    else s
  }

  /** Events of another month, or without a date, change nothing; and only the list can
      change. */
  lemma RealtimeEventScope(s: State, p: Payload)
    ensures var r := HandleRealtimeEvent(s, p);
      && (EventStamp(p) == NoStamp || MonthOf(EventStamp(p)) != s.currentMonth ==> r == s)
      && r.(transactions := s.transactions) == s
  {
  }

  /** Realtime events keep every record in the store's month, provided a new row carries its
      own `created_at` (the database fills it in on insert). */
  lemma RealtimeEventKeepsMonth(s: State, p: Payload)
    requires InMonth(s)
    requires p.newRow.Some? ==> p.newRow.value.createdAt != NoStamp
    ensures InMonth(HandleRealtimeEvent(s, p))
  {
    var stamp := EventStamp(p);
    if stamp == NoStamp || MonthOf(stamp) != s.currentMonth {
    } else if p.eventType == "INSERT" && p.newRow.Some? {
      PrependKeepsMonth(p.newRow.value, s.transactions, s.currentMonth);
    } else if p.eventType == "UPDATE" && p.newRow.Some? {
      ReplaceKeepsMonth(s.transactions, p.newRow.value, s.currentMonth);
    } else if p.eventType == "DELETE" && p.oldRow.Some? {
      RemoveKeepsMonth(s.transactions, p.oldRow.value.id, s.currentMonth);
    }
  }

  lemma PrependKeepsMonth(t: Tx, txs: seq<Tx>, key: string)
    requires AllInMonth(txs, key) && MonthOf(t.createdAt) == key
    ensures AllInMonth([t] + txs, key)
  {
    forall i | 0 <= i < |[t] + txs|
      ensures MonthOf(([t] + txs)[i].createdAt) == key
    {
      if i > 0 {
        assert ([t] + txs)[i] == txs[i - 1];
      }
    }
  }

  lemma ReplaceKeepsMonth(txs: seq<Tx>, row: Tx, key: string)
    requires AllInMonth(txs, key) && MonthOf(row.createdAt) == key
    ensures AllInMonth(ReplaceFirst(txs, row.id, row), key)
  {
    ReplaceFirstChangesOne(txs, row.id, row);
  }

  lemma RemoveKeepsMonth(txs: seq<Tx>, id: string, key: string)
    requires AllInMonth(txs, key)
    ensures AllInMonth(RemoveAll(txs, id), key)
  {
    var r := RemoveAll(txs, id);
    forall i | 0 <= i < |r|
      ensures MonthOf(r[i].createdAt) == key
    {
      assert r[i] in txs;
    }
  }

  /** The store's own insert is echoed by the realtime INSERT of the same row, and nothing
      removes the copy: after both, a row that was not listed before is listed twice. */
  lemma EchoedInsertIsListedTwice(s: State, inputs: seq<TxInput>, userId: string, row: Tx, now: LocalDate)
    requires row !in s.transactions
    requires MonthOf(row.createdAt) == MonthKey(now.year, now.month) == s.currentMonth
    ensures var added := AddTransaction(s, inputs, Some(userId), Ok(Some([row])), now).state;
      var r := HandleRealtimeEvent(added, Payload("INSERT", Some(row), None));
      multiset(r.transactions)[row] == 2
  {
    var key := MonthKey(now.year, now.month);
    var added := AddTransaction(s, inputs, Some(userId), Ok(Some([row])), now).state;
    assert Filter([row], (t: Tx) => MonthOf(t.createdAt) == key) == [row];
    assert added.transactions == [row] + s.transactions;
    MonthKeyIsValid(now.year, now.month);
    assert EventStamp(Payload("INSERT", Some(row), None)) == row.createdAt;
    var r := HandleRealtimeEvent(added, Payload("INSERT", Some(row), None));
    assert r.transactions == [row] + ([row] + s.transactions);
    assert multiset(s.transactions)[row] == 0;
  }

  // ---------------------------------------------------------------------------------------
  // Realtime channel and reset
  // ---------------------------------------------------------------------------------------

  /** `initRealtimeSubscription`; `isClient` is `import.meta.client` and `isLocalDev` says the
      configured URL names `127.0.0.1` or `localhost`. */
  function InitRealtime(s: State, isClient: bool, isLocalDev: bool): State {
    if s.isSubscribed || !isClient || isLocalDev then s
    else s.(channel := Some(s.nextChannel), open := s.open + {s.nextChannel}, nextChannel := s.nextChannel + 1)
  }

  /** The channel's status callback. */
  function OnStatus(s: State, status: string): State {
    if status == "SUBSCRIBED" then s.(isSubscribed := true) else s
  }

  /** `cleanupRealtimeSubscription`: the held channel is removed, but the variable keeps it. */
  function Cleanup(s: State): State {
    if s.channel.Some? then s.(open := s.open - {s.channel.value}, isSubscribed := false) else s
  }

  /** `resetState`. */
  function Reset(s: State): State {
    Cleanup(s.(transactions := [], currentMonth := "", isLoading := false, error := None))
  }

  /** A reset store holds nothing, and every realtime event leaves it so: no month key is
      empty, so no event matches the cleared month. */
  lemma ResetIgnoresEvents(s: State, p: Payload)
    ensures Reset(s).transactions == [] && Reset(s).currentMonth == "" && Reset(s).error == None
    ensures s.channel.Some? ==> !Reset(s).isSubscribed && s.channel.value !in Reset(s).open
    ensures HandleRealtimeEvent(Reset(s), p) == Reset(s)
  {
    var stamp := EventStamp(p);
    if stamp.At? {
      MonthKeyIsValid(stamp.date.year, stamp.date.month);
    }
  }

  /** Initialising twice before the status callback has said `SUBSCRIBED` opens two channels;
      cleaning up then removes only the second, so the first stays open. */
  lemma SecondInitLeaksChannel(s: State)
    requires !s.isSubscribed && s.nextChannel !in s.open && s.nextChannel + 1 !in s.open
    ensures var r := Cleanup(InitRealtime(InitRealtime(s, true, false), true, false));
      s.nextChannel in r.open && !r.isSubscribed
  {
  }

  /** Once subscribed, initialising again opens nothing. */
  lemma InitWhenSubscribedIsNoop(s: State, isClient: bool, isLocalDev: bool)
    ensures OnStatus(s, "SUBSCRIBED").isSubscribed
    ensures InitRealtime(OnStatus(s, "SUBSCRIBED"), isClient, isLocalDev) == OnStatus(s, "SUBSCRIBED")
  {
  }
}

=== FILE: transaction_store.dfy ===
/** The Pinia transaction store of stores/transaction-store.ts: a newest-first list of the
    current month's transactions, the getters computed over it, and the state changes made
    by the local actions and by realtime events. Remote calls and the clock are inputs. */
module TransactionStore {
  import opened Wrappers
  import opened Strings
  import opened Seqs
  import Financial

  datatype Kind = Expense | Income

  /** The joined category of a transaction; every field may be absent. */
  datatype Category = Category(name: Option<string>, icon: Option<string>, color: Option<string>)

  /** A calendar day in local time; `month` is 1-based. */
  datatype LocalDate = LocalDate(year: int, month: nat, day: nat)

  /** A `created_at` value as `new Date(...)` sees it: absent (or empty), not a date, or a
      date already converted to local time. */
  datatype Stamp = NoStamp | BadStamp | At(date: LocalDate)

  /** A transaction row; `amount` is in hundredths. */
  datatype Tx = Tx(
    id: string,
    description: string,
    amount: int,
    kind: Kind,
    category: Option<Category>,
    createdBy: string,
    createdAt: Stamp,
    deletedAt: Option<string>)

  // ---------------------------------------------------------------------------------------
  // Month keys and days
  // ---------------------------------------------------------------------------------------

  /** `YYYY-MM` for a year and a 1-based month, as `getCurrentMonthString` and
      `getMonthFromDate` build it. */
  function MonthKey(year: int, month: nat): string {
    IntToString(year) + "-" + Pad2(month)
  }

  /** What `getMonthFromDate` gives for an invalid date: both parts print as `NaN`. */
  const InvalidMonthKey := "NaN-NaN"

  /** `getMonthFromDate(created_at)`. */
  function MonthOf(s: Stamp): string {
    if s.At? then MonthKey(s.date.year, s.date.month) else InvalidMonthKey
  }

  /** The key has the year, a dash and the month as two digits. */
  lemma MonthKeyShape(year: nat, month: nat)
    requires 1 <= month <= 12
    ensures var k := MonthKey(year, month);
      && |k| == |NatToString(year)| + 3
      && k[..|k| - 3] == NatToString(year)
      && k[|k| - 3] == '-'
      && AllDigits(k[|k| - 2..])
      && DigitsValue(k[|k| - 2..]) == month
  {
    var k := MonthKey(year, month);
    assert k == NatToString(year) + "-" + Pad2(month);
    assert k[|k| - 2..] == Pad2(month);
  }

  /** Distinct months of non-negative years have distinct keys, so comparing keys compares
      months. */
  lemma MonthKeyInjective(y1: nat, m1: nat, y2: nat, m2: nat)
    requires 1 <= m1 <= 12 && 1 <= m2 <= 12
    ensures MonthKey(y1, m1) == MonthKey(y2, m2) <==> y1 == y2 && m1 == m2
  {
    if MonthKey(y1, m1) == MonthKey(y2, m2) {
      MonthKeyShape(y1, m1);
      MonthKeyShape(y2, m2);
      NatToStringInjective(y1, y2);
    }
  }

  /** No month key is the key of an invalid date, and none is empty. */
  lemma MonthKeyIsValid(year: int, month: nat)
    ensures MonthKey(year, month) != InvalidMonthKey
    ensures MonthKey(year, month) != ""
  {
    var k := MonthKey(year, month);
    assert k[0] == IntToString(year)[0];
    if year >= 0 {
      assert IsDigit(NatToString(year)[0]);
    }
  }

  /** `isToday(created_at)`: day, month and year all match today's. */
  predicate IsToday(s: Stamp, today: LocalDate) {
    s.At? && s.date.day == today.day && s.date.month == today.month && s.date.year == today.year
  }

  /** A stamp is today exactly when it is the date `today`. */
  lemma IsTodayIffSameDate(s: Stamp, today: LocalDate)
    ensures IsToday(s, today) <==> s == At(today)
  {
  }

  // ---------------------------------------------------------------------------------------
  // Getters
  // ---------------------------------------------------------------------------------------

  predicate IsExpense(t: Tx) { t.kind == Expense }

  function Amounts(txs: seq<Tx>): (r: seq<int>)
    ensures |r| == |txs|
  {
    if |txs| == 0 then [] else [txs[0].amount] + Amounts(txs[1..])
  }

  /** Reference: the sum of the amounts of the expense records. */
  function ExpenseSum(txs: seq<Tx>): int {
    if |txs| == 0 then 0 else (if IsExpense(txs[0]) then txs[0].amount else 0) + ExpenseSum(txs[1..])
  }

  /** Reference: the number of expense records. */
  function ExpenseCount(txs: seq<Tx>): nat {
    if |txs| == 0 then 0 else (if IsExpense(txs[0]) then 1 else 0) + ExpenseCount(txs[1..])
  }

  /** Reference: the sum of the amounts of today's expense records. */
  function TodayExpenseSum(txs: seq<Tx>, today: LocalDate): int {
    if |txs| == 0 then 0
    else
      var here := if IsExpense(txs[0]) && IsToday(txs[0].createdAt, today) then txs[0].amount else 0;
      here + TodayExpenseSum(txs[1..], today)
  }

  /** Reference: the number of today's expense records. */
  function TodayExpenseCount(txs: seq<Tx>, today: LocalDate): nat {
    if |txs| == 0 then 0
    else
      var here := if IsExpense(txs[0]) && IsToday(txs[0].createdAt, today) then 1 else 0;
      here + TodayExpenseCount(txs[1..], today)
  }

  /** `todayTransactions`. */
  function TodayTransactions(txs: seq<Tx>, today: LocalDate): seq<Tx> {
    Filter(txs, (t: Tx) => IsToday(t.createdAt, today))
  }

  /** `monthlyTotal`: `sum` over the amounts of the expense records. */
  function MonthlyTotal(txs: seq<Tx>): (r: int)
    ensures r == ExpenseSum(txs)
  {
    SumOfExpenseAmounts(txs);
    Financial.SumCents(Amounts(Filter(txs, IsExpense)))
  }

  /** `monthlyCount`. */
  function MonthlyCount(txs: seq<Tx>): (r: nat)
    ensures r == ExpenseCount(txs)
  {
    CountOfExpenses(txs);
    |Filter(txs, IsExpense)|
  }

  /** `todayTotal`. */
  function TodayTotal(txs: seq<Tx>, today: LocalDate): (r: int)
    ensures r == TodayExpenseSum(txs, today)
  {
    TodayFilters(txs, today);
    Financial.SumCents(Amounts(Filter(TodayTransactions(txs, today), IsExpense)))
  }

  /** `todayCount`. */
  function TodayCount(txs: seq<Tx>, today: LocalDate): (r: nat)
    ensures r == TodayExpenseCount(txs, today)
  {
    TodayFilters(txs, today);
    |Filter(TodayTransactions(txs, today), IsExpense)|
  }

  lemma {:induction false} SumOfExpenseAmounts(txs: seq<Tx>)
    ensures Financial.SumInts(Amounts(Filter(txs, IsExpense))) == ExpenseSum(txs)
    decreases |txs|
  {
    if |txs| > 0 {
      SumOfExpenseAmounts(txs[1..]);
      var rest := Filter(txs[1..], IsExpense);
      if IsExpense(txs[0]) {
        assert Filter(txs, IsExpense) == [txs[0]] + rest;
        assert ([txs[0]] + rest)[1..] == rest;
        assert Amounts([txs[0]] + rest)[1..] == Amounts(rest);
      }
    }
  }

  lemma {:induction false} CountOfExpenses(txs: seq<Tx>)
    ensures |Filter(txs, IsExpense)| == ExpenseCount(txs)
    decreases |txs|
  {
    if |txs| > 0 {
      CountOfExpenses(txs[1..]);
    }
  }

  /** Today's expenses are the expenses among today's records. */
  lemma {:induction false} TodayFilters(txs: seq<Tx>, today: LocalDate)
    ensures Financial.SumInts(Amounts(Filter(TodayTransactions(txs, today), IsExpense)))
         == TodayExpenseSum(txs, today)
    ensures |Filter(TodayTransactions(txs, today), IsExpense)| == TodayExpenseCount(txs, today)
    decreases |txs|
  {
    if |txs| > 0 {
      TodayFilters(txs[1..], today);
      var t := txs[0];
      var rest := TodayTransactions(txs[1..], today);
      if IsToday(t.createdAt, today) {
        assert TodayTransactions(txs, today) == [t] + rest;
        assert ([t] + rest)[1..] == rest;
        SumOfExpenseAmounts([t] + rest);
        SumOfExpenseAmounts(rest);
        CountOfExpenses([t] + rest);
        CountOfExpenses(rest);
      } else {
        assert TodayTransactions(txs, today) == rest;
      }
    }
  }

  /** Only expenses count: an income record changes neither the month's nor today's figures. */
  lemma IncomeIsIgnored(txs: seq<Tx>, t: Tx, today: LocalDate)
    requires t.kind == Income
    ensures MonthlyTotal([t] + txs) == MonthlyTotal(txs)
    ensures MonthlyCount([t] + txs) == MonthlyCount(txs)
    ensures TodayTotal([t] + txs, today) == TodayTotal(txs, today)
    ensures TodayCount([t] + txs, today) == TodayCount(txs, today)
  {
    assert ([t] + txs)[1..] == txs;
  }

  /** The records with `deleted_at` cleared. */
  function Undeleted(txs: seq<Tx>): (r: seq<Tx>)
    ensures |r| == |txs|
    ensures forall i :: 0 <= i < |txs| ==> r[i] == txs[i].(deletedAt := None)
  {
    if |txs| == 0 then [] else [txs[0].(deletedAt := None)] + Undeleted(txs[1..])
  }

  /** The getters never look at `deleted_at`: a soft-deleted record still counts. */
  lemma {:induction false} GettersIgnoreDeletedAt(txs: seq<Tx>, today: LocalDate)
    ensures ExpenseSum(Undeleted(txs)) == ExpenseSum(txs)
    ensures ExpenseCount(Undeleted(txs)) == ExpenseCount(txs)
    ensures TodayExpenseSum(Undeleted(txs), today) == TodayExpenseSum(txs, today)
    ensures TodayExpenseCount(Undeleted(txs), today) == TodayExpenseCount(txs, today)
    decreases |txs|
  {
    if |txs| > 0 {
      GettersIgnoreDeletedAt(txs[1..], today);
      assert Undeleted(txs)[1..] == Undeleted(txs[1..]);
    }
  }

  // ---------------------------------------------------------------------------------------
  // monthlySummaryByCategory
  // ---------------------------------------------------------------------------------------

  const Uncategorized := "Tak Terkategori"

  /** `tx.category?.name || 'Tak Terkategori'`: an absent or empty name falls back. */
  function Label(t: Tx): (r: string)
    ensures |r| > 0
    ensures t.category.Some? && t.category.value.name.Some? && t.category.value.name.value != "" ==>
      r == t.category.value.name.value
    ensures !(t.category.Some? && t.category.value.name.Some? && t.category.value.name.value != "") ==>
      r == "Tak Terkategori"
  {
    if t.category.Some? && t.category.value.name.Some? && |t.category.value.name.value| > 0
    then t.category.value.name.value
    else Uncategorized
  }

  /** A group of the `Map` built by the summary. */
  datatype Group = Group(name: string, total: int, count: nat, category: Option<Category>)

  function GroupTotal(g: Group): int { g.total }

  function GroupCount(g: Group): int { g.count }

  /** Position of the group labelled `key`, or `|gs|` when there is none. */
  function FindGroup(gs: seq<Group>, key: string): (i: nat)
    ensures i <= |gs|
    ensures i < |gs| ==> gs[i].name == key
    ensures forall j :: 0 <= j < i ==> gs[j].name != key
  {
    if |gs| == 0 then 0 else if gs[0].name == key then 0 else 1 + FindGroup(gs[1..], key)
  }

  /** One iteration of the grouping loop: a new group (with the record's category) when the
      label is new, then `total = add(total, amount)` and `count++`. */
  function AddToGroups(gs: seq<Group>, t: Tx): seq<Group> {
    var i := FindGroup(gs, Label(t));
    if i == |gs| then gs + [Group(Label(t), Financial.AddCents(0, t.amount), 1, t.category)]
    else gs[i := gs[i].(total := Financial.AddCents(gs[i].total, t.amount), count := gs[i].count + 1)]
  }

  /** The grouping loop over the expense records, in list order. */
  function GroupAll(exps: seq<Tx>): seq<Group>
    decreases |exps|
  {
    if |exps| == 0 then [] else AddToGroups(GroupAll(exps[..|exps| - 1]), exps[|exps| - 1])
  }

  /** Reference: how many records carry `key`. */
  function LabelCount(exps: seq<Tx>, key: string): nat
    decreases |exps|
  {
    if |exps| == 0 then 0
    else LabelCount(exps[..|exps| - 1], key) + (if Label(exps[|exps| - 1]) == key then 1 else 0)
  }

  /** Reference: the summed amounts of the records carrying `key`. */
  function LabelTotal(exps: seq<Tx>, key: string): int
    decreases |exps|
  {
    if |exps| == 0 then 0
    else
      var last := exps[|exps| - 1];
      LabelTotal(exps[..|exps| - 1], key) + (if Label(last) == key then last.amount else 0)
  }

  /** Reference: the first record carrying `key`. */
  function FirstWithLabel(exps: seq<Tx>, key: string): Option<Tx>
    decreases |exps|
  {
    if |exps| == 0 then None
    else
      var earlier := FirstWithLabel(exps[..|exps| - 1], key);
      if earlier.Some? then earlier
      else if Label(exps[|exps| - 1]) == key then Some(exps[|exps| - 1])
      else None
  }

  predicate DistinctLabels(gs: seq<Group>) {
    forall i, j :: 0 <= i < j < |gs| ==> gs[i].name != gs[j].name
  }

  /** What the groups hold after the loop: one group per label, each with the count and total
      of its records and the category of its first record. */
  ghost predicate GroupsDescribe(gs: seq<Group>, exps: seq<Tx>) {
    && DistinctLabels(gs)
    && (forall i :: 0 <= i < |gs| ==>
          && gs[i].count == LabelCount(exps, gs[i].name)
          && gs[i].total == LabelTotal(exps, gs[i].name)
          && FirstWithLabel(exps, gs[i].name).Some?
          && FirstWithLabel(exps, gs[i].name).value.category == gs[i].category)
    && (forall key :: FindGroup(gs, key) == |gs| ==> LabelCount(exps, key) == 0)
  }

  /** Every record is counted once: the group counts add up to the number of records and the
      group totals to the sum of their amounts. */
  predicate GroupsAddUp(gs: seq<Group>, exps: seq<Tx>) {
    && SumBy(gs, GroupCount) == |exps|
    && SumBy(gs, GroupTotal) == Financial.SumInts(Amounts(exps))
  }

  lemma {:induction false} LabelCountZeroNoFirst(exps: seq<Tx>, key: string)
    requires LabelCount(exps, key) == 0
    ensures FirstWithLabel(exps, key) == None
    ensures LabelTotal(exps, key) == 0
    decreases |exps|
  {
    if |exps| > 0 {
      LabelCountZeroNoFirst(exps[..|exps| - 1], key);
    }
  }

  lemma {:induction false} FirstWithLabelFromCount(exps: seq<Tx>, key: string)
    requires LabelCount(exps, key) > 0
    ensures FirstWithLabel(exps, key).Some?
    decreases |exps|
  {
    var p := exps[..|exps| - 1];
    if LabelCount(p, key) > 0 {
      FirstWithLabelFromCount(p, key);
    }
  }

  lemma {:induction false} GroupAllDescribes(exps: seq<Tx>)
    ensures GroupsDescribe(GroupAll(exps), exps)
    decreases |exps|
  {
    if |exps| > 0 {
      var p := exps[..|exps| - 1];
      var t := exps[|exps| - 1];
      GroupAllDescribes(p);
      assert exps == p + [t];
      AddToGroupsDescribes(GroupAll(p), p, t);
    }
  }

  /** How the references grow by one record. */
  lemma ReferencesSnoc(p: seq<Tx>, t: Tx, key: string)
    ensures LabelCount(p + [t], key) == LabelCount(p, key) + (if Label(t) == key then 1 else 0)
    ensures LabelTotal(p + [t], key) == LabelTotal(p, key) + (if Label(t) == key then t.amount else 0)
    ensures FirstWithLabel(p + [t], key) == (if FirstWithLabel(p, key).Some? then FirstWithLabel(p, key)
      else if Label(t) == key then Some(t) else None)
  {
    assert (p + [t])[..|p|] == p;
  }

  /** One loop iteration keeps the groups describing the records seen so far. */
  lemma {:induction false} AddToGroupsDescribes(gs: seq<Group>, p: seq<Tx>, t: Tx)
    requires GroupsDescribe(gs, p)
    ensures GroupsDescribe(AddToGroups(gs, t), p + [t])
  {
    if FindGroup(gs, Label(t)) == |gs| {
      NewGroupDescribes(gs, p, t);
    } else {
      GrownGroupDescribes(gs, p, t);
    }
  }

  lemma {:induction false} NewGroupDescribes(gs: seq<Group>, p: seq<Tx>, t: Tx)
    requires GroupsDescribe(gs, p) && FindGroup(gs, Label(t)) == |gs|
    ensures GroupsDescribe(AddToGroups(gs, t), p + [t])
  {
    var L := Label(t);
    var r := AddToGroups(gs, t);
    var exps := p + [t];
    var g := Group(L, t.amount, 1, t.category);
    assert r == gs + [g];
    assert LabelCount(p, L) == 0;
    LabelCountZeroNoFirst(p, L);
    forall k | 0 <= k < |r|
      ensures r[k].count == LabelCount(exps, r[k].name)
      ensures r[k].total == LabelTotal(exps, r[k].name)
      ensures FirstWithLabel(exps, r[k].name).Some?
      ensures FirstWithLabel(exps, r[k].name).value.category == r[k].category
    {
      ReferencesSnoc(p, t, r[k].name);
      if k < |gs| {
        assert r[k] == gs[k];
      }
    }
    forall key | FindGroup(r, key) == |r|
      ensures LabelCount(exps, key) == 0
    {
      FindGroupSnoc(gs, g, key);
      ReferencesSnoc(p, t, key);
    }
  }

  lemma {:induction false} GrownGroupDescribes(gs: seq<Group>, p: seq<Tx>, t: Tx)
    requires GroupsDescribe(gs, p) && FindGroup(gs, Label(t)) < |gs|
    ensures GroupsDescribe(AddToGroups(gs, t), p + [t])
  {
    var i := FindGroup(gs, Label(t));
    var r := AddToGroups(gs, t);
    var exps := p + [t];
    var g := gs[i].(total := gs[i].total + t.amount, count := gs[i].count + 1);
    assert r == gs[i := g];
    forall k | 0 <= k < |r|
      ensures r[k].count == LabelCount(exps, r[k].name)
      ensures r[k].total == LabelTotal(exps, r[k].name)
      ensures FirstWithLabel(exps, r[k].name).Some?
      ensures FirstWithLabel(exps, r[k].name).value.category == r[k].category
    {
      ReferencesSnoc(p, t, r[k].name);
      if k != i {
        assert r[k] == gs[k];
      }
    }
    forall key | FindGroup(r, key) == |r|
      ensures LabelCount(exps, key) == 0
    {
      FindGroupSameLabels(gs, r, key);
      ReferencesSnoc(p, t, key);
    }
  }

  lemma {:induction false} FindGroupSnoc(gs: seq<Group>, g: Group, key: string)
    ensures FindGroup(gs + [g], key) == (if FindGroup(gs, key) < |gs| then FindGroup(gs, key)
      else if g.name == key then |gs| else |gs| + 1)
    decreases |gs|
  {
    if |gs| > 0 {
      assert (gs + [g])[1..] == gs[1..] + [g];
      FindGroupSnoc(gs[1..], g, key);
    }
  }

  /** Replacing groups without changing labels does not move any label. */
  lemma {:induction false} FindGroupSameLabels(gs: seq<Group>, hs: seq<Group>, key: string)
    requires |gs| == |hs| && forall k :: 0 <= k < |gs| ==> gs[k].name == hs[k].name
    ensures FindGroup(gs, key) == FindGroup(hs, key)
    decreases |gs|
  {
    if |gs| > 0 {
      FindGroupSameLabels(gs[1..], hs[1..], key);
    }
  }

  lemma {:induction false} GroupAllAddsUp(exps: seq<Tx>)
    ensures GroupsAddUp(GroupAll(exps), exps)
    decreases |exps|
  {
    if |exps| > 0 {
      var p := exps[..|exps| - 1];
      var t := exps[|exps| - 1];
      var gs := GroupAll(p);
      GroupAllAddsUp(p);
      AmountsSnoc(p, t);
      assert exps == p + [t];
      var i := FindGroup(gs, Label(t));
      if i == |gs| {
        var g := Group(Label(t), t.amount, 1, t.category);
        SumBySnoc(gs, g, GroupCount);
        SumBySnoc(gs, g, GroupTotal);
      } else {
        var g := gs[i].(total := gs[i].total + t.amount, count := gs[i].count + 1);
        SumByUpdate(gs, i, g, GroupCount);
        SumByUpdate(gs, i, g, GroupTotal);
      }
    }
  }

  lemma AmountsSnoc(p: seq<Tx>, t: Tx)
    ensures Financial.SumInts(Amounts(p + [t])) == Financial.SumInts(Amounts(p)) + t.amount
  {
    AmountsAppend(p, [t]);
    SumIntsAppend(Amounts(p), [t.amount]);
    assert Amounts([t]) == [t.amount];
    assert [t.amount][1..] == [];
  }

  lemma {:induction false} AmountsAppend(a: seq<Tx>, b: seq<Tx>)
    ensures Amounts(a + b) == Amounts(a) + Amounts(b)
    decreases |a|
  {
    if |a| > 0 {
      assert (a + b)[1..] == a[1..] + b;
      AmountsAppend(a[1..], b);
    } else {
      assert a + b == b;
    }
  }

  lemma {:induction false} SumIntsAppend(a: seq<int>, b: seq<int>)
    ensures Financial.SumInts(a + b) == Financial.SumInts(a) + Financial.SumInts(b)
    decreases |a|
  {
    if |a| > 0 {
      assert (a + b)[1..] == a[1..] + b;
      SumIntsAppend(a[1..], b);
    } else {
      assert a + b == b;
    }
  }

  /** Reference: the position of the first record carrying `key`, or `|exps|`. */
  function FirstIndex(exps: seq<Tx>, key: string): (i: nat)
    ensures i <= |exps|
    ensures i < |exps| ==> Label(exps[i]) == key
    ensures forall j :: 0 <= j < i ==> Label(exps[j]) != key
  {
    if |exps| == 0 then 0 else if Label(exps[0]) == key then 0 else 1 + FirstIndex(exps[1..], key)
  }

  lemma {:induction false} FirstIndexSnoc(p: seq<Tx>, t: Tx, key: string)
    ensures FirstIndex(p + [t], key) == (if FirstIndex(p, key) < |p| then FirstIndex(p, key)
      else if Label(t) == key then |p| else |p| + 1)
    decreases |p|
  {
    if |p| > 0 {
      assert (p + [t])[1..] == p[1..] + [t];
      FirstIndexSnoc(p[1..], t, key);
    }
  }

  lemma {:induction false} AbsentLabelCountsZero(exps: seq<Tx>, key: string)
    requires FirstIndex(exps, key) == |exps|
    ensures LabelCount(exps, key) == 0
    decreases |exps|
  {
    if |exps| > 0 {
      var p := exps[..|exps| - 1];
      assert FirstIndex(p, key) == |p| by {
        FirstIndexSnoc(p, exps[|exps| - 1], key);
        assert p + [exps[|exps| - 1]] == exps;
      }
      AbsentLabelCountsZero(p, key);
    }
  }

  /** The groups are in the order in which their labels first occur. */
  ghost predicate FirstSeenOrder(gs: seq<Group>, exps: seq<Tx>) {
    forall i, j :: 0 <= i < j < |gs| ==> FirstIndex(exps, gs[i].name) < FirstIndex(exps, gs[j].name) < |exps|
  }

  /** The map keeps insertion order, so the groups come in the order in which their labels
      first occur among the expense records. */
  lemma {:induction false} GroupAllFirstSeenOrder(exps: seq<Tx>)
    ensures FirstSeenOrder(GroupAll(exps), exps)
    decreases |exps|
  {
    if |exps| > 0 {
      var p := exps[..|exps| - 1];
      var t := exps[|exps| - 1];
      GroupAllFirstSeenOrder(p);
      GroupAllDescribes(p);
      assert exps == p + [t];
      SnocFirstIndices(GroupAll(p), p, t);
      AddToGroupsFirstSeen(GroupAll(p), p, t);
    }
  }

  /** Where the labels first occur once one more record is appended. */
  ghost predicate SnocKeepsFirsts(gs: seq<Group>, p: seq<Tx>, t: Tx) {
    && (forall k :: 0 <= k < |gs| ==> FirstIndex(p + [t], gs[k].name) == FirstIndex(p, gs[k].name) < |p|)
    && (FindGroup(gs, Label(t)) == |gs| ==> FirstIndex(p + [t], Label(t)) == |p|)
  }

  lemma SnocFirstIndices(gs: seq<Group>, p: seq<Tx>, t: Tx)
    requires GroupsDescribe(gs, p)
    ensures SnocKeepsFirsts(gs, p, t)
  {
    forall k | 0 <= k < |gs|
      ensures FirstIndex(p + [t], gs[k].name) == FirstIndex(p, gs[k].name) < |p|
    {
      GroupedLabelKeepsFirstIndex(gs, p, t, k);
    }
    if FindGroup(gs, Label(t)) == |gs| {
      NewLabelFirstIndex(gs, p, t);
    }
  }

  /** One more record keeps the groups in first-seen order. */
  lemma AddToGroupsFirstSeen(gs: seq<Group>, p: seq<Tx>, t: Tx)
    requires FirstSeenOrder(gs, p) && SnocKeepsFirsts(gs, p, t)
    ensures FirstSeenOrder(AddToGroups(gs, t), p + [t])
  {
    var exps := p + [t];
    var r := AddToGroups(gs, t);
    if FindGroup(gs, Label(t)) == |gs| {
      forall a, b | 0 <= a < b < |r|
        ensures FirstIndex(exps, r[a].name) < FirstIndex(exps, r[b].name) < |exps|
      {
        assert r[a] == gs[a];
        if b < |gs| {
          assert r[b] == gs[b];
        }
      }
    } else {
      forall a, b | 0 <= a < b < |r|
        ensures FirstIndex(exps, r[a].name) < FirstIndex(exps, r[b].name) < |exps|
      {
        assert r[a].name == gs[a].name && r[b].name == gs[b].name;
      }
    }
  }

  /** A label that already has a group first occurs where it did before. */
  lemma GroupedLabelKeepsFirstIndex(gs: seq<Group>, p: seq<Tx>, t: Tx, k: int)
    requires GroupsDescribe(gs, p) && 0 <= k < |gs|
    ensures FirstIndex(p + [t], gs[k].name) == FirstIndex(p, gs[k].name) < |p|
  {
    FirstWithLabelCounts(p, gs[k].name);
    if FirstIndex(p, gs[k].name) == |p| {
      AbsentLabelCountsZero(p, gs[k].name);
    }
    FirstIndexSnoc(p, t, gs[k].name);
  }

  /** A label without a group first occurs at the new record. */
  lemma NewLabelFirstIndex(gs: seq<Group>, p: seq<Tx>, t: Tx)
    requires GroupsDescribe(gs, p) && FindGroup(gs, Label(t)) == |gs|
    ensures FirstIndex(p + [t], Label(t)) == |p|
  {
    assert LabelCount(p, Label(t)) == 0;
    assert FirstIndex(p, Label(t)) == |p| by {
      if FirstIndex(p, Label(t)) < |p| {
        FirstIndexCounts(p, Label(t));
      }
    }
    FirstIndexSnoc(p, t, Label(t));
  }

  lemma {:induction false} FirstIndexCounts(exps: seq<Tx>, key: string)
    requires FirstIndex(exps, key) < |exps|
    ensures LabelCount(exps, key) > 0
    decreases |exps|
  {
    var p := exps[..|exps| - 1];
    var t := exps[|exps| - 1];
    assert exps == p + [t];
    FirstIndexSnoc(p, t, key);
    if FirstIndex(p, key) < |p| {
      FirstIndexCounts(p, key);
    }
  }

  // ---------------------------------------------------------------------------------------
  // Summary rows
  // ---------------------------------------------------------------------------------------

  /** A row of `monthlySummaryByCategory`; `name` is the row's label. */
  datatype Summary = Summary(
    name: string,
    total: int,
    count: nat,
    percentage: int,
    icon: Option<string>,
    color: Option<string>)

  /** `x || null` on an optional string: an empty string is falsy and becomes `null`. */
  function OrNull(o: Option<string>): Option<string> {
    if o.Some? && |o.value| > 0 then o else None
  }

  /** `category?.icon || null`. */
  function IconOf(c: Option<Category>): Option<string> {
    if c.Some? then OrNull(c.value.icon) else None
  }

  /** `category?.color || null`. */
  function ColorOf(c: Option<Category>): Option<string> {
    if c.Some? then OrNull(c.value.color) else None
  }

  /** `Math.round(n / d)` for `d > 0` is `r`: the nearest integer, halves rounded up. */
  predicate MathRounds(n: int, d: int, r: int) {
    d * (2 * r - 1) <= 2 * n < d * (2 * r + 1)
  }

  /** `total > 0 ? Math.round((part / total) * 100) : 0`, on exact values. */
  function Percent(part: int, total: int): (r: int)
    ensures total > 0 ==> MathRounds(100 * part, total, r)
    ensures total <= 0 ==> r == 0
  {
    if total > 0 then
      var q := (200 * part + total) / (2 * total);
      assert 2 * total * q <= 200 * part + total < 2 * total * q + 2 * total;
      q
    else 0
  }

  lemma CancelFactor(d: int, a: int, b: int)
    requires d > 0 && d * a < d * b
    ensures a < b
  {
    assert d * (b - a) > 0;
  }

  /** `Math.round` has one answer. */
  lemma MathRoundsUnique(n: int, d: int, r: int, s: int)
    requires d > 0 && MathRounds(n, d, r) && MathRounds(n, d, s)
    ensures r == s
  {
    CancelFactor(d, 2 * r - 1, 2 * s + 1);
    CancelFactor(d, 2 * s - 1, 2 * r + 1);
  }

  /** A share of a positive total is between 0 and 100 percent, and the whole is 100. */
  lemma PercentBounds(part: int, total: int)
    requires 0 <= part <= total && total > 0
    ensures 0 <= Percent(part, total) <= 100
    ensures part == total ==> Percent(part, total) == 100
  {
    var r := Percent(part, total);
    CancelFactor(total, -1, 2 * r + 1);
    CancelFactor(total, 2 * r - 1, 201);
    if part == total {
      MathRoundsUnique(100 * part, total, r, 100);
    }
  }

  /** One group as a row. */
  function Summarise(g: Group, total: int): Summary {
    Summary(g.name, g.total, g.count, Percent(g.total, total), IconOf(g.category), ColorOf(g.category))
  }

  /** The groups as rows, in the map's insertion order. */
  function Summaries(gs: seq<Group>, total: int): (r: seq<Summary>)
    ensures |r| == |gs|
    ensures forall i :: 0 <= i < |gs| ==> r[i] == Summarise(gs[i], total)
  {
    if |gs| == 0 then [] else [Summarise(gs[0], total)] + Summaries(gs[1..], total)
  }

  /** Sorting by `b.total - a.total` is sorting ascending by the negated total. */
  function Descending(s: Summary): int { -s.total }

  function SummaryName(s: Summary): string { s.name }

  function SummaryTotal(s: Summary): int { s.total }

  function SummaryCount(s: Summary): int { s.count }

  /** `monthlySummaryByCategory`: group the expense records by label, turn each group into a
      row with its share of `monthlyTotal`, and sort by total, largest first. */
  function MonthlySummaryByCategory(txs: seq<Tx>): seq<Summary> {
    Sort(MapRows(txs), Descending)
  }

  /** The rows before sorting, in the map's insertion order. */
  function MapRows(txs: seq<Tx>): seq<Summary> {
    Summaries(GroupAll(Filter(txs, IsExpense)), MonthlyTotal(txs))
  }

  /** The category a label's row takes: that of the label's first record. */
  function FirstCategory(exps: seq<Tx>, key: string): Option<Category> {
    var first := FirstWithLabel(exps, key);
    if first.Some? then first.value.category else None
  }

  lemma {:induction false} FirstWithLabelCounts(exps: seq<Tx>, key: string)
    requires FirstWithLabel(exps, key).Some?
    ensures LabelCount(exps, key) > 0
  {
    if LabelCount(exps, key) == 0 {
      LabelCountZeroNoFirst(exps, key);
    }
  }

  /** The rows come largest total first. */
  lemma SummaryDescending(txs: seq<Tx>)
    ensures var r := MonthlySummaryByCategory(txs);
      forall i, j :: 0 <= i < j < |r| ==> r[i].total >= r[j].total
  {
    var exps := Filter(txs, IsExpense);
    var rows := Summaries(GroupAll(exps), MonthlyTotal(txs));
    SortSorted(rows, Descending);
  }

  lemma {:induction false} SummariesAddUp(gs: seq<Group>, total: int)
    ensures SumBy(Summaries(gs, total), SummaryCount) == SumBy(gs, GroupCount)
    ensures SumBy(Summaries(gs, total), SummaryTotal) == SumBy(gs, GroupTotal)
    decreases |gs|
  {
    if |gs| > 0 {
      var r := Summaries(gs, total);
      assert r[1..] == Summaries(gs[1..], total);
      SummariesAddUp(gs[1..], total);
    }
  }

  /** Every expense record is counted in exactly one row: the row counts add up to
      `monthlyCount` and the row totals to `monthlyTotal`. */
  lemma SummaryAddsUp(txs: seq<Tx>)
    ensures var r := MonthlySummaryByCategory(txs);
      && SumBy(r, SummaryCount) == MonthlyCount(txs)
      && SumBy(r, SummaryTotal) == MonthlyTotal(txs)
  {
    var exps := Filter(txs, IsExpense);
    var gs := GroupAll(exps);
    var rows := Summaries(gs, MonthlyTotal(txs));
    var r := MonthlySummaryByCategory(txs);
    SortPermutes(rows, Descending);
    SumByPermutation(r, rows, SummaryCount);
    SumByPermutation(r, rows, SummaryTotal);
    SummariesAddUp(gs, MonthlyTotal(txs));
    GroupAllAddsUp(exps);
    SumOfExpenseAmounts(txs);
    CountOfExpenses(txs);
  }

  /** Each row holds its label's record count (at least one), the sum of its records'
      amounts, its share of `monthlyTotal`, and the icon and colour of the category of the
      label's first record. */
  lemma SummaryRowsDescribeLabels(txs: seq<Tx>)
    ensures var exps := Filter(txs, IsExpense);
      var r := MonthlySummaryByCategory(txs);
      forall i :: 0 <= i < |r| ==>
        && r[i].count == LabelCount(exps, r[i].name) > 0
        && r[i].total == LabelTotal(exps, r[i].name)
        && r[i].percentage == Percent(r[i].total, MonthlyTotal(txs))
        && r[i].icon == IconOf(FirstCategory(exps, r[i].name))
        && r[i].color == ColorOf(FirstCategory(exps, r[i].name))
  {
    var exps := Filter(txs, IsExpense);
    var gs := GroupAll(exps);
    var rows := Summaries(gs, MonthlyTotal(txs));
    var r := MonthlySummaryByCategory(txs);
    SortPermutes(rows, Descending);
    GroupAllDescribes(exps);
    forall i | 0 <= i < |r|
      ensures r[i].count == LabelCount(exps, r[i].name) > 0
      ensures r[i].total == LabelTotal(exps, r[i].name)
      ensures r[i].percentage == Percent(r[i].total, MonthlyTotal(txs))
      ensures r[i].icon == IconOf(FirstCategory(exps, r[i].name))
      ensures r[i].color == ColorOf(FirstCategory(exps, r[i].name))
    {
      var j := PositionOf(rows, r[i]);
      assert r[i] == Summarise(gs[j], MonthlyTotal(txs));
      FirstWithLabelCounts(exps, gs[j].name);
    }
  }

  /** Every label carried by an expense record has a row. */
  lemma SummaryCoversLabels(txs: seq<Tx>)
    ensures var exps := Filter(txs, IsExpense);
      var r := MonthlySummaryByCategory(txs);
      forall key :: LabelCount(exps, key) > 0 ==> exists i :: 0 <= i < |r| && r[i].name == key
  {
    var exps := Filter(txs, IsExpense);
    var gs := GroupAll(exps);
    var rows := Summaries(gs, MonthlyTotal(txs));
    var r := MonthlySummaryByCategory(txs);
    SortPermutes(rows, Descending);
    GroupAllDescribes(exps);
    forall key | LabelCount(exps, key) > 0
      ensures exists i :: 0 <= i < |r| && r[i].name == key
    {
      var j := FindGroup(gs, key);
      assert rows[j] in multiset(r);
      var i := PositionOf(r, rows[j]);
      assert r[i].name == key;
    }
  }

  /** No label has two rows. */
  lemma SummaryDistinctLabels(txs: seq<Tx>)
    ensures var r := MonthlySummaryByCategory(txs);
      forall i, j :: 0 <= i < j < |r| ==> r[i].name != r[j].name
  {
    var exps := Filter(txs, IsExpense);
    var gs := GroupAll(exps);
    var rows := Summaries(gs, MonthlyTotal(txs));
    var r := MonthlySummaryByCategory(txs);
    SortPermutes(rows, Descending);
    GroupAllDescribes(exps);
    assert DistinctKeys(rows, SummaryName);
    PermutationKeepsDistinct(rows, r, SummaryName);
    assert forall i, j :: 0 <= i < j < |r| ==> SummaryName(r[i]) != SummaryName(r[j]);
  }

  /** Rows with equal totals keep the order in which their labels entered the map, because
      `Array.prototype.sort` is stable. */
  lemma SummaryTiesKeepMapOrder(txs: seq<Tx>, total: int)
    ensures WithKey(MonthlySummaryByCategory(txs), Descending, -total) == WithKey(MapRows(txs), Descending, -total)
  {
    SortStable(MapRows(txs), Descending, -total);
  }

  /** Before sorting, the rows come in the order in which their labels first occur among the
      expense records. */
  lemma MapRowsFirstSeenOrder(txs: seq<Tx>)
    ensures var exps := Filter(txs, IsExpense);
      var rows := MapRows(txs);
      forall i, j :: 0 <= i < j < |rows| ==>
        FirstIndex(exps, rows[i].name) < FirstIndex(exps, rows[j].name) < |exps|
  {
    GroupAllFirstSeenOrder(Filter(txs, IsExpense));
  }
}

=== FILE: transactions_api.dfy ===
/** The transaction endpoints of the server API (`server/api/v1/transactions/`): the listing's
    user scope and query decisions, the batch-create validation and row construction, and the
    Firebase import with its skip rule, batching and summary. Database results are inputs:
    what a handler sends to the database is part of its result. */
module TransactionsApi {
  import opened Wrappers
  import opened Strings
  import opened Seqs
  import opened Js
  import opened Http
  import Auth

  // GET /api/v1/transactions

  /** A `family_members` row. */
  datatype Membership = Membership(familyId: string, userId: string)

  /** The user ids whose transactions a listing selects, the optional `created_at` bounds and
      the optional `range(from, to)`, where `None` among the bounds is NaN. */
  datatype ListPlan = ListPlan(userIds: seq<string>, dates: Option<(string, string)>, range: Option<(Option<int>, Option<int>)>)

  /** The query parameters the listing reads. */
  datatype ListQuery = ListQuery(
    start: Option<string>, end: Option<string>, includeFamily: Option<string>,
    limit: Option<string>, offset: Option<string>)

  /** `x` belongs to a family that `userId` belongs to. */
  ghost predicate SharesFamily(members: seq<Membership>, userId: string, x: string) {
    exists i, j :: 0 <= i < |members| && 0 <= j < |members| &&
      members[i].userId == userId && members[j].userId == x && members[i].familyId == members[j].familyId
  }

  predicate HasMembership(members: seq<Membership>, userId: string) {
    exists i :: 0 <= i < |members| && members[i].userId == userId
  }

  /** The families `userId` belongs to. */
  function FamilyIds(members: seq<Membership>, userId: string): (r: seq<string>)
    ensures forall f :: f in r <==> exists i :: 0 <= i < |members| && members[i].userId == userId && members[i].familyId == f
    ensures !HasMembership(members, userId) ==> r == []
  {
    if |members| == 0 then []
    else
      assert forall i :: 0 <= i < |members| - 1 ==> members[1..][i] == members[i + 1];
      (if members[0].userId == userId then [members[0].familyId] else []) + FamilyIds(members[1..], userId)
  }

  /** The members of the given families, in fetched order, with repeats. */
  function MembersOf(members: seq<Membership>, families: seq<string>): (r: seq<string>)
    ensures forall x :: x in r <==> exists j :: 0 <= j < |members| && members[j].userId == x && members[j].familyId in families
    ensures families == [] ==> r == []
  {
    if |members| == 0 then []
    else (if members[0].familyId in families then [members[0].userId] else []) + MembersOf(members[1..], families)
  }

  /** The family scope: every user sharing a family with the caller, each once, in the order
      of first appearance. The caller is in it exactly when the caller has a membership; a
      caller without one gets an empty scope. */
  function FamilyScope(members: seq<Membership>, userId: string): (r: seq<string>)
    ensures Distinct(r)
    ensures forall x :: x in r <==> SharesFamily(members, userId, x)
    ensures userId in r <==> HasMembership(members, userId)
    ensures !HasMembership(members, userId) ==> r == []
  {
    var families := FamilyIds(members, userId);
    var r := Dedup(MembersOf(members, families));
    FamilyScopeMembers(members, userId);
    r
  }

  lemma FamilyScopeMembers(members: seq<Membership>, userId: string)
    ensures var r := Dedup(MembersOf(members, FamilyIds(members, userId)));
      && (forall x :: x in r <==> SharesFamily(members, userId, x))
      && (!HasMembership(members, userId) ==> r == [])
  {
    var families := FamilyIds(members, userId);
    var r := Dedup(MembersOf(members, families));
    forall x
      ensures x in r <==> SharesFamily(members, userId, x)
    {
      if x in r {
        var j :| 0 <= j < |members| && members[j].userId == x && members[j].familyId in families;
        var i :| 0 <= i < |members| && members[i].userId == userId && members[i].familyId == members[j].familyId;
      }
      if SharesFamily(members, userId, x) {
        var i, j :| 0 <= i < |members| && 0 <= j < |members| &&
          members[i].userId == userId && members[j].userId == x && members[i].familyId == members[j].familyId;
        assert members[j].familyId in families;
      }
    }
  }

  /** The user ids to query: the caller alone, unless the family is asked for and the
      membership fetch succeeded (`Some`) with a non-empty list. */
  function Scope(includeFamily: bool, userId: string, fetched: Option<seq<Membership>>): (r: seq<string>)
    ensures !includeFamily || fetched.None? || |fetched.value| == 0 ==> r == [userId]
    ensures includeFamily && fetched.Some? && |fetched.value| > 0 ==> r == FamilyScope(fetched.value, userId)
  {
    if includeFamily && fetched.Some? && |fetched.value| > 0 then FamilyScope(fetched.value, userId)
    else [userId]
  }

  /** `limit` and `offset` as the listing reads them: a truthy `limit` is `parseInt`ed, an
      absent `offset` is 0; the range `[offset, offset + limit - 1]` applies only when the
      parsed limit is truthy (neither NaN nor 0). NaN propagates through the arithmetic. */
  function Pagination(limit: Option<string>, offset: Option<string>): (r: Option<(Option<int>, Option<int>)>)
    ensures r.Some? <==> Truthy(limit) && NumberTruthy(ParseInt(limit.value))
    ensures r.Some? && !Truthy(offset) ==> r.value == (Some(0), Some(ParseInt(limit.value).value - 1))
    ensures r.Some? && Truthy(offset) ==> r.value.0 == ParseInt(offset.value)
    ensures r.Some? && r.value.0.Some? ==> r.value.1 == Some(r.value.0.value + ParseInt(limit.value).value - 1)
    ensures r.Some? && r.value.0.None? ==> r.value.1.None?
  {
    var l := if Truthy(limit) then ParseInt(limit.value) else None;
    var o := if Truthy(offset) then ParseInt(offset.value) else Some(0);
    if !NumberTruthy(l) then None
    else Some((o, if o.Some? then Some(o.value + l.value - 1) else None))
  }

  /** For decimal `limit >= 1` and `offset >= 0` the range covers exactly `limit` rows from
      `offset` on. */
  lemma PaginationOfDecimals(limit: nat, offset: nat)
    requires limit >= 1
    ensures Pagination(Some(NatToString(limit)), Some(NatToString(offset))) == Some((Some(offset), Some(offset + limit - 1)))
  {
    var l, o := NatToString(limit), NatToString(offset);
    assert IntToString(limit) == l && IntToString(offset) == o;
    ParseIntReadsIntToString(limit);
    ParseIntReadsIntToString(offset);
    PaginationOfParsed(l, o, limit, offset);
  }

  lemma PaginationOfParsed(limit: string, offset: string, l: int, o: int)
    requires limit != "" && offset != "" && l != 0
    requires ParseInt(limit) == Some(l) && ParseInt(offset) == Some(o)
    ensures Pagination(Some(limit), Some(offset)) == Some((Some(o), Some(o + l - 1)))
  {
  }

  /** The query decisions of the listing: scope, a date filter only when both `start` and
      `end` are truthy, and the pagination. */
  function PlanListing(userId: string, q: ListQuery, fetched: Option<seq<Membership>>): (p: ListPlan)
    ensures p.userIds == Scope(q.includeFamily == Some("true"), userId, fetched)
    ensures p.dates.Some? <==> Truthy(q.start) && Truthy(q.end)
    ensures p.dates.Some? ==> p.dates.value == (q.start.value, q.end.value)
    ensures p.range == Pagination(q.limit, q.offset)
  {
    var dates := if Truthy(q.start) && Truthy(q.end) then Some((q.start.value, q.end.value)) else None;
    ListPlan(Scope(q.includeFamily == Some("true"), userId, fetched), dates, Pagination(q.limit, q.offset))
  }

  /** `count || data?.length || 0`. */
  function ListCount<T>(count: Option<nat>, data: Option<seq<T>>): (n: nat)
    ensures count.Some? && count.value != 0 ==> n == count.value
    ensures (count.None? || count.value == 0) && data.Some? ==> n == |data.value|
    ensures (count.None? || count.value == 0) && data.None? ==> n == 0
  {
    if count.Some? && count.value != 0 then count.value
    else if data.Some? then |data.value|
    else 0
  }

  /** The listing handler: 401 without a session; otherwise the plan, and the fetched rows
      with their count, or 500 when the query fails. */
  function ListTransactions<T>(user: Option<Auth.SessionUser>, q: ListQuery, fetchedMembers: Option<seq<Membership>>,
                               result: Result<(Option<seq<T>>, Option<nat>), string>)
    : (r: Result<(ListPlan, Option<seq<T>>, nat), HttpError>)
    ensures Auth.GetAuthenticatedUserId(user).Err? ==> r == Err(Auth.Unauthorized)
    ensures Auth.GetAuthenticatedUserId(user).Ok? && result.Err? ==> r == Err(HttpError(500, "Failed to fetch transactions"))
    ensures r.Ok? ==> r.value.0 == PlanListing(user.value.sub.value, q, fetchedMembers) && r.value.1 == result.value.0
    ensures r.Ok? ==> r.value.2 == ListCount(result.value.1, result.value.0)
  {
    var userId :- Auth.GetAuthenticatedUserId(user);
    var plan := PlanListing(userId, q, fetchedMembers);
    if result.Err? then Err(HttpError(500, "Failed to fetch transactions"))
    else Ok((plan, result.value.0, ListCount(result.value.1, result.value.0)))
  }

  // POST /api/v1/transactions

  /** A JSON field as the validation sees it. */
  datatype Value = Absent | Str(s: string) | Num(n: real) | OtherValue

  datatype TxInput = TxInput(description: Value, amount: Value, transactionType: Value, category: Option<string>)

  datatype TxRow = TxRow(description: string, amount: real, transactionType: string, category: Option<string>, createdBy: string)

  const MissingTransactions := HttpError(400, "Invalid input: transactions array is required")
  const BadDescription := HttpError(400, "Invalid input: description is required for each transaction")
  const BadAmount := HttpError(400, "Invalid input: amount must be a positive number")
  const BadType := HttpError(400, "Invalid input: transaction_type is required")

  /** A truthy string: non-empty, of type string. */
  predicate NonEmptyString(v: Value) { v.Str? && v.s != "" }

  predicate ValidTx(tx: TxInput) {
    NonEmptyString(tx.description) && tx.amount.Num? && tx.amount.n > 0.0 && NonEmptyString(tx.transactionType)
  }

  /** The checks on one element, in order: description, amount, transaction type. */
  function CheckTx(tx: TxInput): (r: Option<HttpError>)
    ensures r.None? <==> ValidTx(tx)
    ensures !NonEmptyString(tx.description) ==> r == Some(BadDescription)
  {
    if !NonEmptyString(tx.description) then Some(BadDescription)
    else if !(tx.amount.Num? && tx.amount.n > 0.0) then Some(BadAmount)
    else if !NonEmptyString(tx.transactionType) then Some(BadType)
    else None
  }

  /** The first element's error, checking elements in order; `None` when all pass. */
  function FirstError(txs: seq<TxInput>): (r: Option<HttpError>)
    ensures r.None? <==> forall i :: 0 <= i < |txs| ==> ValidTx(txs[i])
    ensures r.Some? ==> exists i :: 0 <= i < |txs| && CheckTx(txs[i]) == r && forall j :: 0 <= j < i ==> ValidTx(txs[j])
  {
    if |txs| == 0 then None
    else if CheckTx(txs[0]).Some? then CheckTx(txs[0])
    else
      var rest := FirstError(txs[1..]);
      FirstErrorShift(txs, rest);
      rest
  }

  lemma FirstErrorShift(txs: seq<TxInput>, rest: Option<HttpError>)
    requires |txs| > 0 && ValidTx(txs[0])
    requires rest.Some? ==>
      exists i :: 0 <= i < |txs[1..]| && CheckTx(txs[1..][i]) == rest && forall j :: 0 <= j < i ==> ValidTx(txs[1..][j])
    ensures rest.Some? ==>
      exists i :: 0 <= i < |txs| && CheckTx(txs[i]) == rest && forall j :: 0 <= j < i ==> ValidTx(txs[j])
  {
    if rest.Some? {
      var i :| 0 <= i < |txs[1..]| && CheckTx(txs[1..][i]) == rest && forall j :: 0 <= j < i ==> ValidTx(txs[1..][j]);
      assert CheckTx(txs[i + 1]) == rest;
      forall j | 0 <= j < i + 1
        ensures ValidTx(txs[j])
      {
        if j > 0 {
          assert txs[j] == txs[1..][j - 1];
        }
      }
    }
  }

  /** The insert row of one validated element: the description trimmed, an empty category
      stored as null, the caller as creator. */
  function ToTxRow(tx: TxInput, userId: string): (row: TxRow)
    requires ValidTx(tx)
    ensures row.description == Trim(tx.description.s, IsJsSpace)
    ensures row.amount == tx.amount.n && row.amount > 0.0
    ensures row.transactionType == tx.transactionType.s && row.transactionType != ""
    ensures row.category.Some? <==> Truthy(tx.category)
    ensures row.category.Some? ==> row.category == tx.category
    ensures row.createdBy == userId
  {
    TxRow(Trim(tx.description.s, IsJsSpace), tx.amount.n, tx.transactionType.s,
          if Truthy(tx.category) then tx.category else None, userId)
  }

  /** The insert rows: one per element, in order. */
  function InsertRows(txs: seq<TxInput>, userId: string): (rows: seq<TxRow>)
    requires forall i :: 0 <= i < |txs| ==> ValidTx(txs[i])
    ensures |rows| == |txs|
    ensures forall i :: 0 <= i < |txs| ==> rows[i] == ToTxRow(txs[i], userId)
  {
    seq(|txs|, i requires 0 <= i < |txs| => ToTxRow(txs[i], userId))
  }

  /** The batch-create handler. The first component is what is sent to the database, if
      anything: nothing is inserted unless the session is valid, the body is a non-empty
      array and every element passes; the insert result decides between 500 and the
      created rows with their count. */
  function CreateTransactions<R>(user: Option<Auth.SessionUser>, body: ReadBody<Option<seq<TxInput>>>,
                                 inserted: Result<Option<seq<R>>, string>)
    : (r: (Option<seq<TxRow>>, Result<(Option<seq<R>>, nat), HttpError>))
    ensures r.0.Some? <==>
      && Auth.GetAuthenticatedUserId(user).Ok? && body.JsonBody? && body.fields.Some?
      && |body.fields.value| > 0 && FirstError(body.fields.value).None?
    ensures r.0.Some? ==> r.0.value == InsertRows(body.fields.value, user.value.sub.value)
    ensures Auth.GetAuthenticatedUserId(user).Ok? && body.NullBody? ==> r.1 == Err(Uncaught)
    ensures Auth.GetAuthenticatedUserId(user).Ok? && body.JsonBody? && (body.fields.None? || |body.fields.value| == 0) ==>
      r.1 == Err(MissingTransactions)
    ensures Auth.GetAuthenticatedUserId(user).Ok? && body.JsonBody? && body.fields.Some? && |body.fields.value| > 0
            && FirstError(body.fields.value).Some? ==>
      r.1 == Err(FirstError(body.fields.value).value)
    ensures r.0.Some? && inserted.Err? ==> r.1 == Err(HttpError(500, "Failed to create transactions"))
    ensures r.1.Ok? ==> r.0.Some? && inserted.Ok? && r.1.value == (inserted.value, ListCount(None, inserted.value))
  {
    match Auth.GetAuthenticatedUserId(user)
    case Err(e) => (None, Err(e))
    case Ok(userId) =>
      if body.NullBody? then (None, Err(Uncaught))
      else if body.fields.None? || |body.fields.value| == 0 then (None, Err(MissingTransactions))
      else if FirstError(body.fields.value).Some? then (None, Err(FirstError(body.fields.value).value))
      else
        var rows := InsertRows(body.fields.value, userId);
        if inserted.Err? then (Some(rows), Err(HttpError(500, "Failed to create transactions")))
        else (Some(rows), Ok((inserted.value, ListCount(None, inserted.value))))
  }

  /** A description of white space only passes the check and is stored empty. */
  lemma BlankDescriptionStoredEmpty(s: string, amount: real, kind: string, userId: string)
    requires |s| > 0 && forall i :: 0 <= i < |s| ==> IsJsSpace(s[i])
    requires amount > 0.0 && kind != ""
    ensures var tx := TxInput(Str(s), Num(amount), Str(kind), None);
      ValidTx(tx) && InsertRows([tx], userId)[0].description == ""
  {
    TrimIsCore(s, IsJsSpace);
  }

  // POST /api/v1/transactions/import

  const MaxImportSize := 10000
  const BatchSize := 100

  /** A Firebase spending; `value`, `createdAt` and `updatedAt` are `None` when missing or
      not a number. The timestamps are seconds since the epoch. */
  datatype Spending = Spending(labelText: Option<string>, value: Option<real>, createdAt: Option<real>, updatedAt: Option<real>)

  /** A row to insert; the timestamps are the milliseconds since the epoch that the
      `toISOString()` text denotes. */
  datatype ImportRow = ImportRow(
    description: string, amount: real, transactionType: string, category: Option<string>,
    createdBy: string, createdAt: int, updatedAt: int)

  datatype ImportSummary = ImportSummary(success: bool, total: nat, inserted: nat, failed: nat, skipped: nat)

  /** `!spending.value || spending.value <= 0`. */
  predicate Skipped(s: Spending) { s.value.None? || s.value.value <= 0.0 }

  predicate Kept(s: Spending) { !Skipped(s) }

  /** The label when its trimmed form is non-empty, otherwise `-`; the label itself is kept
      untrimmed. */
  function ImportDescription(text: Option<string>): (d: string)
    ensures d != ""
    ensures Truthy(text) && Trim(text.value, IsJsSpace) != "" ==> d == text.value
    ensures !(Truthy(text) && Trim(text.value, IsJsSpace) != "") ==> d == "-"
  {
    if Truthy(text) && Trim(text.value, IsJsSpace) != "" then text.value else "-"
  }

  /** The largest time value a `Date` holds, in seconds: 8.64e15 milliseconds. */
  const MaxTimeSeconds: real := 8640000000000.0

  /** `new Date(x * 1000).toISOString()` succeeds exactly for a number whose milliseconds
      lie within 8.64e15 of the epoch; a missing timestamp (NaN) or one further out gives an
      invalid date, on which `toISOString` throws a RangeError. */
  predicate ValidTime(x: Option<real>) {
    x.Some? && -MaxTimeSeconds <= x.value <= MaxTimeSeconds
  }

  /** The time value of `new Date(x * 1000)`: the milliseconds, truncated toward zero. */
  function TimeValue(x: real): (ms: int)
    requires -MaxTimeSeconds <= x <= MaxTimeSeconds
    ensures -8640000000000000 <= ms <= 8640000000000000
    ensures ms as real <= x * 1000.0 < ms as real + 1.0 || ms as real - 1.0 < x * 1000.0 <= ms as real
  {
    var t := x * 1000.0;
    if t >= 0.0 then t.Floor else -((-t).Floor)
  }

  /** Whole seconds convert exactly. */
  lemma WholeSecondsExact(n: int)
    requires -8640000000000 <= n <= 8640000000000
    ensures TimeValue(n as real) == n * 1000
  {
    assert (n as real) * 1000.0 == (n * 1000) as real;
  }

  /** A spending the loop gets through: a skipped one is never converted, a kept one needs
      both timestamps valid, `created_at` first. */
  predicate Convertible(s: Spending) {
    Skipped(s) || (ValidTime(s.createdAt) && ValidTime(s.updatedAt))
  }

  predicate AllConvertible(spendings: seq<Spending>) {
    forall i :: 0 <= i < |spendings| ==> Convertible(spendings[i])
  }

  function ToImportRow(s: Spending, userId: string): (r: ImportRow)
    requires Kept(s) && Convertible(s)
    ensures r.amount == s.value.value && r.createdBy == userId
    ensures r.createdAt == TimeValue(s.createdAt.value) && r.updatedAt == TimeValue(s.updatedAt.value)
    ensures r.description == ImportDescription(s.labelText)
    ensures r.transactionType == "expense" && r.category.None?
  {
    ImportRow(ImportDescription(s.labelText), s.value.value, "expense", None, userId,
              TimeValue(s.createdAt.value), TimeValue(s.updatedAt.value))
  }

  /** The RangeError of `toISOString`, as the catch-all sees it. */
  const InvalidTimeValue := Thrown(None, Some("Invalid time value"))

  /** The conversion loop: it throws as soon as a kept spending has an invalid timestamp;
      otherwise the rows are every kept spending, in order, as an uncategorised expense of the
      caller, and their number is the input's length minus the skipped ones. */
  function ImportRows(spendings: seq<Spending>, userId: string): (r: Result<seq<ImportRow>, Thrown>)
    ensures r.Err? <==> !AllConvertible(spendings)
    ensures r.Err? ==> r.error == InvalidTimeValue
    ensures r.Ok? ==> |r.value| + CountBy(spendings, Skipped) == |spendings|
    ensures r.Ok? ==> forall k :: 0 <= k < |r.value| ==>
      && r.value[k].transactionType == "expense" && r.value[k].category.None? && r.value[k].createdBy == userId
      && r.value[k].amount > 0.0 && r.value[k].description != ""
    ensures r.Ok? ==> var kept := Filter(spendings, Kept);
      |r.value| == |kept| && forall k :: 0 <= k < |kept| ==>
        r.value[k].createdAt == TimeValue(kept[k].createdAt.value) && r.value[k].updatedAt == TimeValue(kept[k].updatedAt.value)
    ensures r.Ok? ==> var kept := Filter(spendings, Kept);
      |r.value| == |kept| && forall k :: 0 <= k < |kept| ==>
        r.value[k].description == ImportDescription(kept[k].labelText) && r.value[k].amount == kept[k].value.value
  {
    if !AllConvertible(spendings) then Err(InvalidTimeValue)
    else
      var kept := Filter(spendings, Kept);
      SkippedComplement(spendings);
      assert forall k :: 0 <= k < |kept| ==> Kept(kept[k]) && Convertible(kept[k]);
      Ok(seq(|kept|, k requires 0 <= k < |kept| => ToImportRow(kept[k], userId)))
  }

  lemma {:induction false} SkippedComplement(s: seq<Spending>)
    ensures |Filter(s, Kept)| + CountBy(s, Skipped) == |s|
    decreases |s|
  {
    if |s| > 0 {
      SkippedComplement(s[1..]);
    }
  }

  /** Concatenation of batches. */
  function Flatten<T>(bs: seq<seq<T>>): seq<T> {
    if |bs| == 0 then [] else bs[0] + Flatten(bs[1..])
  }

  lemma {:induction false} FlattenSnoc<T>(bs: seq<seq<T>>, b: seq<T>)
    ensures Flatten(bs + [b]) == Flatten(bs) + b
    decreases |bs|
  {
    if |bs| == 0 {
      assert bs + [b] == [b];
    } else {
      assert (bs + [b])[1..] == bs[1..] + [b];
      FlattenSnoc(bs[1..], b);
    }
  }

  /** `slice(i, i + 100)` for `i = 0, 100, 200, ...`: consecutive batches of at most 100 rows,
      none empty, one per started hundred, that concatenate to the rows in order. */
  function Batches<T>(rows: seq<T>): (bs: seq<seq<T>>)
    ensures Flatten(bs) == rows
    decreases |rows|
  {
    if |rows| == 0 then []
    else if |rows| <= BatchSize then
      assert Flatten([rows]) == rows + [];
      [rows]
    else
      var rest := Batches(rows[BatchSize..]);
      assert Flatten([rows[..BatchSize]] + rest) == rows[..BatchSize] + Flatten(rest) by {
        assert ([rows[..BatchSize]] + rest)[1..] == rest;
      }
      assert rows[..BatchSize] + rows[BatchSize..] == rows;
      [rows[..BatchSize]] + rest
  }

  /** None of the batches is empty, none holds more than 100 rows, and there is one per
      started hundred. */
  lemma {:induction false} BatchesShape<T>(rows: seq<T>)
    ensures |Batches(rows)| == (|rows| + BatchSize - 1) / BatchSize
    ensures forall k :: 0 <= k < |Batches(rows)| ==> 0 < |Batches(rows)[k]| <= BatchSize
    decreases |rows|
  {
    if |rows| > BatchSize {
      BatchesShape(rows[BatchSize..]);
      var rest := Batches(rows[BatchSize..]);
      assert Batches(rows) == [rows[..BatchSize]] + rest;
      forall k | 0 < k < |Batches(rows)|
        ensures 0 < |Batches(rows)[k]| <= BatchSize
      {
        assert Batches(rows)[k] == rest[k - 1];
      }
    }
  }

  /** Rows in the batches whose (zero-based) number is not in `fails`. */
  function Tally<T>(bs: seq<seq<T>>, fails: set<nat>): nat
    decreases |bs|
  {
    if |bs| == 0 then 0
    else Tally(bs[..|bs| - 1], fails) + (if |bs| - 1 in fails then 0 else |bs[|bs| - 1]|)
  }

  /** The inserted rows never exceed the sent rows, and when no batch fails every row counts. */
  lemma {:induction false} TallyBounds<T>(bs: seq<seq<T>>, fails: set<nat>)
    ensures Tally(bs, fails) <= |Flatten(bs)|
    ensures fails == {} ==> Tally(bs, fails) == |Flatten(bs)|
    ensures (forall k :: 0 <= k < |bs| ==> k in fails) ==> Tally(bs, fails) == 0
    decreases |bs|
  {
    if |bs| > 0 {
      var p := bs[..|bs| - 1];
      TallyBounds(p, fails);
      FlattenSnoc(p, bs[|bs| - 1]);
      assert p + [bs[|bs| - 1]] == bs;
    }
  }

  lemma ConcatAssoc<T>(a: seq<T>, b: seq<T>, c: seq<T>)
    ensures (a + b) + c == a + (b + c)
  {
  }

  /** The first batch of a non-empty sequence is its first `min(100, |rest|)` rows. */
  lemma BatchesHead<T>(rest: seq<T>, n: nat)
    requires 0 < |rest| && n == if |rest| < BatchSize then |rest| else BatchSize
    ensures Batches(rest) == [rest[..n]] + Batches(rest[n..])
  {
    if |rest| <= BatchSize {
      assert rest[..n] == rest && rest[n..] == [];
    }
  }

  /** One round of the batching loop keeps its invariants: the batches still to send, */
  lemma StepBatches<T>(rows: seq<T>, sent: seq<seq<T>>, rest: seq<T>, n: nat)
    requires 0 < |rest| && n == if |rest| < BatchSize then |rest| else BatchSize
    requires sent + Batches(rest) == Batches(rows)
    ensures (sent + [rest[..n]]) + Batches(rest[n..]) == Batches(rows)
  {
    BatchesHead(rest, n);
    ConcatAssoc(sent, [rest[..n]], Batches(rest[n..]));
  }

  /** the rows still to send, */
  lemma StepRows<T>(rows: seq<T>, sent: seq<seq<T>>, rest: seq<T>, n: nat)
    requires n <= |rest|
    requires Flatten(sent) + rest == rows
    ensures Flatten(sent + [rest[..n]]) + rest[n..] == rows
    ensures |Flatten(sent + [rest[..n]])| == |Flatten(sent)| + n
  {
    FlattenSnoc(sent, rest[..n]);
    assert rest == rest[..n] + rest[n..];
    ConcatAssoc(Flatten(sent), rest[..n], rest[n..]);
  }

  /** and the count of inserted rows. */
  lemma StepTally<T>(sent: seq<seq<T>>, batch: seq<T>, fails: set<nat>)
    ensures Tally(sent + [batch], fails) == Tally(sent, fails) + (if |sent| in fails then 0 else |batch|)
  {
    assert (sent + [batch])[..|sent|] == sent;
  }

  /** Sends `rows` in batches, batch number `k` failing exactly when `k` is in `fails`:
      the batches sent are `Batches(rows)`, and inserted and failed rows add up to the rows. */
  method InsertBatches<T>(rows: seq<T>, fails: set<nat>) returns (sent: seq<seq<T>>, inserted: nat, failed: nat)
    ensures sent == Batches(rows)
    ensures inserted == Tally(sent, fails)
    ensures inserted + failed == |rows|
    ensures fails == {} ==> failed == 0
  {
    sent := [];
    inserted, failed := 0, 0;
    var rest := rows;
    while |rest| > 0
      invariant sent + Batches(rest) == Batches(rows)
      invariant Flatten(sent) + rest == rows
      invariant inserted == Tally(sent, fails)
      invariant inserted + failed == |Flatten(sent)|
      decreases |rest|
    {
      var n := if |rest| < BatchSize then |rest| else BatchSize;
      var batch, after := rest[..n], rest[n..];
      StepBatches(rows, sent, rest, n);
      StepRows(rows, sent, rest, n);
      StepTally(sent, batch, fails);
      if |sent| in fails {
        failed := failed + |batch|;
      } else {
        inserted := inserted + |batch|;
      }
      sent, rest := sent + [batch], after;
    }
    TallyBounds(sent, fails);
  }

  const BadImportBody := HttpError(400, "Invalid request body: Expected non-empty array of spendings")

  /** The checks before any insert: a super-admin caller, a non-empty array body, at most
      10000 items (exactly 10000 passes). */
  function ImportCheck(user: Option<Auth.SessionUser>, roleRow: Option<Auth.RoleRow>, body: Option<seq<Spending>>)
    : (r: Result<(string, seq<Spending>), HttpError>)
    ensures Auth.CheckUserRole(user, roleRow, ["superadmin"]).Err? ==>
      r == Err(Auth.CheckUserRole(user, roleRow, ["superadmin"]).error)
    ensures Auth.CheckUserRole(user, roleRow, ["superadmin"]).Ok? && (body.None? || |body.value| == 0) ==>
      r == Err(BadImportBody)
    ensures Auth.CheckUserRole(user, roleRow, ["superadmin"]).Ok? && body.Some? && |body.value| > MaxImportSize ==>
      r.Err? && r.error.status == 413
    ensures r.Ok? <==>
      Auth.CheckUserRole(user, roleRow, ["superadmin"]).Ok? && body.Some? && 0 < |body.value| <= MaxImportSize
    ensures r.Ok? ==> r.value == (user.value.sub.value, body.value)
  {
    var auth := Auth.CheckUserRole(user, roleRow, ["superadmin"]);
    if auth.Err? then Err(auth.error)
    else if body.None? || |body.value| == 0 then Err(BadImportBody)
    else if |body.value| > MaxImportSize then
      Err(HttpError(413, "Import size exceeds limit (max 10000 transactions, got " + NatToString(|body.value|) + ")"))
    else Ok((auth.value.0, body.value))
  }

  /** The import handler, with `fails` the numbers of the batches whose insert fails. A
      refused request sends nothing and its error passes the catch-all unchanged. A kept
      spending with an invalid timestamp throws before any batch is sent, which the catch-all
      turns into a 500 "Invalid time value". Otherwise the summary counts every item once:
      inserted and failed rows add up to the rows sent, and with the skipped items to the
      total; the import reports success even when every batch fails. */
  method Import(user: Option<Auth.SessionUser>, roleRow: Option<Auth.RoleRow>, body: Option<seq<Spending>>, fails: set<nat>)
    returns (r: Result<ImportSummary, HttpError>, sent: seq<seq<ImportRow>>)
    ensures r.Err? <==> ImportCheck(user, roleRow, body).Err? || !AllConvertible(body.value)
    ensures r.Err? ==> sent == []
    ensures ImportCheck(user, roleRow, body).Err? ==> r.Err? && r.error == ImportCheck(user, roleRow, body).error
    ensures ImportCheck(user, roleRow, body).Ok? && !AllConvertible(body.value) ==>
      r == Err(HttpError(500, "Invalid time value"))
    ensures r.Ok? ==>
      var rows := ImportRows(body.value, user.value.sub.value).value;
      && sent == Batches(rows)
      && r.value.success
      && r.value.total == |body.value|
      && r.value.skipped == CountBy(body.value, Skipped)
      && r.value.inserted == Tally(sent, fails)
      && r.value.inserted + r.value.failed == |rows|
      && r.value.inserted + r.value.failed + r.value.skipped == r.value.total
      && (fails == {} ==> r.value.failed == 0)
  {
    var check := ImportCheck(user, roleRow, body);
    if check.Err? {
      RethrowKeepsHandlerErrors(check.error, Thrown(None, None), "Failed to import transactions");
      r, sent := Err(Rethrow(AsThrown(check.error), "Failed to import transactions")), [];
      return;
    }
    var (userId, spendings) := check.value;
    var converted := ImportRows(spendings, userId);
    if converted.Err? {
      r, sent := Err(Rethrow(converted.error, "Failed to import transactions")), [];
      return;
    }
    var rows := converted.value;
    var inserted, failed;
    sent, inserted, failed := InsertBatches(rows, fails);
    r := Ok(ImportSummary(true, |spendings|, inserted, failed, CountBy(spendings, Skipped)));
  }
}

=== FILE: wrappers.dfy ===
/** Failure-compatible Option and Result types shared by every module of the model. */
module Wrappers {

  /** A value that may be absent: `undefined`/`null` in the JavaScript sources, an unset key in PHP. */
  datatype Option<+T> = None | Some(value: T) {

    /** The wrapped value, or `default` when absent. */
    function GetOr(default: T): T {
      match this
      case Some(v) => v
      case None => default
    }
  }

  /** Either a value or an error; the sources' thrown errors become `Err`. */
  datatype Result<+T, +E> = Ok(value: T) | Err(error: E) {

    predicate IsFailure() {
      Err?
    }

    function PropagateFailure<U>(): Result<U, E>
      requires Err?
    {
      Err(error)
    }

    function Extract(): T
      requires Ok?
    {
      value
    }
  }
}
